=== FILE: README.md ===
# SLAMBUC tree partitioning, modelled in Dafny

SLAMBUC partitions the call tree of a serverless application into blocks.
Each block is deployed as one function, and the goal is the cheapest
partitioning. Every block must keep within the memory limit `M`. The
invocation chain from the root to `cp_end` (the critical path) must keep
within the latency limit `L`, and each cut on that path costs an extra
invocation `delay`.

This project models the algorithmic core of the library as pure Dafny
functions and methods, and proves properties about it. The core consists of:

- **Pseudo-polynomial engines** (`pseudo_btree.dfy`, `pseudo_ltree.dfy`):
  the bottom-up engine and the left-right engine of
  `slambuc/alg/tree/parallel/pseudo.py`. They use CUT and MERGE transitions,
  keep the cheapest subcase per latency and memory key, can eliminate
  dominated subcases, and select the result.
- **Chain-block dynamic program** (`min_tree.dfy`) of
  `slambuc/alg/tree/dp/min.py`. It has the cut budget `c_max`,
  queues whose head is always a cheapest subcase (`qinsert`, `qmerge`), the
  rounded `block_cost`, and `extract_min_blocks`.
- **Meta dynamic program over subchains** (`meta_tree.dfy`) of
  `slambuc/alg/tree/path/meta.py`. It keeps `c_max + 1` cut-count slots per
  node, filled from an injected chain partitioner.
- **Greedy heuristics** (`greedy.py`), in two files:
  - `greedy.dfy`: heap-driven block growth, and the breadth-first walk that
    partitions the whole tree;
  - `cpath_split.dfy`: the greedy split of the critical path.
- **Block enumerators** (`subtree_enum.dfy`) that feed the configuration ILP
  in `slambuc/alg/tree/par/ilp.py`.
- **Harness helpers** (`harness.dfy`) from `validation/harness.py`: the
  latency range of a critical path, and the compact text form of a
  partitioning.

Shared vocabulary:

- `base.dfy` holds `Option` and `Ext`. `Ext` is an integer or `Inf`, and
  stands for the library's `math.inf` limits and cost sentinels.
- `call_tree.dfy` holds the annotated tree.
  - Nodes are naturals. `PLATFORM` (0) is the caller of the root.
  - The library relies on every child having a larger id than its parent,
    so this model requires it.
  - Edge attributes (rate, data overhead) are stored at the child.
- `ordered_dict.dfy` models insertion-ordered dictionaries, Python `dict`
  semantics. Tie-breaking of `min(..., key=...)` depends on them.
- `cost_table.dfy` holds the two-level latency/memory tables.
- `lex.dfy` models Python's list ordering and `sorted`.
- `blocks.dfy` holds partitions as lists of blocks.
- `par_model.dfy` holds the inputs and cost terms shared by the parallel
  engines.

The library helpers of `slambuc.alg.util` are not part of this model. They
are parameters, and nothing is assumed of them beyond what each contract
states:

- `par_subtree_memory`, `par_subchain_latency`: `mem`, `lat`;
- `par_inst_count`: `Env.inst`;
- `verify_limits`: `limitsOk`;
- `ipostorder_dfs`: `order` or `post`;
- `ileft_right_dfs`: `traversal`;
- `ibacktrack_chain`: the critical path passed as a set or a list;
- `leaf_label_nodes`: `leaves`;
- `isubchains`: `subchains`;
- the chain partitioner of the meta algorithm: `partition`, `lastRow`,
  `barriers`;
- `ipowerset`: `PowerList`, which lists every sub-list once in a fixed
  order.

Some behaviours are reproduced exactly as the code has them:

- **Bottom-up engine, dominance elimination.** The elimination block at
  pseudo.py lines 142-154 is guarded by a re-test of the entry just stored,
  so it never runs.
- **Left-right engine, dominance test.** It compares the prefetch memory
  twice and never compares the operative memory (line 279).
- **Left-right engine, zero latency.** It treats an optimal root latency of
  0 as INFEASIBLE, because the walrus test at line 293 takes 0 as false.
- **`extract_min_blocks` with `full=False`.** It fails on any non-empty tree
  (`blk[-1]` of an empty list).
- **Meta algorithm, infeasibility check.** The check at meta.py line 160
  compares a `TPart` with `math.inf` and never fires.
- **Meta algorithm, `cp_end` leaf.** The `cp_end` leaf gets `c_max` slots.

## Model

| member | source | states |
|---|---|---|
| PseudoBottomUp.Singleton | slambuc/alg/tree/parallel/pseudo.py:76-80 | The seeded subcase of `v` has the latency pair (fetch+runtime for the root, runtime on the critical path, 0 elsewhere) twice, memory key `(m_v, m_v)`, `{v}` as both top block and barrier set, and equal total and top cost. |
| PseudoBottomUp.MergeTop | slambuc/alg/tree/parallel/pseudo.py:125-133 | The operative memory of a merge never drops below its start and covers every merged member's instance-scaled memory; once it exceeds `M` the member's cost term is skipped (the `continue` leaves the subcase in place). |
| PseudoBottomUp.MergeTopWithinIsFull | slambuc/alg/tree/parallel/pseudo.py:125-133 | If the final operative memory respects `M`, no member was skipped: the merged top cost equals the start cost plus every member's cost term. |
| PseudoBottomUp.MergedTop | slambuc/alg/tree/parallel/pseudo.py:125-133 | The merged top block's operative memory is at least `mem_v[1]` and every member's instance-scaled memory. When it stays within `M`, the recomputed top cost is `top_v - par_inst_count(r_v, r_b, N) * d_b` plus the cost term of every member of `b`'s top block; when `mem_v[1]` already exceeds `M`, it is that start value alone. |
| PseudoBottomUp.CutCand | slambuc/alg/tree/parallel/pseudo.py:94-119 | CUT across a critical-path edge gives latency `blk_lat_v + ceil(r_b/(r_v N))*d_b + delay + d_b + lat_b` and is kept iff that is within `L`; off the path the latency pair is inherited; memory key, top block and top cost come from `v`, cost and barriers are summed and united. |
| PseudoBottomUp.MergeLats | slambuc/alg/tree/parallel/pseudo.py:103-113 | MERGE across a critical-path edge gives top latency `blk_lat_v + ceil(r_b/(r_v N))*blk_lat_b` and latency `lat_b - blk_lat_b + top`, kept iff within `L`; off the path `v`'s pair is inherited. |
| PseudoBottomUp.MergeCand | slambuc/alg/tree/parallel/pseudo.py:103-137 | A MERGE exists iff its latency is admissible and the prefetch sum `mem_v[0]+mem_b[0]` is within `M`. Its top block is the union, its barriers are `barr_v ∪ (barr_b \ {b})`, its operative memory and top cost are those of `MergedTop`, and its cost is `cost_v - top_v + cost_b - top_b + new top cost`. |
| PseudoBottomUp.CombineKeepsShape | slambuc/alg/tree/parallel/pseudo.py:88-137 | Both transitions keep the entry shape: `v` heads the top block and is a barrier, `0 <= blk_lat <= lat`, the latency respects `L` unless it is the singleton's, the prefetch memory respects `M` unless it is `v`'s own. |
| PseudoBottomUp.Cands | slambuc/alg/tree/parallel/pseudo.py:88-92 | Every candidate produced for the edge `v -> b` from shaped tables of `v` and `b` has `v`'s entry shape. |
| PseudoBottomUp.DominanceGuardNeverHolds | slambuc/alg/tree/parallel/pseudo.py:139-154 | Right after the store, the key is present and the candidate is not strictly cheaper than the stored subcase, so the dominance elimination guarded by the re-test never runs. |
| PseudoBottomUp.StoreAllKeepsShape | slambuc/alg/tree/parallel/pseudo.py:138-141 | Storing shaped candidates into a shaped table keeps it shaped. |
| PseudoBottomUp.FinalBucket | slambuc/alg/tree/parallel/pseudo.py:159-161 | A non-empty bucket gains, under the `(0, 0)` key, the subcase of its first cheapest entry in insertion order (what `min(..., key=itemgetter(OPT))` returns); nothing else is added. |
| PseudoBottomUp.FinalizeKeepsShape | slambuc/alg/tree/parallel/pseudo.py:159-161 | Adding the per-latency optimum keeps the table shaped. |
| PseudoBottomUp.FinalizeIsFinalized | slambuc/alg/tree/parallel/pseudo.py:159-161 | After finalizing a table without empty buckets, every latency key holds an optimum entry. |
| PseudoBottomUp.AbsorbChildren | slambuc/alg/tree/parallel/pseudo.py:83-158 | Absorbing the children keeps every table shaped, leaves no bucket of `v` empty and changes no other node's table except by dropping it. |
| PseudoBottomUp.ProcessNodeKeepsInv | slambuc/alg/tree/parallel/pseudo.py:74-161 | One iteration of the post-order loop keeps every table shaped and every latency key finalized. |
| PseudoBottomUp.RunOrderKeepsInv | slambuc/alg/tree/parallel/pseudo.py:74-161 | The whole post-order loop keeps every table shaped and finalized. |
| PseudoBottomUp.SelectResult | slambuc/alg/tree/parallel/pseudo.py:162-168 | The result is INFEASIBLE iff the root table is empty. Otherwise it is the optimum entry of the first latency key whose optimum is cheapest, as `min(DP[root].items(), ...)` picks, with its cost, barriers and latency; no key's optimum is cheaper. |
| PseudoBottomUp.RootResult | slambuc/alg/tree/parallel/pseudo.py:162-165 | A result read off a shaped root table has the root among its barriers, a non-negative latency, and a latency within `L` unless it is the root's singleton latency. |
| PseudoBottomUp.BottomUp | slambuc/alg/tree/parallel/pseudo.py:66-168 | A failed limit pre-check returns INFEASIBLE; a solution has the root as a barrier and a non-negative latency within `L` (or the root singleton's). |
| PseudoLeftRight.PutEntry | slambuc/alg/tree/parallel/pseudo.py:256 | Writing `DP[e][lat][mem]` stores the subcase under that key, leaves every other key unchanged and leaves no bucket empty. |
| PseudoLeftRight.RootLat | slambuc/alg/tree/parallel/pseudo.py:217-222 | The singleton latency of `n` is 0 off the critical path and at least its runtime on it. |
| PseudoLeftRight.Singleton | slambuc/alg/tree/parallel/pseudo.py:213-223 | The seeded subcase of `n` has the singleton latency, memory `(m_n, m_n)`, multiplicity 1 and barriers `{n}`. |
| PseudoLeftRight.MergedMem | slambuc/alg/tree/parallel/pseudo.py:234 | Merging `v` adds `m_v` to the prefetch memory and never lowers the operative memory. |
| PseudoLeftRight.MergeCand | slambuc/alg/tree/parallel/pseudo.py:230-256 | A MERGE exists iff both memories are within `M` and, on the critical path, the latency `lat_u + n_v (t_v - d_v + w_v)` is within `L`; barriers are copied, multiplicity and latency are inherited off the path, and the cost adds the merged node's runtime and caching terms. |
| PseudoLeftRight.CutCand | slambuc/alg/tree/parallel/pseudo.py:264-273 | A CUT adds `delay + lat_b` to the latency only when `b` is on the critical path and exists iff the result is within `L`; memory key and multiplicity come from the left state, cost is summed and barriers united. |
| PseudoLeftRight.PruneIsFilter | slambuc/alg/tree/parallel/pseudo.py:276-284 | Bidirectional elimination keeps exactly the stored subcases the new one does not dominate (latency, prefetch and cost all at least as large; operative memory is not compared). |
| PseudoLeftRight.CutStore | slambuc/alg/tree/parallel/pseudo.py:275-286 | Without elimination a CUT store is the plain keep-the-cheapest store; either way no bucket is left empty. |
| PseudoLeftRight.CutStoreEliminates | slambuc/alg/tree/parallel/pseudo.py:275-286 | When the candidate wins, it is stored, every dominated subcase other than itself is gone, and every undominated subcase under another key survives. |
| PseudoLeftRight.PutEntryInTable | slambuc/alg/tree/parallel/pseudo.py:286 | Storing one subcase adds only that subcase and loses only what was stored under the same key. |
| PseudoLeftRight.MergeCandOk | slambuc/alg/tree/parallel/pseudo.py:230-256 | A MERGE from a well-formed state keeps `n` as a barrier, a positive multiplicity, the latency within `L` (or the singleton's) and the memories within `M` (or `n`'s own). |
| PseudoLeftRight.CutCandOk | slambuc/alg/tree/parallel/pseudo.py:264-286 | A CUT from a well-formed state yields a well-formed candidate. |
| PseudoLeftRight.StepKeepsOk | slambuc/alg/tree/parallel/pseudo.py:209-286 | One step of the left-right traversal keeps every state well-formed and free of empty buckets. |
| PseudoLeftRight.RunStepsKeepsOk | slambuc/alg/tree/parallel/pseudo.py:209-286 | The whole traversal of `T_n` keeps every state well-formed. |
| PseudoLeftRight.Finish | slambuc/alg/tree/parallel/pseudo.py:288-291 | Every best subcase recorded for `T_n` is, for its latency, the first cheapest subcase of that bucket in insertion order (what `min(dp.values(), key=...)` returns), and so no costlier than any other in it. |
| PseudoLeftRight.FinishOk | slambuc/alg/tree/parallel/pseudo.py:288-291 | The recorded best subcases keep `n` as a barrier and a latency within `L` (or the singleton's). |
| PseudoLeftRight.RunOrderKeepsOk | slambuc/alg/tree/parallel/pseudo.py:202-291 | The post-order loop keeps every subtree's best subcases well-formed. |
| PseudoLeftRight.SelectResult | slambuc/alg/tree/parallel/pseudo.py:293-298 | INFEASIBLE iff the root table is empty or its first cheapest latency is 0. Otherwise the first cheapest entry in insertion order, with its latency, cost and barriers; no entry is cheaper. |
| PseudoLeftRight.ZeroLatencyOptimumIsInfeasible | slambuc/alg/tree/parallel/pseudo.py:293 | A root table whose only entry has latency 0 yields INFEASIBLE, because the walrus test treats 0 as false. |
| PseudoLeftRight.LeftRight | slambuc/alg/tree/parallel/pseudo.py:194-298 | A failed limit pre-check returns INFEASIBLE; a solution has the root as a barrier and a non-zero latency within `L` (or the root singleton's). |
| MinTree.QInsert | slambuc/alg/tree/dp/min.py:71-77 | `qinsert` drops a subcase that is not admitted (finite cost, memory within `M`, CPU within `N`, cuts within `c_max`). It puts an admitted one in front when it is no dearer than the head, ties included, and at the back otherwise. The head stays a cheapest element of the queue. |
| MinTree.WalkIsPath | slambuc/alg/tree/dp/min.py:99-102 | The walk of `block_cost` climbs parent links from `w`, stops at the first node not above `barr` (which is `barr` itself when `w` lies below it), and the summed runtime is that of the nodes walked. |
| MinTree.RoundedTime | slambuc/alg/tree/dp/min.py:103 | `math.ceil(s / unit) * unit` is a multiple of `unit` within one unit of `s`: rounded up for a positive unit and down for a negative one. |
| MinTree.BlockCost | slambuc/alg/tree/dp/min.py:97-103 | `block_cost` is the rate times the rounded runtime of the climbed path. For a positive rate and unit it is a multiple of `rate * unit`, at least `rate * Σruntime` and less than `rate * (Σruntime + unit)`. |
| MinTree.MCost | slambuc/alg/tree/dp/min.py:113-129 | The cost of the other children is the difference of the finite sums, and infinite when their sum is. |
| MinTree.ExtendFacts | slambuc/alg/tree/dp/min.py:87-93 | A merged subcase keeps the tail, adds the node's memory and counts a cut only with `add_cut`. It raises `max_rate` to the edge rate, and `cpu = max(old, ceil(max_rate/rate))` covers `max_rate` for a positive rate. The block cost is that of the longer block. `sum_cost` changes by the block-cost difference plus `m_cost`, and is infinite when either part is. |
| MinTree.Drain | slambuc/alg/tree/dp/min.py:83-93 | Draining the child's queue fails iff the rate into the node is zero and some subcase is finite (the `ZeroDivisionError` of line 92). Otherwise it keeps the node's queue well-formed (head cheapest, every finite entry admitted) and adds only admitted subcases. |
| MinTree.QMerge | slambuc/alg/tree/dp/min.py:79-95 | `qmerge` fails iff the rate into `node` is zero and the child holds a finite subcase. Otherwise the child's queue afterwards holds only its former head, other queues are unchanged, and the node's queue gains only admitted subcases. |
| MinTree.MergeAll | slambuc/alg/tree/dp/min.py:119-129 | Merging every child keeps all queues well-formed. It fails only for a zero rate into the node. |
| MinTree.ProcessNode | slambuc/alg/tree/dp/min.py:105-129 | One iteration keeps every queue well-formed. It fails for a zero `unit` (the `ZeroDivisionError` of `block_cost`) and for a critical-path node with children none of which is on the critical path (the `StopIteration` of line 124). Otherwise it fails only for a zero rate into the node. |
| MinTree.RunOrder | slambuc/alg/tree/dp/min.py:105-129 | The post-order loop keeps every queue well-formed, and with a zero `unit` it fails at its first node. |
| MinTree.ClimbToBarrier | slambuc/alg/tree/dp/min.py:144-153 | One climb removes at least one node from the unplaced set; with `full` it records each removed node once, from the tail `w` up to the barrier `b`, each the child of the next. |
| MinTree.AppendRound | slambuc/alg/tree/dp/min.py:154-157 | Appending the reversed climb keeps the blocks a disjoint cover of the nodes placed so far, each a downward path, the first starting at the root. |
| MinTree.SortedBlocksOk | slambuc/alg/tree/dp/min.py:158 | Sorting the blocks keeps the cover, disjointness, the path shape and a block headed by the root. |
| MinTree.ExtractMinBlocks | slambuc/alg/tree/dp/min.py:136-158 | With `full` a result covers every non-PLATFORM node exactly once by downward paths, one starting at the root, and is sorted; without `full` any non-empty tree fails (the `blk[-1]` of an empty list). |
| MinTree.MinRun | slambuc/alg/tree/dp/min.py:62-133 | Once `c_max` is known, the run reports too tight a latency iff `c_max < 0`. Otherwise a failure of the walk is a failure, and the result is INFEASIBLE iff the root's head cost is infinite. A result carries that head's cost (the least in the queue), its cut count in `0..c_max`, memory within `M` and CPU within `N`. With `full` it is a sorted disjoint cover by downward paths. |
| MinTree.MinTreePartitioning | slambuc/alg/tree/dp/min.py:59-133 | A zero delay, or an unbounded `L` with a negative delay, fails (`c_max` cannot be computed). A zero `unit` fails on any non-empty walk. Otherwise the run is `MinRun` with the computed `c_max`: too tight a latency iff `c_max < 0`, INFEASIBLE iff the root's head cost is infinite, and a result with the least head cost, cuts in `0..c_max`, memory within `M`, CPU within `N`, and with `full` a sorted disjoint cover by downward paths. |
| MetaTree.Slots | slambuc/alg/tree/path/meta.py:77 | A node not yet in the table reads as `c_max + 1` empty slots `(∅, ∞)`. |
| MetaTree.ChainOf | slambuc/alg/tree/path/meta.py:90-92 | The partitioner's runtime, memory and rate lists are those of the subchain's nodes, position by position. |
| MetaTree.Heads | slambuc/alg/tree/path/meta.py:100 | `{subchain[b] for b in barr}` holds exactly the subchain nodes at the reported positions. |
| MetaTree.Offer | slambuc/alg/tree/path/meta.py:99-100 | A slot is overwritten only by a strictly cheaper subcase; no other slot changes and no slot gets dearer; an index past the list is the library's `IndexError`. |
| MetaTree.OfferFrom | slambuc/alg/tree/path/meta.py:109-111 | Offering to every slot `c..c_max` leaves each of them no dearer than the offer and every other slot untouched. |
| MetaTree.OffPathCase | slambuc/alg/tree/path/meta.py:96-100 | A subchain off the critical path only writes slot 0 of its head, and never makes it dearer. It fails iff the head has no slot. Otherwise slot 0 ends no dearer than `opt_cost + sum_m_cost`, the unconstrained partitioning of the subchain plus its branches. |
| MetaTree.RootPathCase | slambuc/alg/tree/path/meta.py:104-111 | On the whole critical path an empty barrier list is returned at once; otherwise every slot `c >= len(barr) - 1` up to `c_max` ends no dearer than the offer and the slots below are untouched. |
| MetaTree.TailLoop | slambuc/alg/tree/path/meta.py:114-127 | The tail-of-critical-path loop never makes a slot dearer and changes only the head's slots. Every slot it reaches (one not passed over by the `continue` of an infinite row entry) ends no dearer than `row[i] + sum_m_cost` for every finite row entry `i` at or before it: the running `part_best` lands there. It cannot fail when every slot exists, the row covers the subchain, and a `part_best` exists before a slot beyond the subchain is reached. So `None` only stands for the library's `IndexError` or `AttributeError`. |
| MetaTree.FillCache | slambuc/alg/tree/path/meta.py:154-155 | After filling, the cache holds the value for every count in `lo..hi` and its old entries elsewhere. |
| MetaTree.HeadCuts | slambuc/alg/tree/path/meta.py:142-158 | The `c_head` loop writes only slots `1..c_max` of the head, never making one dearer, and keeps cached barrier positions inside the subchain. When the lookup for `c_head` fails, the loop stops at once and changes nothing (the `break`). Otherwise slot `k + c_head + 1` ends no dearer than `opt_cost + DP[m_cp][k].cost + sum_m_cost`. It fails only when a slot is missing (`IndexError`). |
| MetaTree.KLoop | slambuc/alg/tree/path/meta.py:133-158 | The `k` loop writes only slots `1..c_max` of the head and never makes one dearer. For a `k` that is not skipped, the first head-part partitioning (`c_head = c_max - k - 1`) lands in slot `c_max`, no dearer than `opt_cost + DP[m_cp][k].cost + sum_m_cost`. It fails only when a slot of the head or of `m_cp` is missing (`IndexError`). |
| MetaTree.ProcessSubchain | slambuc/alg/tree/path/meta.py:89-158 | An empty subchain fails (the `ValueError` of unpacking `zip(*[])`). Processing one subchain otherwise never makes a slot dearer, writes only slot 0 off the critical path, and stops early only on the critical path. |
| MetaTree.LeafSlots | slambuc/alg/tree/path/meta.py:83-88 | A leaf gets `c_max` slots if it is `cp_end` and one slot otherwise, each holding the leaf alone with the partitioner's cost for it. |
| MetaTree.ProcessNode | slambuc/alg/tree/path/meta.py:78-161 | One `(pred, n)` step changes only `n`'s slots: a non-leaf's never get dearer, a leaf's are precomputed unless its parent has a single child; it stops only for a non-leaf under a branching parent. |
| MetaTree.RunOrder | slambuc/alg/tree/path/meta.py:78-161 | The walk never makes a non-leaf's slot dearer, leaves unvisited nodes untouched and keeps every node at no more than `c_max + 1` slots. |
| MetaTree.FirstMinSlot | slambuc/alg/tree/path/meta.py:162 | `min(range(len(s)), key=cost)` is an index of least cost with every earlier slot strictly dearer. |
| MetaTree.PickSlot | slambuc/alg/tree/path/meta.py:162-164 | The answer is the first least-cost slot with its barriers and cost, or the library's failure on an empty slot list. |
| MetaTree.MetaRun | slambuc/alg/tree/path/meta.py:74-164 | Once `c_max` is known, the run reports too tight a latency iff `c_max < 0`. An early stop comes from the walk, and a solution is the first least-cost root slot after the walk, with a cut count at most `c_max`. |
| MetaTree.MetaTreePartitioning | slambuc/alg/tree/path/meta.py:70-164 | A zero delay, or an unbounded `L` with a negative delay, fails (`c_max` cannot be computed). Otherwise the run reports too tight a latency iff `c_max < 0`, an early stop comes from the walk, and a solution is the first least-cost root slot after the walk, with a cut count at most `c_max`. |
| Greedy.PopIndex | slambuc/alg/ext/greedy.py:57 | `heappop` returns an entry that pops no later than any other: the heaviest edge, ties by the smaller node, and a critical-path entry (weight `inf`) whenever the heap holds one. |
| Greedy.Push | slambuc/alg/ext/greedy.py:44-50 | `add_neighbours` queues exactly the children not among the mandatory cuts, each weighted `inf` on the critical path and `rate * data` elsewhere, none twice. |
| Greedy.Remove | slambuc/alg/ext/greedy.py:57 | Popping an entry keeps the others in order and drops exactly its node from a duplicate-free heap. |
| Greedy.GrowInit | slambuc/alg/ext/greedy.py:42-54 | The root alone, with its children queued, satisfies the growth invariant: the heap holds exactly the block's candidates, once each, with their weights. |
| Greedy.GrowStep | slambuc/alg/ext/greedy.py:57-62 | Merging a popped candidate that keeps the block within `M` and queueing its children keeps the growth invariant. |
| Greedy.StopAt | slambuc/alg/ext/greedy.py:57-60 | The popped candidate that would overflow `M` is the one that pops first among the candidates. |
| Greedy.Grow | slambuc/alg/ext/greedy.py:55-62 | The growth loop ends in a state of the invariant, either with an empty heap or stopped at the first-popping candidate that overflows `M`. |
| Greedy.OutNeighbours | slambuc/alg/ext/greedy.py:64 | `succ` lists exactly the children of the walked nodes that lie outside the block. |
| Greedy.OutNeighboursExact | slambuc/alg/ext/greedy.py:64 | Over the whole block, `succ` is duplicate-free and holds exactly the tree nodes outside the block whose parent is in it. |
| Greedy.GrowEnd | slambuc/alg/ext/greedy.py:55-64 | When the growth stops, every left-outside node is a mandatory cut, or the first-popping non-cut one would overflow `M`. |
| Greedy.BoundedGreedyBlock | slambuc/alg/ext/greedy.py:26-65 | The block is headed by `root`, holds no mandatory cut below it, fits `M` unless it is the root alone; `succ` is exactly the nodes just outside it, once each, and growth stopped only at a cut or at the first-popping node that overflows `M`. |
| Greedy.SubtreeSplit | slambuc/alg/ext/greedy.py:63-65 | Every node of the root's subtree is in the block or below one of the left-outside nodes. |
| Greedy.SuccSubtreesDisjoint | slambuc/alg/ext/greedy.py:64 | The subtrees below the left-outside nodes miss the block and one another. |
| Greedy.WalkInit | slambuc/alg/ext/greedy.py:83 | The walk starts with the root queued and no block, which satisfies its invariant. |
| Greedy.WalkStep | slambuc/alg/ext/greedy.py:85-88 | One turn (pop the head, grow its block, queue the left-outside nodes) keeps the invariant and covers at least one more node. |
| Greedy.WalkDone | slambuc/alg/ext/greedy.py:85-88 | With the queue empty the blocks cover exactly the root's subtree and the first block is headed by the root. |
| Greedy.NextBlock | slambuc/alg/ext/greedy.py:86-88 | One turn keeps the walk's invariant and strictly reduces the uncovered part of the subtree. |
| Greedy.BlockPartition | slambuc/alg/ext/greedy.py:167-173 | The walk's blocks are sorted, pairwise disjoint, cover exactly the root's subtree, each headed by its first node, free of mandatory cuts below it and within `M` unless a singleton; the first block starts at the root. |
| Greedy.CutsHeadBlocks | slambuc/alg/ext/greedy.py:47-48 | Every mandatory cut inside the partitioned subtree heads a block of its own. |
| Greedy.MinWeightGreedyPartitioning | slambuc/alg/ext/greedy.py:83-88 | `min_weight_greedy_partitioning` returns sorted, disjoint blocks covering the root's subtree, each headed by its first node and within `M` unless a singleton, the first starting at the root. |
| Greedy.MinWeightPartitionHeuristic | slambuc/alg/ext/greedy.py:162-173 | With the corrected critical-path split of "## Findings": INFEASIBLE exactly when the split finds no cuts (then neither the single block nor the fully cut path meets the limits); otherwise a partitioning as above in which every barrier node of the split heads a block. |
| CpathSplit.AllCuts | slambuc/alg/ext/greedy.py:119 | The positions `range(1, cp_len)` a round may cut: exactly `1 <= c < n`. |
| CpathSplit.Bounds | slambuc/alg/ext/greedy.py:125 | The bounds `[0, *sorted(cuts), cp_len]` strictly increase, stay within the path and number two more than the cuts. |
| CpathSplit.RoundLats | slambuc/alg/ext/greedy.py:123-127 | For every free position the round sees the latency of the split with that one extra cut: block latencies plus one delay per cut. |
| CpathSplit.RoundFits | slambuc/alg/ext/greedy.py:123-130 | For every free position the round sees whether every block of that split fits `M`. |
| CpathSplit.ScanPick | slambuc/alg/ext/greedy.py:119-128 | The scan either keeps the incoming pick or moves to a free position whose latency is strictly lower than the incoming one and than every earlier free position's (the strict `<` keeps the first minimum). |
| CpathSplit.ScanPickLowest | slambuc/alg/ext/greedy.py:119-128 | No free position examined by the scan has a latency below the pick. |
| CpathSplit.ScanFeasible | slambuc/alg/ext/greedy.py:129-131 | The memory-fitting minimum either stays or moves to a free, fitting position with a strictly lower latency. |
| CpathSplit.ScanFeasibleLowest | slambuc/alg/ext/greedy.py:129-131 | No fitting free position examined by the scan has a latency below the memory-fitting minimum. |
| CpathSplit.ScanFirstLowest | slambuc/alg/ext/greedy.py:117-128 | A round started with `best_lat = inf` picks nothing iff no position is free, and otherwise the first free position of least latency. |
| CpathSplit.RoundPick | slambuc/alg/ext/greedy.py:117-128 | The round's `best_cut` is `None` iff every position is cut; otherwise a free position whose split latency is least and strictly below every earlier free position's. |
| CpathSplit.RoundFeasible | slambuc/alg/ext/greedy.py:129-131 | `best_feasible_lat`, carried across rounds, stays or drops to a fitting free position's latency, and ends no higher than any fitting free position's. |
| CpathSplit.RoundsNoCrash | slambuc/alg/ext/greedy.py:116-141 | With the stop test requiring a recorded cut, the `while True` loop always ends with cuts or with `None`. |
| CpathSplit.CutFeasible | slambuc/alg/ext/greedy.py:130-135 | A free position whose split fits `M` and whose latency is within `L` yields a valid split meeting both limits. |
| CpathSplit.RoundsFound | slambuc/alg/ext/greedy.py:116-141 | Cuts returned by the loop are valid, extend the cuts it started from, and give a split meeting both limits. |
| CpathSplit.GiveUpAllCut | slambuc/alg/ext/greedy.py:136-138 | A round that finds no free position runs only when every position is already cut and the fully cut split misses a limit. |
| CpathSplit.NextSeen | slambuc/alg/ext/greedy.py:139-141 | A round that neither stops nor gives up adds a free position and hands on a carried minimum no higher than any split seen. |
| CpathSplit.RoundsExhausted | slambuc/alg/ext/greedy.py:136-138 | The loop returns `None` only when the fully cut path misses a limit. |
| CpathSplit.CpathCuts | slambuc/alg/ext/greedy.py:110-142 | A returned split is valid and meets `M` and `L`; the single block is returned when it meets them; `None` means neither the single block nor the fully cut path meets them. |
| CpathSplit.RoundsGuardAgree | slambuc/alg/ext/greedy.py:133-135 | For a finite `L` the library's stop test `best_feasible_lat <= L` and the corrected one give the same loop outcome. |
| CpathSplit.AsWrittenAgrees | slambuc/alg/ext/greedy.py:110-142 | For a finite `L` the search as written returns exactly what the corrected search returns. |
| CpathSplit.AsWrittenCrashes | slambuc/alg/ext/greedy.py:133-142 | With `L = inf`, a path whose single block overflows `M` and whose every one-cut split does too makes the search as written add `None` to the cuts and fail at `cpath[None]`. |
| CpathSplit.OneNodeCrash | slambuc/alg/ext/greedy.py:113-142 | A one-node path whose node alone overflows `M`, with `L = inf`: the search as written fails, the corrected one returns `None`. |
| CpathSplit.Barriers | slambuc/alg/ext/greedy.py:142 | `{root, *(cpath[c] for c in cuts)}` holds the root and the node at every cut position, and only path nodes. |
| CpathSplit.FeasibleCpathSplit | slambuc/alg/ext/greedy.py:96-142 | `get_feasible_cpath_split` with the corrected stop test of "## Findings": it returns `{root}` when the single block meets both limits, otherwise the barriers of a split meeting both limits, or `None` only when the fully cut path misses a limit. For a finite `L` this is the library's behaviour (`CpathSplit.AsWrittenAgrees`). |
| SubtreeEnum.PowerListSub | slambuc/alg/tree/par/ilp.py:39 | Every listed tuple draws its elements from the input list. |
| SubtreeEnum.PowerListComplete | slambuc/alg/tree/par/ilp.py:39 | Every subset of the input's elements is listed. |
| SubtreeEnum.PowerListOnce | slambuc/alg/tree/par/ilp.py:39 | Over a duplicate-free list no subset is listed twice. |
| SubtreeEnum.ParentsInside | slambuc/alg/tree/par/ilp.py:41-43 | The `for ... break` walk completes iff every walked node's parent is in the set. |
| SubtreeEnum.TopParents | slambuc/alg/tree/par/ilp.py:41-43 | Walking `sorted(st, reverse=True)` without its last element completes iff every node of the set but its minimum has its parent in the set. |
| SubtreeEnum.HeadedBySmallest | slambuc/alg/tree/par/ilp.py:41-46 | A node set is a block headed by its smallest node iff every other node's parent lies in it. |
| SubtreeEnum.ExamineIff | slambuc/alg/tree/par/ilp.py:40-46 | One candidate passes iff it is non-empty, is a block headed by its minimum and fits `M`; it is then yielded with its minimum. |
| SubtreeEnum.KeepMembers | slambuc/alg/tree/par/ilp.py:39-46 | A value is yielded iff some listed candidate produces it. |
| SubtreeEnum.KeepOnce | slambuc/alg/tree/par/ilp.py:39-46 | When distinct candidates never produce the same key, no key is yielded twice. |
| SubtreeEnum.GreedySubtreesIff | slambuc/alg/tree/par/ilp.py:29-46 | `(r, st)` is yielded iff `st` is a non-empty set of tree nodes forming a block headed by its minimum `r` that fits `M`; no node set is yielded twice. |
| SubtreeEnum.GreedyListed | slambuc/alg/tree/par/ilp.py:29-46 | The same if-and-only-if, for one given pair. |
| SubtreeEnum.ProductsIff | slambuc/alg/tree/par/ilp.py:62 | `itertools.product` yields exactly the tuples with one element from each list. |
| SubtreeEnum.ProductsWithIff | slambuc/alg/tree/par/ilp.py:62 | The tuples with a given first list are a head followed by a product tuple of the rest. |
| SubtreeEnum.UnionAllIff | slambuc/alg/tree/par/ilp.py:63 | `{n}.union(*sts)` minus `n`: a node is in the union iff it lies in one of the sets. |
| SubtreeEnum.CandidatesIff | slambuc/alg/tree/par/ilp.py:61-63 | A candidate of `n` is `n` joined with one listed block of each child of some chosen child subset, and every such union is a candidate. |
| SubtreeEnum.JoinHeaded | slambuc/alg/tree/par/ilp.py:63 | `n` joined with blocks headed by some of its children is a block headed by `n`. |
| SubtreeEnum.CandidatesHeaded | slambuc/alg/tree/par/ilp.py:61-63 | Every candidate built from lists of headed blocks is headed by `n`. |
| SubtreeEnum.NodeBlocksSound | slambuc/alg/tree/par/ilp.py:61-66 | Every block appended for `n` is headed by `n` and fits `M`. |
| SubtreeEnum.NextListsLookup | slambuc/alg/tree/par/ilp.py:65-68 | After a node, its list is extended by its new blocks in order, its children's lists are deleted and every other list is unchanged. |
| SubtreeEnum.NextListsHeaded | slambuc/alg/tree/par/ilp.py:65-68 | The dictionary update keeps every list headed by its key. |
| SubtreeEnum.EnumerateSound | slambuc/alg/tree/par/ilp.py:59-68 | From headed lists, every yielded pair is a block headed by its node, a walked node, and fits `M`. |
| SubtreeEnum.ParSubtreesSound | slambuc/alg/tree/par/ilp.py:49-68 | `ifeasible_par_subtrees` yields only `M`-feasible blocks headed by the post-order node they are yielded with. |
| Harness.Range | validation/harness.py:96 | `range(lo, hi)`: `hi - lo` consecutive numbers from `lo` (none when `hi < lo`). |
| Harness.ListLatBounds | validation/harness.py:97-99 | The latency of a cut tuple is the sum of its blocks' latencies between the bounds `[0, *cut, cp_len]` plus one delay per cut. |
| Harness.IncreasingUnique | validation/harness.py:96-98 | Two strictly increasing tuples with the same elements are equal, so a cut tuple is determined by its set. |
| Harness.ListLatIsSplitLat | validation/harness.py:97-99 | The harness's latency of a cut tuple equals the greedy split latency of its set of positions. |
| Harness.CutSets | validation/harness.py:96 | Every tuple of `ipowerset(range(1, cp_len))` is an increasing tuple of cut positions. |
| Harness.CutSetsComplete | validation/harness.py:96 | Every set of cut positions is examined. |
| Harness.MinMaxOfBounds | validation/harness.py:100 | The running `min` is at most each value and is a value or the start; the running `max` is at least each value and is a value or the start. |
| Harness.CalcMinMaxExact | validation/harness.py:93-101 | `calc_min_max_latency` returns the least latency over all splits of the path, attained by one, and an upper bound that is attained unless it is the start value 0. |
| Harness.EstSorted | validation/harness.py:104-109 | `est_min_max_latency` returns the singleton and monolithic latencies, in ascending order. |
| Harness.SingletonIsAllCuts | validation/harness.py:107 | The singleton latency is the latency of the split that cuts every position. |
| Harness.MonolithIsNoCut | validation/harness.py:108 | The monolithic latency is the latency of the uncut path. |
| Harness.EstWithinCalc | validation/harness.py:93-109 | The estimated range lies within the exhaustive range. |
| Harness.NatTextRoundTrip | validation/harness.py:114 | `str` of a natural number is a non-empty digit string that reads back as the number. |
| Harness.ItemTextsIff | validation/harness.py:114 | Every block has a text iff every block has a node; the texts follow the blocks one to one. |
| Harness.DecodeShape | validation/harness.py:112-114 | The output exists iff every block has a node; it is bracketed, and `[]` for no blocks. |
| Harness.SplitJoin | validation/harness.py:114 | Splitting a `sep.join` at a separator no piece contains gives the pieces back. |
| Harness.DecodeRoundTrip | validation/harness.py:112-114 | With a safe one-character separator the output splits back into one text per block, each reading back as the block's first node, with one separator fewer than blocks. |
| Base.CeilDiv | slambuc/alg/tree/parallel/pseudo.py:106 | `math.ceil(a / b)` for a positive divisor: the least `r` with `a <= r * b`. |
| Base.FloorDiv | slambuc/alg/tree/dp/min.py:61 | `math.floor(a / b)` for a positive divisor: the greatest `r` with `r * b <= a`. |
| Base.CeilQuot | slambuc/alg/tree/dp/min.py:92 | `math.ceil(a / b)` for a non-zero divisor of either sign: the ceiling interval of the real quotient. |
| Base.FloorQuot | slambuc/alg/tree/path/meta.py:73 | `math.floor(a / b)` for a non-zero divisor of either sign: the floor interval of the real quotient. |
| CallTree.CutBound | slambuc/alg/tree/dp/min.py:59-61 | `c_max` cannot be computed iff the delay is zero or `L` is unbounded with a negative delay. Otherwise it is at most the number of critical-path edges and, under a finite `L`, pays its delays out of the latency left over by the path's runtime (for either sign of the delay). It is the edge count or the next count is not admitted. |
| CallTree.CutBoundIsGreatest | slambuc/alg/tree/path/meta.py:71-73 | Every cut count both bounds admit is at most `c_max`, for either sign of the delay. |
| CallTree.CpChild | slambuc/alg/tree/dp/min.py:124 | `next(m for m in tree.succ[n] if m in cpath)` finds a critical-path child, and fails only when no child is on the critical path. |
| CallTree.SetMin | slambuc/alg/tree/par/ilp.py:45-46 | `min(st)`: an element of the set no larger than any other. |
| CallTree.Ascending | slambuc/alg/tree/par/ilp.py:41 | `sorted(st)`: a strictly increasing list holding exactly the set's elements. |
| Lex.SortLex | slambuc/alg/tree/dp/min.py:158 | `sorted(p)` on lists of node ids: a permutation of the blocks in lexicographic order. |
| OrderedDict.Get | slambuc/alg/tree/parallel/pseudo.py:140 | A key reads a value iff some entry has the key, and the value read is that key's entry. |
| OrderedDict.Put | slambuc/alg/tree/parallel/pseudo.py:141 | `d[k] = v` maps the key to the value, keeps every other lookup, keeps the key order (appending a new key) and loses only the key's old entry. |
| OrderedDict.Remove | slambuc/alg/tree/parallel/pseudo.py:150 | `del d[k]` keeps exactly the entries of other keys. |
| OrderedDict.ArgMin | slambuc/alg/tree/parallel/pseudo.py:161 | `min(d.values(), key=...)` picks a least value, the first one in insertion order (`IsFirstMin`). |
| OrderedDict.FirstMinUnique | slambuc/alg/tree/parallel/pseudo.py:161 | The first least entry is unique, so a result stated as the first cheapest is fully determined. |
| CostTable.Store | slambuc/alg/tree/parallel/pseudo.py:139-141 | Storing a candidate keeps, under its key, the cheaper of it and the stored subcase (the stored one on a tie), changes no other key and leaves no bucket empty. |
| CostTable.StoreAllIsMinPerKey | slambuc/alg/tree/parallel/pseudo.py:139-141 | From an empty table, a key holds a subcase iff some candidate was offered under it, and then one of those candidates no costlier than any other. |
| CostTable.PutNested | slambuc/alg/tree/parallel/pseudo.py:256 | `DP[e][lat][mem] = s` stores `s` under the key, changes no other key and leaves no bucket empty. |

## Left out

- ILP model construction and solving (`slambuc/alg/tree/par/ilp.py` from line 71 on, `slambuc/alg/dag/ilp.py`): they only build input for an external MILP solver.
- `recreate_subtree_blocks` (used by the two pseudo-polynomial engines) and `recreate_subchain_blocks` (used by the meta algorithm at `slambuc/alg/tree/path/meta.py` line 164): the engines return the barrier set instead of the rebuilt blocks, because the rebuilding helpers are not part of this model.
- `recalculate_partitioning`: the greedy heuristics return the partitioning without its sum cost and latency metrics, because the metric helper is not part of this model.
- Python set iteration order is unspecified, so the model fixes one order where the code iterates a set:
  - the nodes of a grown block are walked in ascending order when collecting `succ`;
  - `barr.pop()` in `extract_min_blocks` takes the smallest barrier.
  - the members of `sub_b.top_blk` are walked in ascending order in the bottom-up merge (`slambuc/alg/tree/parallel/pseudo.py` lines 126-131). The order matters there: `mem_op` is a running maximum, and a member's cost term is skipped once it exceeds `M`, so another order can skip other members.
- Floating-point division: the library computes `math.ceil(a / b)` and `math.floor(x / delay)` through Python's float true division (`slambuc/alg/tree/parallel/pseudo.py` lines 98, 106, 128, 220, 234, 240 and 243; `slambuc/alg/tree/dp/min.py` lines 61, 92 and 103; `slambuc/alg/tree/path/meta.py` line 73). `Base.CeilDiv`, `Base.FloorDiv`, `Base.CeilQuot` and `Base.FloorQuot` compute the exact integer ceiling and floor instead. The two agree while the operands stay below 2^53 and may differ above it: `math.ceil((2**53 + 1) / 2)` is 2^52, where the exact ceiling is 2^52 + 1.
- The `warnings.warn` of the bottom-up engine for `N > 1` and every logging call: they have no effect on results.
- The partitioner's own limits (`M`, `N`, `unit`) in the meta algorithm: they are closed over by the injected `partition`.
- Precondition: every call on a critical path requires a non-empty path. `ibacktrack_chain` always yields at least the root.
- Precondition of the pseudo-polynomial engines (`ParallelModel.ValidEnv`): every rate is positive, `N >= 1`, and delay, runtimes and data sizes are non-negative. A zero rate makes `math.ceil(r_f / r_v)` raise `ZeroDivisionError` in the library (`slambuc/alg/tree/parallel/pseudo.py` lines 98 and 128); the model has no error outcome for those engines.
- Precondition of the min-cost algorithm (`CallTree.ParentsBelow`): every parent's id is below its children's, as the post-order walk's trees provide. A zero delay, a zero `unit` and a zero rate are modelled as failures, not excluded.
- PseudoBottomUp.BottomUp: proves the shape of the answer (root among the barriers, latency within `L` or the root's singleton latency) and, through `SelectResult`, that it is the cheapest entry of the root table. It does not prove that this is the cheapest partitioning of the whole tree, which needs an optimality argument over all partitionings.
- PseudoLeftRight.LeftRight: the same limitation as `BottomUp`; optimality over all partitionings is not proved.
- MinTree.MinTreePartitioning: the returned cost is proved to be the cheapest in the root's queue, not the cheapest over all chain-block partitionings.
- MinTree.MinTreePartitioning: the library keeps its queues in a list of `len(tree)` entries (`slambuc/alg/tree/dp/min.py` line 65), so a tree whose node ids are not all below `len(tree)` (nodes {1, 5}, say) raises `IndexError` there. The model keeps the queues in a map, so it does not reproduce that failure and returns a result for such trees.
- MetaTree.MetaTreePartitioning: the answer is proved to be the first cheapest root slot, not an optimum over all partitionings, since the chain partitioner is abstract.
- SubtreeEnum.ParSubtreesSound: only soundness of `ifeasible_par_subtrees` is proved. Completeness and uniqueness of its blocks are not proved, because they depend on the unseen post-order walk visiting every node once.
- CpathSplit.FeasibleCpathSplit: follows the corrected stop test of "## Findings", not the library's. With `L = inf` and no memory-fitting split, the library raises `TypeError` at `slambuc/alg/ext/greedy.py` line 142, where this member keeps cutting and returns the barriers or `None`. For a finite `L` the two agree (`CpathSplit.AsWrittenAgrees`).
- Greedy.MinWeightPartitionHeuristic: runs on the corrected split of `CpathSplit.FeasibleCpathSplit`. On the inputs where the library raises `TypeError` (`L = inf`, no memory-fitting split) it returns INFEASIBLE or a partitioning instead.
- MetaTree.HeadCuts: the landing in slot `k + c_head + 1` is promised for the first `c_head` of a call. Later values read `c_cache` as earlier iterations left it, so only their "never dearer" and frame facts are stated.
- MetaTree.KLoop: the landing is promised for the first head-part partitioning of each non-skipped `k` (`c_head = c_max - k - 1`), for the same reason as `HeadCuts`.
- Harness.DecodeRoundTrip: the separator count `len(part) - 1` is proved only for a one-character separator that occurs in no block text.
- Harness.CalcMinMaxExact: the maximum is proved attained only when it is not the start value 0, because the loop starts its running maximum at 0.

## Findings

| source | as written | input that shows it | evidently intended | confidence | as-written member | corrected member |
|---|---|---|---|---|---|---|
| slambuc/alg/ext/greedy.py:133-142 | The stop test `best_feasible_lat <= L` also holds when no memory-fitting split was recorded (`best_feasible_lat` is still `inf`) and `L` is `inf`. `None` is then added to the cuts, and `cpath[None]` raises. | `L = inf` (the default of `min_weight_partition_heuristic`) and a one-node critical path whose node alone exceeds `M`. More generally, any path where neither the single block nor any one-cut split fits `M`. | Stop only when a memory-fitting split was recorded. When none exists, go on cutting, and return `None` once every position is cut. | not executed | CpathSplit.CpathCutsAsWritten (crash shown by CpathSplit.OneNodeCrash and CpathSplit.AsWrittenCrashes) | CpathSplit.CpathCuts (agreement for finite `L` in CpathSplit.AsWrittenAgrees) |

=== FILE: base.dfy ===
/** Numeric vocabulary shared by every algorithm of the partitioning library:
    optional values, integers extended with an infinite element (the library's
    `math.inf` limits and cost sentinels), and the integer divisions the
    algorithms round with. */
module Base {

  datatype Option<+T> = None | Some(value: T)

  /** An integer or +infinity.  Unbounded limits (`M = math.inf`) and the
      "no solution yet" cost sentinel are both `Inf`. */
  datatype Ext = Fin(n: int) | Inf {

    /** Strict order of the extended integers (`Inf` is above every integer). */
    predicate Lt(o: Ext) {
      match this
      case Inf => false
      case Fin(a) => (match o case Inf => true case Fin(b) => a < b)
    }

    predicate Le(o: Ext) {
      !o.Lt(this)
    }

    /** Addition with `Inf` absorbing, as for Python floats with one infinite operand. */
    function Plus(o: Ext): Ext {
      match this
      case Inf => Inf
      case Fin(a) => (match o case Inf => Inf case Fin(b) => Fin(a + b))
    }
  }

  /** `x <= bound` for an integer quantity against a possibly unbounded limit. */
  predicate Within(x: int, bound: Ext) {
    Fin(x).Le(bound)
  }

  /** The order of extended integers is a total preorder, and `Lt` is its strict
      part. */
  lemma LeIsTotalPreorder(a: Ext, b: Ext, c: Ext)
    ensures a.Le(a)
    ensures a.Le(b) || b.Le(a)
    ensures a.Le(b) && b.Le(c) ==> a.Le(c)
    ensures a.Lt(b) <==> a.Le(b) && a != b
  {
  }

  /** Adding the same amount keeps the order. */
  lemma PlusMonotone(a: Ext, b: Ext, x: Ext)
    requires a.Le(b)
    ensures a.Plus(x).Le(b.Plus(x))
  {
  }

  /** Python's `math.ceil(a / b)` for a positive divisor. */
  function CeilDiv(a: int, b: int): (r: int)
    requires b > 0
    ensures (r - 1) * b < a <= r * b
  {
    if a % b == 0 then a / b else a / b + 1
  }

  /** Python's `math.floor(a / b)` for a positive divisor. */
  function FloorDiv(a: int, b: int): (r: int)
    requires b > 0
    ensures r * b <= a < (r + 1) * b
  {
    a / b
  }

  /** Python's `math.floor(a / b)` for a non-zero integer divisor. */
  function FloorQuot(a: int, b: int): (r: int)
    requires b != 0
    ensures b > 0 ==> r * b <= a < (r + 1) * b
    ensures b < 0 ==> (r + 1) * b < a <= r * b
  {
    if b > 0 then FloorDiv(a, b) else FloorDiv(-a, -b)
  }

  /** Python's `math.ceil(a / b)` for a non-zero integer divisor. */
  function CeilQuot(a: int, b: int): (r: int)
    requires b != 0
    ensures b > 0 ==> (r - 1) * b < a <= r * b
    ensures b < 0 ==> r * b <= a < (r - 1) * b
  {
    if b > 0 then CeilDiv(a, b) else CeilDiv(-a, -b)
  }

  /** Python's `max` of two integers. */
  function Max(a: int, b: int): (r: int)
    ensures r >= a && r >= b && (r == a || r == b)
  {
    if a >= b then a else b
  }

  /** Python's `min` of two integers. */
  function Min(a: int, b: int): (r: int)
    ensures r <= a && r <= b && (r == a || r == b)
  {
    if a <= b then a else b
  }

  /** Sum of a sequence of integers. */
  function Sum(xs: seq<int>): int
  {
    if |xs| == 0 then 0 else xs[0] + Sum(xs[1..])
  }

  /** `Sum` distributes over concatenation. */
  lemma {:induction false} SumAppend(xs: seq<int>, ys: seq<int>)
    ensures Sum(xs + ys) == Sum(xs) + Sum(ys)
  {
    if |xs| == 0 {
      assert xs + ys == ys;
    } else {
      assert (xs + ys)[1..] == xs[1..] + ys;
      SumAppend(xs[1..], ys);
    }
  }

  /** A positive multiplier of at least one never shrinks a positive value. */
  lemma MulAtLeast(a: int, m: int)
    requires a >= 1 && m > 0
    ensures a * m >= m
  {
    assert (a - 1) * m >= 0;
  }

  /** A multiple of a positive `m` leaves no remainder. */
  lemma MultipleMod(k: int, m: int)
    requires m > 0
    ensures (k * m) % m == 0
  {
    var x := k * m;
    var q := x / m;
    var r := x % m;
    assert x == q * m + r && 0 <= r < m;
    var d := k - q;
    assert d * m == r;
    if d >= 1 {
      MulAtLeast(d, m);
    } else if d <= -1 {
      MulAtLeast(-d, m);
    }
  }

  /** A multiple of a non-zero `m` leaves no remainder, whatever the sign of
      `m`. */
  lemma MultipleModAny(k: int, m: int)
    requires m != 0
    ensures (k * m) % m == 0
  {
    if m > 0 {
      MultipleMod(k, m);
    } else {
      var x := k * m;
      var q := x / m;
      var r := x % m;
      assert x == q * m + r && 0 <= r < -m;
      var d := k - q;
      assert d * m == r;
      if d >= 1 {
        MulAtLeast(d, -m);
      } else if d <= -1 {
        MulAtLeast(-d, -m);
      }
    }
  }
}

=== FILE: blocks.dfy ===
/** A partitioning as the library returns it: a list of blocks, each a list
    of node ids. */
module Blocks {
  import opened CallTree
  import opened Lex

  /** The nodes placed in the blocks of `p`. */
  ghost function Covered(p: seq<seq<Node>>): set<Node> {
    set i, k | 0 <= i < |p| && 0 <= k < |p[i]| :: p[i][k]
  }

  /** No node appears twice, neither within a block nor across blocks. */
  ghost predicate NoSharedNodes(p: seq<seq<Node>>) {
    forall i, j, k, l :: 0 <= i < |p| && 0 <= j < |p| && 0 <= k < |p[i]| && 0 <= l < |p[j]| && (i, k) != (j, l) ==>
      p[i][k] != p[j][l]
  }

  /** A block (a connected piece of the tree) is headed by `root` and closed
      under parents below it. */
  ghost predicate Headed(t: Tree, root: Node, blk: set<Node>) {
    && root in blk && blk <= t.nodes
    && (forall v :: v in blk ==> root <= v)
    && (forall v :: v in blk && v != root ==> Parent(t, v) in blk)
  }

  /** Appending a duplicate-free block of fresh nodes keeps the blocks
      disjoint and adds exactly its nodes. */
  lemma AppendBlock(p: seq<seq<Node>>, x: seq<Node>, xs: set<Node>)
    requires NoSharedNodes(p) && Distinct(x)
    requires Elems(x) == xs && xs !! Covered(p)
    ensures NoSharedNodes(p + [x])
    ensures Covered(p + [x]) == Covered(p) + xs
  {
    var q := p + [x];
    forall i, j, k, l | 0 <= i < |q| && 0 <= j < |q| && 0 <= k < |q[i]| && 0 <= l < |q[j]| && (i, k) != (j, l)
      ensures q[i][k] != q[j][l]
    {
      if i < |p| && j == |p| {
        assert q[i][k] in Covered(p);
        assert q[j][l] in xs;
      } else if i == |p| && j < |p| {
        assert q[j][l] in Covered(p);
        assert q[i][k] in xs;
      }
    }
    forall v | v in Covered(q) ensures v in Covered(p) + xs {
      var i, k :| 0 <= i < |q| && 0 <= k < |q[i]| && q[i][k] == v;
      if i < |p| {
        assert p[i][k] == v;
      }
    }
    forall v | v in Covered(p) + xs ensures v in Covered(q) {
      if v in Covered(p) {
        var i, k :| 0 <= i < |p| && 0 <= k < |p[i]| && p[i][k] == v;
        assert q[i][k] == v;
      } else {
        var k :| 0 <= k < |x| && x[k] == v;
        assert q[|p|][k] == v;
      }
    }
  }

  /** Appending a node set, listed in ascending order, whose nodes are all
      new keeps the blocks disjoint and adds exactly its nodes. */
  lemma AppendAscending(p: seq<seq<Node>>, xs: set<Node>)
    requires NoSharedNodes(p) && xs !! Covered(p)
    ensures NoSharedNodes(p + [Ascending(xs)])
    ensures Covered(p + [Ascending(xs)]) == Covered(p) + xs
  {
    var x := Ascending(xs);
    assert Elems(x) == xs;
    assert Distinct(x);
    AppendBlock(p, x, xs);
  }
}

=== FILE: call_tree.dfy ===
/** The annotated call tree every partitioning algorithm works on.

    Nodes are natural numbers; `PLATFORM` (0) is the synthetic caller of the
    root.  Every attribute of an edge `parent(v) -> v` (invocation rate, data
    overhead) is stored at its child `v`, which is how the algorithms read it
    (`tree[p][v][RATE]`).  Lookups of an unknown node yield neutral defaults:
    in the library they are caller-contract violations. */
module CallTree {
  import opened Base

  type Node = nat

  const PLATFORM: Node := 0

  datatype Tree = Tree(
    nodes: set<Node>,              // every node except PLATFORM
    parent: map<Node, Node>,       // the unique predecessor, PLATFORM for the root
    children: map<Node, seq<Node>>,// ordered successors
    runtime: map<Node, int>,
    memory: map<Node, int>,
    rate: map<Node, int>,          // rate of the edge parent(v) -> v
    data: map<Node, int>)          // data overhead of the edge parent(v) -> v

  /** The caller of `v` (`next(tree.predecessors(v))`). */
  function Parent(t: Tree, v: Node): Node {
    if v in t.parent then t.parent[v] else PLATFORM
  }

  /** The callees of `v` in the tree's order (`tree.successors(v)`). */
  function Children(t: Tree, v: Node): seq<Node> {
    if v in t.children then t.children[v] else []
  }

  /** The runtime of `v` in ms. */
  function Runtime(t: Tree, v: Node): int {
    if v in t.runtime then t.runtime[v] else 0
  }

  /** The memory demand of `v` in MB. */
  function Memory(t: Tree, v: Node): int {
    if v in t.memory then t.memory[v] else 0
  }

  /** The invocation rate of the edge into `v`. */
  function Rate(t: Tree, v: Node): int {
    if v in t.rate then t.rate[v] else 1
  }

  /** The data overhead of the edge into `v`. */
  function Data(t: Tree, v: Node): int {
    if v in t.data then t.data[v] else 0
  }

  /** The shape every algorithm assumes: an out-tree hanging from PLATFORM,
      numbered so that a child's id exceeds its parent's, with ordered,
      duplicate-free child lists that agree with the parent map.  Node
      attributes (runtime, memory, rate, data) are not constrained here;
      the engines that divide by rates say so in their own preconditions. */
  ghost predicate WellFormed(t: Tree) {
    && PLATFORM !in t.nodes
    && (forall v :: v in t.nodes ==> Parent(t, v) < v)
    && (forall v :: v in t.nodes ==> Parent(t, v) == PLATFORM || Parent(t, v) in t.nodes)
    && (forall v :: v in t.nodes ==> v in Children(t, Parent(t, v)))
    && (forall u, i :: 0 <= i < |Children(t, u)| ==>
          Children(t, u)[i] in t.nodes && Parent(t, Children(t, u)[i]) == u)
    && (forall u, i, j :: 0 <= i < j < |Children(t, u)| ==> Children(t, u)[i] != Children(t, u)[j])
  }

  /** `v` lies in the subtree of `a` (reflexive ancestor relation).  Walking
      up terminates because parents have smaller ids. */
  ghost predicate IsDesc(t: Tree, v: Node, a: Node)
    decreases v
  {
    v == a || (v in t.nodes && Parent(t, v) < v && IsDesc(t, Parent(t, v), a))
  }

  /** The first child of `v` on the critical path (the library's
      `next(filter(lambda c: c in cpath, tree.successors(v)), None)`). */
  function CpChild(t: Tree, cp: set<Node>, v: Node): (r: Option<Node>)
    ensures r.Some? ==> r.value in cp && r.value in Children(t, v)
    ensures r.None? ==> forall c :: c in Children(t, v) ==> c !in cp
  {
    FirstIn(Children(t, v), cp)
  }

  /** The first element of `xs` that lies in `s`, if any. */
  function FirstIn(xs: seq<Node>, s: set<Node>): (r: Option<Node>)
    ensures r.Some? ==> r.value in s && r.value in xs
    ensures r.None? ==> forall x :: x in xs ==> x !in s
  {
    if |xs| == 0 then None
    else if xs[0] in s then Some(xs[0])
    else FirstIn(xs[1..], s)
  }

  /** The critical path `root -> ... -> cp_end` as the library's
      `ibacktrack_chain` returns it reversed: root first, every element the
      child of its predecessor. */
  ghost predicate IsChain(t: Tree, cpath: seq<Node>) {
    && |cpath| > 0
    && (forall i :: 0 <= i < |cpath| ==> cpath[i] in t.nodes)
    && (forall i :: 0 < i < |cpath| ==> Parent(t, cpath[i]) == cpath[i - 1])
  }

  /** `m` is the smallest element of `s`. */
  predicate IsLeastOf(s: set<Node>, m: Node) {
    m in s && forall y :: y in s ==> m <= y
  }

  /** The smallest element of a non-empty node set. */
  function SetMin(s: set<Node>): (m: Node)
    requires s != {}
    ensures m in s && forall y :: y in s ==> m <= y
  {
    SetMinExists(s);
    var m :| IsLeastOf(s, m); m
  }

  /** Every non-empty finite set of nodes has a least element. */
  lemma {:induction false} SetMinExists(s: set<Node>)
    requires s != {}
    ensures exists m :: IsLeastOf(s, m)
  {
    var x :| x in s;
    var rest := s - {x};
    if rest == {} {
      assert IsLeastOf(s, x) by {
        forall y | y in s ensures x <= y {
          assert y == x || y in rest;
        }
      }
    } else {
      SetMinExists(rest);
      var m :| IsLeastOf(rest, m);
      var w := if x < m then x else m;
      assert IsLeastOf(s, w) by {
        forall y | y in s ensures w <= y {
          if y != x {
            assert y in rest;
          }
        }
      }
    }
  }

  /** The elements of a node set in ascending order: Python's `sorted(st)`
      exactly.  Where the library iterates a `set` directly, whose order
      CPython does not fix in general (`{1, 8}` iterates 8 first), the model
      chooses this order. */
  function Ascending(s: set<Node>): (r: seq<Node>)
    ensures forall x :: x in s <==> x in r
    ensures forall i, j :: 0 <= i < j < |r| ==> r[i] < r[j]
    ensures |r| == |s|
    decreases |s|
  {
    if s == {} then []
    else
      var m := SetMin(s);
      var tl := Ascending(s - {m});
      AscendingCons(s, m, tl);
      [m] + tl
  }

  /** Putting the least element in front of an ascending listing of the rest
      gives an ascending listing of the whole set. */
  lemma AscendingCons(s: set<Node>, m: Node, tl: seq<Node>)
    requires IsLeastOf(s, m)
    requires forall x :: x in s - {m} <==> x in tl
    requires forall i, j :: 0 <= i < j < |tl| ==> tl[i] < tl[j]
    requires |tl| == |s - {m}|
    ensures forall x :: x in s <==> x in [m] + tl
    ensures forall i, j :: 0 <= i < j < |[m] + tl| ==> ([m] + tl)[i] < ([m] + tl)[j]
    ensures |[m] + tl| == |s|
  {
    var r := [m] + tl;
    forall i, j | 0 <= i < j < |r| ensures r[i] < r[j] {
      assert r[j] == tl[j - 1] && r[j] in s - {m};
      if i > 0 {
        assert r[i] == tl[i - 1];
      }
    }
  }

  /** Every recorded parent id is below its child's id, so walking up the
      parent map strictly decreases the node id. */
  ghost predicate ParentsBelow(t: Tree) {
    forall v :: v in t.parent ==> t.parent[v] < v
  }

  /** Total runtime of the listed nodes. */
  function RuntimeSum(t: Tree, vs: seq<Node>): int
  {
    if |vs| == 0 then 0 else Runtime(t, vs[0]) + RuntimeSum(t, vs[1..])
  }

  /** `c` invocation delays fit into the latency `L` left over by the
      critical path's runtime: `c <= (L - cpRuntime) / delay` as a real
      quotient, which an unbounded `L` meets for a positive delay only. */
  predicate CutsAdmitted(L: Ext, cpRuntime: int, delay: int, c: int) {
    match L
    case Inf => delay > 0
    case Fin(l) => (delay > 0 && c * delay <= l - cpRuntime) || (delay < 0 && c * delay >= l - cpRuntime)
  }

  /** The cut budget `c_max` of the chain-block algorithms: the latency left
      over by the critical path's own runtime `cpRuntime` pays for at most
      `(L - cpRuntime) / delay` invocation delays, and a path of `cpLen`
      nodes has only `cpLen - 1` edges to cut.  `None` is the library's
      `ZeroDivisionError` for a zero delay and its `OverflowError` of
      flooring `-inf` for an unbounded `L` with a negative delay. */
  function CutBound(L: Ext, cpRuntime: int, cpLen: int, delay: int): (r: Option<int>)
    ensures r.None? <==> delay == 0 || (L.Inf? && delay < 0)
    ensures r.Some? ==> r.value <= cpLen - 1
    ensures r.Some? && L.Fin? ==> CutsAdmitted(L, cpRuntime, delay, r.value)
    ensures r.Some? ==> r.value == cpLen - 1 || !CutsAdmitted(L, cpRuntime, delay, r.value + 1)
  {
    if delay == 0 then None
    else
      match L
      case Inf => if delay < 0 then None else Some(cpLen - 1)
      case Fin(l) =>
        var f := FloorQuot(l - cpRuntime, delay);
        var r := Min(f, cpLen - 1);
        ScaledOrder(r, f, delay);
        Some(r)
  }

  /** `CutBound` is the largest cut count that both limits admit. */
  lemma CutBoundIsGreatest(L: Ext, cpRuntime: int, cpLen: int, delay: int, c: int)
    requires CutBound(L, cpRuntime, cpLen, delay).Some?
    requires c <= cpLen - 1 && CutsAdmitted(L, cpRuntime, delay, c)
    ensures c <= CutBound(L, cpRuntime, cpLen, delay).value
  {
    var r := CutBound(L, cpRuntime, cpLen, delay).value;
    if r != cpLen - 1 {
      if delay > 0 {
        LessByFactor(c, r + 1, delay);
      } else {
        LessByFactor(c, r + 1, -delay);
      }
    }
  }

  /** Multiplying `a <= b` by a factor keeps the order for a positive
      factor and reverses it for a negative one. */
  lemma ScaledOrder(a: int, b: int, d: int)
    requires a <= b
    ensures d > 0 ==> a * d <= b * d
    ensures d < 0 ==> a * d >= b * d
  {
    assert b * d - a * d == (b - a) * d;
  }

  /** Dividing both sides of a strict inequality by a positive factor. */
  lemma LessByFactor(a: int, b: int, d: int)
    requires d > 0 && a * d < b * d
    ensures a < b
  {
    assert (b - a) * d > 0;
  }

  /** The nodes of the subtree of `a`. */
  ghost function Subtree(t: Tree, a: Node): set<Node> {
    set x | x in t.nodes && IsDesc(t, x, a)
  }

  /** An ancestor never has a larger id. */
  lemma {:induction false} DescBelow(t: Tree, v: Node, a: Node)
    requires IsDesc(t, v, a)
    ensures a <= v
    decreases v
  {
    if v != a {
      DescBelow(t, Parent(t, v), a);
    }
  }

  /** Being a descendant is transitive. */
  lemma {:induction false} DescTransitive(t: Tree, x: Node, y: Node, z: Node)
    requires IsDesc(t, x, y) && IsDesc(t, y, z)
    ensures IsDesc(t, x, z)
    decreases x
  {
    if x != y {
      DescTransitive(t, Parent(t, x), y, z);
    }
  }

  /** Two ancestors of one node lie on one root path. */
  lemma {:induction false} DescComparable(t: Tree, x: Node, a: Node, b: Node)
    requires IsDesc(t, x, a) && IsDesc(t, x, b)
    ensures IsDesc(t, a, b) || IsDesc(t, b, a)
    decreases x
  {
    if x != a && x != b {
      DescComparable(t, Parent(t, x), a, b);
    }
  }
}

=== FILE: cost_table.dfy ===
/** The two-level subcase tables of the pseudo-polynomial algorithms: a
    latency key selects a bucket, a memory key selects the cheapest known
    subcase in it.  Both levels are insertion-ordered dictionaries. */
module CostTable {
  import opened Base
  import opened OrderedDict

  /** A candidate subcase: latency key, memory key and the subcase itself. */
  datatype Entry<L, M, S> = Entry(lat: L, mem: M, sub: S)

  type LatMemTable<L(==,!new), M(==,!new), S(!new)> = Dict<L, Dict<M, S>>

  /** The bucket of latency `l`; a missing bucket reads as empty (the
      library's `defaultdict`). */
  function Bucket<L(==,!new), M(==,!new), S(!new)>(tbl: LatMemTable<L, M, S>, l: L): Dict<M, S> {
    match Get(tbl, l)
    case Some(m) => m
    case None => []
  }

  /** The subcase stored under the latency key `l` and the memory key `m`. */
  function Stored<L(==,!new), M(==,!new), S(!new)>(tbl: LatMemTable<L, M, S>, l: L, m: M): Option<S> {
    Get(Bucket(tbl, l), m)
  }

  /** No bucket is empty: every latency key present holds a subcase. */
  ghost predicate NonEmptyBuckets<L(!new), M(!new), S(!new)>(tbl: Dict<L, Dict<M, S>>) {
    forall lb :: lb in tbl ==> |lb.1| > 0
  }

  /** Keep the candidate when its key is new or it is strictly cheaper than
      the stored subcase. */
  function Store<L(==,!new), M(==,!new), S(!new)>(tbl: LatMemTable<L, M, S>, c: Entry<L, M, S>, cost: S -> int): (r: LatMemTable<L, M, S>)
    ensures forall l, m :: (Stored(r, l, m) ==
      if (l, m) == (c.lat, c.mem) && (Stored(tbl, l, m).None? || cost(c.sub) < cost(Stored(tbl, l, m).value))
      then Some(c.sub) else Stored(tbl, l, m))
    ensures NonEmptyBuckets(tbl) ==> NonEmptyBuckets(r)
  {
    var inner := Bucket(tbl, c.lat);
    PutNested(tbl, c.lat, c.mem, c.sub);
    match Get(inner, c.mem)
    case Some(prev) =>
      if cost(c.sub) < cost(prev) then Put(tbl, c.lat, Put(inner, c.mem, c.sub)) else tbl
    case None => Put(tbl, c.lat, Put(inner, c.mem, c.sub))
  }

  /** Writing one subcase into its bucket changes that one key only and
      leaves no bucket empty. */
  lemma PutNested<L(!new), M(!new), S(!new)>(tbl: LatMemTable<L, M, S>, l: L, m: M, s: S)
    ensures Stored(Put(tbl, l, Put(Bucket(tbl, l), m, s)), l, m) == Some(s)
    ensures forall l', m' :: (l', m') != (l, m) ==>
      Stored(Put(tbl, l, Put(Bucket(tbl, l), m, s)), l', m') == Stored(tbl, l', m')
    ensures NonEmptyBuckets(tbl) ==> NonEmptyBuckets(Put(tbl, l, Put(Bucket(tbl, l), m, s)))
  {
    var inner := Put(Bucket(tbl, l), m, s);
    var r := Put(tbl, l, inner);
    assert Bucket(r, l) == inner;
    forall l', m' | (l', m') != (l, m) ensures Stored(r, l', m') == Stored(tbl, l', m') {
      if l' != l {
        assert Bucket(r, l') == Bucket(tbl, l');
      }
    }
    if NonEmptyBuckets(tbl) {
      forall lb | lb in r ensures |lb.1| > 0 {
        if lb != (l, inner) {
          assert lb in tbl;
        } else {
          assert (m, s) in inner;
        }
      }
    }
  }

  /** Store the candidates one by one, in order. */
  function StoreAll<L(==,!new), M(==,!new), S(!new)>(tbl: LatMemTable<L, M, S>, cs: seq<Entry<L, M, S>>, cost: S -> int): (r: LatMemTable<L, M, S>)
    ensures NonEmptyBuckets(tbl) ==> NonEmptyBuckets(r)
    decreases |cs|
  {
    if |cs| == 0 then tbl else StoreAll(Store(tbl, cs[0], cost), cs[1..], cost)
  }

  /** Reference for one key: scan the candidates, replacing the incumbent
      only by a strictly cheaper candidate with that key. */
  function BestFor<L(==,!new), M(==,!new), S(!new)>(best: Option<S>, cs: seq<Entry<L, M, S>>, l: L, m: M, cost: S -> int): Option<S>
    decreases |cs|
  {
    if |cs| == 0 then best
    else
      var c := cs[0];
      var best' := if (c.lat, c.mem) == (l, m) && (best.None? || cost(c.sub) < cost(best.value)) then Some(c.sub) else best;
      BestFor(best', cs[1..], l, m, cost)
  }

  /** The table fold agrees, key by key, with the reference scan. */
  lemma {:induction false} StoreAllIsBestFor<L(!new), M(!new), S(!new)>(
    tbl: LatMemTable<L, M, S>, cs: seq<Entry<L, M, S>>, l: L, m: M, cost: S -> int)
    ensures Stored(StoreAll(tbl, cs, cost), l, m) == BestFor(Stored(tbl, l, m), cs, l, m, cost)
    decreases |cs|
  {
    if |cs| > 0 {
      StoreAllIsBestFor(Store(tbl, cs[0], cost), cs[1..], l, m, cost);
    }
  }

  /** The reference scan ends with a cheapest candidate of the key (or the
      incumbent, when nothing beats it), and finds one iff one exists. */
  lemma {:induction false} BestForIsMin<L(!new), M(!new), S(!new)>(best: Option<S>, cs: seq<Entry<L, M, S>>, l: L, m: M, cost: S -> int)
    ensures var r := BestFor(best, cs, l, m, cost);
      && (r.None? <==> best.None? && forall i :: 0 <= i < |cs| ==> (cs[i].lat, cs[i].mem) != (l, m))
      && (r.Some? ==> r == best || exists i :: 0 <= i < |cs| && (cs[i].lat, cs[i].mem) == (l, m) && cs[i].sub == r.value)
      && (r.Some? ==> best.Some? ==> cost(r.value) <= cost(best.value))
      && (r.Some? ==> forall i :: 0 <= i < |cs| && (cs[i].lat, cs[i].mem) == (l, m) ==> cost(r.value) <= cost(cs[i].sub))
    decreases |cs|
  {
    if |cs| > 0 {
      var c := cs[0];
      var best' := if (c.lat, c.mem) == (l, m) && (best.None? || cost(c.sub) < cost(best.value)) then Some(c.sub) else best;
      BestForIsMin(best', cs[1..], l, m, cost);
      var r := BestFor(best, cs, l, m, cost);
      assert r == BestFor(best', cs[1..], l, m, cost);
      if r.Some? && r != best' {
        var i :| 0 <= i < |cs[1..]| && (cs[1..][i].lat, cs[1..][i].mem) == (l, m) && cs[1..][i].sub == r.value;
        assert cs[i + 1] == cs[1..][i];
      }
      forall i | 1 <= i < |cs| ensures cs[i] == cs[1..][i - 1] { }
    }
  }

  /** Storing all candidates into an empty table keeps, for every key, a
      cheapest candidate with that key, and only keys that occur. */
  lemma StoreAllIsMinPerKey<L(!new), M(!new), S(!new)>(cs: seq<Entry<L, M, S>>, l: L, m: M, cost: S -> int)
    ensures var r := Stored(StoreAll([], cs, cost), l, m);
      && (r.Some? <==> exists i :: 0 <= i < |cs| && (cs[i].lat, cs[i].mem) == (l, m))
      && (r.Some? ==> exists i :: 0 <= i < |cs| && cs[i] == Entry(l, m, r.value))
      && (r.Some? ==> forall i :: 0 <= i < |cs| && (cs[i].lat, cs[i].mem) == (l, m) ==> cost(r.value) <= cost(cs[i].sub))
  {
    StoreAllIsBestFor([], cs, l, m, cost);
    BestForIsMin(None, cs, l, m, cost);
    var r := Stored(StoreAll([], cs, cost), l, m);
    if r.Some? {
      var i :| 0 <= i < |cs| && (cs[i].lat, cs[i].mem) == (l, m) && cs[i].sub == r.value;
      assert cs[i] == Entry(l, m, r.value);
    }
  }
}

=== FILE: cpath_split.dfy ===
/** The greedy search for cuts on the critical path
    (`get_feasible_cpath_split` of `slambuc/alg/ext/greedy.py`).

    The critical path `cpath` (root first) is split into consecutive chain
    blocks by cut positions: a cut at `c` starts a new block at `cpath[c]`.
    The search first tries the single block; otherwise it adds cuts one per
    round, each round trying every free position once, remembering the
    split of lowest latency (the round's pick) and, across rounds, the
    lowest-latency split whose blocks all fit the memory limit.  It stops at
    the first such split that also meets the latency limit.

    The chain latency (`par_subchain_latency`) and the block memory
    (`par_subtree_memory`) are library helpers outside this model; they are
    fields of `Search`. */
module CpathSplit {
  import opened Base
  import opened CallTree
  import opened Lex

  /** One search problem: the path, the two block measures, the memory and
      latency limits and the invocation delay paid between blocks. */
  datatype Search = Search(cpath: seq<Node>, lat: (Node, set<Node>) -> int, mem: (Node, set<Node>) -> int,
                           M: Ext, L: Ext, delay: int)

  /** Cut positions lie strictly inside the path (position 0 is the root's
      own block). */
  predicate ValidCuts(s: Search, cuts: set<nat>) {
    |s.cpath| > 0 && forall c :: c in cuts ==> 1 <= c < |s.cpath|
  }

  /** Every position of a path of `n` nodes that can be cut. */
  function AllCuts(n: nat): (r: set<nat>)
    ensures forall c :: c in r <==> 1 <= c < n
  {
    if n <= 1 then {} else AllCuts(n - 1) + {n - 1}
  }

  /** Strictly increasing block bounds, none beyond `n`. */
  predicate Steps(b: seq<nat>, n: nat) {
    && (forall i, j :: 0 <= i < j < |b| ==> b[i] < b[j])
    && (forall k :: 0 <= k < |b| ==> b[k] <= n)
  }

  /** The block bounds `[0, *sorted(cuts), len(cpath)]`. */
  function Bounds(s: Search, cuts: set<nat>): (b: seq<nat>)
    requires ValidCuts(s, cuts)
    ensures Steps(b, |s.cpath|)
    ensures |b| == |cuts| + 2
  {
    var a := Ascending(cuts);
    BoundsSteps(s, cuts, a);
    [0] + a + [|s.cpath|]
  }

  /** A strictly increasing listing of valid cuts, framed by `0` and the path
      length, is a list of block bounds. */
  lemma BoundsSteps(s: Search, cuts: set<nat>, a: seq<nat>)
    requires ValidCuts(s, cuts)
    requires forall x :: x in cuts <==> x in a
    requires forall i, j :: 0 <= i < j < |a| ==> a[i] < a[j]
    ensures Steps([0] + a + [|s.cpath|], |s.cpath|)
  {
    var b := [0] + a + [|s.cpath|];
    forall k | 0 <= k < |a| ensures b[k + 1] == a[k] && 1 <= a[k] < |s.cpath| {
      assert a[k] in a;
    }
    forall i, j | 0 <= i < j < |b| ensures b[i] < b[j] {
      if 0 < i && j < |b| - 1 {
        assert b[i] == a[i - 1] && b[j] == a[j - 1];
      } else if i == 0 && j < |b| - 1 {
        assert b[j] == a[j - 1];
      } else if 0 < i {
        assert b[i] == a[i - 1];
      }
    }
  }

  /** Sum of the chain latencies of the blocks between consecutive bounds. */
  function BlockLats(s: Search, b: seq<nat>): int
    requires Steps(b, |s.cpath|)
    decreases |b|
  {
    if |b| < 2 then 0
    else
      assert b[0] < b[1];
      s.lat(s.cpath[b[0]], Elems(s.cpath[b[0]..b[1]])) + BlockLats(s, b[1..])
  }

  /** Latency of the split: the blocks' latencies plus one delay per cut. */
  function SplitLat(s: Search, cuts: set<nat>): int
    requires ValidCuts(s, cuts)
  {
    BlockLats(s, Bounds(s, cuts)) + (|Bounds(s, cuts)| - 2) * s.delay
  }

  /** The block from bound `k` to bound `k + 1` fits the memory limit. */
  predicate BlockFits(s: Search, b: seq<nat>, k: nat)
    requires Steps(b, |s.cpath|) && k < |b| - 1
  {
    assert b[k] < b[k + 1];
    Within(s.mem(s.cpath[b[k]], Elems(s.cpath[b[k]..b[k + 1]])), s.M)
  }

  /** Every block of the split fits the memory limit. */
  predicate SplitFits(s: Search, cuts: set<nat>)
    requires ValidCuts(s, cuts)
  {
    var b := Bounds(s, cuts);
    forall k: nat :: k < |b| - 1 ==> BlockFits(s, b, k)
  }

  /** The split meets both limits. */
  predicate Feasible(s: Search, cuts: set<nat>)
    requires ValidCuts(s, cuts)
  {
    SplitFits(s, cuts) && Within(SplitLat(s, cuts), s.L)
  }

  /** A position a round may still try on top of `cuts`, on a path of `n`
      nodes. */
  predicate Free(n: nat, cuts: set<nat>, x: nat) {
    1 <= x < n && x !in cuts
  }

  /** Latency of `cuts` with one more cut at `x`. */
  function CutLat(s: Search, cuts: set<nat>, x: nat): int
    requires ValidCuts(s, cuts) && 1 <= x < |s.cpath|
  {
    SplitLat(s, cuts + {x})
  }

  /** Every block of the split with one more cut at `x` fits the memory limit. */
  predicate CutFits(s: Search, cuts: set<nat>, x: nat)
    requires ValidCuts(s, cuts) && 1 <= x < |s.cpath|
  {
    SplitFits(s, cuts + {x})
  }

  /** What a round computes for each free position, listed by position
      (the measures are pure, so computing them up front changes nothing). */
  function RoundLats(s: Search, cuts: set<nat>): (r: seq<int>)
    requires ValidCuts(s, cuts)
    ensures |r| == |s.cpath|
    ensures forall x: nat :: Free(|s.cpath|, cuts, x) ==> r[x] == CutLat(s, cuts, x)
  {
    seq(|s.cpath|, x requires 0 <= x < |s.cpath| => if 1 <= x && x !in cuts then CutLat(s, cuts, x) else 0)
  }

  /** The memory verdict a round computes for each free position, listed by
      position. */
  function RoundFits(s: Search, cuts: set<nat>): (r: seq<bool>)
    requires ValidCuts(s, cuts)
    ensures |r| == |s.cpath|
    ensures forall x: nat :: Free(|s.cpath|, cuts, x) ==> r[x] == CutFits(s, cuts, x)
  {
    seq(|s.cpath|, x requires 0 <= x < |s.cpath| => 1 <= x && x !in cuts && CutFits(s, cuts, x))
  }

  /** The two running minima of a round: the lowest latency seen in this
      round with its cut, and the lowest memory-fitting latency seen so far
      in the search with its cut. */
  datatype Scan = Scan(bestLat: Ext, bestCut: Option<nat>, feasLat: Ext, feasCut: Option<nat>)

  /** The `for c in range(1, cp_len)` loop of one round, from position `c`
      on, over the latencies `lats` and memory verdicts `fits` of the free
      positions.  The round's pick moves on a strictly lower latency, so it
      is the first cut of lowest latency; so does the memory-fitting
      minimum. */
  function ScanRound(cuts: set<nat>, lats: seq<int>, fits: seq<bool>, c: nat, acc: Scan): (r: Scan)
    requires |fits| == |lats| && 1 <= c
    decreases |lats| - c
  {
    if c >= |lats| then acc
    else if c in cuts then ScanRound(cuts, lats, fits, c + 1, acc)
    else ScanRound(cuts, lats, fits, c + 1, ScanStep(lats[c], fits[c], c, acc))
  }

  /** Examine the split with one more cut at `c`. */
  function ScanStep(lat: int, fits: bool, c: nat, acc: Scan): Scan {
    var acc1 := if Fin(lat).Lt(acc.bestLat) then acc.(bestLat := Fin(lat), bestCut := Some(c)) else acc;
    if fits && Fin(lat).Lt(acc1.feasLat) then acc1.(feasLat := Fin(lat), feasCut := Some(c)) else acc1
  }

  /** The round's pick is the first free cut of lowest latency, or the
      incoming pick when no free cut beats it. */
  lemma {:induction false} ScanPick(cuts: set<nat>, lats: seq<int>, fits: seq<bool>, c: nat, acc: Scan)
    requires |fits| == |lats| && 1 <= c
    ensures var r := ScanRound(cuts, lats, fits, c, acc);
            || (r.bestLat == acc.bestLat && r.bestCut == acc.bestCut)
            || (&& r.bestCut.Some? && c <= r.bestCut.value && Free(|lats|, cuts, r.bestCut.value)
                && r.bestLat == Fin(lats[r.bestCut.value]) && r.bestLat.Lt(acc.bestLat)
                && forall x :: c <= x < r.bestCut.value && Free(|lats|, cuts, x) ==> r.bestLat.Lt(Fin(lats[x])))
    decreases |lats| - c
  {
    if c < |lats| {
      if c in cuts {
        ScanPick(cuts, lats, fits, c + 1, acc);
      } else {
        ScanPick(cuts, lats, fits, c + 1, ScanStep(lats[c], fits[c], c, acc));
      }
    }
  }

  /** No free cut from `c` on has a latency below the round's pick. */
  lemma {:induction false} ScanPickLowest(cuts: set<nat>, lats: seq<int>, fits: seq<bool>, c: nat, acc: Scan)
    requires |fits| == |lats| && 1 <= c
    ensures var r := ScanRound(cuts, lats, fits, c, acc);
            forall x :: c <= x && Free(|lats|, cuts, x) ==> r.bestLat.Le(Fin(lats[x]))
    decreases |lats| - c
  {
    if c < |lats| {
      if c in cuts {
        ScanPickLowest(cuts, lats, fits, c + 1, acc);
      } else {
        ScanPickLowest(cuts, lats, fits, c + 1, ScanStep(lats[c], fits[c], c, acc));
        ScanPick(cuts, lats, fits, c + 1, ScanStep(lats[c], fits[c], c, acc));
      }
    }
  }

  /** The memory-fitting minimum either stays or moves to a free cut that
      fits the memory limit, at a strictly lower latency. */
  lemma {:induction false} ScanFeasible(cuts: set<nat>, lats: seq<int>, fits: seq<bool>, c: nat, acc: Scan)
    requires |fits| == |lats| && 1 <= c
    ensures var r := ScanRound(cuts, lats, fits, c, acc);
            || (r.feasLat == acc.feasLat && r.feasCut == acc.feasCut)
            || (&& r.feasCut.Some? && Free(|lats|, cuts, r.feasCut.value)
                && r.feasLat == Fin(lats[r.feasCut.value]) && fits[r.feasCut.value]
                && r.feasLat.Lt(acc.feasLat))
    decreases |lats| - c
  {
    if c < |lats| {
      if c in cuts {
        ScanFeasible(cuts, lats, fits, c + 1, acc);
      } else {
        ScanFeasible(cuts, lats, fits, c + 1, ScanStep(lats[c], fits[c], c, acc));
      }
    }
  }

  /** No memory-fitting free cut from `c` on has a latency below the
      memory-fitting minimum. */
  lemma {:induction false} ScanFeasibleLowest(cuts: set<nat>, lats: seq<int>, fits: seq<bool>, c: nat, acc: Scan)
    requires |fits| == |lats| && 1 <= c
    ensures var r := ScanRound(cuts, lats, fits, c, acc);
            forall x :: c <= x && Free(|lats|, cuts, x) && fits[x] ==> r.feasLat.Le(Fin(lats[x]))
    decreases |lats| - c
  {
    if c < |lats| {
      if c in cuts {
        ScanFeasibleLowest(cuts, lats, fits, c + 1, acc);
      } else {
        ScanFeasibleLowest(cuts, lats, fits, c + 1, ScanStep(lats[c], fits[c], c, acc));
        ScanFeasible(cuts, lats, fits, c + 1, ScanStep(lats[c], fits[c], c, acc));
      }
    }
  }

  /** One round on top of `cuts`, the memory-fitting minimum carried in as
      `(fl, fc)`. */
  function Round(s: Search, cuts: set<nat>, fl: Ext, fc: Option<nat>): Scan
    requires ValidCuts(s, cuts)
  {
    ScanRound(cuts, RoundLats(s, cuts), RoundFits(s, cuts), 1, Scan(Inf, None, fl, fc))
  }

  /** A round picks the first free cut of lowest split latency, and none
      exactly when every position is already cut. */
  lemma RoundPick(s: Search, cuts: set<nat>, fl: Ext, fc: Option<nat>)
    requires ValidCuts(s, cuts)
    ensures var r := Round(s, cuts, fl, fc);
            && (r.bestCut.None? <==> forall x: nat :: !Free(|s.cpath|, cuts, x))
            && (r.bestCut.Some? ==>
                  && Free(|s.cpath|, cuts, r.bestCut.value)
                  && r.bestLat == Fin(CutLat(s, cuts, r.bestCut.value))
                  && (forall x: nat :: Free(|s.cpath|, cuts, x) ==> CutLat(s, cuts, r.bestCut.value) <= CutLat(s, cuts, x))
                  && (forall x: nat :: x < r.bestCut.value && Free(|s.cpath|, cuts, x) ==>
                                       CutLat(s, cuts, r.bestCut.value) < CutLat(s, cuts, x)))
  {
    var lats, fits := RoundLats(s, cuts), RoundFits(s, cuts);
    ScanFirstLowest(cuts, lats, fits, fl, fc);
  }

  /** A full scan started without a pick picks the first free position of
      lowest latency, and none exactly when no position is free. */
  lemma ScanFirstLowest(cuts: set<nat>, lats: seq<int>, fits: seq<bool>, fl: Ext, fc: Option<nat>)
    requires |fits| == |lats|
    ensures var r := ScanRound(cuts, lats, fits, 1, Scan(Inf, None, fl, fc));
            && (r.bestCut.None? <==> forall x: nat :: !Free(|lats|, cuts, x))
            && (r.bestCut.Some? ==>
                  && Free(|lats|, cuts, r.bestCut.value)
                  && r.bestLat == Fin(lats[r.bestCut.value])
                  && (forall x: nat :: Free(|lats|, cuts, x) ==> lats[r.bestCut.value] <= lats[x])
                  && (forall x: nat :: x < r.bestCut.value && Free(|lats|, cuts, x) ==> lats[r.bestCut.value] < lats[x]))
  {
    var acc := Scan(Inf, None, fl, fc);
    var r := ScanRound(cuts, lats, fits, 1, acc);
    ScanPick(cuts, lats, fits, 1, acc);
    ScanPickLowest(cuts, lats, fits, 1, acc);
    assert r.bestCut.None? ==> r.bestLat == Inf;
  }

  /** The memory-fitting minimum of a round stays, or moves to a free cut
      whose split fits the memory limit at a strictly lower latency; either
      way it ends no higher than any memory-fitting split of the round. */
  lemma RoundFeasible(s: Search, cuts: set<nat>, fl: Ext, fc: Option<nat>)
    requires ValidCuts(s, cuts)
    ensures var r := Round(s, cuts, fl, fc);
            || (r.feasLat == fl && r.feasCut == fc)
            || (&& r.feasCut.Some? && Free(|s.cpath|, cuts, r.feasCut.value)
                && r.feasLat == Fin(CutLat(s, cuts, r.feasCut.value)) && CutFits(s, cuts, r.feasCut.value)
                && r.feasLat.Lt(fl))
    ensures var r := Round(s, cuts, fl, fc);
            forall x: nat :: Free(|s.cpath|, cuts, x) && CutFits(s, cuts, x) ==> r.feasLat.Le(Fin(CutLat(s, cuts, x)))
  {
    var lats, fits := RoundLats(s, cuts), RoundFits(s, cuts);
    var acc := Scan(Inf, None, fl, fc);
    ScanFeasible(cuts, lats, fits, 1, acc);
    ScanFeasibleLowest(cuts, lats, fits, 1, acc);
  }

  /** How the search ends: with the cuts found, with every position tried,
      or with the `TypeError` of indexing the path with `None`. */
  datatype Outcome = Found(cuts: set<nat>) | Exhausted | Crash

  /** The `while True` loop: run a round; stop on a memory-fitting split
      within the latency limit, give up when no position is left, and
      otherwise keep the round's pick as a cut.  With `checkCut` false the
      stop test is the library's `best_feasible_lat <= L`, which also passes
      when `L` is unbounded and no memory-fitting split was ever seen; with
      `checkCut` true it also demands that such a split exists. */
  function Rounds(s: Search, checkCut: bool, cuts: set<nat>, fl: Ext, fc: Option<nat>): Outcome
    requires ValidCuts(s, cuts)
    requires fc.Some? ==> 1 <= fc.value < |s.cpath|
    decreases |AllCuts(|s.cpath|) - cuts|
  {
    var r := Round(s, cuts, fl, fc);
    RoundNext(s, cuts, fl, fc);
    if (!checkCut || r.feasCut.Some?) && r.feasLat.Le(s.L) then
      if r.feasCut.None? then Crash else Found(cuts + {r.feasCut.value})
    else if r.bestCut.None? then Exhausted
    else
      var v := r.bestCut.value;
      FewerFree(AllCuts(|s.cpath|), cuts, v);
      Rounds(s, checkCut, cuts + {v}, r.feasLat, r.feasCut)
  }

  /** What the next round needs of this one: its pick is a free position,
      and its memory-fitting minimum is a position of the path, or absent
      with `Inf` when it came in absent. */
  lemma RoundNext(s: Search, cuts: set<nat>, fl: Ext, fc: Option<nat>)
    requires ValidCuts(s, cuts)
    ensures Round(s, cuts, fl, fc).bestCut.Some? ==>
              Round(s, cuts, fl, fc).bestCut.value in AllCuts(|s.cpath|) - cuts
    ensures (fc.Some? ==> 1 <= fc.value < |s.cpath|) && Round(s, cuts, fl, fc).feasCut.Some? ==>
              1 <= Round(s, cuts, fl, fc).feasCut.value < |s.cpath|
    ensures (fc.None? ==> fl == Inf) && Round(s, cuts, fl, fc).feasCut.None? ==>
              Round(s, cuts, fl, fc).feasLat == Inf
  {
    RoundPick(s, cuts, fl, fc);
    RoundFeasible(s, cuts, fl, fc);
  }

  /** Cutting one more free position leaves fewer free positions. */
  lemma FewerFree(all: set<nat>, cuts: set<nat>, v: nat)
    requires v in all && v !in cuts
    ensures |all - (cuts + {v})| < |all - cuts|
  {
    assert all - (cuts + {v}) == (all - cuts) - {v};
  }

  /** The carried memory-fitting minimum is either absent (`Inf`) or a
      position whose split missed the latency limit. */
  predicate CarryOk(s: Search, fl: Ext, fc: Option<nat>) {
    && (fc.None? ==> fl == Inf)
    && (fc.Some? ==> 1 <= fc.value < |s.cpath| && fl.Fin? && !fl.Le(s.L))
  }

  /** A round that neither stops nor gives up passes on a valid carry. */
  lemma CarryStep(s: Search, cuts: set<nat>, fl: Ext, fc: Option<nat>)
    requires ValidCuts(s, cuts) && CarryOk(s, fl, fc)
    ensures var r := Round(s, cuts, fl, fc);
            !(r.feasCut.Some? && r.feasLat.Le(s.L)) ==> CarryOk(s, r.feasLat, r.feasCut)
  {
    RoundFeasible(s, cuts, fl, fc);
  }

  /** With the corrected stop test the search never crashes. */
  lemma {:induction false} RoundsNoCrash(s: Search, cuts: set<nat>, fl: Ext, fc: Option<nat>)
    requires ValidCuts(s, cuts)
    requires fc.Some? ==> 1 <= fc.value < |s.cpath|
    ensures Rounds(s, true, cuts, fl, fc) != Crash
    decreases |AllCuts(|s.cpath|) - cuts|
  {
    var r := Round(s, cuts, fl, fc);
    RoundNext(s, cuts, fl, fc);
    if !(r.feasCut.Some? && r.feasLat.Le(s.L)) && r.bestCut.Some? {
      var v := r.bestCut.value;
      FewerFree(AllCuts(|s.cpath|), cuts, v);
      RoundsNoCrash(s, cuts + {v}, r.feasLat, r.feasCut);
      assert Rounds(s, true, cuts, fl, fc) == Rounds(s, true, cuts + {v}, r.feasLat, r.feasCut);
    }
  }

  /** The split a round proposes meets both limits when its memory verdict
      and latency do. */
  lemma CutFeasible(s: Search, cuts: set<nat>, v: nat)
    requires ValidCuts(s, cuts) && Free(|s.cpath|, cuts, v)
    requires CutFits(s, cuts, v) && Within(CutLat(s, cuts, v), s.L)
    ensures ValidCuts(s, cuts + {v}) && Feasible(s, cuts + {v})
  {
  }

  /** The cuts the corrected search finds extend the ones it started from
      and meet both the memory and the latency limit. */
  lemma {:induction false} RoundsFound(s: Search, cuts: set<nat>, fl: Ext, fc: Option<nat>)
    requires ValidCuts(s, cuts) && CarryOk(s, fl, fc)
    ensures var o := Rounds(s, true, cuts, fl, fc);
            o.Found? ==> ValidCuts(s, o.cuts) && cuts <= o.cuts && Feasible(s, o.cuts)
    decreases |AllCuts(|s.cpath|) - cuts|
  {
    var r := Round(s, cuts, fl, fc);
    RoundNext(s, cuts, fl, fc);
    if r.feasCut.Some? && r.feasLat.Le(s.L) {
      var v := r.feasCut.value;
      assert Free(|s.cpath|, cuts, v) && CutFits(s, cuts, v) && Within(CutLat(s, cuts, v), s.L) by {
        RoundFeasible(s, cuts, fl, fc);
      }
      assert ValidCuts(s, cuts + {v}) && Feasible(s, cuts + {v}) by {
        CutFeasible(s, cuts, v);
      }
      assert Rounds(s, true, cuts, fl, fc) == Found(cuts + {v}) by {
        RoundFeasible(s, cuts, fl, fc);
      }
    } else if r.bestCut.Some? {
      var v := r.bestCut.value;
      FewerFree(AllCuts(|s.cpath|), cuts, v);
      CarryStep(s, cuts, fl, fc);
      RoundsFound(s, cuts + {v}, r.feasLat, r.feasCut);
      assert Rounds(s, true, cuts, fl, fc) == Rounds(s, true, cuts + {v}, r.feasLat, r.feasCut) by {
        RoundFeasible(s, cuts, fl, fc);
      }
    }
  }

  /** Once every position is cut, the carried minimum is no higher than the
      fully cut split, if that fits the memory limit. */
  ghost predicate FullSeen(s: Search, cuts: set<nat>, fl: Ext)
    requires ValidCuts(s, cuts)
  {
    |s.cpath| >= 2 && cuts == AllCuts(|s.cpath|) && SplitFits(s, cuts) ==> fl.Le(Fin(SplitLat(s, cuts)))
  }

  /** The corrected search gives up only when the fully cut path misses
      the memory or the latency limit. */
  lemma {:induction false} RoundsExhausted(s: Search, cuts: set<nat>, fl: Ext, fc: Option<nat>)
    requires ValidCuts(s, cuts) && CarryOk(s, fl, fc) && FullSeen(s, cuts, fl)
    ensures Rounds(s, true, cuts, fl, fc).Exhausted? && |s.cpath| >= 2 ==>
              ValidCuts(s, AllCuts(|s.cpath|)) && !Feasible(s, AllCuts(|s.cpath|))
    decreases |AllCuts(|s.cpath|) - cuts|
  {
    var r := Round(s, cuts, fl, fc);
    if !(r.feasCut.Some? && r.feasLat.Le(s.L)) {
      if r.bestCut.None? {
        GiveUpAllCut(s, cuts, fl, fc);
      } else {
        var v := r.bestCut.value;
        assert v in AllCuts(|s.cpath|) - cuts && FullSeen(s, cuts + {v}, r.feasLat) && CarryOk(s, r.feasLat, r.feasCut) by {
          NextSeen(s, cuts, fl, fc);
        }
        FewerFree(AllCuts(|s.cpath|), cuts, v);
        RoundsExhausted(s, cuts + {v}, r.feasLat, r.feasCut);
        assert Rounds(s, true, cuts, fl, fc) == Rounds(s, true, cuts + {v}, r.feasLat, r.feasCut);
      }
    }
  }

  /** A round that finds no free position runs on the fully cut path, which
      then misses a limit unless the round stopped. */
  lemma GiveUpAllCut(s: Search, cuts: set<nat>, fl: Ext, fc: Option<nat>)
    requires ValidCuts(s, cuts) && CarryOk(s, fl, fc) && FullSeen(s, cuts, fl)
    requires Round(s, cuts, fl, fc).bestCut.None?
    requires !(Round(s, cuts, fl, fc).feasCut.Some? && Round(s, cuts, fl, fc).feasLat.Le(s.L))
    ensures |s.cpath| >= 2 ==> cuts == AllCuts(|s.cpath|) && !Feasible(s, cuts)
  {
    var n := |s.cpath|;
    var r := Round(s, cuts, fl, fc);
    RoundPick(s, cuts, fl, fc);
    RoundFeasible(s, cuts, fl, fc);
    assert cuts == AllCuts(n) by {
      forall x: nat | x in AllCuts(n) ensures x in cuts {
        assert !Free(n, cuts, x);
      }
    }
    if n >= 2 && Feasible(s, cuts) {
      LeIsTotalPreorder(r.feasLat, fl, Fin(SplitLat(s, cuts)));
      LeIsTotalPreorder(r.feasLat, Fin(SplitLat(s, cuts)), s.L);
    }
  }

  /** A round that neither stops nor gives up hands the next round a valid
      carry that has seen the fully cut path, if its pick completes it. */
  lemma NextSeen(s: Search, cuts: set<nat>, fl: Ext, fc: Option<nat>)
    requires ValidCuts(s, cuts) && CarryOk(s, fl, fc)
    requires Round(s, cuts, fl, fc).bestCut.Some?
    requires !(Round(s, cuts, fl, fc).feasCut.Some? && Round(s, cuts, fl, fc).feasLat.Le(s.L))
    ensures var r := Round(s, cuts, fl, fc);
            && r.bestCut.value in AllCuts(|s.cpath|) - cuts
            && FullSeen(s, cuts + {r.bestCut.value}, r.feasLat) && CarryOk(s, r.feasLat, r.feasCut)
  {
    var n := |s.cpath|;
    var r := Round(s, cuts, fl, fc);
    RoundPick(s, cuts, fl, fc);
    RoundFeasible(s, cuts, fl, fc);
    CarryStep(s, cuts, fl, fc);
    var v := r.bestCut.value;
    if n >= 2 && cuts + {v} == AllCuts(n) && SplitFits(s, cuts + {v}) {
      assert CutFits(s, cuts, v);
    }
  }

  /** `get_feasible_cpath_split` as cut positions, with the corrected stop
      test: the single block when it meets both limits, else the greedy
      rounds.  Whatever it returns meets both limits, and it gives up only
      when neither the single block nor the fully cut path does. */
  function CpathCuts(s: Search): (r: Option<set<nat>>)
    requires |s.cpath| > 0
    ensures r.Some? ==> ValidCuts(s, r.value) && Feasible(s, r.value)
    ensures Feasible(s, {}) ==> r == Some({})
    ensures r.None? ==> !Feasible(s, {}) && ValidCuts(s, AllCuts(|s.cpath|)) && !Feasible(s, AllCuts(|s.cpath|))
  {
    if Feasible(s, {}) then Some({})
    else
      var n := |s.cpath|;
      assert FullSeen(s, {}, Inf) by {
        if n >= 2 {
          assert 1 in AllCuts(n);
        }
      }
      assert n == 1 ==> AllCuts(n) == {};
      RoundsNoCrash(s, {}, Inf, None);
      RoundsFound(s, {}, Inf, None);
      RoundsExhausted(s, {}, Inf, None);
      match Rounds(s, true, {}, Inf, None)
      case Found(c) => Some(c)
      case _ => None
  }

  /** The search as the library writes it: its stop test
      `best_feasible_lat <= L` does not check that a memory-fitting split
      was ever seen. */
  function CpathCutsAsWritten(s: Search): Outcome
    requires |s.cpath| > 0
  {
    if Feasible(s, {}) then Found({}) else Rounds(s, false, {}, Inf, None)
  }

  /** The two stop tests differ only when the carried minimum is `Inf` and
      still within the limit, which a bounded limit rules out. */
  lemma {:induction false} RoundsGuardAgree(s: Search, cuts: set<nat>, fl: Ext, fc: Option<nat>)
    requires ValidCuts(s, cuts) && s.L.Fin?
    requires fc.Some? ==> 1 <= fc.value < |s.cpath|
    requires fc.None? ==> fl == Inf
    ensures Rounds(s, false, cuts, fl, fc) == Rounds(s, true, cuts, fl, fc)
    decreases |AllCuts(|s.cpath|) - cuts|
  {
    var r := Round(s, cuts, fl, fc);
    RoundNext(s, cuts, fl, fc);
    if r.feasLat.Le(s.L) {
      assert r.feasCut.Some?;
      assert Rounds(s, false, cuts, fl, fc) == Found(cuts + {r.feasCut.value});
      assert Rounds(s, true, cuts, fl, fc) == Found(cuts + {r.feasCut.value});
    } else if r.bestCut.None? {
      assert Rounds(s, false, cuts, fl, fc) == Exhausted;
      assert Rounds(s, true, cuts, fl, fc) == Exhausted;
    } else {
      var v := r.bestCut.value;
      FewerFree(AllCuts(|s.cpath|), cuts, v);
      RoundsGuardAgree(s, cuts + {v}, r.feasLat, r.feasCut);
      assert Rounds(s, false, cuts, fl, fc) == Rounds(s, false, cuts + {v}, r.feasLat, r.feasCut);
      assert Rounds(s, true, cuts, fl, fc) == Rounds(s, true, cuts + {v}, r.feasLat, r.feasCut);
    }
  }

  /** Under a bounded latency limit the library's search and the corrected
      one agree. */
  lemma AsWrittenAgrees(s: Search)
    requires |s.cpath| > 0 && s.L.Fin?
    ensures CpathCutsAsWritten(s) == (if CpathCuts(s).Some? then Found(CpathCuts(s).value) else Exhausted)
  {
    if !Feasible(s, {}) {
      RoundsGuardAgree(s, {}, Inf, None);
      RoundsNoCrash(s, {}, Inf, None);
    }
  }

  /** With the default unbounded latency limit, a path whose single block
      and whose every one-cut split exceed the memory limit makes the
      library's search index the path with `None`, where the corrected
      search keeps cutting (and gives up only if no split ever fits). */
  lemma AsWrittenCrashes(s: Search)
    requires |s.cpath| > 0 && s.L == Inf
    requires !SplitFits(s, {})
    requires forall x: nat :: Free(|s.cpath|, {}, x) ==> !CutFits(s, {}, x)
    ensures CpathCutsAsWritten(s) == Crash
  {
    RoundFeasible(s, {}, Inf, None);
    var r := Round(s, {}, Inf, None);
    assert r.feasCut == None && r.feasLat == Inf;
  }

  /** The smallest input of the crash: a one-node path whose node alone
      exceeds the memory limit, under the default unbounded latency. */
  lemma OneNodeCrash(s: Search)
    requires |s.cpath| == 1 && s.L == Inf
    requires !Within(s.mem(s.cpath[0], {s.cpath[0]}), s.M)
    ensures CpathCutsAsWritten(s) == Crash
    ensures CpathCuts(s) == None
  {
    var b := Bounds(s, {});
    assert Ascending({}) == [];
    assert b == [0, 1];
    assert Elems(s.cpath[0..1]) == {s.cpath[0]};
    assert !BlockFits(s, b, 0);
    AsWrittenCrashes(s);
  }

  /** The barrier nodes `{root, *(cpath[c] for c in cuts)}`. */
  function Barriers(s: Search, cuts: set<nat>): (r: set<Node>)
    requires ValidCuts(s, cuts)
    ensures s.cpath[0] in r && r <= Elems(s.cpath)
    ensures forall c :: c in cuts ==> s.cpath[c] in r
  {
    {s.cpath[0]} + set c | c in cuts :: s.cpath[c]
  }

  /** `get_feasible_cpath_split`: the barrier nodes of a split of the
      critical path meeting both limits, the root alone when the whole path
      does, nothing when neither the single block nor the fully cut path
      does. */
  function FeasibleCpathSplit(s: Search): (r: Option<set<Node>>)
    requires |s.cpath| > 0
    ensures r.Some? ==> exists cuts :: ValidCuts(s, cuts) && Feasible(s, cuts) && r.value == Barriers(s, cuts)
    ensures Feasible(s, {}) ==> r == Some({s.cpath[0]})
    ensures r.None? ==> !Feasible(s, {}) && ValidCuts(s, AllCuts(|s.cpath|)) && !Feasible(s, AllCuts(|s.cpath|))
  {
    assert Barriers(s, {}) == {s.cpath[0]};
    match CpathCuts(s)
    case None => None
    case Some(cuts) =>
      assert ValidCuts(s, cuts) && Feasible(s, cuts);
      Some(Barriers(s, cuts))
  }
}

=== FILE: greedy.dfy ===
/** The greedy heuristics (`slambuc/alg/ext/greedy.py`).

    A block grows from its root by repeatedly merging the heaviest edge
    leaving it (weight `rate * data`, infinite on the critical path so that
    critical-path nodes are merged first) until the block's memory would
    exceed `M`; a breadth-first walk restarts the growth at every node the
    block left outside, which partitions the whole tree.  A separate greedy
    search picks cuts on the critical path until the blocks it forms meet
    both the memory and the latency limit.

    The block memory (`par_subtree_memory`) and the chain latency
    (`par_subchain_latency`) are library helpers outside this model; they
    are parameters here. */
module Greedy {
  import opened Base
  import opened CallTree
  import opened Lex
  import opened Blocks
  import opened CpathSplit

  /** A heap entry `(-weight, node)` of the neighbour heap. */
  datatype Entry = Entry(w: Ext, v: Node)

  /** The weight of the edge into `v`: infinite for a critical-path node,
      otherwise its data volume `rate * data`. */
  function Weight(t: Tree, cpSet: set<Node>, v: Node): Ext {
    if v in cpSet then Inf else Fin(Rate(t, v) * Data(t, v))
  }

  /** `heapq` pops `a` no later than `b`: the heavier edge first, ties by
      the smaller node id. */
  predicate PopsFirst(a: Entry, b: Entry) {
    b.w.Lt(a.w) || (a.w == b.w && a.v <= b.v)
  }

  /** The nodes held by a heap. */
  function Nodes(h: seq<Entry>): set<Node> {
    set i | 0 <= i < |h| :: h[i].v
  }

  /** The position of the entry `heappop` returns. */
  function PopIndex(h: seq<Entry>): (i: nat)
    requires |h| > 0
    ensures i < |h|
    ensures forall j :: 0 <= j < |h| ==> PopsFirst(h[i], h[j])
    ensures forall j :: 0 <= j < |h| && h[j].w == Inf ==> h[i].w == Inf
    decreases |h|
  {
    if |h| == 1 then 0
    else
      var k := PopIndex(h[1..]) + 1;
      assert forall j :: 1 <= j < |h| ==> PopsFirst(h[k], h[j]) by {
        forall j | 1 <= j < |h| ensures PopsFirst(h[k], h[j]) {
          assert h[1..][j - 1] == h[j];
        }
      }
      if PopsFirst(h[0], h[k]) then
        assert forall j :: 0 <= j < |h| ==> PopsFirst(h[0], h[j]) by {
          forall j | 0 <= j < |h| ensures PopsFirst(h[0], h[j]) {
            LeIsTotalPreorder(h[j].w, h[k].w, h[0].w);
          }
        }
        0
      else
        assert PopsFirst(h[k], h[0]) by {
          LeIsTotalPreorder(h[0].w, h[k].w, h[0].w);
        }
        k
  }

  /** `add_neighbours`: the heap entries of the children `cs` of a node,
      leaving out the mandatory cuts. */
  function Push(t: Tree, cpSet: set<Node>, cpCuts: set<Node>, cs: seq<Node>): (r: seq<Entry>)
    ensures forall x :: x in Nodes(r) <==> x in cs && x !in cpCuts
    ensures forall k :: 0 <= k < |r| ==> r[k].w == Weight(t, cpSet, r[k].v)
    ensures Distinct(cs) ==> forall i, j :: 0 <= i < j < |r| ==> r[i].v != r[j].v
    decreases |cs|
  {
    if |cs| == 0 then []
    else
      var tl := Push(t, cpSet, cpCuts, cs[1..]);
      assert forall x :: x in cs <==> x == cs[0] || x in cs[1..];
      if cs[0] in cpCuts then tl
      else
        var e := Entry(Weight(t, cpSet, cs[0]), cs[0]);
        assert Distinct(cs) ==> cs[0] !in Nodes(tl) by {
          if Distinct(cs) {
            forall k | 0 <= k < |cs| - 1 ensures cs[1..][k] != cs[0] {
              assert cs[1..][k] == cs[k + 1];
            }
          }
        }
        ConsEntry(e, tl);
        [e] + tl
  }

  /** Putting an entry in front adds its node, and keeps the nodes distinct
      when it is new. */
  lemma ConsEntry(e: Entry, tl: seq<Entry>)
    ensures Nodes([e] + tl) == {e.v} + Nodes(tl)
    ensures e.v !in Nodes(tl) && (forall i, j :: 0 <= i < j < |tl| ==> tl[i].v != tl[j].v) ==>
              forall i, j :: 0 <= i < j < |[e] + tl| ==> ([e] + tl)[i].v != ([e] + tl)[j].v
  {
    var r := [e] + tl;
    forall x | x in Nodes(r) ensures x in {e.v} + Nodes(tl) {
      var k :| 0 <= k < |r| && r[k].v == x;
      if k > 0 {
        assert tl[k - 1].v == x;
      }
    }
    forall x | x in Nodes(tl) ensures x in Nodes(r) {
      var k :| 0 <= k < |tl| && tl[k].v == x;
      assert r[k + 1].v == x;
    }
    assert r[0].v == e.v;
    if e.v !in Nodes(tl) {
      forall j | 1 <= j < |r| ensures r[j].v != e.v {
        assert r[j].v == tl[j - 1].v;
      }
    }
  }

  /** A node that may still join the block: a child of a block node, outside
      the block and not a mandatory cut. */
  ghost predicate Candidate(t: Tree, blk: set<Node>, cpCuts: set<Node>, x: Node) {
    x in t.nodes && x !in blk && Parent(t, x) in blk && x !in cpCuts
  }

  /** Every heap entry is a candidate carrying its weight. */
  ghost predicate HeapSound(t: Tree, cpSet: set<Node>, cpCuts: set<Node>, blk: set<Node>, h: seq<Entry>) {
    forall i :: 0 <= i < |h| ==> Candidate(t, blk, cpCuts, h[i].v) && h[i].w == Weight(t, cpSet, h[i].v)
  }

  /** No node is queued twice. */
  predicate HeapDistinct(h: seq<Entry>) {
    forall i, j :: 0 <= i < j < |h| ==> h[i].v != h[j].v
  }

  /** What holds between two steps of the block growth: the block is headed
      by `root`, holds no mandatory cut below its root and fits `M` unless it
      is the root alone, and the heap holds exactly the candidates, once
      each, with their weights. */
  ghost predicate GrowInv(t: Tree, root: Node, M: Ext, mem: (Node, set<Node>) -> int, cpSet: set<Node>,
                          cpCuts: set<Node>, blk: set<Node>, h: seq<Entry>) {
    && Headed(t, root, blk)
    && (forall v :: v in blk && v != root ==> v !in cpCuts)
    && (blk == {root} || Within(mem(root, blk), M))
    && HeapSound(t, cpSet, cpCuts, blk, h)
    && HeapDistinct(h)
    && (forall x :: Candidate(t, blk, cpCuts, x) ==> x in Nodes(h))
  }

  /** The heap after `heappop` took its `i`-th entry. */
  function Remove(h: seq<Entry>, i: nat): (r: seq<Entry>)
    requires i < |h|
    ensures |r| == |h| - 1
    ensures forall j :: 0 <= j < |r| ==> r[j] == if j < i then h[j] else h[j + 1]
    ensures HeapDistinct(h) ==> HeapDistinct(r) && Nodes(r) == Nodes(h) - {h[i].v}
  {
    var r := h[..i] + h[i + 1..];
    assert forall j :: 0 <= j < |r| ==> r[j] == if j < i then h[j] else h[j + 1];
    assert HeapDistinct(h) ==> Nodes(r) == Nodes(h) - {h[i].v} by {
      if HeapDistinct(h) {
        forall x | x in Nodes(h) - {h[i].v} ensures x in Nodes(r) {
          var j :| 0 <= j < |h| && h[j].v == x;
          if j < i {
            assert r[j] == h[j];
          } else {
            assert r[j - 1] == h[j];
          }
        }
      }
    }
    r
  }

  /** Two duplicate-free heaps with no node in common append to a
      duplicate-free heap holding the nodes of both. */
  lemma AppendHeaps(a: seq<Entry>, b: seq<Entry>)
    requires HeapDistinct(a) && HeapDistinct(b) && Nodes(a) !! Nodes(b)
    ensures HeapDistinct(a + b) && Nodes(a + b) == Nodes(a) + Nodes(b)
  {
    var ab := a + b;
    forall i, j | 0 <= i < j < |ab| ensures ab[i].v != ab[j].v {
      if i < |a| && j >= |a| {
        assert ab[i].v in Nodes(a) && ab[j] == b[j - |a|] && ab[j].v in Nodes(b);
      } else if i >= |a| {
        assert ab[i] == b[i - |a|] && ab[j] == b[j - |a|];
      }
    }
    forall x | x in Nodes(a) + Nodes(b) ensures x in Nodes(ab) {
      if x in Nodes(a) {
        var k :| 0 <= k < |a| && a[k].v == x;
        assert ab[k] == a[k];
      } else {
        var k :| 0 <= k < |b| && b[k].v == x;
        assert ab[|a| + k] == b[k];
      }
    }
  }

  /** The children of a just-merged candidate `v` are candidates of the
      grown block and are not in the heap yet. */
  lemma ChildrenFresh(t: Tree, root: Node, blk: set<Node>, cpCuts: set<Node>, h: seq<Entry>, v: Node, c: Node)
    requires WellFormed(t) && Headed(t, root, blk)
    requires forall j :: 0 <= j < |h| ==> Parent(t, h[j].v) in blk
    requires Candidate(t, blk, cpCuts, v)
    requires c in Children(t, v) && c !in cpCuts
    ensures Candidate(t, blk + {v}, cpCuts, c) && c !in Nodes(h)
  {
    assert c in t.nodes && Parent(t, c) == v;
    assert root <= Parent(t, v) < v;
  }

  /** The pushed children of the merged candidate `v` are sound for the
      grown block and new to the heap. */
  lemma PushedSound(t: Tree, root: Node, cpSet: set<Node>, cpCuts: set<Node>, blk: set<Node>, h: seq<Entry>, v: Node)
    requires WellFormed(t) && Headed(t, root, blk) && HeapSound(t, cpSet, cpCuts, blk, h)
    requires Candidate(t, blk, cpCuts, v)
    ensures var p := Push(t, cpSet, cpCuts, Children(t, v));
      HeapSound(t, cpSet, cpCuts, blk + {v}, p) && HeapDistinct(p) && Nodes(h) !! Nodes(p)
  {
    var p := Push(t, cpSet, cpCuts, Children(t, v));
    assert Distinct(Children(t, v));
    forall k | 0 <= k < |p| ensures Candidate(t, blk + {v}, cpCuts, p[k].v) && p[k].v !in Nodes(h) {
      assert p[k].v in Nodes(p);
      ChildrenFresh(t, root, blk, cpCuts, h, v, p[k].v);
    }
    forall x | x in Nodes(p) ensures x !in Nodes(h) {
      var k :| 0 <= k < |p| && p[k].v == x;
    }
  }

  /** Adding a candidate keeps the block headed by its root. */
  lemma HeadedStep(t: Tree, root: Node, cpCuts: set<Node>, blk: set<Node>, v: Node)
    requires WellFormed(t) && Headed(t, root, blk) && Candidate(t, blk, cpCuts, v)
    ensures Headed(t, root, blk + {v})
  {
    assert root <= Parent(t, v) < v;
  }

  /** Every candidate of the grown block is either a child of `v` or was a
      candidate before. */
  lemma CandidatesStep(t: Tree, cpCuts: set<Node>, blk: set<Node>, v: Node, x: Node)
    requires WellFormed(t) && Candidate(t, blk + {v}, cpCuts, x)
    ensures (x in Children(t, v) && x !in cpCuts) || (Candidate(t, blk, cpCuts, x) && x != v)
  {
  }

  /** Merging the popped candidate `h[i]` and pushing its children keeps the
      invariant. */
  lemma GrowStep(t: Tree, root: Node, M: Ext, mem: (Node, set<Node>) -> int, cpSet: set<Node>,
                 cpCuts: set<Node>, blk: set<Node>, h: seq<Entry>, i: nat)
    requires WellFormed(t) && GrowInv(t, root, M, mem, cpSet, cpCuts, blk, h)
    requires i < |h| && Within(mem(root, blk + {h[i].v}), M)
    ensures GrowInv(t, root, M, mem, cpSet, cpCuts, blk + {h[i].v},
                    Remove(h, i) + Push(t, cpSet, cpCuts, Children(t, h[i].v)))
  {
    var v := h[i].v;
    assert Candidate(t, blk, cpCuts, v);
    GrowHeap(t, root, cpSet, cpCuts, blk, h, i);
    HeadedStep(t, root, cpCuts, blk, v);
    var h' := Remove(h, i) + Push(t, cpSet, cpCuts, Children(t, v));
    forall x | Candidate(t, blk + {v}, cpCuts, x) ensures x in Nodes(h') {
      CandidatesStep(t, cpCuts, blk, v, x);
    }
  }

  /** The heap after popping `h[i]` and pushing its children is sound and
      duplicate-free for the grown block, and holds the other entries and
      the pushed children. */
  lemma GrowHeap(t: Tree, root: Node, cpSet: set<Node>, cpCuts: set<Node>, blk: set<Node>, h: seq<Entry>, i: nat)
    requires WellFormed(t) && Headed(t, root, blk) && HeapSound(t, cpSet, cpCuts, blk, h) && HeapDistinct(h)
    requires i < |h|
    ensures var h' := Remove(h, i) + Push(t, cpSet, cpCuts, Children(t, h[i].v));
      && HeapSound(t, cpSet, cpCuts, blk + {h[i].v}, h') && HeapDistinct(h')
      && Nodes(h') == (Nodes(h) - {h[i].v}) + Nodes(Push(t, cpSet, cpCuts, Children(t, h[i].v)))
  {
    var v := h[i].v;
    var rest := Remove(h, i);
    var pushed := Push(t, cpSet, cpCuts, Children(t, v));
    PushedSound(t, root, cpSet, cpCuts, blk, h, v);
    RemoveSound(t, cpSet, cpCuts, blk, h, i);
    AppendHeaps(rest, pushed);
    HeapSoundConcat(t, cpSet, cpCuts, blk + {v}, rest, pushed);
  }

  /** The entries left after popping `h[i]` are candidates of the block
      grown by `h[i]`. */
  lemma RemoveSound(t: Tree, cpSet: set<Node>, cpCuts: set<Node>, blk: set<Node>, h: seq<Entry>, i: nat)
    requires HeapSound(t, cpSet, cpCuts, blk, h) && HeapDistinct(h) && i < |h|
    ensures HeapSound(t, cpSet, cpCuts, blk + {h[i].v}, Remove(h, i))
  {
    var rest := Remove(h, i);
    forall j | 0 <= j < |rest|
      ensures Candidate(t, blk + {h[i].v}, cpCuts, rest[j].v) && rest[j].w == Weight(t, cpSet, rest[j].v)
    {
      var k := if j < i then j else j + 1;
      assert rest[j] == h[k] && k != i;
    }
  }

  /** Two sound heaps append to a sound heap. */
  lemma HeapSoundConcat(t: Tree, cpSet: set<Node>, cpCuts: set<Node>, blk: set<Node>, a: seq<Entry>, b: seq<Entry>)
    requires HeapSound(t, cpSet, cpCuts, blk, a) && HeapSound(t, cpSet, cpCuts, blk, b)
    ensures HeapSound(t, cpSet, cpCuts, blk, a + b)
  {
    forall k | 0 <= k < |a + b| ensures Candidate(t, blk, cpCuts, (a + b)[k].v) && (a + b)[k].w == Weight(t, cpSet, (a + b)[k].v) {
      if k >= |a| {
        assert (a + b)[k] == b[k - |a|];
      }
    }
  }

  /** The block of the root alone with its children queued satisfies the
      invariant. */
  lemma GrowInit(t: Tree, root: Node, M: Ext, mem: (Node, set<Node>) -> int, cpSet: set<Node>, cpCuts: set<Node>)
    requires WellFormed(t) && root in t.nodes
    ensures GrowInv(t, root, M, mem, cpSet, cpCuts, {root}, Push(t, cpSet, cpCuts, Children(t, root)))
  {
    var h := Push(t, cpSet, cpCuts, Children(t, root));
    assert Distinct(Children(t, root));
    forall k | 0 <= k < |h| ensures Candidate(t, {root}, cpCuts, h[k].v) {
      assert h[k].v in Nodes(h);
      assert h[k].v in Children(t, root);
    }
    forall x | Candidate(t, {root}, cpCuts, x) ensures x in Nodes(h) {
      assert x in Children(t, Parent(t, x));
    }
  }

  /** The children of `cs` outside the block, in order. */
  function Outside(cs: seq<Node>, blk: set<Node>): (r: seq<Node>)
    ensures forall x :: x in r <==> x in cs && x !in blk
    ensures Distinct(cs) ==> Distinct(r)
    decreases |cs|
  {
    if |cs| == 0 then []
    else
      var tl := Outside(cs[1..], blk);
      assert forall x :: x in cs <==> x == cs[0] || x in cs[1..];
      assert Distinct(cs) ==> Distinct(cs[1..]) && cs[0] !in cs[1..];
      if cs[0] in blk then tl else [cs[0]] + tl
  }

  /** `[sn for n in ns for sn in tree[n] if sn not in blk]`. */
  function OutNeighbours(t: Tree, ns: seq<Node>, blk: set<Node>): (r: seq<Node>)
    ensures forall x :: x in r <==> x !in blk && exists i :: 0 <= i < |ns| && x in Children(t, ns[i])
    decreases |ns|
  {
    if |ns| == 0 then []
    else
      var hd := Outside(Children(t, ns[0]), blk);
      var tl := OutNeighbours(t, ns[1..], blk);
      assert forall x :: x in hd + tl <==> x !in blk && exists i :: 0 <= i < |ns| && x in Children(t, ns[i]) by {
        forall x ensures x in hd + tl <==> x !in blk && exists i :: 0 <= i < |ns| && x in Children(t, ns[i]) {
          if x !in blk && exists i :: 0 <= i < |ns| && x in Children(t, ns[i]) {
            var i :| 0 <= i < |ns| && x in Children(t, ns[i]);
            if i > 0 {
              assert ns[1..][i - 1] == ns[i];
            }
          }
          if x in tl {
            var i :| 0 <= i < |ns[1..]| && x in Children(t, ns[1..][i]);
            assert ns[1..][i] == ns[i + 1];
          }
        }
      }
      hd + tl
  }

  /** Children of different parents are different nodes, so the out
      neighbours of a duplicate-free node list are duplicate-free. */
  lemma {:induction false} OutNeighboursDistinct(t: Tree, ns: seq<Node>, blk: set<Node>)
    requires WellFormed(t) && Distinct(ns)
    ensures Distinct(OutNeighbours(t, ns, blk))
    ensures forall x :: x in OutNeighbours(t, ns, blk) ==> Parent(t, x) in ns
    decreases |ns|
  {
    if |ns| > 0 {
      var hd := Outside(Children(t, ns[0]), blk);
      var tl := OutNeighbours(t, ns[1..], blk);
      assert Distinct(ns[1..]) && ns[0] !in ns[1..];
      OutNeighboursDistinct(t, ns[1..], blk);
      assert Distinct(Children(t, ns[0]));
      assert OutNeighbours(t, ns, blk) == hd + tl;
      forall x | x in hd ensures Parent(t, x) == ns[0] {
        assert x in Children(t, ns[0]);
      }
      assert forall x :: x in hd ==> x !in tl;
      DistinctConcat(hd, tl);
    }
  }

  /** Two duplicate-free lists without a common element concatenate to a
      duplicate-free list. */
  lemma DistinctConcat<T>(a: seq<T>, b: seq<T>)
    requires Distinct(a) && Distinct(b)
    requires forall x :: x in a ==> x !in b
    ensures Distinct(a + b)
  {
    var r := a + b;
    forall i, j | 0 <= i < j < |r| ensures r[i] != r[j] {
      if i < |a| && j >= |a| {
        assert r[i] in a && r[j] == b[j - |a|];
      } else if i >= |a| {
        assert r[i] == b[i - |a|] && r[j] == b[j - |a|];
      }
    }
  }

  /** The out neighbours of the whole block are exactly the nodes outside it
      whose parent is inside. */
  lemma OutNeighboursExact(t: Tree, blk: set<Node>)
    requires WellFormed(t)
    ensures var succ := OutNeighbours(t, Ascending(blk), blk);
      && Distinct(succ)
      && forall x :: x in succ <==> x in t.nodes && x !in blk && Parent(t, x) in blk
  {
    var order := Ascending(blk);
    var succ := OutNeighbours(t, order, blk);
    assert Distinct(order);
    OutNeighboursDistinct(t, order, blk);
    forall x ensures x in succ <==> x in t.nodes && x !in blk && Parent(t, x) in blk {
      if x in t.nodes && x !in blk && Parent(t, x) in blk {
        assert x in Children(t, Parent(t, x));
        assert Parent(t, x) in order;
        var k :| 0 <= k < |order| && order[k] == Parent(t, x);
      }
      if x in succ {
        var k :| 0 <= k < |order| && x in Children(t, order[k]);
      }
    }
  }

  /** The growth stopped at `stop`: a candidate that would break the memory
      limit and that the heap would pop first. */
  ghost predicate StopOk(t: Tree, root: Node, M: Ext, mem: (Node, set<Node>) -> int, cpSet: set<Node>,
                         cpCuts: set<Node>, blk: set<Node>, h: seq<Entry>, stop: Option<Node>) {
    stop.Some? ==> && Candidate(t, blk, cpCuts, stop.value)
                   && !Within(mem(root, blk + {stop.value}), M)
                   && forall j :: 0 <= j < |h| ==> PopsFirst(Entry(Weight(t, cpSet, stop.value), stop.value), h[j])
  }

  /** When the growth stops, the heap held every candidate, so `succ` either
      holds only mandatory cuts (the heap ran dry) or the stopping candidate
      is the first of them in heap order. */
  lemma GrowEnd(t: Tree, root: Node, M: Ext, mem: (Node, set<Node>) -> int, cpSet: set<Node>, cpCuts: set<Node>,
                blk: set<Node>, h: seq<Entry>, stop: Option<Node>, succ: seq<Node>)
    requires GrowInv(t, root, M, mem, cpSet, cpCuts, blk, h)
    requires forall x :: x in succ <==> x in t.nodes && x !in blk && Parent(t, x) in blk
    requires stop.None? ==> |h| == 0
    requires StopOk(t, root, M, mem, cpSet, cpCuts, blk, h, stop)
    ensures || (forall x :: x in succ ==> x in cpCuts)
            || exists x :: && x in succ && x !in cpCuts && !Within(mem(root, blk + {x}), M)
                           && forall y :: y in succ && y !in cpCuts ==>
                                PopsFirst(Entry(Weight(t, cpSet, x), x), Entry(Weight(t, cpSet, y), y))
  {
    if stop.Some? {
      var x := stop.value;
      assert x in succ;
      forall y | y in succ && y !in cpCuts
        ensures PopsFirst(Entry(Weight(t, cpSet, x), x), Entry(Weight(t, cpSet, y), y))
      {
        assert Candidate(t, blk, cpCuts, y);
        var j :| 0 <= j < |h| && h[j].v == y;
      }
    } else {
      forall y | y in succ ensures y in cpCuts {
        if y !in cpCuts {
          assert Candidate(t, blk, cpCuts, y);
        }
      }
    }
  }

  /** The growth loop of `get_bounded_greedy_block`, from the block `blk`
      and heap `h` on. */
  function Grow(t: Tree, root: Node, M: Ext, mem: (Node, set<Node>) -> int, cpSet: set<Node>, cpCuts: set<Node>,
                blk: set<Node>, h: seq<Entry>): (r: (set<Node>, seq<Entry>, Option<Node>))
    requires WellFormed(t) && GrowInv(t, root, M, mem, cpSet, cpCuts, blk, h)
    ensures GrowInv(t, root, M, mem, cpSet, cpCuts, r.0, r.1)
    ensures StopOk(t, root, M, mem, cpSet, cpCuts, r.0, r.1, r.2)
    ensures r.2.None? ==> |r.1| == 0
    decreases |t.nodes - blk|
  {
    if |h| == 0 then (blk, h, None)
    else
      var i := PopIndex(h);
      var v := h[i].v;
      if !Within(mem(root, blk + {v}), M) then
        StopAt(t, root, M, mem, cpSet, cpCuts, blk, h, i);
        (blk, h, Some(v))
      else
        GrowStep(t, root, M, mem, cpSet, cpCuts, blk, h, i);
        Shrinks(t, cpSet, cpCuts, blk, h, i);
        Grow(t, root, M, mem, cpSet, cpCuts, blk + {v}, Remove(h, i) + Push(t, cpSet, cpCuts, Children(t, v)))
  }

  /** The popped entry that overflows the memory limit is a valid stop. */
  lemma StopAt(t: Tree, root: Node, M: Ext, mem: (Node, set<Node>) -> int, cpSet: set<Node>, cpCuts: set<Node>,
               blk: set<Node>, h: seq<Entry>, i: nat)
    requires GrowInv(t, root, M, mem, cpSet, cpCuts, blk, h)
    requires i < |h| && i == PopIndex(h) && !Within(mem(root, blk + {h[i].v}), M)
    ensures StopOk(t, root, M, mem, cpSet, cpCuts, blk, h, Some(h[i].v))
  {
    assert Candidate(t, blk, cpCuts, h[i].v) && h[i].w == Weight(t, cpSet, h[i].v);
  }

  /** Merging a popped entry leaves fewer nodes outside the block. */
  lemma Shrinks(t: Tree, cpSet: set<Node>, cpCuts: set<Node>, blk: set<Node>, h: seq<Entry>, i: nat)
    requires i < |h| && HeapSound(t, cpSet, cpCuts, blk, h)
    ensures |t.nodes - (blk + {h[i].v})| < |t.nodes - blk|
  {
    var v := h[i].v;
    assert Candidate(t, blk, cpCuts, v);
    assert v in t.nodes - blk;
    assert t.nodes - (blk + {v}) == (t.nodes - blk) - {v};
  }

  /** `get_bounded_greedy_block`: grow a block from `root` by always merging
      the heaviest queued edge, stopping at the first candidate that would
      push the block's memory `mem(root, blk)` over `M`; return the block and
      the nodes it left outside (`succ`).  `cpSet` is the critical path seen
      from `root`, `cpCuts` the edges that must stay cut.  Set iteration over
      the block is ascending. */
  method BoundedGreedyBlock(t: Tree, root: Node, M: Ext, mem: (Node, set<Node>) -> int, cpSet: set<Node>,
                            cpCuts: set<Node>) returns (blk: set<Node>, succ: seq<Node>)
    requires WellFormed(t) && root in t.nodes
    ensures Headed(t, root, blk)
    ensures forall v :: v in blk && v != root ==> v !in cpCuts
    ensures blk == {root} || Within(mem(root, blk), M)
    ensures forall x :: x in succ <==> x in t.nodes && x !in blk && Parent(t, x) in blk
    ensures Distinct(succ)
    ensures || (forall x :: x in succ ==> x in cpCuts)
            || exists x :: && x in succ && x !in cpCuts && !Within(mem(root, blk + {x}), M)
                           && forall y :: y in succ && y !in cpCuts ==>
                                PopsFirst(Entry(Weight(t, cpSet, x), x), Entry(Weight(t, cpSet, y), y))
  {
    GrowInit(t, root, M, mem, cpSet, cpCuts);
    var (b, h, stop) := Grow(t, root, M, mem, cpSet, cpCuts, {root}, Push(t, cpSet, cpCuts, Children(t, root)));
    blk := b;
    succ := OutNeighbours(t, Ascending(blk), blk);
    OutNeighboursExact(t, blk);
    GrowEnd(t, root, M, mem, cpSet, cpCuts, blk, h, stop, succ);
  }

  /** The block and its left-outside nodes as `get_bounded_greedy_block`
      returns them. */
  ghost predicate BlockAndSucc(t: Tree, u: Node, blk: set<Node>, succ: seq<Node>) {
    && Headed(t, u, blk)
    && Distinct(succ)
    && forall x :: x in succ <==> x in t.nodes && x !in blk && Parent(t, x) in blk
  }

  /** A block lies in the subtree of its root. */
  lemma {:induction false} BlockInSubtree(t: Tree, u: Node, blk: set<Node>, v: Node)
    requires WellFormed(t) && Headed(t, u, blk) && v in blk
    ensures IsDesc(t, v, u)
    decreases v
  {
    if v != u {
      BlockInSubtree(t, u, blk, Parent(t, v));
    }
  }

  /** Every ancestor of a block node, up to the block's root, is in the
      block. */
  lemma {:induction false} AncestorInBlock(t: Tree, u: Node, blk: set<Node>, x: Node, a: Node)
    requires WellFormed(t) && Headed(t, u, blk) && x in blk && IsDesc(t, x, a) && IsDesc(t, a, u)
    ensures a in blk
    decreases x
  {
    if x != a {
      if x == u {
        DescBelow(t, x, a);
        DescBelow(t, a, u);
      } else {
        AncestorInBlock(t, u, blk, Parent(t, x), a);
      }
    }
  }

  /** A node left outside the block heads a subtree below `u`. */
  lemma SuccBelow(t: Tree, u: Node, blk: set<Node>, succ: seq<Node>, s: Node)
    requires WellFormed(t) && BlockAndSucc(t, u, blk, succ) && s in succ
    ensures IsDesc(t, s, u) && s != u
  {
    BlockInSubtree(t, u, blk, Parent(t, s));
  }

  /** Every node of `u`'s subtree is in the block or below a left-outside
      node. */
  lemma {:induction false} SubtreeSplit(t: Tree, u: Node, blk: set<Node>, succ: seq<Node>, x: Node)
    requires WellFormed(t) && BlockAndSucc(t, u, blk, succ) && IsDesc(t, x, u)
    ensures x in blk || exists s :: s in succ && IsDesc(t, x, s)
    decreases x
  {
    if x != u {
      var p := Parent(t, x);
      SubtreeSplit(t, u, blk, succ, p);
      if p in blk {
        if x !in blk {
          assert x in succ && IsDesc(t, x, x);
        }
      } else {
        var s :| s in succ && IsDesc(t, p, s);
        assert IsDesc(t, x, s);
      }
    }
  }

  /** The subtrees of the left-outside nodes miss the block and each
      other. */
  lemma SuccSubtreesDisjoint(t: Tree, u: Node, blk: set<Node>, succ: seq<Node>, x: Node)
    requires WellFormed(t) && BlockAndSucc(t, u, blk, succ)
    ensures forall s :: s in succ && IsDesc(t, x, s) ==> x !in blk
    ensures forall s1, s2 :: s1 in succ && s2 in succ && s1 != s2 && IsDesc(t, x, s1) ==> !IsDesc(t, x, s2)
  {
    forall s | s in succ && IsDesc(t, x, s) ensures x !in blk {
      SuccBelow(t, u, blk, succ, s);
      if x in blk {
        AncestorInBlock(t, u, blk, x, s);
      }
    }
    forall s1, s2 | s1 in succ && s2 in succ && s1 != s2 && IsDesc(t, x, s1) ensures !IsDesc(t, x, s2) {
      if IsDesc(t, x, s2) {
        DescComparable(t, x, s1, s2);
        if IsDesc(t, s2, s1) {
          SuccBelow(t, u, blk, succ, s1);
          AncestorInBlock(t, u, blk, Parent(t, s2), s1);
        } else {
          SuccBelow(t, u, blk, succ, s2);
          AncestorInBlock(t, u, blk, Parent(t, s1), s2);
        }
      }
    }
  }

  /** A block as the partitioning lists it: its nodes in ascending order,
      headed by its first node, free of mandatory cuts below that node, and
      within the memory limit unless it is a single node. */
  ghost predicate BlockOk(t: Tree, M: Ext, mem: (Node, set<Node>) -> int, cpCuts: set<Node>, b: seq<Node>) {
    && |b| > 0
    && (forall i, j :: 0 <= i < j < |b| ==> b[i] < b[j])
    && Headed(t, b[0], Elems(b))
    && (forall v :: v in b && v != b[0] ==> v !in cpCuts)
    && (|b| == 1 || Within(mem(b[0], Elems(b)), M))
  }

  /** The queued nodes head subtrees that miss the blocks built so far. */
  ghost predicate QueueMissesBlocks(t: Tree, q: seq<Node>, part: seq<seq<Node>>) {
    forall k, x :: 0 <= k < |q| && IsDesc(t, x, q[k]) ==> x !in Covered(part)
  }

  /** The queued nodes head pairwise disjoint subtrees. */
  ghost predicate QueueDisjoint(t: Tree, q: seq<Node>) {
    forall k1, k2, x :: 0 <= k1 < k2 < |q| && IsDesc(t, x, q[k1]) ==> !IsDesc(t, x, q[k2])
  }

  /** The blocks and the queued subtrees make up the subtree of `root`. */
  ghost predicate QueueCompletes(t: Tree, root: Node, q: seq<Node>, part: seq<seq<Node>>) {
    forall x :: x in Subtree(t, root) ==> x in Covered(part) || exists k :: 0 <= k < |q| && IsDesc(t, x, q[k])
  }

  /** What holds between two steps of the breadth-first walk: the queued
      nodes head pairwise disjoint subtrees that miss the blocks built so
      far, and the blocks together with those subtrees make up the subtree
      of `root`. */
  ghost predicate BfsInv(t: Tree, root: Node, M: Ext, mem: (Node, set<Node>) -> int, cpCuts: set<Node>,
                         q: seq<Node>, part: seq<seq<Node>>) {
    && (forall k :: 0 <= k < |q| ==> q[k] in Subtree(t, root))
    && Covered(part) <= Subtree(t, root)
    && QueueMissesBlocks(t, q, part)
    && QueueDisjoint(t, q)
    && QueueCompletes(t, root, q, part)
    && NoSharedNodes(part)
    && (forall i :: 0 <= i < |part| ==> BlockOk(t, M, mem, cpCuts, part[i]))
    && (|part| > 0 ==> part[0][0] == root)
    && (|part| == 0 ==> q == [root])
  }

  /** The subtree of a node of `root`'s subtree lies in `root`'s subtree. */
  lemma SubtreeNested(t: Tree, root: Node, u: Node)
    requires u in Subtree(t, root)
    ensures Subtree(t, u) <= Subtree(t, root)
  {
    forall x | x in Subtree(t, u) ensures x in Subtree(t, root) {
      DescTransitive(t, x, u, root);
    }
  }

  /** A grown block, listed in ascending order, satisfies `BlockOk`. */
  lemma ListedBlock(t: Tree, M: Ext, mem: (Node, set<Node>) -> int, cpCuts: set<Node>, u: Node, blk: set<Node>)
    requires Headed(t, u, blk)
    requires forall v :: v in blk && v != u ==> v !in cpCuts
    requires blk == {u} || Within(mem(u, blk), M)
    ensures BlockOk(t, M, mem, cpCuts, Ascending(blk)) && Ascending(blk)[0] == u
  {
    var b := Ascending(blk);
    assert b[0] == u by {
      assert b[0] in blk && u in b;
    }
    assert Elems(b) == blk;
    assert |b| == 1 ==> blk == {u} by {
      if |b| == 1 {
        forall v | v in blk ensures v == u {
          assert v in b;
        }
      }
    }
  }

  /** A block lies in the subtree of its root. */
  lemma BlockWithin(t: Tree, u: Node, blk: set<Node>)
    requires WellFormed(t) && Headed(t, u, blk)
    ensures blk <= Subtree(t, u)
  {
    forall v | v in blk ensures v in Subtree(t, u) {
      BlockInSubtree(t, u, blk, v);
    }
  }

  /** Queue positions after the head is replaced by `succ`. */
  lemma QueueShift(q: seq<Node>, succ: seq<Node>, k: nat)
    requires 0 < |q| && k < |q| - 1 + |succ|
    ensures var q' := q[1..] + succ;
      && (k < |q| - 1 ==> q'[k] == q[k + 1])
      && (k >= |q| - 1 ==> q'[k] == succ[k - (|q| - 1)] && q'[k] in succ)
  {
  }

  /** After one turn of the walk the queued subtrees still miss every block
      built so far. */
  lemma StepMisses(t: Tree, u: Node, q: seq<Node>, part: seq<seq<Node>>, blk: set<Node>, succ: seq<Node>)
    requires WellFormed(t) && |q| > 0 && q[0] == u && BlockAndSucc(t, u, blk, succ)
    requires QueueMissesBlocks(t, q, part) && QueueDisjoint(t, q) && blk <= Subtree(t, u)
    requires Covered(part + [Ascending(blk)]) == Covered(part) + blk
    ensures QueueMissesBlocks(t, q[1..] + succ, part + [Ascending(blk)])
  {
    var q' := q[1..] + succ;
    forall k, x | 0 <= k < |q'| && IsDesc(t, x, q'[k]) ensures x !in Covered(part) + blk {
      QueueShift(q, succ, k);
      if k < |q| - 1 {
        MissesOld(t, u, q, part, blk, k + 1, x);
      } else {
        MissesNew(t, u, q, part, blk, succ, q'[k], x);
      }
    }
  }

  /** A node below a later entry of the queue misses the blocks and the new
      block. */
  lemma MissesOld(t: Tree, u: Node, q: seq<Node>, part: seq<seq<Node>>, blk: set<Node>, k: nat, x: Node)
    requires |q| > 0 && q[0] == u && 0 < k < |q| && IsDesc(t, x, q[k])
    requires QueueMissesBlocks(t, q, part) && QueueDisjoint(t, q) && blk <= Subtree(t, u)
    ensures x !in Covered(part) + blk
  {
  }

  /** A node below a left-outside node misses the blocks and the new
      block. */
  lemma MissesNew(t: Tree, u: Node, q: seq<Node>, part: seq<seq<Node>>, blk: set<Node>, succ: seq<Node>, s: Node, x: Node)
    requires WellFormed(t) && |q| > 0 && q[0] == u && BlockAndSucc(t, u, blk, succ)
    requires s in succ && IsDesc(t, x, s)
    requires QueueMissesBlocks(t, q, part)
    ensures x !in Covered(part) + blk
  {
    SuccSubtreesDisjoint(t, u, blk, succ, x);
    SuccBelow(t, u, blk, succ, s);
    DescTransitive(t, x, s, u);
  }

  /** After one turn of the walk the queued subtrees are still pairwise disjoint. */
  lemma StepDisjoint(t: Tree, u: Node, q: seq<Node>, blk: set<Node>, succ: seq<Node>)
    requires WellFormed(t) && |q| > 0 && q[0] == u && BlockAndSucc(t, u, blk, succ)
    requires QueueDisjoint(t, q)
    ensures QueueDisjoint(t, q[1..] + succ)
  {
    var q' := q[1..] + succ;
    forall k1, k2, x | 0 <= k1 < k2 < |q'| && IsDesc(t, x, q'[k1]) ensures !IsDesc(t, x, q'[k2]) {
      QueueShift(q, succ, k1);
      QueueShift(q, succ, k2);
      SuccSubtreesDisjoint(t, u, blk, succ, x);
      if k2 >= |q| - 1 && k1 >= |q| - 1 {
        assert Distinct(succ);
      } else if k2 >= |q| - 1 {
        if IsDesc(t, x, q'[k2]) {
          SuccBelow(t, u, blk, succ, q'[k2]);
          DescTransitive(t, x, q'[k2], u);
        }
      }
    }
  }

  /** After one turn of the walk the blocks and the queued subtrees still make
      up the subtree of `root`. */
  lemma StepCompletes(t: Tree, root: Node, u: Node, q: seq<Node>, part: seq<seq<Node>>, blk: set<Node>, succ: seq<Node>)
    requires WellFormed(t) && |q| > 0 && q[0] == u && BlockAndSucc(t, u, blk, succ)
    requires QueueCompletes(t, root, q, part)
    requires Covered(part + [Ascending(blk)]) == Covered(part) + blk
    ensures QueueCompletes(t, root, q[1..] + succ, part + [Ascending(blk)])
  {
    var q' := q[1..] + succ;
    forall x | x in Subtree(t, root) ensures x in Covered(part) + blk || exists k :: 0 <= k < |q'| && IsDesc(t, x, q'[k]) {
      if x !in Covered(part) {
        var k :| 0 <= k < |q| && IsDesc(t, x, q[k]);
        StepReaches(t, u, q, blk, succ, x, k);
      }
    }
  }

  /** A node below the queue entry `k` is in the new block or below an
      entry of the next queue. */
  lemma StepReaches(t: Tree, u: Node, q: seq<Node>, blk: set<Node>, succ: seq<Node>, x: Node, k: nat)
    requires WellFormed(t) && |q| > 0 && q[0] == u && BlockAndSucc(t, u, blk, succ)
    requires k < |q| && IsDesc(t, x, q[k])
    ensures x in blk || exists j :: 0 <= j < |q[1..] + succ| && IsDesc(t, x, (q[1..] + succ)[j])
  {
    if k == 0 {
      if x !in blk {
        var j := SuccIndex(t, u, blk, succ, x);
        QueueAfter(t, q, succ, x, |q| - 1 + j);
      }
    } else {
      QueueAfter(t, q, succ, x, k - 1);
    }
  }

  /** A node below entry `j` of the next queue is below one of its
      entries. */
  lemma QueueAfter(t: Tree, q: seq<Node>, succ: seq<Node>, x: Node, j: nat)
    requires 0 < |q| && j < |q| - 1 + |succ|
    requires if j < |q| - 1 then IsDesc(t, x, q[j + 1]) else IsDesc(t, x, succ[j - (|q| - 1)])
    ensures exists i :: 0 <= i < |q[1..] + succ| && IsDesc(t, x, (q[1..] + succ)[i])
  {
    QueueShift(q, succ, j);
    assert IsDesc(t, x, (q[1..] + succ)[j]);
  }

  /** The position in `succ` of the left-outside node above a node of the
      subtree of `u` outside the block. */
  lemma SuccIndex(t: Tree, u: Node, blk: set<Node>, succ: seq<Node>, x: Node) returns (j: nat)
    requires WellFormed(t) && BlockAndSucc(t, u, blk, succ) && IsDesc(t, x, u) && x !in blk
    ensures j < |succ| && IsDesc(t, x, succ[j])
  {
    SubtreeSplit(t, u, blk, succ, x);
    var s :| s in succ && IsDesc(t, x, s);
    j :| 0 <= j < |succ| && succ[j] == s;
  }

  /** After one turn of the walk every queued node still lies in the subtree of
      `root`. */
  lemma StepInTree(t: Tree, root: Node, u: Node, q: seq<Node>, blk: set<Node>, succ: seq<Node>)
    requires WellFormed(t) && |q| > 0 && q[0] == u && BlockAndSucc(t, u, blk, succ)
    requires forall k :: 0 <= k < |q| ==> q[k] in Subtree(t, root)
    ensures forall k :: 0 <= k < |q[1..] + succ| ==> (q[1..] + succ)[k] in Subtree(t, root)
  {
    var q' := q[1..] + succ;
    SubtreeNested(t, root, u);
    forall k | 0 <= k < |q'| ensures q'[k] in Subtree(t, root) {
      QueueShift(q, succ, k);
      if k >= |q| - 1 {
        SuccBelow(t, u, blk, succ, q'[k]);
        assert q'[k] in Subtree(t, u);
      }
    }
  }

  /** Appending a valid block keeps every block valid and the first block headed
      by `root`. */
  lemma StepBlocks(t: Tree, root: Node, M: Ext, mem: (Node, set<Node>) -> int, cpCuts: set<Node>,
                   part: seq<seq<Node>>, b: seq<Node>)
    requires forall i :: 0 <= i < |part| ==> BlockOk(t, M, mem, cpCuts, part[i])
    requires BlockOk(t, M, mem, cpCuts, b)
    requires |part| > 0 ==> |part[0]| > 0 && part[0][0] == root
    requires |part| == 0 ==> b[0] == root
    ensures forall i :: 0 <= i < |part + [b]| ==> BlockOk(t, M, mem, cpCuts, (part + [b])[i])
    ensures |(part + [b])[0]| > 0 && (part + [b])[0][0] == root
  {
    var part' := part + [b];
    forall i | 0 <= i < |part'| ensures BlockOk(t, M, mem, cpCuts, part'[i]) {
      if i < |part| {
        assert part'[i] == part[i];
      }
    }
  }

  /** The block of the head of the queue is new, lies in the head's subtree
      and is listed as a `BlockOk` block. */
  lemma HeadBlock(t: Tree, root: Node, M: Ext, mem: (Node, set<Node>) -> int, cpCuts: set<Node>,
                  q: seq<Node>, part: seq<seq<Node>>, blk: set<Node>)
    requires WellFormed(t) && |q| > 0 && Headed(t, q[0], blk) && QueueMissesBlocks(t, q, part)
    requires forall v :: v in blk && v != q[0] ==> v !in cpCuts
    requires blk == {q[0]} || Within(mem(q[0], blk), M)
    ensures BlockOk(t, M, mem, cpCuts, Ascending(blk)) && Ascending(blk)[0] == q[0]
    ensures blk <= Subtree(t, q[0]) && blk !! Covered(part)
  {
    ListedBlock(t, M, mem, cpCuts, q[0], blk);
    BlockWithin(t, q[0], blk);
    forall x | x in blk ensures x !in Covered(part) {
      assert IsDesc(t, x, q[0]);
    }
  }

  /** One step of the walk: the head of the queue is replaced by its block
      and the nodes the block left outside. */
  lemma BfsStep(t: Tree, root: Node, M: Ext, mem: (Node, set<Node>) -> int, cpCuts: set<Node>,
                q: seq<Node>, part: seq<seq<Node>>, blk: set<Node>, succ: seq<Node>)
    requires WellFormed(t) && BfsInv(t, root, M, mem, cpCuts, q, part) && |q| > 0
    requires BlockAndSucc(t, q[0], blk, succ)
    requires forall v :: v in blk && v != q[0] ==> v !in cpCuts
    requires blk == {q[0]} || Within(mem(q[0], blk), M)
    ensures BfsInv(t, root, M, mem, cpCuts, q[1..] + succ, part + [Ascending(blk)])
    ensures Covered(part + [Ascending(blk)]) == Covered(part) + blk
  {
    var u := q[0];
    var q' := q[1..] + succ;
    var part' := part + [Ascending(blk)];
    HeadBlock(t, root, M, mem, cpCuts, q, part, blk);
    assert NoSharedNodes(part') && Covered(part') == Covered(part) + blk by {
      AppendAscending(part, blk);
    }
    assert Covered(part') <= Subtree(t, root) by {
      SubtreeNested(t, root, u);
    }
    assert forall k :: 0 <= k < |q'| ==> q'[k] in Subtree(t, root) by {
      StepInTree(t, root, u, q, blk, succ);
    }
    assert QueueMissesBlocks(t, q', part') by {
      StepMisses(t, u, q, part, blk, succ);
    }
    assert QueueDisjoint(t, q') by {
      StepDisjoint(t, u, q, blk, succ);
    }
    assert QueueCompletes(t, root, q', part') by {
      StepCompletes(t, root, u, q, part, blk, succ);
    }
    assert (forall i :: 0 <= i < |part'| ==> BlockOk(t, M, mem, cpCuts, part'[i])) && part'[0][0] == root by {
      StepBlocks(t, root, M, mem, cpCuts, part, Ascending(blk));
    }
  }

  /** Covering a new element of `s` leaves fewer of its elements uncovered. */
  lemma DiffShrinks(s: set<Node>, c: set<Node>, b: set<Node>, u: Node)
    requires u in s && u !in c && u in b
    ensures |s - (c + b)| < |s - c|
  {
    SubsetSmaller(s - (c + b), s - c, u);
  }

  /** Removing an element makes a finite set smaller. */
  lemma SubsetSmaller(a: set<Node>, b: set<Node>, u: Node)
    requires a <= b && u in b && u !in a
    ensures |a| < |b|
  {
    assert a <= b - {u};
    SubsetCard(a, b - {u});
  }

  /** A subset is no larger than its superset. */
  lemma {:induction false} SubsetCard(a: set<Node>, b: set<Node>)
    requires a <= b
    ensures |a| <= |b|
    decreases |b|
  {
    if a != {} {
      var x :| x in a;
      SubsetCard(a - {x}, b - {x});
    }
  }

  /** One step of the walk keeps its invariant and covers at least the
      head of the queue, which no block held before. */
  lemma WalkStep(t: Tree, root: Node, M: Ext, mem: (Node, set<Node>) -> int, cpCuts: set<Node>,
                 q: seq<Node>, part: seq<seq<Node>>, blk: set<Node>, succ: seq<Node>)
    requires WellFormed(t) && BfsInv(t, root, M, mem, cpCuts, q, part) && |q| > 0
    requires BlockAndSucc(t, q[0], blk, succ)
    requires forall v :: v in blk && v != q[0] ==> v !in cpCuts
    requires blk == {q[0]} || Within(mem(q[0], blk), M)
    ensures BfsInv(t, root, M, mem, cpCuts, q[1..] + succ, part + [Ascending(blk)])
    ensures |Subtree(t, root) - Covered(part + [Ascending(blk)])| < |Subtree(t, root) - Covered(part)|
  {
    BfsStep(t, root, M, mem, cpCuts, q, part, blk, succ);
    assert q[0] !in Covered(part) by {
      assert IsDesc(t, q[0], q[0]);
    }
    assert q[0] in blk;
    DiffShrinks(Subtree(t, root), Covered(part), blk, q[0]);
  }

  /** The walk starts with the root queued and no block built. */
  lemma WalkInit(t: Tree, root: Node, M: Ext, mem: (Node, set<Node>) -> int, cpCuts: set<Node>)
    requires root in t.nodes
    ensures BfsInv(t, root, M, mem, cpCuts, [root], [])
  {
    assert Covered([]) == {};
    assert root in Subtree(t, root);
    forall x | x in Subtree(t, root) ensures IsDesc(t, x, [root][0]) {
    }
  }

  /** With the queue empty, the blocks cover exactly the subtree of `root`. */
  lemma WalkDone(t: Tree, root: Node, M: Ext, mem: (Node, set<Node>) -> int, cpCuts: set<Node>,
                 part: seq<seq<Node>>)
    requires BfsInv(t, root, M, mem, cpCuts, [], part)
    ensures Covered(part) == Subtree(t, root)
    ensures |part| > 0 && |part[0]| > 0 && part[0][0] == root
  {
    assert BlockOk(t, M, mem, cpCuts, part[0]);
  }

  /** One turn of the walk: pop the head of the queue, grow its block,
      queue what the block left outside. */
  method NextBlock(t: Tree, root: Node, M: Ext, mem: (Node, set<Node>) -> int, cpOf: Node -> set<Node>,
                   cpCuts: set<Node>, q: seq<Node>, part: seq<seq<Node>>) returns (q': seq<Node>, part': seq<seq<Node>>)
    requires WellFormed(t) && BfsInv(t, root, M, mem, cpCuts, q, part) && |q| > 0
    ensures BfsInv(t, root, M, mem, cpCuts, q', part')
    ensures |Subtree(t, root) - Covered(part')| < |Subtree(t, root) - Covered(part)|
  {
    var u := q[0];
    var blk, succ := BoundedGreedyBlock(t, u, M, mem, cpOf(u), cpCuts);
    WalkStep(t, root, M, mem, cpCuts, q, part, blk, succ);
    q' := q[1..] + succ;
    part' := part + [Ascending(blk)];
  }

  /** The breadth-first walk shared by both heuristics: grow a block at the
      head of the queue, queue the nodes it left outside, list the block in
      ascending order.  `cpOf(v)` is the critical path seen from block root
      `v` (the library's `ibacktrack_chain`). */
  method BlockPartition(t: Tree, root: Node, M: Ext, mem: (Node, set<Node>) -> int, cpOf: Node -> set<Node>,
                        cpCuts: set<Node>) returns (part: seq<seq<Node>>)
    requires WellFormed(t) && root in t.nodes
    ensures Covered(part) == Subtree(t, root)
    ensures NoSharedNodes(part)
    ensures forall i :: 0 <= i < |part| ==> BlockOk(t, M, mem, cpCuts, part[i])
    ensures |part| > 0 && |part[0]| > 0 && part[0][0] == root
  {
    part := [];
    var q := [root];
    WalkInit(t, root, M, mem, cpCuts);
    while |q| > 0
      invariant BfsInv(t, root, M, mem, cpCuts, q, part)
      decreases |Subtree(t, root) - Covered(part)|
    {
      q, part := NextBlock(t, root, M, mem, cpOf, cpCuts, q, part);
    }
    WalkDone(t, root, M, mem, cpCuts, part);
  }

  /** A mandatory cut inside the partitioned subtree never sits inside a
      block: it heads one. */
  lemma CutsHeadBlocks(t: Tree, M: Ext, mem: (Node, set<Node>) -> int, cpCuts: set<Node>, part: seq<seq<Node>>)
    requires forall i :: 0 <= i < |part| ==> BlockOk(t, M, mem, cpCuts, part[i])
    ensures forall x :: x in cpCuts && x in Covered(part) ==> exists i :: 0 <= i < |part| && |part[i]| > 0 && part[i][0] == x
  {
    forall x | x in cpCuts && x in Covered(part) ensures exists i :: 0 <= i < |part| && |part[i]| > 0 && part[i][0] == x {
      var i, k :| 0 <= i < |part| && 0 <= k < |part[i]| && part[i][k] == x;
      assert BlockOk(t, M, mem, cpCuts, part[i]);
      assert part[i][k] in part[i];
    }
  }

  /** `min_weight_greedy_partitioning` without its metrics: the walk with no
      mandatory cuts. */
  method MinWeightGreedyPartitioning(t: Tree, root: Node, M: Ext, mem: (Node, set<Node>) -> int,
                                     cpOf: Node -> set<Node>) returns (part: seq<seq<Node>>)
    requires WellFormed(t) && root in t.nodes
    ensures Covered(part) == Subtree(t, root)
    ensures NoSharedNodes(part)
    ensures forall i :: 0 <= i < |part| ==> BlockOk(t, M, mem, {}, part[i])
    ensures |part| > 0 && |part[0]| > 0 && part[0][0] == root
  {
    part := BlockPartition(t, root, M, mem, cpOf, {});
  }

  /** `min_weight_partition_heuristic` without its metrics: split the
      critical path greedily, then walk the tree with the split's barrier
      nodes as mandatory cuts.  `INFEASIBLE` is `None`.  The split's
      measures are the ones of `s`, whose path must start at `root`. */
  method MinWeightPartitionHeuristic(t: Tree, root: Node, cpOf: Node -> set<Node>, s: Search)
    returns (r: Option<seq<seq<Node>>>)
    requires WellFormed(t) && root in t.nodes
    requires |s.cpath| > 0 && s.cpath[0] == root
    ensures r.None? <==> FeasibleCpathSplit(s).None?
    ensures r.None? ==> !Feasible(s, {}) && !Feasible(s, AllCuts(|s.cpath|))
    ensures r.Some? ==>
              && Covered(r.value) == Subtree(t, root)
              && NoSharedNodes(r.value)
              && (forall i :: 0 <= i < |r.value| ==> BlockOk(t, s.M, s.mem, FeasibleCpathSplit(s).value, r.value[i]))
              && |r.value| > 0 && |r.value[0]| > 0 && r.value[0][0] == root
    ensures r.Some? ==> forall x :: x in FeasibleCpathSplit(s).value && x in Subtree(t, root) ==>
                          exists i :: 0 <= i < |r.value| && |r.value[i]| > 0 && r.value[i][0] == x
  {
    var cuts := FeasibleCpathSplit(s);
    if cuts.None? {
      return None;
    }
    var part := BlockPartition(t, root, s.M, s.mem, cpOf, cuts.value);
    CutsHeadBlocks(t, s.M, s.mem, cuts.value, part);
    r := Some(part);
  }
}

=== FILE: harness.dfy ===
/** The small pure helpers of the validation harness
    (`validation/harness.py`): the exact and the estimated latency range of
    a critical path over all of its splits, and the compact text form of a
    partitioning.

    The block latency (`par_subchain_latency` with the path's node set and
    the core count fixed) is a library helper outside this model and is the
    parameter `lat`.  Subsets of the cut positions are listed with
    `PowerList`, standing for `ipowerset`. */
module Harness {
  import opened Base
  import opened CallTree
  import opened Lex
  import opened CpathSplit
  import opened SubtreeEnum

  /** `range(lo, hi)`. */
  function Range(lo: nat, hi: nat): (r: seq<nat>)
    ensures |r| == if lo <= hi then hi - lo else 0
    ensures forall i :: 0 <= i < |r| ==> r[i] == lo + i
    decreases hi - lo
  {
    if lo >= hi then [] else [lo] + Range(lo + 1, hi)
  }

  /** The path measured with the given block latency and per-cut delay; the
      memory and latency limits play no part in the harness. */
  function Chain(cpath: seq<Node>, lat: (Node, set<Node>) -> int, delay: int): Search {
    Search(cpath, lat, (v: Node, blk: set<Node>) => 0, Inf, Inf, delay)
  }

  /** A strictly increasing list of positions. */
  predicate Increasing(c: seq<nat>) {
    forall i, j :: 0 <= i < j < |c| ==> c[i] < c[j]
  }

  /** An ascending tuple of cut positions of a path of `n` nodes. */
  predicate CutList(n: nat, c: seq<nat>) {
    Increasing(c) && forall i :: 0 <= i < |c| ==> 1 <= c[i] < n
  }

  /** The total latency of the split at the cut tuple `c`: the latencies of
      the blocks between consecutive bounds of `[0, *c, len(cpath)]` plus
      one delay per block after the first. */
  function ListLat(cpath: seq<Node>, lat: (Node, set<Node>) -> int, delay: int, c: seq<nat>): int
    requires |cpath| > 0 && CutList(|cpath|, c)
  {
    var s := Chain(cpath, lat, delay);
    var b := [0] + c + [|cpath|];
    assert Steps(b, |cpath|) by {
      BoundsSteps(s, Elems(c), c);
    }
    BlockLats(s, b) + (|b| - 2) * delay
  }

  /** The latency of a cut tuple in terms of its block bounds. */
  lemma ListLatBounds(cpath: seq<Node>, lat: (Node, set<Node>) -> int, delay: int, c: seq<nat>)
    requires |cpath| > 0 && CutList(|cpath|, c)
    ensures Steps([0] + c + [|cpath|], |cpath|)
    ensures ListLat(cpath, lat, delay, c) == BlockLats(Chain(cpath, lat, delay), [0] + c + [|cpath|]) + |c| * delay
  {
    BoundsSteps(Chain(cpath, lat, delay), Elems(c), c);
  }

  // Strictly increasing lists.

  /** Two strictly increasing lists with the same elements are equal. */
  lemma {:induction false} IncreasingUnique(a: seq<nat>, b: seq<nat>)
    requires Increasing(a) && Increasing(b)
    requires forall x :: x in a <==> x in b
    ensures a == b
    decreases |a|
  {
    if |a| > 0 && |b| > 0 {
      IncreasingHeads(a, b);
      IncreasingTails(a, b);
      IncreasingUnique(a[1..], b[1..]);
      assert a == [a[0]] + a[1..] && b == [b[0]] + b[1..];
    } else if |a| > 0 || |b| > 0 {
      HeadIn(a);
      HeadIn(b);
      assert false;
    }
  }

  /** Two non-empty strictly increasing lists with the same elements start
      with the same, smallest, element. */
  lemma IncreasingHeads(a: seq<nat>, b: seq<nat>)
    requires Increasing(a) && Increasing(b) && |a| > 0 && |b| > 0
    requires forall x :: x in a <==> x in b
    ensures a[0] == b[0]
  {
    assert a[0] in b && b[0] in a;
    HeadIsLeast(a, b[0]);
    HeadIsLeast(b, a[0]);
  }

  /** The first element of a strictly increasing list is its least. */
  lemma HeadIsLeast(a: seq<nat>, x: nat)
    requires Increasing(a) && x in a
    ensures a[0] <= x
  {
    var k :| 0 <= k < |a| && a[k] == x;
    assert k == 0 || a[0] < a[k];
  }

  /** Dropping the common first element keeps the lists increasing with the
      same elements. */
  lemma IncreasingTails(a: seq<nat>, b: seq<nat>)
    requires Increasing(a) && Increasing(b) && |a| > 0 && |b| > 0 && a[0] == b[0]
    requires forall x :: x in a <==> x in b
    ensures Increasing(a[1..]) && Increasing(b[1..])
    ensures forall x :: x in a[1..] <==> x in b[1..]
  {
    forall x ensures x in a[1..] ==> x in b[1..] {
      TailMember(a, b, x);
    }
    forall x ensures x in b[1..] ==> x in a[1..] {
      TailMember(b, a, x);
    }
  }

  /** An element of the tail of `a` lies in the tail of `b`. */
  lemma TailMember(a: seq<nat>, b: seq<nat>, x: nat)
    requires Increasing(a) && Increasing(b) && |a| > 0 && |b| > 0 && a[0] == b[0]
    requires forall x :: x in a <==> x in b
    ensures x in a[1..] ==> x in b[1..]
  {
    if x in a[1..] {
      var k :| 0 <= k < |a[1..]| && a[1..][k] == x;
      assert a[0] < a[k + 1] && a[k + 1] in a;
      var m :| 0 <= m < |b| && b[m] == x;
      assert m > 0;
      assert b[1..][m - 1] == x;
    }
  }

  /** The first element of a non-empty list is one of its elements. */
  lemma HeadIn(a: seq<nat>)
    ensures |a| > 0 ==> a[0] in a
  {
  }

  /** A cut tuple is the sorted form of its own set of positions. */
  lemma AscendingOfCutList(n: nat, c: seq<nat>)
    requires CutList(n, c)
    ensures Ascending(Elems(c)) == c
  {
    IncreasingUnique(Ascending(Elems(c)), c);
  }

  /** The latency of a cut tuple is the latency `SplitLat` of the greedy
      critical-path search gives its set of positions. */
  lemma ListLatIsSplitLat(cpath: seq<Node>, lat: (Node, set<Node>) -> int, delay: int, c: seq<nat>)
    requires |cpath| > 0 && CutList(|cpath|, c)
    ensures ValidCuts(Chain(cpath, lat, delay), Elems(c))
    ensures ListLat(cpath, lat, delay, c) == SplitLat(Chain(cpath, lat, delay), Elems(c))
  {
    AscendingOfCutList(|cpath|, c);
  }

  /** Every sub-list of a strictly increasing list is strictly increasing. */
  lemma {:induction false} PowerListIncreasing(xs: seq<nat>)
    requires Increasing(xs)
    ensures forall k :: 0 <= k < |PowerList(xs)| ==> Increasing(PowerList(xs)[k])
    decreases |xs|
  {
    if |xs| > 0 {
      var rest := PowerList(xs[1..]);
      PowerListIncreasing(xs[1..]);
      PowerListSub(xs[1..]);
      forall k | 0 <= k < |PowerList(xs)| ensures Increasing(PowerList(xs)[k]) {
        if k >= |rest| {
          var c := rest[k - |rest|];
          assert PowerList(xs)[k] == [xs[0]] + c;
          forall i | 0 <= i < |c| ensures xs[0] < c[i] {
            assert c[i] in Elems(c);
            var m :| 0 <= m < |xs[1..]| && xs[1..][m] == c[i];
            assert xs[m + 1] == c[i];
          }
        }
      }
    }
  }

  /** The cut tuples of `ipowerset(range(1, cp_len))`. */
  function CutSets(n: nat): (r: seq<seq<nat>>)
    ensures forall k :: 0 <= k < |r| ==> CutList(n, r[k])
  {
    PowerListCuts(n);
    PowerList(Range(1, n))
  }

  /** Every listed sub-tuple of the cut positions is a cut tuple. */
  lemma PowerListCuts(n: nat)
    ensures forall k :: 0 <= k < |PowerList(Range(1, n))| ==> CutList(n, PowerList(Range(1, n))[k])
  {
    var xs := Range(1, n);
    PowerListIncreasing(xs);
    PowerListSub(xs);
    forall k | 0 <= k < |PowerList(xs)| ensures CutList(n, PowerList(xs)[k]) {
      SubListCut(n, PowerList(xs)[k]);
    }
  }

  /** An increasing tuple drawn from the cut positions is a cut tuple. */
  lemma SubListCut(n: nat, c: seq<nat>)
    requires Increasing(c) && Elems(c) <= Elems(Range(1, n))
    ensures CutList(n, c)
  {
    forall i | 0 <= i < |c| ensures 1 <= c[i] < n {
      assert c[i] in Elems(c);
      var m :| 0 <= m < |Range(1, n)| && Range(1, n)[m] == c[i];
    }
  }

  /** The total latency of every examined split, in examination order. */
  function CutTotals(cpath: seq<Node>, lat: (Node, set<Node>) -> int, delay: int): (r: seq<int>)
    requires |cpath| > 0
    ensures |r| == |CutSets(|cpath|)|
  {
    var cs := CutSets(|cpath|);
    seq(|cs|, k requires 0 <= k < |cs| => ListLat(cpath, lat, delay, cs[k]))
  }

  /** The running `min`/`max` of the loop, from the given start values. */
  function MinMaxOf(xs: seq<int>, lo: Ext, hi: int): (Ext, int)
    decreases |xs|
  {
    if |xs| == 0 then (lo, hi)
    else MinMaxOf(xs[1..], if Fin(xs[0]).Lt(lo) then Fin(xs[0]) else lo, Max(hi, xs[0]))
  }

  /** `calc_min_max_latency`: the smallest and largest total latency over
      every split of the path.  The minimum starts at infinity and the
      maximum at 0; the empty cut set is always examined, so the minimum is
      always finite.  An empty path makes the library fail on `cpath[0]`. */
  function CalcMinMaxLatency(cpath: seq<Node>, lat: (Node, set<Node>) -> int, delay: int): (int, int)
    requires |cpath| > 0
  {
    var r := MinMaxOf(CutTotals(cpath, lat, delay), Inf, 0);
    (if r.0.Fin? then r.0.n else 0, r.1)
  }

  /** The fold's minimum is at most each value and is a value or the start;
      its maximum is at least each value and is a value or the start. */
  lemma {:induction false} MinMaxOfBounds(xs: seq<int>, lo: Ext, hi: int)
    ensures var r := MinMaxOf(xs, lo, hi);
            && r.0.Le(lo) && r.1 >= hi
            && (forall i :: 0 <= i < |xs| ==> r.0.Le(Fin(xs[i])) && xs[i] <= r.1)
            && (r.0 == lo || exists i :: 0 <= i < |xs| && r.0 == Fin(xs[i]))
            && (r.1 == hi || exists i :: 0 <= i < |xs| && r.1 == xs[i])
    decreases |xs|
  {
    if |xs| > 0 {
      var lo' := if Fin(xs[0]).Lt(lo) then Fin(xs[0]) else lo;
      var hi' := Max(hi, xs[0]);
      MinMaxOfBounds(xs[1..], lo', hi');
      var r := MinMaxOf(xs, lo, hi);
      assert r == MinMaxOf(xs[1..], lo', hi');
      forall i | 0 <= i < |xs| ensures r.0.Le(Fin(xs[i])) && xs[i] <= r.1 {
        if i > 0 {
          assert xs[i] == xs[1..][i - 1];
          LeIsTotalPreorder(r.0, lo', Fin(xs[i]));
        } else {
          LeIsTotalPreorder(r.0, lo', Fin(xs[0]));
        }
      }
      LeIsTotalPreorder(r.0, lo', lo);
      if r.0 != lo' {
        var i :| 0 <= i < |xs[1..]| && r.0 == Fin(xs[1..][i]);
        assert xs[1..][i] == xs[i + 1];
      }
      if r.1 != hi' {
        var i :| 0 <= i < |xs[1..]| && r.1 == xs[1..][i];
        assert xs[1..][i] == xs[i + 1];
      }
    }
  }

  /** Every cut set of the path is examined: it is the set of one of the
      listed cut tuples. */
  lemma CutSetsComplete(n: nat, cuts: set<nat>)
    requires forall c :: c in cuts ==> 1 <= c < n
    ensures exists k :: 0 <= k < |CutSets(n)| && Elems(CutSets(n)[k]) == cuts
  {
    var xs := Range(1, n);
    forall c | c in cuts ensures c in Elems(xs) {
      assert xs[c - 1] == c;
    }
    PowerListComplete(xs, cuts);
    assert CutSets(n) == PowerList(xs);
  }

  /** The latency range `calc_min_max_latency` reports is exact: no split of
      the path has a total outside it, some split attains the minimum, and
      the maximum is attained too unless every total is negative (the
      running maximum starts at 0). */
  lemma CalcMinMaxExact(cpath: seq<Node>, lat: (Node, set<Node>) -> int, delay: int)
    requires |cpath| > 0
    ensures var s := Chain(cpath, lat, delay);
            var r := CalcMinMaxLatency(cpath, lat, delay);
            && (forall cuts :: ValidCuts(s, cuts) ==> r.0 <= SplitLat(s, cuts) <= r.1)
            && (exists cuts :: ValidCuts(s, cuts) && SplitLat(s, cuts) == r.0)
            && 0 <= r.1
            && (r.1 == 0 || exists cuts :: ValidCuts(s, cuts) && SplitLat(s, cuts) == r.1)
  {
    var s := Chain(cpath, lat, delay);
    var n := |cpath|;
    var cs := CutSets(n);
    var totals := CutTotals(cpath, lat, delay);
    var f := MinMaxOf(totals, Inf, 0);
    MinMaxOfBounds(totals, Inf, 0);
    // The empty cut set is examined, so the minimum is finite.
    CutSetsComplete(n, {});
    var k0 :| 0 <= k0 < |cs| && Elems(cs[k0]) == {};
    assert f.0.Le(Fin(totals[k0]));
    var r := CalcMinMaxLatency(cpath, lat, delay);
    assert r == (f.0.n, f.1);
    forall cuts | ValidCuts(s, cuts) ensures r.0 <= SplitLat(s, cuts) <= r.1 {
      CutSetsComplete(n, cuts);
      var k :| 0 <= k < |cs| && Elems(cs[k]) == cuts;
      ListLatIsSplitLat(cpath, lat, delay, cs[k]);
      assert totals[k] == SplitLat(s, cuts);
    }
    var i :| 0 <= i < |totals| && f.0 == Fin(totals[i]);
    ListLatIsSplitLat(cpath, lat, delay, cs[i]);
    assert ValidCuts(s, Elems(cs[i])) && SplitLat(s, Elems(cs[i])) == r.0;
    if r.1 != 0 {
      var j :| 0 <= j < |totals| && f.1 == totals[j];
      ListLatIsSplitLat(cpath, lat, delay, cs[j]);
      assert ValidCuts(s, Elems(cs[j])) && SplitLat(s, Elems(cs[j])) == r.1;
    }
  }

  // `est_min_max_latency`.

  /** The latency of each node of `vs` run as a block of its own. */
  function SingleLats(lat: (Node, set<Node>) -> int, vs: seq<Node>): seq<int> {
    seq(|vs|, i requires 0 <= i < |vs| => lat(vs[i], {vs[i]}))
  }

  /** Every node of the path in a block of its own, one delay per cut. */
  function SingletonLat(cpath: seq<Node>, lat: (Node, set<Node>) -> int, delay: int): int {
    Sum(SingleLats(lat, cpath)) + (|cpath| - 1) * delay
  }

  /** The whole path as one block headed by its first node. */
  function MonolithLat(cpath: seq<Node>, lat: (Node, set<Node>) -> int): int
    requires |cpath| > 0
  {
    lat(cpath[0], Elems(cpath))
  }

  /** `est_min_max_latency`: the singleton and monolithic latencies in
      ascending order.  An empty path makes the library fail on
      `cpath[0]`. */
  function EstMinMaxLatency(cpath: seq<Node>, lat: (Node, set<Node>) -> int, delay: int): seq<int>
    requires |cpath| > 0
  {
    var single := SingletonLat(cpath, lat, delay);
    var mono := MonolithLat(cpath, lat);
    if mono < single then [mono, single] else [single, mono]
  }

  /** The estimate is the two values, sorted. */
  lemma EstSorted(cpath: seq<Node>, lat: (Node, set<Node>) -> int, delay: int)
    requires |cpath| > 0
    ensures var r := EstMinMaxLatency(cpath, lat, delay);
            && |r| == 2 && r[0] <= r[1]
            && multiset(r) == multiset{SingletonLat(cpath, lat, delay), MonolithLat(cpath, lat)}
  {
  }

  /** The block bounds of the all-cuts split from bound `k` on. */
  lemma RangeSteps(k: nat, n: nat)
    requires k <= n
    ensures Steps(Range(k, n + 1), n)
  {
  }

  /** From bound `k` on, the blocks of the all-cuts split are the single
      nodes of the rest of the path. */
  lemma {:induction false} SingleBlockLats(s: Search, k: nat)
    requires k <= |s.cpath|
    ensures Steps(Range(k, |s.cpath| + 1), |s.cpath|)
    ensures BlockLats(s, Range(k, |s.cpath| + 1)) == Sum(SingleLats(s.lat, s.cpath[k..]))
    decreases |s.cpath| - k
  {
    var n := |s.cpath|;
    RangeSteps(k, n);
    if k < n {
      var b := Range(k, n + 1);
      SingleBlockLats(s, k + 1);
      assert b[1..] == Range(k + 1, n + 1);
      assert Elems(s.cpath[k..k + 1]) == {s.cpath[k]} by {
        assert s.cpath[k..k + 1] == [s.cpath[k]];
      }
      var ls := SingleLats(s.lat, s.cpath[k..]);
      assert ls[1..] == SingleLats(s.lat, s.cpath[k + 1..]);
    } else {
      assert SingleLats(s.lat, s.cpath[k..]) == [];
    }
  }

  /** The tuple of every cut position. */
  lemma AllCutsList(n: nat)
    ensures CutList(n, Range(1, n)) && Elems(Range(1, n)) == AllCuts(n)
  {
    var c := Range(1, n);
    forall x | x in AllCuts(n) ensures x in Elems(c) {
      assert c[x - 1] == x;
    }
  }

  /** The bounds of the all-cuts split are every position up to `n`. */
  lemma RangeBounds(n: nat)
    requires n > 0
    ensures [0] + Range(1, n) + [n] == Range(0, n + 1)
  {
    var a := [0] + Range(1, n) + [n];
    var r := Range(0, n + 1);
    forall i | 0 <= i < |a| ensures a[i] == r[i] {
      if 0 < i < n {
        assert a[i] == Range(1, n)[i - 1];
      }
    }
  }

  /** The tuple of every cut position splits the path into single nodes. */
  lemma AllCutsListLat(cpath: seq<Node>, lat: (Node, set<Node>) -> int, delay: int)
    requires |cpath| > 0
    ensures CutList(|cpath|, Range(1, |cpath|))
    ensures ListLat(cpath, lat, delay, Range(1, |cpath|)) == SingletonLat(cpath, lat, delay)
  {
    var n := |cpath|;
    var s := Chain(cpath, lat, delay);
    AllCutsList(n);
    var b := [0] + Range(1, n) + [n];
    RangeBounds(n);
    ListLatBounds(cpath, lat, delay, Range(1, n));
    assert BlockLats(s, b) == Sum(SingleLats(lat, cpath)) by {
      SingleBlockLats(s, 0);
      assert cpath[0..] == cpath;
    }
  }

  /** The singleton latency is the latency of the split with every
      position cut. */
  lemma SingletonIsAllCuts(cpath: seq<Node>, lat: (Node, set<Node>) -> int, delay: int)
    requires |cpath| > 0
    ensures ValidCuts(Chain(cpath, lat, delay), AllCuts(|cpath|))
    ensures SingletonLat(cpath, lat, delay) == SplitLat(Chain(cpath, lat, delay), AllCuts(|cpath|))
  {
    AllCutsList(|cpath|);
    AllCutsListLat(cpath, lat, delay);
    ListLatIsSplitLat(cpath, lat, delay, Range(1, |cpath|));
  }

  /** The monolithic latency is the latency of the split with no cut. */
  lemma MonolithIsNoCut(cpath: seq<Node>, lat: (Node, set<Node>) -> int, delay: int)
    requires |cpath| > 0
    ensures ValidCuts(Chain(cpath, lat, delay), {})
    ensures MonolithLat(cpath, lat) == SplitLat(Chain(cpath, lat, delay), {})
  {
    var s := Chain(cpath, lat, delay);
    var b := Bounds(s, {});
    assert Ascending({}) == [];
    assert b == [0, |cpath|];
    assert cpath[0..|cpath|] == cpath;
    assert BlockLats(s, b[1..]) == 0;
  }

  /** Both estimates are latencies of actual splits, so the estimated range
      lies inside the exact range `calc_min_max_latency` reports. */
  lemma EstWithinCalc(cpath: seq<Node>, lat: (Node, set<Node>) -> int, delay: int)
    requires |cpath| > 0
    ensures var e := EstMinMaxLatency(cpath, lat, delay);
            var c := CalcMinMaxLatency(cpath, lat, delay);
            c.0 <= e[0] && e[1] <= c.1
  {
    CalcMinMaxExact(cpath, lat, delay);
    SingletonIsAllCuts(cpath, lat, delay);
    MonolithIsNoCut(cpath, lat, delay);
  }

  // `decode_partitioning`.

  /** A block of a partitioning as the harness receives it: a list of
      nodes, or a tuple whose first element is the list of nodes.  The text
      `str` gives the tuple's last element is `lastText`; formatting an
      arbitrary value is outside this model. */
  datatype Part = Listed(nodes: seq<nat>) | Tupled(nodes: seq<nat>, lastText: string)

  /** A decimal digit character. */
  predicate IsDigit(ch: char) {
    '0' <= ch <= '9'
  }

  /** The character of a decimal digit. */
  function DigitChar(d: nat): (ch: char)
    requires d < 10
    ensures IsDigit(ch) && (ch as int) - ('0' as int) == d
  {
    "0123456789"[d]
  }

  /** `str` of a non-negative integer: its decimal digits, no leading
      zero. */
  function NatText(n: nat): string
    decreases n
  {
    if n < 10 then [DigitChar(n)] else NatText(n / 10) + [DigitChar(n % 10)]
  }

  /** A string of decimal digits only. */
  predicate AllDigits(s: string) {
    forall i :: 0 <= i < |s| ==> IsDigit(s[i])
  }

  /** Read a string of decimal digits back as a number. */
  function ParseNat(s: string): nat
    requires AllDigits(s)
    decreases |s|
  {
    if |s| == 0 then 0
    else ParseNat(s[..|s| - 1]) * 10 + ((s[|s| - 1] as int) - ('0' as int))
  }

  /** The digits before the first non-digit. */
  function DigitPrefix(s: string): (r: string)
    ensures AllDigits(r)
    decreases |s|
  {
    if |s| == 0 || !IsDigit(s[0]) then "" else [s[0]] + DigitPrefix(s[1..])
  }

  /** The text of a number is non-empty, all digits, and reads back as the
      number. */
  lemma {:induction false} NatTextRoundTrip(n: nat)
    ensures |NatText(n)| > 0 && AllDigits(NatText(n)) && ParseNat(NatText(n)) == n
    decreases n
  {
    if n >= 10 {
      NatTextRoundTrip(n / 10);
      var t := NatText(n);
      assert t[..|t| - 1] == NatText(n / 10);
    }
  }

  /** The digit prefix of a digit string followed by a non-digit or nothing
      is the digit string. */
  lemma {:induction false} DigitPrefixOf(d: string, rest: string)
    requires AllDigits(d)
    requires |rest| == 0 || !IsDigit(rest[0])
    ensures DigitPrefix(d + rest) == d
    decreases |d|
  {
    if |d| > 0 {
      DigitPrefixOf(d[1..], rest);
      assert (d + rest)[1..] == d[1..] + rest;
    } else {
      assert d + rest == rest;
    }
  }

  /** The text of one block: its first node, and for a tuple `first@last`.
      A block without nodes makes the library fail on `p[0]`. */
  function ItemText(p: Part): Option<string> {
    if |p.nodes| == 0 then None
    else if p.Listed? then Some(NatText(p.nodes[0]))
    else Some(NatText(p.nodes[0]) + "@" + p.lastText)
  }

  /** The texts of all blocks, or `None` when one has no node. */
  function ItemTexts(part: seq<Part>): Option<seq<string>>
    decreases |part|
  {
    if |part| == 0 then Some([])
    else
      match (ItemText(part[0]), ItemTexts(part[1..]))
      case (Some(x), Some(xs)) => Some([x] + xs)
      case _ => None
  }

  /** `sep.join(...)`. */
  function Join(xs: seq<string>, sep: string): string
    decreases |xs|
  {
    if |xs| == 0 then "" else if |xs| == 1 then xs[0] else xs[0] + sep + Join(xs[1..], sep)
  }

  /** `decode_partitioning`: the block texts joined by `sep` in brackets. */
  function DecodePartitioning(part: seq<Part>, sep: string): Option<string> {
    match ItemTexts(part)
    case Some(xs) => Some("[" + Join(xs, sep) + "]")
    case None => None
  }

  /** `str.split` at a single character. */
  function Split(s: string, c: char): (r: seq<string>)
    ensures |r| > 0
    decreases |s|
  {
    if |s| == 0 then [""]
    else
      var rest := Split(s[1..], c);
      if s[0] == c then [""] + rest else [[s[0]] + rest[0]] + rest[1..]
  }

  // Properties.

  /** Every block has a text exactly when every block has a node, and the
      texts are the blocks' texts in order. */
  lemma {:induction false} ItemTextsIff(part: seq<Part>)
    ensures ItemTexts(part).Some? <==> forall i :: 0 <= i < |part| ==> |part[i].nodes| > 0
    ensures ItemTexts(part).Some? ==>
              |ItemTexts(part).value| == |part|
              && forall i :: 0 <= i < |part| ==> ItemText(part[i]) == Some(ItemTexts(part).value[i])
    decreases |part|
  {
    if |part| > 0 {
      ItemTextsIff(part[1..]);
      if forall i :: 0 <= i < |part| ==> |part[i].nodes| > 0 {
        forall i | 0 <= i < |part[1..]| ensures |part[1..][i].nodes| > 0 {
          assert part[1..][i] == part[i + 1];
        }
        var xs := ItemTexts(part).value;
        forall i | 0 < i < |part| ensures ItemText(part[i]) == Some(xs[i]) {
          assert part[1..][i - 1] == part[i];
        }
      } else {
        var i :| 0 <= i < |part| && |part[i].nodes| == 0;
        if i > 0 {
          assert part[1..][i - 1] == part[i];
        }
      }
    }
  }

  /** The output is present exactly when every block has a node; it is
      bracketed, and the empty partitioning gives `[]`. */
  lemma DecodeShape(part: seq<Part>, sep: string)
    ensures DecodePartitioning(part, sep).Some? <==> forall i :: 0 <= i < |part| ==> |part[i].nodes| > 0
    ensures var r := DecodePartitioning(part, sep);
            r.Some? ==> |r.value| >= 2 && r.value[0] == '[' && r.value[|r.value| - 1] == ']'
    ensures |part| == 0 ==> DecodePartitioning(part, sep) == Some("[]")
  {
    ItemTextsIff(part);
    if |part| == 0 {
      assert Join([], sep) == "";
      assert "[" + "" + "]" == "[]";
    }
  }

  /** Splitting a text that starts with a piece free of `c`: the piece
      begins the first part. */
  lemma {:induction false} SplitFreePrefix(a: string, t: string, c: char)
    requires c !in a
    ensures Split(a + t, c) == [a + Split(t, c)[0]] + Split(t, c)[1..]
    decreases |a|
  {
    if |a| > 0 {
      SplitFreePrefix(a[1..], t, c);
      assert (a + t)[1..] == a[1..] + t;
      assert a[0] in a;
      assert [a[0]] + (a[1..] + Split(t, c)[0]) == a + Split(t, c)[0];
    } else {
      assert a + t == t;
      assert a + Split(t, c)[0] == Split(t, c)[0];
      assert Split(t, c) == [Split(t, c)[0]] + Split(t, c)[1..];
    }
  }

  /** Splitting at a separator that occurs in no piece gives the pieces
      back. */
  lemma {:induction false} SplitJoin(xs: seq<string>, c: char)
    requires |xs| > 0
    requires forall i :: 0 <= i < |xs| ==> c !in xs[i]
    ensures Split(Join(xs, [c]), c) == xs
    decreases |xs|
  {
    if |xs| == 1 {
      SplitFreePrefix(xs[0], "", c);
      assert xs[0] + "" == xs[0];
    } else {
      var j := Join(xs[1..], [c]);
      SplitJoin(xs[1..], c);
      assert Join(xs, [c]) == xs[0] + ([c] + j);
      SplitFreePrefix(xs[0], [c] + j, c);
      assert ([c] + j)[1..] == j;
      assert Split([c] + j, c) == [""] + Split(j, c);
      assert xs[0] + "" == xs[0];
      assert xs == [xs[0]] + xs[1..];
    }
  }

  /** A text splits into one more part than it has separators. */
  lemma {:induction false} SplitCount(s: string, c: char)
    ensures |Split(s, c)| == multiset(s)[c] + 1
    decreases |s|
  {
    if |s| > 0 {
      SplitCount(s[1..], c);
      assert s == [s[0]] + s[1..];
      assert multiset(s) == multiset([s[0]]) + multiset(s[1..]);
    }
  }

  /** Whether `c` can separate the block texts: it is no digit, no `@`, no
      bracket, and in no tuple's last text. */
  predicate SafeSep(part: seq<Part>, c: char) {
    && !IsDigit(c) && c != '@' && c != '[' && c != ']'
    && forall i :: 0 <= i < |part| ==> part[i].Tupled? ==> c !in part[i].lastText
  }

  /** No block text holds a safe separator. */
  lemma ItemTextFree(p: Part, c: char)
    requires |p.nodes| > 0
    requires !IsDigit(c) && c != '@' && (p.Tupled? ==> c !in p.lastText)
    ensures c !in ItemText(p).value
  {
    NatTextRoundTrip(p.nodes[0]);
    var d := NatText(p.nodes[0]);
    forall k | 0 <= k < |d| ensures d[k] != c {
      assert IsDigit(d[k]);
    }
  }

  /** The barrier node of each block is read back from its text: the digits
      before the `@`, or the whole text of a listed block. */
  lemma ItemTextHead(p: Part)
    requires |p.nodes| > 0
    ensures AllDigits(DigitPrefix(ItemText(p).value))
    ensures ParseNat(DigitPrefix(ItemText(p).value)) == p.nodes[0]
  {
    NatTextRoundTrip(p.nodes[0]);
    var d := NatText(p.nodes[0]);
    if p.Listed? {
      DigitPrefixOf(d, "");
      assert d + "" == d;
    } else {
      DigitPrefixOf(d, "@" + p.lastText);
      assert d + "@" + p.lastText == d + ("@" + p.lastText);
    }
  }

  /** With a safe one-character separator the output decodes: between the
      brackets it splits back into exactly the block texts, one per block,
      each of which yields the block's first node; so it holds one
      separator fewer than there are blocks. */
  lemma DecodeRoundTrip(part: seq<Part>, c: char)
    requires |part| > 0 && SafeSep(part, c)
    requires forall i :: 0 <= i < |part| ==> |part[i].nodes| > 0
    ensures DecodePartitioning(part, [c]).Some?
    ensures var r := DecodePartitioning(part, [c]).value;
            var parts := Split(r[1..|r| - 1], c);
            && |parts| == |part|
            && (forall i :: 0 <= i < |part| ==> Some(parts[i]) == ItemText(part[i]))
            && (forall i :: 0 <= i < |part| ==> ParseNat(DigitPrefix(parts[i])) == part[i].nodes[0])
            && multiset(r)[c] == |part| - 1
  {
    ItemTextsIff(part);
    var xs := ItemTexts(part).value;
    forall i | 0 <= i < |xs| ensures c !in xs[i] {
      ItemTextFree(part[i], c);
    }
    var inner := Join(xs, [c]);
    var r := "[" + inner + "]";
    assert DecodePartitioning(part, [c]) == Some(r);
    assert r[1..|r| - 1] == inner;
    SplitJoin(xs, c);
    forall i | 0 <= i < |part| ensures ParseNat(DigitPrefix(xs[i])) == part[i].nodes[0] {
      ItemTextHead(part[i]);
    }
    SplitCount(inner, c);
    assert multiset(r) == multiset("[") + multiset(inner) + multiset("]");
  }
}

=== FILE: lex.dfy ===
/** Lists of node ids under Python's list ordering: `sorted(blocks)` orders
    blocks lexicographically, a proper prefix before its extensions. */
module Lex {

  /** The list `s` backwards (`list.reverse()`). */
  function Reverse<T>(s: seq<T>): (r: seq<T>)
    ensures |r| == |s|
    ensures forall i :: 0 <= i < |s| ==> r[i] == s[|s| - 1 - i]
  {
    if |s| == 0 then [] else Reverse(s[1..]) + [s[0]]
  }

  /** Python's `a < b` on lists of naturals. */
  predicate Less(a: seq<nat>, b: seq<nat>)
    decreases |a|
  {
    if |a| == 0 then |b| > 0
    else if |b| == 0 then false
    else if a[0] != b[0] then a[0] < b[0]
    else Less(a[1..], b[1..])
  }

  /** No list is below itself. */
  lemma {:induction false} LessIrreflexive(a: seq<nat>)
    ensures !Less(a, a)
    decreases |a|
  {
    if |a| > 0 {
      LessIrreflexive(a[1..]);
    }
  }

  /** The list order is transitive. */
  lemma {:induction false} LessTransitive(a: seq<nat>, b: seq<nat>, c: seq<nat>)
    requires Less(a, b) && Less(b, c)
    ensures Less(a, c)
    decreases |a|
  {
    if |a| > 0 && a[0] == b[0] && b[0] == c[0] {
      LessTransitive(a[1..], b[1..], c[1..]);
    }
  }

  /** Any two different lists are ordered one way or the other. */
  lemma {:induction false} LessTotal(a: seq<nat>, b: seq<nat>)
    ensures a == b || Less(a, b) || Less(b, a)
    decreases |a|
  {
    if |a| > 0 && |b| > 0 && a[0] == b[0] {
      LessTotal(a[1..], b[1..]);
      if a[1..] == b[1..] {
        assert a == [a[0]] + a[1..] && b == [b[0]] + b[1..];
      }
    }
  }

  /** No later element is smaller than an earlier one. */
  predicate Sorted(s: seq<seq<nat>>) {
    forall i, j :: 0 <= i < j < |s| ==> !Less(s[j], s[i])
  }

  /** The elements of a list as a set. */
  function Elems<T>(s: seq<T>): set<T> {
    set x | x in s
  }

  /** No element occurs twice. */
  predicate Distinct<T(==)>(s: seq<T>) {
    forall i, j :: 0 <= i < j < |s| ==> s[i] != s[j]
  }

  /** Appending a new element keeps a list duplicate-free. */
  lemma SnocDistinct<T>(s: seq<T>, x: T)
    requires Distinct(s) && x !in Elems(s)
    ensures Distinct(s + [x]) && Elems(s + [x]) == Elems(s) + {x}
  {
    var r := s + [x];
    forall i, j | 0 <= i < j < |r| ensures r[i] != r[j] {
      assert r[i] == s[i];
      if j == |s| {
        assert s[i] in Elems(s);
      }
    }
  }

  /** Reversing keeps the elements and their distinctness. */
  lemma ReverseKeeps<T>(s: seq<T>)
    ensures Elems(Reverse(s)) == Elems(s)
    ensures Distinct(s) ==> Distinct(Reverse(s))
  {
    var r := Reverse(s);
    forall x | x in s ensures x in r {
      var k :| 0 <= k < |s| && s[k] == x;
      assert r[|s| - 1 - k] == x;
    }
    if Distinct(s) {
      forall i, j | 0 <= i < j < |r| ensures r[i] != r[j] {
        assert r[i] == s[|s| - 1 - i] && r[j] == s[|s| - 1 - j];
      }
    }
  }

  /** Insert `x` in front of the first element not smaller than it. */
  function Insert(x: seq<nat>, s: seq<seq<nat>>): (r: seq<seq<nat>>)
    ensures multiset(r) == multiset(s) + multiset{x}
    ensures Sorted(s) ==> Sorted(r)
  {
    if |s| == 0 then [x]
    else if !Less(s[0], x) then
      InsertFront(x, s);
      [x] + s
    else
      var tl := Insert(x, s[1..]);
      assert s == [s[0]] + s[1..];
      InsertBehind(x, s, tl);
      [s[0]] + tl
  }

  /** A list that is not below the head of a sorted list may go in front. */
  lemma InsertFront(x: seq<nat>, s: seq<seq<nat>>)
    requires |s| > 0 && !Less(s[0], x)
    ensures Sorted(s) ==> Sorted([x] + s)
  {
    if Sorted(s) {
      forall j | 0 < j < |[x] + s| ensures !Less(([x] + s)[j], x) {
        if Less(s[j - 1], x) {
          LessTotal(s[0], s[j - 1]);
          if Less(s[0], s[j - 1]) {
            LessTransitive(s[0], s[j - 1], x);
          }
        }
      }
    }
  }

  /** A list above the head of a sorted list keeps it in front of the
      insertion into the tail. */
  lemma InsertBehind(x: seq<nat>, s: seq<seq<nat>>, tl: seq<seq<nat>>)
    requires |s| > 0 && Less(s[0], x)
    requires multiset(tl) == multiset(s[1..]) + multiset{x}
    requires Sorted(s[1..]) ==> Sorted(tl)
    ensures Sorted(s) ==> Sorted([s[0]] + tl)
  {
    if Sorted(s) {
      assert Sorted(s[1..]);
      forall j | 0 <= j < |tl| ensures !Less(tl[j], s[0]) {
        assert tl[j] in multiset(tl);
        if tl[j] != x {
          assert tl[j] in multiset(s[1..]);
          var k :| 0 <= k < |s[1..]| && s[1..][k] == tl[j];
          assert s[k + 1] == tl[j];
        } else {
          LessIrreflexive(x);
          if Less(x, s[0]) {
            LessTransitive(x, s[0], x);
          }
        }
      }
    }
  }

  /** Python's `sorted(xs)` for a list of lists (insertion sort; every
      correct sort yields the same list, since the order is total). */
  function SortLex(xs: seq<seq<nat>>): (r: seq<seq<nat>>)
    ensures multiset(r) == multiset(xs)
    ensures Sorted(r)
  {
    if |xs| == 0 then []
    else
      assert xs == [xs[0]] + xs[1..];
      Insert(xs[0], SortLex(xs[1..]))
  }

  /** A rearrangement of a duplicate-free list is duplicate-free. */
  lemma PermutationKeepsDistinct<T>(xs: seq<T>, ys: seq<T>)
    requires multiset(xs) == multiset(ys) && Distinct(xs)
    ensures Distinct(ys)
  {
    DistinctCounts(xs);
    CountsDistinct(ys);
  }

  /** In a duplicate-free list every element occurs at most once. */
  lemma {:induction false} DistinctCounts<T>(s: seq<T>)
    requires Distinct(s)
    ensures forall x :: multiset(s)[x] <= 1
  {
    if |s| > 0 {
      assert s == [s[0]] + s[1..];
      DistinctCounts(s[1..]);
      assert s[0] !in s[1..];
    }
  }

  /** A list in which every element occurs at most once is duplicate-free. */
  lemma {:induction false} CountsDistinct<T>(s: seq<T>)
    requires forall x :: multiset(s)[x] <= 1
    ensures Distinct(s)
  {
    if |s| > 0 {
      assert s == [s[0]] + s[1..];
      assert multiset(s) == multiset{s[0]} + multiset(s[1..]);
      forall x ensures multiset(s[1..])[x] <= 1 {
        assert multiset(s)[x] == multiset{s[0]}[x] + multiset(s[1..])[x];
      }
      CountsDistinct(s[1..]);
      assert multiset(s)[s[0]] == 1 + multiset(s[1..])[s[0]];
      forall j | 0 < j < |s| ensures s[0] != s[j] {
        assert s[j] == s[1..][j - 1];
        assert s[j] in multiset(s[1..]);
      }
    }
  }
}

=== FILE: meta_tree.dfy ===
/** The meta dynamic program over subchains (`meta_tree_partitioning`).

    Every branching node `n` keeps `c_max + 1` slots; slot `c` holds the
    cheapest known partitioning of `n`'s subtree that uses `c` cuts on the
    critical path, as its set of block heads (barriers) and its cost.  The
    subtree is decomposed into subchains starting at `n`; each subchain is
    partitioned by an injected chain partitioner and combined with the slot-0
    solutions of the subtrees hanging off it (and, when the subchain leaves
    the critical path, with a slot of the critical-path child).  Slots are
    only ever replaced by strictly cheaper solutions. */
module MetaTree {
  import opened Base
  import opened CallTree

  datatype TPart = TPart(barr: set<Node>, cost: Ext)

  const EMPTY_PART: TPart := TPart({}, Inf)

  type Table = map<Node, seq<TPart>>

  /** The attribute lists a chain partitioner receives. */
  datatype Chain = Chain(runtime: seq<int>, memory: seq<int>, rate: seq<int>)

  /** What a chain partitioner returns: block heads as positions in the
      chain (empty when no partitioning meets the limits), cost, latency. */
  datatype ChainResult = ChainResult(barr: seq<nat>, cost: Ext, lat: Ext)

  /** One subchain `head + tail` starting at the node, with the roots of the
      subtrees hanging off it (one item of the library's `isubchains`). */
  datatype Subchain = Subchain(head: seq<Node>, tail: seq<Node>, branches: seq<Node>)

  /** The fixed inputs of a run.  The chain partitioner and its helpers are
      injected: `partition(chain, L, range)` closes over `M`, `N`, `delay`
      and `unit` (`range` is the optional `start, end` pair), `lastRow`
      gives the costs of the last row of the partitioner's DP table, and
      `barriers(chain, c)` extracts the block heads of its `c`-cut solution.
      `leaves` is the leaf set the library's `leaf_label_nodes` attaches to
      the root, `subchains` is `isubchains(tree, n, cp_end)`. */
  datatype Env = Env(
    t: Tree, root: Node, cp: set<Node>, cpEnd: Node, L: Ext, delay: int, cMax: int,
    leaves: set<Node>,
    subchains: Node -> seq<Subchain>,
    partition: (Chain, Ext, Option<(nat, nat)>) -> ChainResult,
    lastRow: Chain -> seq<Ext>,
    barriers: (Chain, nat) -> seq<nat>)

  /** The partitioner reports block heads as positions inside the chain it
      was given. */
  ghost predicate PartitionerOk(partition: (Chain, Ext, Option<(nat, nat)>) -> ChainResult, barriers: (Chain, nat) -> seq<nat>) {
    && (forall ch, l, se, i :: 0 <= i < |partition(ch, l, se).barr| ==> partition(ch, l, se).barr[i] < |ch.runtime|)
    && (forall ch, c, i :: 0 <= i < |barriers(ch, c)| ==> barriers(ch, c)[i] < |ch.runtime|)
  }

  /** What the walk relies on: a non-negative cut budget (the library returns
      before the walk otherwise) and a partitioner that reports positions
      inside its chain. */
  ghost predicate ValidEnv(e: Env) {
    e.cMax >= 0 && PartitionerOk(e.partition, e.barriers)
  }

  /** The slots of `n`; an untouched node has `c_max + 1` empty slots (the
      library's `defaultdict`). */
  function Slots(e: Env, dp: Table, n: Node): (r: seq<TPart>)
    requires e.cMax >= 0
    ensures n !in dp ==> |r| == e.cMax + 1 && forall c :: 0 <= c < |r| ==> r[c] == EMPTY_PART
  {
    if n in dp then dp[n] else seq(e.cMax + 1, _ => EMPTY_PART)
  }

  /** The attributes of the subchain `sub` below `pred`; every edge's rate is
      stored at its lower end. */
  function ChainOf(t: Tree, sub: seq<Node>): (ch: Chain)
    ensures |ch.runtime| == |ch.memory| == |ch.rate| == |sub|
    ensures forall i :: 0 <= i < |sub| ==>
      ch.runtime[i] == Runtime(t, sub[i]) && ch.memory[i] == Memory(t, sub[i]) && ch.rate[i] == Rate(t, sub[i])
  {
    Chain(seq(|sub|, i requires 0 <= i < |sub| => Runtime(t, sub[i])),
          seq(|sub|, i requires 0 <= i < |sub| => Memory(t, sub[i])),
          seq(|sub|, i requires 0 <= i < |sub| => Rate(t, sub[i])))
  }

  /** `{subchain[b] for b in barr}`. */
  function Heads(sub: seq<Node>, barr: seq<nat>): (r: set<Node>)
    requires forall i :: 0 <= i < |barr| ==> barr[i] < |sub|
    ensures forall v :: v in r <==> exists i :: 0 <= i < |barr| && sub[barr[i]] == v
  {
    set i | 0 <= i < |barr| :: sub[barr[i]]
  }

  /** Neither list got dearer anywhere, and none changed length. */
  ghost predicate NoWorse(a: seq<TPart>, b: seq<TPart>) {
    |b| == |a| && forall c :: 0 <= c < |a| ==> b[c].cost.Le(a[c].cost)
  }

  /** `NoWorse` is transitive. */
  lemma NoWorseTransitive(a: seq<TPart>, b: seq<TPart>, c: seq<TPart>)
    requires NoWorse(a, b) && NoWorse(b, c)
    ensures NoWorse(a, c)
  {
    forall i | 0 <= i < |a| ensures c[i].cost.Le(a[i].cost) {
      LeIsTotalPreorder(c[i].cost, b[i].cost, a[i].cost);
    }
  }

  /** `NoWorse` is reflexive. */
  lemma NoWorseReflexive(a: seq<TPart>)
    ensures NoWorse(a, a)
  {
    forall i | 0 <= i < |a| ensures a[i].cost.Le(a[i].cost) {
      LeIsTotalPreorder(a[i].cost, a[i].cost, a[i].cost);
    }
  }

  /** Only the slots of `n` may have changed, and none of them got dearer. */
  ghost predicate Improved(e: Env, dp: Table, dp': Table, n: Node)
    requires e.cMax >= 0
  {
    && NoWorse(Slots(e, dp, n), Slots(e, dp', n))
    && forall v :: v != n ==> Slots(e, dp', v) == Slots(e, dp, v)
  }

  /** `if part.cost < DP[n][c].cost: DP[n][c] = part`; `None` is the
      library's `IndexError` for a slot that does not exist. */
  function Offer(e: Env, dp: Table, n: Node, c: nat, part: TPart): (r: Option<Table>)
    requires e.cMax >= 0
    ensures r.Some? <==> c < |Slots(e, dp, n)|
    ensures r.Some? ==> Improved(e, dp, r.value, n)
    ensures r.Some? ==> Slots(e, r.value, n)[c].cost.Le(part.cost)
    ensures r.Some? ==> forall j :: 0 <= j < |Slots(e, dp, n)| && j != c ==> Slots(e, r.value, n)[j] == Slots(e, dp, n)[j]
    ensures r.Some? ==> (|| Slots(e, r.value, n)[c] == Slots(e, dp, n)[c]
                         || (Slots(e, r.value, n)[c] == part && part.cost.Lt(Slots(e, dp, n)[c].cost)))
  {
    var s := Slots(e, dp, n);
    if c >= |s| then None
    else
      var s' := if part.cost.Lt(s[c].cost) then s[c := part] else s;
      assert NoWorse(s, s') by {
        forall j | 0 <= j < |s| ensures s'[j].cost.Le(s[j].cost) {
          LeIsTotalPreorder(s'[j].cost, s[j].cost, s[j].cost);
        }
      }
      assert s'[c].cost.Le(part.cost) by {
        LeIsTotalPreorder(s[c].cost, part.cost, part.cost);
      }
      Some(dp[n := s'])
  }

  /** Offer `part` to every slot from `c` up to `c_max`. */
  function OfferFrom(e: Env, dp: Table, n: Node, c: nat, part: TPart): (r: Option<Table>)
    requires e.cMax >= 0
    ensures r.Some? <==> c > e.cMax || e.cMax < |Slots(e, dp, n)|
    ensures r.Some? ==> Improved(e, dp, r.value, n)
    ensures r.Some? ==> forall j :: c <= j <= e.cMax && j < |Slots(e, dp, n)| ==> Slots(e, r.value, n)[j].cost.Le(part.cost)
    ensures r.Some? ==> forall j :: 0 <= j < |Slots(e, dp, n)| && (j < c || j > e.cMax) ==>
      Slots(e, r.value, n)[j] == Slots(e, dp, n)[j]
    decreases e.cMax + 1 - c
  {
    if c > e.cMax then NoWorseReflexive(Slots(e, dp, n)); Some(dp)
    else
      match Offer(e, dp, n, c, part)
      case None => None
      case Some(dp1) =>
        var r := OfferFrom(e, dp1, n, c + 1, part);
        assert r.Some? ==> Improved(e, dp, r.value, n) by {
          if r.Some? {
            NoWorseTransitive(Slots(e, dp, n), Slots(e, dp1, n), Slots(e, r.value, n));
          }
        }
        r
  }

  /** What the library returns. */
  datatype MetaOutcome =
    | LatencyTooTight(cMax: int)                        // `([], None, c_max)`
    | Early(positions: seq<nat>, pathCost: Ext, pathLat: Ext) // the critical path alone cannot meet `L`
    | Failure                                           // the library raises an exception
    | Solved(barr: set<Node>, cost: Ext, cuts: nat)

  /** Either carry on with the table or stop with an answer. */
  datatype Flow = Next(dp: Table) | Done(out: MetaOutcome)

  /** The slot-0 solutions of the subtrees hanging off the subchain outside
      the critical path: their cost sum (`sum_m_cost`) and barrier union
      (`sum_m_barr`).  `None` is an `IndexError` on an empty slot list. */
  function BranchSum(e: Env, dp: Table, bs: seq<Node>): (r: Option<TPart>)
    requires e.cMax >= 0
    decreases |bs|
  {
    if |bs| == 0 then Some(TPart({}, Fin(0)))
    else
      var m := bs[0];
      match BranchSum(e, dp, bs[1..])
      case None => None
      case Some(rest) =>
        if m in e.cp then Some(rest)
        else if |Slots(e, dp, m)| == 0 then None
        else Some(TPart(Slots(e, dp, m)[0].barr + rest.barr, Slots(e, dp, m)[0].cost.Plus(rest.cost)))
  }

  /** A subchain off the critical path: partition it without a latency limit
      and offer the result to slot 0 only. */
  function OffPathCase(e: Env, dp: Table, n: Node, sub: seq<Node>, branch: TPart): (r: Option<Table>)
    requires ValidEnv(e)
    ensures r.Some? <==> |Slots(e, dp, n)| > 0
    ensures r.Some? ==> Improved(e, dp, r.value, n)
    ensures r.Some? ==> forall c :: 1 <= c < |Slots(e, dp, n)| ==> Slots(e, r.value, n)[c] == Slots(e, dp, n)[c]
    ensures r.Some? ==> Slots(e, r.value, n)[0].cost.Le(e.partition(ChainOf(e.t, sub), Inf, None).cost.Plus(branch.cost))
  {
    var ch := ChainOf(e.t, sub);
    var res := e.partition(ch, Inf, None);
    Offer(e, dp, n, 0, TPart(Heads(sub, res.barr) + branch.barr, res.cost.Plus(branch.cost)))
  }

  /** The whole critical path `root -> ... -> cp_end`: partition it under
      `L`; a failure is returned as it is, a solution with `b` blocks is
      offered to every slot from `b - 1` up. */
  function RootPathCase(e: Env, dp: Table, n: Node, sub: seq<Node>, branch: TPart): (r: Flow)
    requires ValidEnv(e)
    ensures var res := e.partition(ChainOf(e.t, sub), e.L, None);
      && (r.Done? && r.out.Early? <==> |res.barr| == 0)
      && (r.Done? && r.out.Early? ==> r.out == Early(res.barr, res.cost, res.lat))
      && (r.Next? ==> && Improved(e, dp, r.dp, n)
                      && forall c :: |res.barr| - 1 <= c < |Slots(e, dp, n)| && c <= e.cMax ==>
                           Slots(e, r.dp, n)[c].cost.Le(res.cost.Plus(branch.cost)))
      && (r.Next? ==> forall c :: 0 <= c < |Slots(e, dp, n)| && c < |res.barr| - 1 ==> Slots(e, r.dp, n)[c] == Slots(e, dp, n)[c])
  {
    var ch := ChainOf(e.t, sub);
    var res := e.partition(ch, e.L, None);
    if |res.barr| == 0 then Done(Early(res.barr, res.cost, res.lat))
    else
      match OfferFrom(e, dp, n, |res.barr| - 1, TPart(Heads(sub, res.barr) + branch.barr, res.cost.Plus(branch.cost)))
      case None => Done(Failure)
      case Some(dp') => Next(dp')
  }

  /** What `part_best` and `c_best` hold when slot `c` is reached: every
      finite entry of the row before `c` (within the subchain) is no cheaper
      than `row[c_best]`, and `part_best` is the subcase of `c_best` plus the
      branches; with no finite entry so far `part_best` is still `None`. */
  ghost predicate BestSoFar(sub: seq<Node>, row: seq<Ext>, branch: TPart, c: nat, cBest: nat, best: Option<TPart>) {
    && (best.Some? ==> cBest < |sub| && cBest < |row| && best.value.cost == row[cBest].Plus(branch.cost))
    && (best.None? ==> cBest == 0)
    && forall i :: 0 <= i < c && i < |sub| && i < |row| && row[i] != Inf ==> best.Some? && row[cBest].Le(row[i])
  }

  /** Slot `j` is not passed over by the `continue` of an infinite row
      entry. */
  predicate Reached(sub: seq<Node>, row: seq<Ext>, j: nat) {
    j >= |sub| || (j < |row| && row[j] != Inf)
  }

  /** Every reached slot from `c` up to `c_max` is no dearer than the
      subcase of any finite row entry at or before it (plus the branches):
      the running best lands in each such slot. */
  ghost predicate TailLands(e: Env, dp: Table, dp': Table, n: Node, sub: seq<Node>, row: seq<Ext>, branch: TPart, c: nat)
    requires e.cMax >= 0
  {
    forall j, i :: c <= j <= e.cMax && j < |Slots(e, dp, n)| && j < |Slots(e, dp', n)| && Reached(sub, row, j)
                   && 0 <= i <= j && i < |sub| && i < |row| && row[i] != Inf ==>
      Slots(e, dp', n)[j].cost.Le(row[i].Plus(branch.cost))
  }

  /** The loop from `c` on cannot fail: every slot exists, the row covers
      the subchain, and a `part_best` exists by the time a slot beyond the
      subchain is reached. */
  ghost predicate TailCompletes(e: Env, dp: Table, n: Node, sub: seq<Node>, row: seq<Ext>, c: nat, best: Option<TPart>)
    requires e.cMax >= 0
  {
    && e.cMax < |Slots(e, dp, n)|
    && |sub| <= |row|
    && (e.cMax < |sub| || best.Some? || exists i :: c <= i < |sub| && row[i] != Inf)
  }

  /** The tail of the critical path below a cut: walk the cut counts `c`,
      keeping the best solution seen so far (`part_best`) and offering it to
      slot `c`.  `None` is an `IndexError` (a missing slot or row entry) or
      the `part_best.cost` of a `None` best (`AttributeError`); neither
      happens when `TailCompletes` holds. */
  function TailLoop(e: Env, dp: Table, n: Node, sub: seq<Node>, row: seq<Ext>, branch: TPart,
                    c: nat, cBest: nat, best: Option<TPart>): (r: Option<Table>)
    requires ValidEnv(e) && cBest <= c && (0 < c < |sub| ==> cBest < |row|)
    requires BestSoFar(sub, row, branch, c, cBest, best)
    ensures r.Some? ==> Improved(e, dp, r.value, n)
    ensures r.Some? ==> TailLands(e, dp, r.value, n, sub, row, branch, c)
    ensures TailCompletes(e, dp, n, sub, row, c, best) ==> r.Some?
    decreases e.cMax + 1 - c
  {
    if c > e.cMax then NoWorseReflexive(Slots(e, dp, n)); Some(dp)
    else if c < |sub| && c >= |row| then None
    else if c < |sub| && row[c] == Inf then
      var r := TailLoop(e, dp, n, sub, row, branch, c + 1, cBest, best);
      assert r.Some? ==> TailLands(e, dp, r.value, n, sub, row, branch, c) by {
        if r.Some? {
          TailLandsSkip(e, dp, r.value, n, sub, row, branch, c);
        }
      }
      r
    else
      var ch := ChainOf(e.t, sub);
      var improves := c < |sub| && (c == 0 || row[c].Lt(row[cBest]));
      var best' :=
        if improves then Some(TPart(Heads(sub, e.barriers(ch, c)) + branch.barr, row[c].Plus(branch.cost))) else best;
      var cBest' := if improves then c else cBest;
      TailBestStep(sub, row, branch, c, cBest, best, improves, cBest', best');
      if best'.None? then None
      else
        match Offer(e, dp, n, c, best'.value)
        case None => None
        case Some(dp1) =>
          var r := TailLoop(e, dp1, n, sub, row, branch, c + 1, cBest', best');
          if r.Some? then
            NoWorseTransitive(Slots(e, dp, n), Slots(e, dp1, n), Slots(e, r.value, n));
            TailLandsStep(e, dp, dp1, r.value, n, sub, row, branch, c, cBest', best'.value);
            r
          else r
  }

  /** Passing over slot `c` keeps the landing of the later slots. */
  lemma TailLandsSkip(e: Env, dp: Table, dp': Table, n: Node, sub: seq<Node>, row: seq<Ext>, branch: TPart, c: nat)
    requires e.cMax >= 0 && c < |sub| && c < |row| && row[c] == Inf
    requires TailLands(e, dp, dp', n, sub, row, branch, c + 1)
    ensures TailLands(e, dp, dp', n, sub, row, branch, c)
  {
  }

  /** One step of the running best: after slot `c` the invariant holds for
      `c + 1`, and `part_best` exists whenever slot `c` holds a finite
      entry. */
  lemma TailBestStep(sub: seq<Node>, row: seq<Ext>, branch: TPart, c: nat, cBest: nat, best: Option<TPart>,
                     improves: bool, cBest': nat, best': Option<TPart>)
    requires cBest <= c && (0 < c < |sub| ==> cBest < |row|) && (c < |sub| ==> c < |row| && row[c] != Inf)
    requires BestSoFar(sub, row, branch, c, cBest, best)
    requires improves == (c < |sub| && (c == 0 || row[c].Lt(row[cBest])))
    requires cBest' == (if improves then c else cBest)
    requires improves ==> best'.Some? && best'.value.cost == row[c].Plus(branch.cost)
    requires !improves ==> best' == best
    ensures BestSoFar(sub, row, branch, c + 1, cBest', best')
    ensures cBest' <= c + 1 && (0 < c + 1 < |sub| ==> cBest' < |row|)
    ensures c < |sub| ==> best'.Some?
  {
    if c < |sub| && !improves && best.None? {
      assert row[0] == Inf;
    }
    forall i | 0 <= i < c + 1 && i < |sub| && i < |row| && row[i] != Inf
      ensures best'.Some? && row[cBest'].Le(row[i])
    {
      if i < c && improves {
        LeIsTotalPreorder(row[c], row[cBest], row[i]);
      } else if i == c {
        LeIsTotalPreorder(row[cBest'], row[c], row[c]);
      }
    }
  }

  /** The running best lands in slot `c` and stays there. */
  lemma TailLandsStep(e: Env, dp: Table, dp1: Table, dp': Table, n: Node, sub: seq<Node>, row: seq<Ext>,
                      branch: TPart, c: nat, cBest: nat, best: TPart)
    requires e.cMax >= 0 && c <= e.cMax && Reached(sub, row, c)
    requires NoWorse(Slots(e, dp, n), Slots(e, dp1, n)) && NoWorse(Slots(e, dp1, n), Slots(e, dp', n))
    requires c < |Slots(e, dp, n)| && Slots(e, dp1, n)[c].cost.Le(best.cost)
    requires BestSoFar(sub, row, branch, c + 1, cBest, Some(best))
    requires TailLands(e, dp1, dp', n, sub, row, branch, c + 1)
    ensures TailLands(e, dp, dp', n, sub, row, branch, c)
  {
    forall j, i | c <= j <= e.cMax && j < |Slots(e, dp, n)| && j < |Slots(e, dp', n)| && Reached(sub, row, j)
                  && 0 <= i <= j && i < |sub| && i < |row| && row[i] != Inf
      ensures Slots(e, dp', n)[j].cost.Le(row[i].Plus(branch.cost))
    {
      if j == c {
        PlusMonotone(row[cBest], row[i], branch.cost);
        LeIsTotalPreorder(Slots(e, dp', n)[c].cost, Slots(e, dp1, n)[c].cost, best.cost);
        LeIsTotalPreorder(Slots(e, dp', n)[c].cost, best.cost, row[i].Plus(branch.cost));
      }
    }
  }

  /** `c_cache`: head-part partitionings by the number of cuts they were
      computed for. */
  type Cache = map<int, (seq<nat>, Ext)>

  /** Every cached barrier position lies inside a chain of `len` nodes. */
  ghost predicate CacheOk(cache: Cache, len: nat) {
    forall x, i :: x in cache && 0 <= i < |cache[x].0| ==> cache[x].0[i] < len
  }

  /** `for _c in reversed(range(lo, hi + 1)): c_cache[_c] = v`. */
  function FillCache(cache: Cache, lo: int, hi: int, v: (seq<nat>, Ext)): (r: Cache)
    ensures forall x :: x in r <==> x in cache || lo <= x <= hi
    ensures forall x :: x in r ==> r[x] == if lo <= x <= hi then v else cache[x]
    decreases hi - lo + 1
  {
    if hi < lo then cache else FillCache(cache[hi := v], lo, hi - 1, v)
  }

  /** The head-part partitioning for `c_head` cuts: the cached one, or a
      fresh run of the partitioner on the head part under the latency budget
      `L_head` of its runtime plus `c_head` delays; `None` when the fresh run
      finds no partitioning (the `break`). */
  function HeadLookup(e: Env, sub: seq<Node>, head: seq<Node>, cHead: int, cache: Cache): (r: Option<(seq<nat>, Ext)>)
    requires |head| > 0
    ensures cHead in cache ==> r == Some(cache[cHead])
    ensures cHead !in cache ==>
      var res := e.partition(ChainOf(e.t, sub), Fin(RuntimeSum(e.t, head) + cHead * e.delay), Some((0, |head| - 1)));
      && (r.None? <==> |res.barr| == 0)
      && (r.Some? ==> r.value == (res.barr, res.cost))
  {
    if cHead in cache then Some(cache[cHead])
    else
      var res := e.partition(ChainOf(e.t, sub), Fin(RuntimeSum(e.t, head) + cHead * e.delay), Some((0, |head| - 1)));
      if |res.barr| == 0 then None else Some((res.barr, res.cost))
  }

  /** The cache after a successful lookup: a fresh result is stored for
      every cut count from the one it actually needs up to `c_head`. */
  function NextCache(e: Env, sub: seq<Node>, head: seq<Node>, cHead: int, cache: Cache): (r: Cache)
    requires ValidEnv(e) && CacheOk(cache, |sub|) && |head| > 0
    requires HeadLookup(e, sub, head, cHead, cache).Some?
    ensures CacheOk(r, |sub|)
    ensures forall i :: 0 <= i < |HeadLookup(e, sub, head, cHead, cache).value.0| ==>
      HeadLookup(e, sub, head, cHead, cache).value.0[i] < |sub|
  {
    var f := HeadLookup(e, sub, head, cHead, cache).value;
    if cHead in cache then cache else FillCache(cache, |f.0| - 1, cHead, f)
  }

  /** The summed cost offered to slot `k + c_head + 1`: the head-part
      partitioning, the `k`-cut solution of `m_cp`'s subtree and the
      branches. */
  function HeadOffer(cost: Ext, mk: TPart, branch: TPart): Ext {
    cost.Plus(mk.cost).Plus(branch.cost)
  }

  /** The inner loop over the cuts `c_head` of the head part, from the most
      to none; a head part that cannot meet its latency budget stops the
      loop (`break`), since fewer cuts cannot meet it either.  The first
      `c_head` lands its summed cost in slot `k + c_head + 1`; the only
      failure is the `IndexError` of a missing slot. */
  function HeadCuts(e: Env, dp: Table, n: Node, sub: seq<Node>, head: seq<Node>, mcp: Node, k: nat, cHead: int,
                    cache: Cache, branch: TPart): (r: Option<(Cache, Table)>)
    requires ValidEnv(e) && CacheOk(cache, |sub|) && k < |Slots(e, dp, mcp)| && |head| > 0
    requires cHead <= e.cMax - k - 1
    ensures r.Some? ==> Improved(e, dp, r.value.1, n) && CacheOk(r.value.0, |sub|)
    ensures r.Some? ==> forall j :: 0 <= j < |Slots(e, dp, n)| && (j == 0 || j > e.cMax) ==>
      Slots(e, r.value.1, n)[j] == Slots(e, dp, n)[j]
    ensures cHead >= 0 && HeadLookup(e, sub, head, cHead, cache).None? ==> r == Some((cache, dp))
    ensures r.Some? && cHead >= 0 && HeadLookup(e, sub, head, cHead, cache).Some? ==>
      && k + cHead + 1 < |Slots(e, dp, n)|
      && Slots(e, r.value.1, n)[k + cHead + 1].cost.Le(
           HeadOffer(HeadLookup(e, sub, head, cHead, cache).value.1, Slots(e, dp, mcp)[k], branch))
    ensures e.cMax < |Slots(e, dp, n)| ==> r.Some?
    decreases cHead + 1
  {
    if cHead < 0 then NoWorseReflexive(Slots(e, dp, n)); Some((cache, dp))
    else
      var found := HeadLookup(e, sub, head, cHead, cache);
      if found.None? then NoWorseReflexive(Slots(e, dp, n)); Some((cache, dp))
      else
        var barr := found.value.0;
        var cost := found.value.1;
        var cache' := NextCache(e, sub, head, cHead, cache);
        var mk := Slots(e, dp, mcp)[k];
        var c := k + cHead + 1;
        match Offer(e, dp, n, c, TPart(Heads(sub, barr) + mk.barr + branch.barr, HeadOffer(cost, mk, branch)))
        case None => None
        case Some(dp1) =>
          var r := HeadCuts(e, dp1, n, sub, head, mcp, k, cHead - 1, cache', branch);
          if r.Some? then
            NoWorseTransitive(Slots(e, dp, n), Slots(e, dp1, n), Slots(e, r.value.1, n));
            StaysLanded(e, dp1, r.value.1, n, c, HeadOffer(cost, mk, branch));
            r
          else r
  }

  /** The `k` of the loop is passed over: `m_cp`'s subtree has no `k`-cut
      solution, or one with a cut fewer is no dearer. */
  predicate SkipK(ms: seq<TPart>, k: nat)
    requires k < |ms|
  {
    ms[k].cost == Inf || (k > 0 && ms[k - 1].cost.Le(ms[k].cost))
  }

  /** The outer loop over the cuts `k` inside the critical-path child's
      subtree; `k` is skipped when that subtree has no `k`-cut solution or
      one with fewer cuts is no dearer.  A `k` that is not skipped starts
      the `c_head` loop at `c_max - k - 1`, which lands its summed cost in
      slot `c_max`; the only failures are `IndexError`s of missing slots. */
  function KLoop(e: Env, dp: Table, n: Node, sub: seq<Node>, head: seq<Node>, mcp: Node, k: nat,
                 cache: Cache, branch: TPart): (r: Option<Table>)
    requires ValidEnv(e) && CacheOk(cache, |sub|) && |head| > 0
    ensures r.Some? ==> Improved(e, dp, r.value, n)
    ensures r.Some? ==> forall j :: 0 <= j < |Slots(e, dp, n)| && (j == 0 || j > e.cMax) ==>
      Slots(e, r.value, n)[j] == Slots(e, dp, n)[j]
    ensures r.Some? && k < e.cMax && k < |Slots(e, dp, mcp)| && !SkipK(Slots(e, dp, mcp), k)
            && HeadLookup(e, sub, head, e.cMax - k - 1, cache).Some? ==>
      && e.cMax < |Slots(e, dp, n)|
      && Slots(e, r.value, n)[e.cMax].cost.Le(
           HeadOffer(HeadLookup(e, sub, head, e.cMax - k - 1, cache).value.1, Slots(e, dp, mcp)[k], branch))
    ensures e.cMax < |Slots(e, dp, n)| && e.cMax <= |Slots(e, dp, mcp)| ==> r.Some?
    decreases e.cMax - k
  {
    if k >= e.cMax then NoWorseReflexive(Slots(e, dp, n)); Some(dp)
    else
      var ms := Slots(e, dp, mcp);
      if k >= |ms| then None
      else if SkipK(ms, k) then
        KLoop(e, dp, n, sub, head, mcp, k + 1, cache, branch)
      else
        match HeadCuts(e, dp, n, sub, head, mcp, k, e.cMax - k - 1, cache, branch)
        case None => None
        case Some((cache', dp1)) =>
          var r := KLoop(e, dp1, n, sub, head, mcp, k + 1, cache', branch);
          if r.Some? then
            NoWorseTransitive(Slots(e, dp, n), Slots(e, dp1, n), Slots(e, r.value, n));
            StaysLanded(e, dp1, r.value, n, e.cMax, HeadOffer(HeadCost(e, sub, head, e.cMax - k - 1, cache), ms[k], branch));
            r
          else r
  }

  /** A slot that holds a cost no dearer than `x` keeps doing so through
      a step that improves only `n`'s slots. */
  lemma StaysLanded(e: Env, dp1: Table, dp2: Table, n: Node, c: nat, x: Ext)
    requires e.cMax >= 0 && Improved(e, dp1, dp2, n)
    ensures c < |Slots(e, dp1, n)| && Slots(e, dp1, n)[c].cost.Le(x) ==> Slots(e, dp2, n)[c].cost.Le(x)
  {
    if c < |Slots(e, dp1, n)| {
      LeIsTotalPreorder(Slots(e, dp2, n)[c].cost, Slots(e, dp1, n)[c].cost, x);
    }
  }

  /** The cost of `HeadLookup`, infinite when it finds nothing. */
  function HeadCost(e: Env, sub: seq<Node>, head: seq<Node>, cHead: int, cache: Cache): Ext
    requires |head| > 0
  {
    match HeadLookup(e, sub, head, cHead, cache)
    case None => Inf
    case Some(f) => f.1
  }

  /** A subchain that leaves the critical path below its head part: the edge
      to the critical-path child `m_cp` is cut, so every written slot counts
      at least one cut and slot 0 is never written.  `None` is the library's
      `IndexError` on an empty head part or `StopIteration` when no child of
      the head's last node is on the critical path. */
  function HeadPathCase(e: Env, dp: Table, n: Node, sub: seq<Node>, head: seq<Node>, branch: TPart): (r: Option<Table>)
    requires ValidEnv(e)
    ensures r.Some? ==> Improved(e, dp, r.value, n)
    ensures r.Some? ==> forall j :: 0 <= j < |Slots(e, dp, n)| && (j == 0 || j > e.cMax) ==>
      Slots(e, r.value, n)[j] == Slots(e, dp, n)[j]
  {
    if |head| == 0 then None
    else
      match FirstIn(Children(e.t, head[|head| - 1]), e.cp)
      case None => None
      case Some(mcp) => KLoop(e, dp, n, sub, head, mcp, 0, map[], branch)
  }

  /** One subchain starting at `n`: pick the case by how the subchain meets
      the critical path.  `Done(Failure)` stands for the exceptions the
      library raises on the way, among them the `ValueError` of unpacking
      the attribute lists of an empty subchain. */
  function ProcessSubchain(e: Env, dp: Table, n: Node, sc: Subchain): (r: Flow)
    requires ValidEnv(e)
    ensures |sc.head + sc.tail| == 0 ==> r == Done(Failure)
    ensures r.Next? ==> Improved(e, dp, r.dp, n)
    ensures r.Next? && n !in e.cp ==> forall c :: 1 <= c < |Slots(e, dp, n)| ==> Slots(e, r.dp, n)[c] == Slots(e, dp, n)[c]
    ensures r.Done? && r.out.Early? ==> n in e.cp
    ensures r.Done? ==> r.out.Failure? || r.out.Early?
  {
    var sub := sc.head + sc.tail;
    if |sub| == 0 then Done(Failure)
    else
    match BranchSum(e, dp, sc.branches)
    case None => Done(Failure)
    case Some(branch) =>
      if n !in e.cp then
        match OffPathCase(e, dp, n, sub, branch)
        case None => Done(Failure)
        case Some(dp') => Next(dp')
      else if sub[|sub| - 1] == e.cpEnd then
        if sub[0] == e.root then RootPathCase(e, dp, n, sub, branch)
        else
          match TailLoop(e, dp, n, sub, e.lastRow(ChainOf(e.t, sub)), branch, 0, 0, None)
          case None => Done(Failure)
          case Some(dp') => Next(dp')
      else
        match HeadPathCase(e, dp, n, sub, sc.head, branch)
        case None => Done(Failure)
        case Some(dp') => Next(dp')
  }

  /** All subchains starting at `n`, in order. */
  function ProcessSubchains(e: Env, dp: Table, n: Node, scs: seq<Subchain>): (r: Flow)
    requires ValidEnv(e)
    ensures r.Next? ==> Improved(e, dp, r.dp, n)
    ensures r.Next? && n !in e.cp ==> forall c :: 1 <= c < |Slots(e, dp, n)| ==> Slots(e, r.dp, n)[c] == Slots(e, dp, n)[c]
    ensures r.Done? ==> r.out.Failure? || r.out.Early?
    decreases |scs|
  {
    if |scs| == 0 then NoWorseReflexive(Slots(e, dp, n)); Next(dp)
    else
      match ProcessSubchain(e, dp, n, scs[0])
      case Done(out) => Done(out)
      case Next(dp1) =>
        var r := ProcessSubchains(e, dp1, n, scs[1..]);
        assert r.Next? ==> Improved(e, dp, r.dp, n) by {
          if r.Next? {
            NoWorseTransitive(Slots(e, dp, n), Slots(e, dp1, n), Slots(e, r.dp, n));
          }
        }
        r
  }

  /** The precomputed slots of a leaf `n`: the leaf alone as one block, in
      `c_max` copies for the end of the critical path and one copy
      otherwise. */
  function LeafSlots(e: Env, n: Node): (r: seq<TPart>)
    requires e.cMax >= 0
    ensures |r| == (if n == e.cpEnd then e.cMax else 1)
    ensures forall c :: 0 <= c < |r| ==> r[c].barr == {n}
    ensures forall c :: 0 <= c < |r| ==>
      r[c].cost == e.partition(Chain([Runtime(e.t, n)], [Memory(e.t, n)], [Rate(e.t, n)]), Inf, None).cost
  {
    var cost := e.partition(Chain([Runtime(e.t, n)], [Memory(e.t, n)], [Rate(e.t, n)]), Inf, None).cost;
    seq(if n == e.cpEnd then e.cMax else 1, _ => TPart({n}, cost))
  }

  /** One `(pred, n)` step of the post-order walk.  Nodes entered from a
      non-branching parent are skipped; a leaf's slots are overwritten with
      its precomputed ones; any other node's slots only get cheaper. */
  function ProcessNode(e: Env, dp: Table, pred: Node, n: Node): (r: Flow)
    requires ValidEnv(e)
    ensures r.Next? ==> forall v :: v != n ==> Slots(e, r.dp, v) == Slots(e, dp, v)
    ensures r.Next? && n !in e.leaves ==> NoWorse(Slots(e, dp, n), Slots(e, r.dp, n))
    ensures r.Next? && n in e.leaves ==>
      Slots(e, r.dp, n) == if |Children(e.t, pred)| <= 1 && pred != PLATFORM then Slots(e, dp, n) else LeafSlots(e, n)
    ensures r.Done? ==> n !in e.leaves && (|Children(e.t, pred)| > 1 || pred == PLATFORM)
    ensures r.Done? ==> r.out.Failure? || r.out.Early?
  {
    if |Children(e.t, pred)| <= 1 && pred != PLATFORM then NoWorseReflexive(Slots(e, dp, n)); Next(dp)
    else if n in e.leaves then Next(dp[n := LeafSlots(e, n)])
    else ProcessSubchains(e, dp, n, e.subchains(n))
  }

  /** `n` is never the second component of a step of `order`. */
  predicate NotVisited(order: seq<(Node, Node)>, v: Node) {
    forall i :: 0 <= i < |order| ==> order[i].1 != v
  }

  /** No node has more than `c_max + 1` slots. */
  ghost predicate SlotsBounded(e: Env, dp: Table)
    requires e.cMax >= 0
  {
    forall v :: |Slots(e, dp, v)| <= e.cMax + 1
  }

  /** The post-order walk (`ipostorder_dfs`) over `(pred, n)` pairs. */
  function RunOrder(e: Env, dp: Table, order: seq<(Node, Node)>): (r: Flow)
    requires ValidEnv(e)
    ensures r.Next? ==> forall v :: v !in e.leaves ==> NoWorse(Slots(e, dp, v), Slots(e, r.dp, v))
    ensures r.Next? ==> forall v :: NotVisited(order, v) ==> Slots(e, r.dp, v) == Slots(e, dp, v)
    ensures r.Next? && SlotsBounded(e, dp) ==> SlotsBounded(e, r.dp)
    ensures r.Done? ==> r.out.Failure? || r.out.Early?
    decreases |order|
  {
    if |order| == 0 then
      assert forall v :: NoWorse(Slots(e, dp, v), Slots(e, dp, v)) by {
        forall v ensures NoWorse(Slots(e, dp, v), Slots(e, dp, v)) {
          NoWorseReflexive(Slots(e, dp, v));
        }
      }
      Next(dp)
    else
      match ProcessNode(e, dp, order[0].0, order[0].1)
      case Done(out) => Done(out)
      case Next(dp1) =>
        var r := RunOrder(e, dp1, order[1..]);
        if r.Next? then
          StepNoWorse(e, dp, dp1, r.dp, order[0].1);
          StepUnvisited(e, dp, dp1, r.dp, order);
          r
        else r
  }

  /** A step that changes only `n`, and does not worsen it, followed by a
      walk that worsens nothing, worsens nothing overall. */
  lemma StepNoWorse(e: Env, dp: Table, dp1: Table, dp2: Table, n: Node)
    requires e.cMax >= 0
    requires forall v :: v != n ==> Slots(e, dp1, v) == Slots(e, dp, v)
    requires n !in e.leaves ==> NoWorse(Slots(e, dp, n), Slots(e, dp1, n))
    requires forall v :: v !in e.leaves ==> NoWorse(Slots(e, dp1, v), Slots(e, dp2, v))
    ensures forall v :: v !in e.leaves ==> NoWorse(Slots(e, dp, v), Slots(e, dp2, v))
  {
    forall v | v !in e.leaves ensures NoWorse(Slots(e, dp, v), Slots(e, dp2, v)) {
      if v != n {
        NoWorseReflexive(Slots(e, dp, v));
      }
      NoWorseTransitive(Slots(e, dp, v), Slots(e, dp1, v), Slots(e, dp2, v));
    }
  }

  /** Nodes the walk never reaches keep their slots through the first step
      and the rest of the walk. */
  lemma StepUnvisited(e: Env, dp: Table, dp1: Table, dp2: Table, order: seq<(Node, Node)>)
    requires e.cMax >= 0 && |order| > 0
    requires forall v :: v != order[0].1 ==> Slots(e, dp1, v) == Slots(e, dp, v)
    requires forall v :: NotVisited(order[1..], v) ==> Slots(e, dp2, v) == Slots(e, dp1, v)
    ensures forall v :: NotVisited(order, v) ==> Slots(e, dp2, v) == Slots(e, dp, v)
  {
    forall v | NotVisited(order, v) ensures Slots(e, dp2, v) == Slots(e, dp, v) {
      assert order[0].1 != v;
      assert NotVisited(order[1..], v) by {
        forall i | 0 <= i < |order[1..]| ensures order[1..][i].1 != v {
          assert order[1..][i] == order[i + 1];
        }
      }
    }
  }

  /** `min(range(len(s)), key=cost)`: the first slot of least cost. */
  function FirstMinSlot(s: seq<TPart>): (r: nat)
    requires |s| > 0
    ensures r < |s|
    ensures forall j :: 0 <= j < |s| ==> s[r].cost.Le(s[j].cost)
    ensures forall j :: 0 <= j < r ==> s[r].cost.Lt(s[j].cost)
  {
    FirstMinFrom(s, 1, 0)
  }

  /** Scan from `i` on, `best` being the first least slot before `i`. */
  function FirstMinFrom(s: seq<TPart>, i: nat, best: nat): (r: nat)
    requires best < i <= |s|
    requires forall j :: 0 <= j < i ==> s[best].cost.Le(s[j].cost)
    requires forall j :: 0 <= j < best ==> s[best].cost.Lt(s[j].cost)
    ensures best <= r < |s|
    ensures forall j :: 0 <= j < |s| ==> s[r].cost.Le(s[j].cost)
    ensures forall j :: 0 <= j < r ==> s[r].cost.Lt(s[j].cost)
    decreases |s| - i
  {
    if i == |s| then best
    else if s[i].cost.Lt(s[best].cost) then
      assert forall j :: 0 <= j <= i ==> s[i].cost.Le(s[j].cost) && (j < i ==> s[i].cost.Lt(s[j].cost)) by {
        forall j | 0 <= j <= i ensures s[i].cost.Le(s[j].cost) && (j < i ==> s[i].cost.Lt(s[j].cost)) {
          if j < i {
            LeIsTotalPreorder(s[i].cost, s[best].cost, s[j].cost);
          } else {
            LeIsTotalPreorder(s[i].cost, s[i].cost, s[i].cost);
          }
        }
      }
      FirstMinFrom(s, i + 1, i)
    else
      FirstMinFrom(s, i + 1, best)
  }

  /** The walk's environment for one call of `meta_tree_partitioning`,
      given its cut budget `c_max`. */
  function MetaEnv(t: Tree, root: Node, cpath: set<Node>, cpEnd: Node, L: Ext, delay: int, cMax: int,
                   leaves: set<Node>, subchains: Node -> seq<Subchain>,
                   partition: (Chain, Ext, Option<(nat, nat)>) -> ChainResult,
                   lastRow: Chain -> seq<Ext>, barriers: (Chain, nat) -> seq<nat>): (e: Env)
    ensures e.cMax == cMax && e.delay == delay && e.cp == cpath && e.root == root
    ensures PartitionerOk(partition, barriers) && cMax >= 0 ==> ValidEnv(e)
  {
    Env(t, root, cpath, cpEnd, L, delay, cMax, leaves, subchains, partition, lastRow, barriers)
  }

  /** The root's answer: the first slot of least cost, or the library's
      exception when the root has no slot. */
  function PickSlot(s: seq<TPart>): (r: MetaOutcome)
    ensures r.Failure? <==> |s| == 0
    ensures r.Solved? || r.Failure?
    ensures r.Solved? ==>
      && r.cuts < |s| && r.barr == s[r.cuts].barr && r.cost == s[r.cuts].cost
      && (forall j :: 0 <= j < |s| ==> r.cost.Le(s[j].cost))
      && (forall j :: 0 <= j < r.cuts ==> r.cost.Lt(s[j].cost))
  {
    if |s| == 0 then Failure
    else
      var c := FirstMinSlot(s);
      Solved(s[c].barr, s[c].cost, c)
  }

  /** The run once `c_max` is known: give up at once when the latency limit
      leaves no cut budget, pass on the walk's early exit or exception, and
      otherwise answer with the root's first least slot, which uses at most
      `c_max` cuts. */
  function MetaRun(e: Env, order: seq<(Node, Node)>): (r: MetaOutcome)
    requires PartitionerOk(e.partition, e.barriers)
    ensures r.LatencyTooTight? <==> e.cMax < 0
    ensures r.LatencyTooTight? ==> r.cMax == e.cMax
    ensures r.Early? ==> e.cMax >= 0 && RunOrder(e, map[], order).Done?
    ensures r.Solved? ==> && 0 <= e.cMax && r.cuts <= e.cMax && RunOrder(e, map[], order).Next?
                          && r == PickSlot(Slots(e, RunOrder(e, map[], order).dp, e.root))
  {
    if e.cMax < 0 then LatencyTooTight(e.cMax)
    else
      match RunOrder(e, map[], order)
      case Done(out) => out
      case Next(dp) =>
        assert |Slots(e, dp, e.root)| <= e.cMax + 1 by {
          EmptyBounded(e, map[]);
        }
        PickSlot(Slots(e, dp, e.root))
  }

  /** `meta_tree_partitioning` in its `only_barr` form.  `cpath` is the
      critical path `root -> ... -> cp_end` as a node set, `order` the
      post-order walk of `(pred, n)` pairs, `leaves` and `subchains` the
      library's tree helpers; the partitioner and its helpers are as in
      `Env`.  It fails when `c_max` cannot be computed (a zero delay, or an
      unbounded `L` with a negative delay) and otherwise runs as `MetaRun`
      describes. */
  function MetaTreePartitioning(t: Tree, root: Node, cpath: set<Node>, cpEnd: Node, L: Ext, delay: int,
                                leaves: set<Node>, subchains: Node -> seq<Subchain>,
                                partition: (Chain, Ext, Option<(nat, nat)>) -> ChainResult,
                                lastRow: Chain -> seq<Ext>, barriers: (Chain, nat) -> seq<nat>,
                                order: seq<(Node, Node)>): (r: MetaOutcome)
    requires PartitionerOk(partition, barriers)
    ensures r.Failure? <== delay == 0 || (L.Inf? && delay < 0)
    ensures var cb := CutBound(L, RuntimeSum(t, Ascending(cpath)), |cpath|, delay);
      cb.Some? ==>
      var e := MetaEnv(t, root, cpath, cpEnd, L, delay, cb.value, leaves, subchains, partition, lastRow, barriers);
      && (r.LatencyTooTight? <==> e.cMax < 0)
      && (r.LatencyTooTight? ==> r.cMax == e.cMax)
      && (r.Early? ==> e.cMax >= 0 && RunOrder(e, map[], order).Done?)
      && (r.Solved? ==> 0 <= e.cMax && r.cuts <= e.cMax && RunOrder(e, map[], order).Next?
                        && r == PickSlot(Slots(e, RunOrder(e, map[], order).dp, root)))
  {
    var cb := CutBound(L, RuntimeSum(t, Ascending(cpath)), |cpath|, delay);
    if cb.None? then Failure
    else MetaRun(MetaEnv(t, root, cpath, cpEnd, L, delay, cb.value, leaves, subchains, partition, lastRow, barriers), order)
  }

  /** Before the walk every node has exactly `c_max + 1` empty slots. */
  lemma EmptyBounded(e: Env, dp: Table)
    requires e.cMax >= 0 && |dp| == 0
    ensures SlotsBounded(e, dp)
  {
    forall v ensures |Slots(e, dp, v)| <= e.cMax + 1 {
      assert v !in dp;
    }
  }
}

=== FILE: min_tree.dfy ===
/** The chain-block tree dynamic program (`min_tree_partitioning`).

    Every node keeps a queue of subcases of its subtree.  A subcase is
    described by the tail `w` of its top block (the block is the path from
    the node down to `w`), the number of critical-path cuts, the total cost,
    and the cost, memory, maximal internal rate and CPU need of the top
    block.  The head of every queue is a cheapest subcase.  Merging a child
    `b` into its parent `n` extends the top block of each of `b`'s subcases by
    `n`, moves the results into `n`'s queue and leaves `b` with only its
    cheapest subcase, which `extract_min_blocks` later follows to rebuild the
    blocks. */
module MinTree {
  import opened Base
  import opened CallTree
  import opened Lex
  import opened Blocks

  datatype MinTBlock = MinTBlock(
    w: Option<Node>,   // tail of the top block
    c: int,            // cuts on the critical path
    sumCost: Ext,      // cost of the whole subtree partitioning
    cost: Ext,         // cost of the top block
    mem: Ext,          // memory of the top block
    maxRate: int,      // largest invocation rate inside the top block
    cpu: int)          // CPU cores the top block needs

  /** The default record every queue starts with: no block, infinite cost. */
  const EMPTY_BLOCK: MinTBlock := MinTBlock(None, 0, Inf, Inf, Inf, 0, 1)

  /** A queue is never empty: it starts with `EMPTY_BLOCK` and `qmerge`
      always leaves one element behind. */
  type Queue = q: seq<MinTBlock> | |q| > 0 witness [EMPTY_BLOCK]

  type Queues = map<Node, Queue>

  /** The fixed inputs of one run. */
  datatype Config = Config(t: Tree, root: Node, cp: set<Node>, M: Ext, N: Ext, cMax: int, unit: int)

  /** What the model relies on: children numbered above their parents, so
      that the climbs of `block_cost` end. */
  ghost predicate ValidConfig(g: Config) {
    ParentsBelow(g.t)
  }

  /** The queue of `n`; an untouched node holds only the default record. */
  function QueueOf(dp: Queues, n: Node): Queue {
    if n in dp then dp[n] else [EMPTY_BLOCK]
  }

  /** `qmin(n)`. */
  function Head(dp: Queues, n: Node): MinTBlock {
    QueueOf(dp, n)[0]
  }

  /** The admission test of `qinsert`: finite cost, memory within `M`, CPU
      need within `N`, cuts within the budget. */
  predicate Admitted(g: Config, b: MinTBlock) {
    b.sumCost.Lt(Inf) && b.mem.Le(g.M) && Fin(b.cpu).Le(g.N) && b.c <= g.cMax
  }

  /** The head of the queue is a cheapest element. */
  ghost predicate HeadMin(q: Queue) {
    forall i :: 0 <= i < |q| ==> q[0].sumCost.Le(q[i].sumCost)
  }

  /** A subcase of finite cost passed admission and describes a real block. */
  ghost predicate Good(g: Config, b: MinTBlock) {
    b.c >= 0 && (b.sumCost.Fin? ==> Admitted(g, b) && b.w.Some? && b.cost.Fin?)
  }

  /** A well-formed queue: its head is a cheapest element and every finite-cost
      element passed admission. */
  ghost predicate QueueOk(g: Config, q: Queue) {
    HeadMin(q) && forall i :: 0 <= i < |q| ==> Good(g, q[i])
  }

  /** Every queue is well-formed. */
  ghost predicate QueuesOk(g: Config, dp: Queues) {
    forall n :: n in dp ==> QueueOk(g, dp[n])
  }

  /** `qinsert`: an admitted subcase goes to the front when it is no dearer
      than the head, to the back otherwise; anything else is dropped. */
  function QInsert(g: Config, q: Queue, b: MinTBlock): (r: Queue)
    ensures multiset(r) == multiset(q) + (if Admitted(g, b) then multiset{b} else multiset{})
    ensures Admitted(g, b) && b.sumCost.Le(q[0].sumCost) ==> r == [b] + q
    ensures Admitted(g, b) && !b.sumCost.Le(q[0].sumCost) ==> r == q + [b]
    ensures !Admitted(g, b) ==> r == q
    ensures r[0] == q[0] || r[0] == b
    ensures HeadMin(q) ==> HeadMin(r)
    ensures QueueOk(g, q) && b.w.Some? && b.cost.Fin? && b.c >= 0 ==> QueueOk(g, r)
  {
    if Admitted(g, b) then
      if b.sumCost.Le(q[0].sumCost) then
        assert HeadMin(q) ==> HeadMin([b] + q) by {
          forall i | 0 <= i < |q| {
            LeIsTotalPreorder(b.sumCost, q[0].sumCost, q[i].sumCost);
          }
        }
        [b] + q
      else
        assert HeadMin(q) ==> HeadMin(q + [b]) by {
          LeIsTotalPreorder(q[0].sumCost, b.sumCost, b.sumCost);
        }
        q + [b]
    else q
  }

  /** Runtime of the path walked from `w` up to the first node whose id is
      not above `barr` (the loop of `block_cost`). */
  function PathTime(t: Tree, barr: Node, w: Node): int
    requires ParentsBelow(t)
    decreases w
  {
    Runtime(t, w) + (if w > barr then PathTime(t, barr, Parent(t, w)) else 0)
  }

  /** The nodes that walk visits, from `w` upwards. */
  function Walk(t: Tree, barr: Node, w: Node): (r: seq<Node>)
    requires ParentsBelow(t)
    decreases w
  {
    [w] + (if w > barr then Walk(t, barr, Parent(t, w)) else [])
  }

  /** The walk climbs parent links, stops at the first node not above `barr`
      and sums exactly the runtimes of what it visits; started inside the
      subtree of `barr` it ends at `barr`, so `block_cost` then measures the
      path `barr -> ... -> w`. */
  lemma {:induction false} WalkIsPath(t: Tree, barr: Node, w: Node)
    requires ParentsBelow(t)
    ensures var s := Walk(t, barr, w);
      && |s| > 0 && s[0] == w && s[|s| - 1] <= barr
      && (forall i :: 0 <= i < |s| - 1 ==> s[i] > barr && s[i + 1] == Parent(t, s[i]))
      && PathTime(t, barr, w) == RuntimeSum(t, s)
      && (IsDesc(t, w, barr) ==> s[|s| - 1] == barr)
    decreases w
  {
    var s := Walk(t, barr, w);
    if w > barr {
      var tl := Walk(t, barr, Parent(t, w));
      WalkIsPath(t, barr, Parent(t, w));
      assert s == [w] + tl;
      assert s[1..] == tl;
      if IsDesc(t, w, barr) {
        assert IsDesc(t, Parent(t, w), barr);
      }
    } else {
      assert s == [w];
      if IsDesc(t, w, barr) && w != barr {
        DescAbove(t, Parent(t, w), barr);
      }
    }
  }

  /** A node of the subtree of `a` has an id no smaller than `a`'s. */
  lemma {:induction false} DescAbove(t: Tree, v: Node, a: Node)
    requires IsDesc(t, v, a)
    ensures v >= a
    decreases v
  {
    if v != a {
      DescAbove(t, Parent(t, v), a);
    }
  }

  /** `math.ceil(s / unit) * unit`: the runtime rounded to a multiple of
      `unit`, upwards for a positive unit and downwards for a negative one. */
  function RoundedTime(s: int, unit: int): (m: int)
    requires unit != 0
    ensures m % unit == 0
    ensures unit > 0 ==> s <= m < s + unit
    ensures unit < 0 ==> s + unit < m <= s
  {
    var k := CeilQuot(s, unit);
    MultipleModAny(k, unit);
    k * unit
  }

  /** `block_cost`: the top block's runtime rounded to whole `unit`s and paid
      once per invocation of its head `barr`; a zero unit is the library's
      `ZeroDivisionError` and is ruled out by the caller. */
  function BlockCost(g: Config, barr: Node, w: Node): (r: int)
    requires ValidConfig(g) && g.unit != 0
    ensures r == Rate(g.t, barr) * RoundedTime(PathTime(g.t, barr, w), g.unit)
    ensures Rate(g.t, barr) > 0 && g.unit > 0 ==>
      && r % (Rate(g.t, barr) * g.unit) == 0
      && Rate(g.t, barr) * PathTime(g.t, barr, w) <= r < Rate(g.t, barr) * (PathTime(g.t, barr, w) + g.unit)
  {
    var s := PathTime(g.t, barr, w);
    var m := RoundedTime(s, g.unit);
    var rate := Rate(g.t, barr);
    if rate > 0 && g.unit > 0 then
      ScaledRounding(rate, g.unit, s, m);
      rate * m
    else rate * m
  }

  /** Scaling a rounding of `s` to a multiple of `unit` by a positive rate
      gives a multiple of `rate * unit` within one scaled unit above
      `rate * s`. */
  lemma ScaledRounding(rate: int, unit: int, s: int, m: int)
    requires rate > 0 && unit > 0 && m % unit == 0 && s <= m < s + unit
    ensures (rate * m) % (rate * unit) == 0
    ensures rate * s <= rate * m < rate * (s + unit)
  {
    var k := m / unit;
    assert m == k * unit;
    assert rate * m == k * (rate * unit);
    MultipleMod(k, rate * unit);
    assert rate * (m - s) >= 0;
    assert rate * (s + unit - m) > 0;
  }

  /** `m_cost = sum_m_cost - qmin(b).sum_cost`: the cost of the other
      children's best subcases.  Where Python would compute `inf - inf`
      (NaN) the model yields `Inf`; both are refused by `qinsert`, so the
      difference is unobservable. */
  function MCost(sumM: Ext, hb: Ext): (r: Ext)
    ensures sumM.Fin? && hb.Fin? ==> r == Fin(sumM.n - hb.n)
    ensures sumM.Inf? ==> r.Inf?
  {
    match (sumM, hb)
    case (Fin(s), Fin(h)) => Fin(s - h)
    case _ => Inf
  }

  /** The subcase of `node` obtained by extending the top block of a subcase
      of its child `blk` with `node` itself (the record built in `qmerge`). */
  function Extend(g: Config, pred: Node, node: Node, blk: MinTBlock, mCost: Ext, addCut: bool): MinTBlock
    requires ValidConfig(g) && g.unit != 0 && Rate(g.t, node) != 0 && blk.w.Some? && blk.cost.Fin?
  {
    var bc := BlockCost(g, node, blk.w.value);
    var rate := Rate(g.t, node);
    var maxRate := Max(blk.maxRate, rate);
    MinTBlock(blk.w,
              if addCut then blk.c + 1 else blk.c,
              blk.sumCost.Plus(Fin(bc - blk.cost.n)).Plus(mCost),
              Fin(bc),
              blk.mem.Plus(Fin(Memory(g.t, node))),
              maxRate,
              Max(blk.cpu, CeilQuot(maxRate, rate)))
  }

  /** What extending a block changes: the tail stays, the memory grows by the
      node's memory, a cut is counted only for a cut edge, the rate and CPU
      bounds only grow and the CPU need covers the largest rate, the block
      cost is re-rounded for the longer block, and the total cost changes by
      exactly the block-cost difference plus the other children's cost. */
  lemma ExtendFacts(g: Config, pred: Node, node: Node, blk: MinTBlock, mCost: Ext, addCut: bool)
    requires ValidConfig(g) && g.unit != 0 && Rate(g.t, node) != 0 && blk.w.Some? && blk.cost.Fin?
    ensures var x := Extend(g, pred, node, blk, mCost, addCut);
      && x.w == blk.w
      && (blk.mem.Fin? ==> x.mem == Fin(blk.mem.n + Memory(g.t, node)))
      && x.c - blk.c == (if addCut then 1 else 0)
      && x.maxRate >= blk.maxRate && x.maxRate >= Rate(g.t, node)
      && x.cpu >= blk.cpu && (Rate(g.t, node) > 0 ==> x.cpu * Rate(g.t, node) >= x.maxRate)
      && x.cost == Fin(BlockCost(g, node, blk.w.value))
      && (Rate(g.t, node) > 0 && g.unit > 0 ==>
            && x.cost.n % (Rate(g.t, node) * g.unit) == 0
            && x.cost.n >= Rate(g.t, node) * PathTime(g.t, node, blk.w.value))
      && (blk.sumCost.Fin? && mCost.Fin? ==>
            x.sumCost == Fin(blk.sumCost.n + (x.cost.n - blk.cost.n) + mCost.n))
      && (blk.sumCost.Inf? || mCost.Inf? ==> x.sumCost.Inf?)
  {
    var rate := Rate(g.t, node);
    var maxRate := Max(blk.maxRate, rate);
    if rate > 0 {
      CpuCovers(blk.cpu, maxRate, rate);
    }
  }

  /** A CPU count no smaller than `ceil(maxRate / rate)` serves `maxRate`
      invocations at `rate` each. */
  lemma CpuCovers(cpu: int, maxRate: int, rate: int)
    requires rate > 0
    ensures Max(cpu, CeilQuot(maxRate, rate)) * rate >= maxRate
  {
    var k := CeilQuot(maxRate, rate);
    var m := Max(cpu, k);
    assert m * rate >= k * rate by {
      assert (m - k) * rate >= 0;
    }
  }

  /** Some subcase of the list has a finite cost. */
  predicate HasFinite(qb: seq<MinTBlock>) {
    exists i :: 0 <= i < |qb| && qb[i].sumCost.Fin?
  }

  /** The pops of `qmerge` from the back of the child's queue `qb`: every
      finite subcase is extended and offered to `qn`.  `None` is the
      library's `ZeroDivisionError` of `max_rate / rate` for a zero edge
      rate, met at the first finite subcase. */
  function Drain(g: Config, pred: Node, node: Node, mCost: Ext, addCut: bool, qn: Queue, qb: seq<MinTBlock>): (r: Option<Queue>)
    requires ValidConfig(g) && g.unit != 0
    requires forall i :: 0 <= i < |qb| ==> Good(g, qb[i])
    ensures r.None? <==> Rate(g.t, node) == 0 && HasFinite(qb)
    ensures r.Some? && QueueOk(g, qn) ==> QueueOk(g, r.value)
    ensures r.Some? ==> forall i :: 0 <= i < |r.value| ==> r.value[i] in qn || Admitted(g, r.value[i])
    decreases |qb|
  {
    if |qb| == 0 then Some(qn)
    else
      var blk := qb[|qb| - 1];
      assert Good(g, blk);
      if blk.sumCost.Fin? && Rate(g.t, node) == 0 then
        assert HasFinite(qb);
        None
      else
        var qn' :=
          if blk.sumCost.Fin? then
            var x := Extend(g, pred, node, blk, mCost, addCut);
            ExtendFacts(g, pred, node, blk, mCost, addCut);
            QInsert(g, qn, x)
          else qn;
        var r := Drain(g, pred, node, mCost, addCut, qn', qb[..|qb| - 1]);
        DrainFinite(qb, Rate(g.t, node) == 0);
        if r.None? then r
        else
          assert forall i :: 0 <= i < |r.value| ==> r.value[i] in qn || Admitted(g, r.value[i]) by {
            forall i | 0 <= i < |r.value| ensures r.value[i] in qn || Admitted(g, r.value[i]) {
              if r.value[i] !in qn && r.value[i] in qn' {
                assert r.value[i] in multiset(qn');
              }
            }
          }
          r
  }

  /** Dropping an infinite last element, or any last element when the rate
      is not zero, does not change whether the failure is met. */
  lemma DrainFinite(qb: seq<MinTBlock>, zeroRate: bool)
    requires |qb| > 0 && (zeroRate ==> qb[|qb| - 1].sumCost.Inf?)
    ensures zeroRate && HasFinite(qb[..|qb| - 1]) <==> zeroRate && HasFinite(qb)
  {
    if zeroRate && HasFinite(qb) {
      var i :| 0 <= i < |qb| && qb[i].sumCost.Fin?;
      assert qb[..|qb| - 1][i].sumCost.Fin?;
    }
    if zeroRate && HasFinite(qb[..|qb| - 1]) {
      var i :| 0 <= i < |qb| - 1 && qb[..|qb| - 1][i].sumCost.Fin?;
      assert qb[i].sumCost.Fin?;
    }
  }

  /** `qmerge(pred, node, barr, m_cost, add_cut)`: the subcases of `barr`
      move into `node`'s queue, and `barr` keeps only its former head.
      `None` is the `ZeroDivisionError` of a zero rate into `node`. */
  function QMerge(g: Config, pred: Node, node: Node, barr: Node, mCost: Ext, addCut: bool, dp: Queues): (r: Option<Queues>)
    requires ValidConfig(g) && g.unit != 0 && QueuesOk(g, dp)
    ensures r.None? <==> Rate(g.t, node) == 0 && HasFinite(QueueOf(dp, barr))
    ensures r.Some? ==> QueuesOk(g, r.value)
    ensures r.Some? ==> QueueOf(r.value, barr) == [Head(dp, barr)]
    ensures r.Some? && node != barr ==> forall v :: v != node && v != barr ==> QueueOf(r.value, v) == QueueOf(dp, v)
    ensures r.Some? && node != barr ==> forall i :: 0 <= i < |QueueOf(r.value, node)| ==>
      QueueOf(r.value, node)[i] in QueueOf(dp, node) || Admitted(g, QueueOf(r.value, node)[i])
  {
    var qb := QueueOf(dp, barr);
    assert QueueOk(g, qb);
    assert QueueOk(g, QueueOf(dp, node));
    match Drain(g, pred, node, mCost, addCut, QueueOf(dp, node), qb)
    case None => None
    case Some(qn) => Some(dp[node := qn][barr := [qb[0]]])
  }

  /** `sum(qmin(m).sum_cost for m in ms)`. */
  function SumHeads(dp: Queues, ms: seq<Node>): Ext
  {
    if |ms| == 0 then Fin(0) else Head(dp, ms[0]).sumCost.Plus(SumHeads(dp, ms[1..]))
  }

  /** The subcase in which `n` forms a block of its own, with `c` cuts and the
      children's best subcases costing `sumM`. */
  function Single(g: Config, n: Node, c: int, sumM: Ext): (r: MinTBlock)
    requires ValidConfig(g) && g.unit != 0
    ensures r.w == Some(n) && r.cost.Fin? && r.c == c
  {
    var nCost := BlockCost(g, n, n);
    MinTBlock(Some(n), c, Fin(nCost).Plus(sumM), Fin(nCost), Fin(Memory(g.t, n)), Rate(g.t, n), 1)
  }

  /** `qinsert(n, b)` on the whole table. */
  function InsertAt(g: Config, dp: Queues, n: Node, b: MinTBlock): (r: Queues)
    requires QueuesOk(g, dp) && b.w.Some? && b.cost.Fin? && b.c >= 0
    ensures QueuesOk(g, r)
  {
    assert QueueOk(g, QueueOf(dp, n));
    dp[n := QInsert(g, QueueOf(dp, n), b)]
  }

  /** The `qmerge` calls of one node, child by child; the edge to a child
      counts as a critical-path cut unless the child is `mcp`, the node's
      critical-path child.  Only a zero rate into `n` can make it fail. */
  function MergeAll(g: Config, n: Node, bs: seq<Node>, sumM: Ext, mcp: Option<Node>, dp: Queues): (r: Option<Queues>)
    requires ValidConfig(g) && g.unit != 0 && QueuesOk(g, dp)
    ensures r.Some? ==> QueuesOk(g, r.value)
    ensures r.None? ==> Rate(g.t, n) == 0
    decreases |bs|
  {
    if |bs| == 0 then Some(dp)
    else
      var b := bs[0];
      var addCut := mcp.Some? && b != mcp.value;
      match QMerge(g, Parent(g.t, n), n, b, MCost(sumM, Head(dp, b).sumCost), addCut, dp)
      case None => None
      case Some(dp') => MergeAll(g, n, bs[1..], sumM, mcp, dp')
  }

  /** One step of the post-order loop.  `None` is one of the library's
      exceptions: the `ZeroDivisionError` of `block_cost` for a zero unit,
      the `StopIteration` of a critical-path node with children none of
      which is on the critical path, or the `ZeroDivisionError` of `qmerge`
      for a zero rate into `n`. */
  function ProcessNode(g: Config, dp: Queues, n: Node): (r: Option<Queues>)
    requires ValidConfig(g) && QueuesOk(g, dp)
    ensures r.Some? ==> QueuesOk(g, r.value)
    ensures g.unit == 0 || (|Children(g.t, n)| > 0 && n in g.cp && CpChild(g.t, g.cp, n).None?) ==> r.None?
    ensures r.None? ==>
      g.unit == 0 || (|Children(g.t, n)| > 0 && n in g.cp && CpChild(g.t, g.cp, n).None?) || Rate(g.t, n) == 0
  {
    if g.unit == 0 then None
    else
    var kids := Children(g.t, n);
    if |kids| < 1 then
      Some(InsertAt(g, dp, n, Single(g, n, 0, Fin(0))))
    else
      var sumM := SumHeads(dp, kids);
      if n !in g.cp then
        MergeAll(g, n, kids, sumM, None, InsertAt(g, dp, n, Single(g, n, 0, sumM)))
      else
        match CpChild(g.t, g.cp, n)
        case None => None
        case Some(mcp) =>
          assert Good(g, QueueOf(dp, mcp)[0]);
          MergeAll(g, n, kids, sumM, Some(mcp), InsertAt(g, dp, n, Single(g, n, Head(dp, mcp).c + 1, sumM)))
  }

  /** The post-order loop over `order` (the library's `ipostorder_dfs`). */
  function RunOrder(g: Config, order: seq<Node>, dp: Queues): (r: Option<Queues>)
    requires ValidConfig(g) && QueuesOk(g, dp)
    ensures r.Some? ==> QueuesOk(g, r.value)
    ensures g.unit == 0 && |order| > 0 ==> r.None?
    decreases |order|
  {
    if |order| == 0 then Some(dp)
    else
      match ProcessNode(g, dp, order[0])
      case None => None
      case Some(dp') => RunOrder(g, order[1..], dp')
  }

  /** A block is a downward path: each node is the child of the one before. */
  ghost predicate IsPathBlock(t: Tree, x: seq<Node>) {
    |x| > 0 && forall k :: 0 < k < |x| ==> Parent(t, x[k]) == x[k - 1]
  }

  /** The outcome of one climb of `extract_min_blocks`: the nodes met from
      the tail up to the barrier (in climbing order, empty unless `full`),
      the nodes still unplaced and the barrier set afterwards. */
  datatype Climb = Climb(blk: seq<Node>, rest: set<Node>, barr: set<Node>)

  /** The inner loop of `extract_min_blocks`: climb from the tail `w` to the
      barrier `b`, removing every node met from the unplaced set `n` and
      adding the children that hang off the path to the barriers.  `None` is
      the library's `KeyError` for a node met that is not unplaced. */
  method ClimbToBarrier(t: Tree, w: Node, b: Node, n: set<Node>, barr: set<Node>, full: bool) returns (r: Option<Climb>)
    ensures r.Some? ==> r.value.rest <= n && |r.value.rest| < |n|
    ensures r.Some? && !full ==> r.value.blk == []
    ensures r.Some? && full ==> && Elems(r.value.blk) == n - r.value.rest && Distinct(r.value.blk)
                                && |r.value.blk| > 0 && r.value.blk[0] == w && r.value.blk[|r.value.blk| - 1] == b
                                && forall k :: 0 < k < |r.value.blk| ==> Parent(t, r.value.blk[k - 1]) == r.value.blk[k]
  {
    var rest := n;
    var bs := barr;
    var cur := w;
    var blk: seq<Node> := [];
    ghost var path: seq<Node> := [];
    var prior: Option<Node> := None;
    while prior != Some(b)
      invariant ClimbInv(t, w, n, rest, path, prior, cur)
      invariant blk == if full then path else []
      decreases |rest|
    {
      bs := bs + (set m | m in Children(t, cur) && Some(m) != prior);
      if cur !in rest {
        return None;
      }
      ClimbStep(t, w, n, rest, path, prior, cur);
      path := path + [cur];
      if full {
        blk := blk + [cur];
      }
      rest := rest - {cur};
      prior := Some(cur);
      cur := Parent(t, cur);
    }
    r := Some(Climb(blk, rest, bs));
  }

  /** What the climb has done so far: `path` holds the nodes met, in order,
      each the parent of the one before, and they are exactly the nodes
      taken out of `n`. */
  ghost predicate ClimbInv(t: Tree, w: Node, n: set<Node>, rest: set<Node>, path: seq<Node>, prior: Option<Node>, cur: Node) {
    && rest <= n && |rest| + |path| == |n|
    && Elems(path) == n - rest && Distinct(path)
    && (forall k :: 0 < k < |path| ==> Parent(t, path[k - 1]) == path[k])
    && (|path| == 0 ==> prior.None? && cur == w)
    && (|path| > 0 ==> path[0] == w && prior == Some(path[|path| - 1]) && cur == Parent(t, path[|path| - 1]))
  }

  /** One more node of the climb keeps the climb invariant. */
  lemma ClimbStep(t: Tree, w: Node, n: set<Node>, rest: set<Node>, path: seq<Node>, prior: Option<Node>, cur: Node)
    requires ClimbInv(t, w, n, rest, path, prior, cur) && cur in rest
    ensures ClimbInv(t, w, n, rest - {cur}, path + [cur], Some(cur), Parent(t, cur))
  {
    assert cur !in Elems(path);
    SnocDistinct(path, cur);
    var path' := path + [cur];
    forall k | 0 < k < |path'| ensures Parent(t, path'[k - 1]) == path'[k] {
      if k < |path| {
        assert path'[k - 1] == path[k - 1] && path'[k] == path[k];
      }
    }
  }

  /** `extract_min_blocks`: starting from the root, follow the tail `w` of
      each barrier's best subcase up to the barrier, record the path as a
      block and make every child hanging off it a new barrier.  `None` stands
      for the exceptions of the library: an empty barrier set while nodes
      remain, a barrier without a block, a node met twice, and the empty
      `blk[-1]` when `full` is false.  Python leaves the order of the set
      `pop` unspecified; the model takes the smallest barrier. */
  method ExtractMinBlocks(t: Tree, dp: Queues, root: Node, full: bool) returns (r: Option<seq<seq<Node>>>)
    ensures !full && t.nodes - {PLATFORM} != {} ==> r.None?
    ensures full && r.Some? ==> Covered(r.value) == t.nodes - {PLATFORM}
    ensures full && r.Some? ==> NoSharedNodes(r.value)
    ensures full && r.Some? ==> forall i :: 0 <= i < |r.value| ==> IsPathBlock(t, r.value[i])
    ensures full && r.Some? && |r.value| > 0 ==> exists i :: 0 <= i < |r.value| && |r.value[i]| > 0 && r.value[i][0] == root
    ensures r.Some? ==> Sorted(r.value)
  {
    var n := t.nodes - {PLATFORM};
    ghost var all := n;
    var p: seq<seq<Node>> := [];
    var barr: set<Node> := {root};
    while n != {}
      invariant n <= all
      invariant !full ==> p == [] && n == all
      invariant full ==> Covered(p) == all - n && NoSharedNodes(p)
      invariant full ==> forall i :: 0 <= i < |p| ==> IsPathBlock(t, p[i])
      invariant full && |p| > 0 ==> p[0][0] == root
      invariant |p| == 0 ==> barr == {root}
      decreases |n|
    {
      if barr == {} {
        return None;
      }
      var b := SetMin(barr);
      barr := barr - {b};
      var w := Head(dp, b).w;
      if w.None? {
        return None;
      }
      var climb := ClimbToBarrier(t, w.value, b, n, barr, full);
      if climb.None? {
        return None;
      }
      if !full {
        return None;
      }
      var blk := climb.value.blk;
      var block := Reverse(blk);
      AppendRound(t, root, all, n, climb.value.rest, p, blk, b);
      p := p + [block];
      n := climb.value.rest;
      barr := climb.value.barr;
    }
    if full {
      SortedBlocksOk(t, p, root);
    }
    r := Some(SortLex(p));
  }

  /** Appending the reversed climb keeps the blocks a disjoint cover of the
      placed nodes by downward paths, the first headed by the root. */
  lemma AppendRound(t: Tree, root: Node, all: set<Node>, n: set<Node>, rest: set<Node>,
                    p: seq<seq<Node>>, blk: seq<Node>, b: Node)
    requires n <= all && rest <= n
    requires Covered(p) == all - n && NoSharedNodes(p)
    requires forall i :: 0 <= i < |p| ==> IsPathBlock(t, p[i])
    requires |p| > 0 ==> |p[0]| > 0 && p[0][0] == root
    requires |p| == 0 ==> b == root
    requires Elems(blk) == n - rest && Distinct(blk) && |blk| > 0 && blk[|blk| - 1] == b
    requires forall k :: 0 < k < |blk| ==> Parent(t, blk[k - 1]) == blk[k]
    ensures var p' := p + [Reverse(blk)];
            && Covered(p') == all - rest && NoSharedNodes(p')
            && (forall i :: 0 <= i < |p'| ==> IsPathBlock(t, p'[i]))
            && p'[0][0] == root
  {
    var block := Reverse(blk);
    ReverseIsPath(t, blk);
    AppendBlock(p, block, n - rest);
    var p' := p + [block];
    forall i | 0 <= i < |p'| ensures IsPathBlock(t, p'[i]) {
      if i < |p| {
        assert p'[i] == p[i];
      }
    }
    assert p'[0][0] == root by {
      if |p| > 0 {
        assert p'[0] == p[0];
      }
    }
  }

  /** Sorting the blocks keeps them a disjoint cover by downward paths, one
      of them headed by the root. */
  lemma SortedBlocksOk(t: Tree, p: seq<seq<Node>>, root: Node)
    requires NoSharedNodes(p) && forall i :: 0 <= i < |p| ==> IsPathBlock(t, p[i])
    requires |p| > 0 ==> |p[0]| > 0 && p[0][0] == root
    ensures var r := SortLex(p);
      && Covered(r) == Covered(p) && NoSharedNodes(r)
      && (forall i :: 0 <= i < |r| ==> IsPathBlock(t, r[i]))
      && (|r| > 0 ==> exists i :: 0 <= i < |r| && |r[i]| > 0 && r[i][0] == root)
  {
    var r := SortLex(p);
    SortKeepsMembers(p);
    PermutationKeepsCovered(p, r);
    PermutationKeepsPaths(t, p, r);
    PermutationKeepsNoShared(p, r);
    if |r| > 0 {
      assert |p| > 0;
      assert p[0] in r;
    }
  }

  /** Reversing a child-to-parent walk gives a downward path. */
  lemma ReverseIsPath(t: Tree, blk: seq<Node>)
    requires |blk| > 0 && Distinct(blk)
    requires forall k :: 0 < k < |blk| ==> Parent(t, blk[k - 1]) == blk[k]
    ensures IsPathBlock(t, Reverse(blk)) && Distinct(Reverse(blk))
    ensures Reverse(blk)[0] == blk[|blk| - 1]
    ensures Elems(Reverse(blk)) == Elems(blk)
  {
    var r := Reverse(blk);
    forall k | 0 < k < |r| ensures Parent(t, r[k]) == r[k - 1] {
      var j := |blk| - k;
      assert 0 < j < |blk|;
      assert r[k] == blk[j - 1] && r[k - 1] == blk[j];
      assert Parent(t, blk[j - 1]) == blk[j];
    }
    ReverseKeeps(blk);
  }

  /** Sorting keeps exactly the same blocks. */
  lemma SortKeepsMembers(p: seq<seq<Node>>)
    ensures forall x :: x in SortLex(p) <==> x in p
  {
    var r := SortLex(p);
    forall x ensures x in r <==> x in p {
      assert x in r <==> x in multiset(r);
      assert x in p <==> x in multiset(p);
    }
  }

  /** Blocks listed in another order cover the same nodes. */
  lemma PermutationKeepsCovered(p: seq<seq<Node>>, r: seq<seq<Node>>)
    requires forall x :: x in r <==> x in p
    ensures Covered(r) == Covered(p)
  {
    forall v | v in Covered(r) ensures v in Covered(p) {
      var i, k :| 0 <= i < |r| && 0 <= k < |r[i]| && r[i][k] == v;
      assert r[i] in r;
      var j :| 0 <= j < |p| && p[j] == r[i];
      assert p[j][k] == v;
    }
    forall v | v in Covered(p) ensures v in Covered(r) {
      var i, k :| 0 <= i < |p| && 0 <= k < |p[i]| && p[i][k] == v;
      assert p[i] in p;
      var j :| 0 <= j < |r| && r[j] == p[i];
      assert r[j][k] == v;
    }
  }

  /** Blocks listed in another order are still downward paths. */
  lemma PermutationKeepsPaths(t: Tree, p: seq<seq<Node>>, r: seq<seq<Node>>)
    requires forall x :: x in r <==> x in p
    requires forall i :: 0 <= i < |p| ==> IsPathBlock(t, p[i])
    ensures forall i :: 0 <= i < |r| ==> IsPathBlock(t, r[i])
  {
    forall i | 0 <= i < |r| ensures IsPathBlock(t, r[i]) {
      assert r[i] in r;
    }
  }

  /** A rearrangement of disjoint non-empty blocks is disjoint. */
  lemma PermutationKeepsNoShared(p: seq<seq<Node>>, r: seq<seq<Node>>)
    requires multiset(r) == multiset(p)
    requires NoSharedNodes(p) && forall i :: 0 <= i < |p| ==> |p[i]| > 0
    ensures NoSharedNodes(r)
  {
    assert Distinct(p) by {
      forall i, j | 0 <= i < j < |p| ensures p[i] != p[j] {
        assert p[i][0] != p[j][0];
      }
    }
    PermutationKeepsDistinct(p, r);
    forall i, j, k, l | 0 <= i < |r| && 0 <= j < |r| && 0 <= k < |r[i]| && 0 <= l < |r[j]| && (i, k) != (j, l)
      ensures r[i][k] != r[j][l]
    {
      assert r[i] in multiset(p) && r[j] in multiset(p);
      var i' :| 0 <= i' < |p| && p[i'] == r[i];
      var j' :| 0 <= j' < |p| && p[j'] == r[j];
      if i != j {
        assert r[i] != r[j];
      }
      assert (i', k) != (j', l);
    }
  }

  /** What `min_tree_partitioning` returns. */
  datatype MinOutcome =
    | LatencyTooTight(cMax: int)   // `([], None, c_max)`: `L` does not even cover the critical path
    | Infeasible                   // `INFEASIBLE`
    | Failure                      // the library raises an exception
    | Partitioned(blocks: seq<seq<Node>>, cost: int, cuts: int)

  /** The run's fixed inputs; `cpath` is the node set of the critical path
      (the library's `ibacktrack_chain`) and `cMax` its cut budget. */
  function MinConfig(t: Tree, root: Node, cpath: set<Node>, M: Ext, N: Ext, cMax: int, unit: int): (g: Config)
    ensures g.t == t && g.root == root && g.cp == cpath && g.M == M && g.N == N && g.cMax == cMax && g.unit == unit
  {
    Config(t, root, cpath, M, N, cMax, unit)
  }

  /** The run once `c_max` is known: report too tight a latency limit,
      walk the tree, and answer from the root's queue. */
  method MinRun(g: Config, full: bool, order: seq<Node>) returns (r: MinOutcome)
    requires ValidConfig(g)
    ensures r.LatencyTooTight? <==> g.cMax < 0
    ensures r.LatencyTooTight? ==> r.cMax == g.cMax
    ensures g.cMax >= 0 ==> var res := RunOrder(g, order, map[]);
      && (res.None? ==> r.Failure?)
      && (r.Infeasible? <==> res.Some? && Head(res.value, g.root).sumCost.Inf?)
      && (r.Partitioned? ==> && res.Some?
                             && Head(res.value, g.root).sumCost == Fin(r.cost)
                             && (forall x :: x in QueueOf(res.value, g.root) ==> Fin(r.cost).Le(x.sumCost))
                             && r.cuts == Head(res.value, g.root).c && 0 <= r.cuts <= g.cMax
                             && Head(res.value, g.root).mem.Le(g.M) && Fin(Head(res.value, g.root).cpu).Le(g.N))
    ensures r.Partitioned? && full ==> && Covered(r.blocks) == g.t.nodes - {PLATFORM}
                                       && NoSharedNodes(r.blocks)
                                       && (forall i :: 0 <= i < |r.blocks| ==> IsPathBlock(g.t, r.blocks[i]))
                                       && Sorted(r.blocks)
    ensures r.Partitioned? && !full ==> g.t.nodes - {PLATFORM} == {}
  {
    if g.cMax < 0 {
      return LatencyTooTight(g.cMax);
    }
    var res := RunOrder(g, order, map[]);
    if res.None? {
      return Failure;
    }
    var dp := res.value;
    var h := Head(dp, g.root);
    if !h.sumCost.Lt(Inf) {
      return Infeasible;
    }
    var blocks := ExtractMinBlocks(g.t, dp, g.root, full);
    if blocks.None? {
      return Failure;
    }
    assert QueueOk(g, QueueOf(dp, g.root));
    r := Partitioned(blocks.value, h.sumCost.n, h.c);
  }

  /** `min_tree_partitioning`.  `order` is the post-order the library's
      `ipostorder_dfs` produces.  It fails when `c_max` cannot be computed
      (a zero delay, or an unbounded `L` with a negative delay) and
      otherwise runs as `MinRun` describes; a zero `unit` fails at the first
      node of the walk. */
  method MinTreePartitioning(t: Tree, root: Node, cpath: set<Node>, M: Ext, N: Ext, L: Ext, delay: int, unit: int,
                             full: bool, order: seq<Node>) returns (r: MinOutcome)
    requires ParentsBelow(t)
    ensures delay == 0 || (L.Inf? && delay < 0) ==> r.Failure?
    ensures var cb := CutBound(L, RuntimeSum(t, Ascending(cpath)), |cpath|, delay);
      cb.Some? ==> && (r.LatencyTooTight? <==> cb.value < 0)
                   && (r.LatencyTooTight? ==> r.cMax == cb.value)
    ensures var cb := CutBound(L, RuntimeSum(t, Ascending(cpath)), |cpath|, delay);
      cb.Some? && cb.value >= 0 ==>
      var g := MinConfig(t, root, cpath, M, N, cb.value, unit);
      var res := RunOrder(g, order, map[]);
        && (res.None? ==> r.Failure?)
        && (r.Infeasible? <==> res.Some? && Head(res.value, root).sumCost.Inf?)
        && (r.Partitioned? ==> && res.Some?
                               && Head(res.value, root).sumCost == Fin(r.cost)
                               && (forall x :: x in QueueOf(res.value, root) ==> Fin(r.cost).Le(x.sumCost))
                               && r.cuts == Head(res.value, root).c && 0 <= r.cuts <= g.cMax
                               && Head(res.value, root).mem.Le(M) && Fin(Head(res.value, root).cpu).Le(N))
    ensures unit == 0 && |order| > 0 ==> !r.Partitioned? && !r.Infeasible?
    ensures r.Partitioned? && full ==> && Covered(r.blocks) == t.nodes - {PLATFORM}
                                       && NoSharedNodes(r.blocks)
                                       && (forall i :: 0 <= i < |r.blocks| ==> IsPathBlock(t, r.blocks[i]))
                                       && Sorted(r.blocks)
    ensures r.Partitioned? && !full ==> t.nodes - {PLATFORM} == {}
  {
    var cb := CutBound(L, RuntimeSum(t, Ascending(cpath)), |cpath|, delay);
    if cb.None? {
      return Failure;
    }
    var g := MinConfig(t, root, cpath, M, N, cb.value, unit);
    r := MinRun(g, full, order);
    if g.cMax >= 0 && g.unit == 0 && |order| > 0 {
      assert RunOrder(g, order, map[]).None?;
    }
  }
}

=== FILE: ordered_dict.dfy ===
/** Insertion-ordered dictionaries, the semantics of Python's `dict`: a key
    overwritten keeps its position, a new key goes to the end, and iteration
    and `min(..., key=f)` follow that order (`min` returns the FIRST entry of
    minimal weight).  The dynamic-programming tables of the partitioning
    algorithms are such dictionaries, and their tie-breaking depends on it. */
module OrderedDict {
  import opened Base

  type Dict<K(==,!new), V(!new)> = seq<(K, V)>

  /** No key occurs twice. */
  ghost predicate KeysDistinct<K(!new), V(!new)>(d: Dict<K, V>) {
    forall i, j :: 0 <= i < j < |d| ==> d[i].0 != d[j].0
  }

  /** The keys in insertion order. */
  function Keys<K(==,!new), V(!new)>(d: Dict<K, V>): (ks: seq<K>)
    ensures |ks| == |d|
    ensures forall i :: 0 <= i < |d| ==> ks[i] == d[i].0
  {
    if |d| == 0 then [] else [d[0].0] + Keys(d[1..])
  }

  /** Position of `k` in `d`, if present. */
  function IndexOf<K(==,!new), V(!new)>(d: Dict<K, V>, k: K): (r: Option<nat>)
    ensures r.Some? ==> r.value < |d| && d[r.value].0 == k
    ensures r.Some? ==> forall j :: 0 <= j < r.value ==> d[j].0 != k
    ensures r.None? ==> forall j :: 0 <= j < |d| ==> d[j].0 != k
  {
    if |d| == 0 then None
    else if d[0].0 == k then Some(0)
    else
      match IndexOf(d[1..], k)
      case None => None
      case Some(i) => Some(i + 1)
  }

  /** `k in d`. */
  predicate Has<K(==,!new), V(!new)>(d: Dict<K, V>, k: K) {
    IndexOf(d, k).Some?
  }

  /** `d[k]` when `k` is present. */
  function Get<K(==,!new), V(!new)>(d: Dict<K, V>, k: K): (r: Option<V>)
    ensures r.Some? <==> exists i :: 0 <= i < |d| && d[i].0 == k
    ensures r.Some? ==> (k, r.value) in d
  {
    match IndexOf(d, k)
    case None => None
    case Some(i) => Some(d[i].1)
  }

  /** `d[k] = v`: in place when `k` is present, appended otherwise. */
  function Put<K(==,!new), V(!new)>(d: Dict<K, V>, k: K, v: V): (r: Dict<K, V>)
    ensures Get(r, k) == Some(v)
    ensures forall k' :: k' != k ==> Get(r, k') == Get(d, k')
    ensures Has(d, k) ==> Keys(r) == Keys(d)
    ensures !Has(d, k) ==> Keys(r) == Keys(d) + [k]
    ensures KeysDistinct(d) ==> KeysDistinct(r)
    ensures forall e :: e in r ==> e == (k, v) || e in d
    ensures forall e :: e in d && e.0 != k ==> e in r
    ensures forall e :: e in d && e !in r ==> e.0 == k && Get(d, k) == Some(e.1)
  {
    match IndexOf(d, k)
    case None => PutNewFacts(d, k, v); d + [(k, v)]
    case Some(i) => PutAtFacts(d, i, k, v); d[i := (k, v)]
  }

  /** Appending a new key: lookups, key order and entries. */
  lemma PutNewFacts<K(!new), V(!new)>(d: Dict<K, V>, k: K, v: V)
    requires IndexOf(d, k).None?
    ensures var r := d + [(k, v)];
      && Get(r, k) == Some(v)
      && (forall k' :: k' != k ==> Get(r, k') == Get(d, k'))
      && Keys(r) == Keys(d) + [k]
      && (KeysDistinct(d) ==> KeysDistinct(r))
      && (forall e :: e in r ==> e == (k, v) || e in d)
      && (forall e :: e in d ==> e in r)
      && (forall e :: e in d && e !in r ==> e.0 == k && Get(d, k) == Some(e.1))
  {
    PutNewLookup(d, k, v);
    PutNewEntries(d, k, v);
  }

  /** Appending a new key: every lookup after the store. */
  lemma PutNewLookup<K(!new), V(!new)>(d: Dict<K, V>, k: K, v: V)
    requires IndexOf(d, k).None?
    ensures var r := d + [(k, v)];
      && Get(r, k) == Some(v)
      && (forall k' :: k' != k ==> Get(r, k') == Get(d, k'))
      && Keys(r) == Keys(d) + [k]
  {
    var r := d + [(k, v)];
    forall k' | k' != k ensures IndexOf(r, k') == IndexOf(d, k') {
      IndexOfAppend(d, (k, v), k');
    }
    IndexOfAppendNew(d, k, v);
    assert Keys(r) == Keys(d) + [k];
  }

  /** Appending a new key: the entries after the store. */
  lemma PutNewEntries<K(!new), V(!new)>(d: Dict<K, V>, k: K, v: V)
    requires IndexOf(d, k).None?
    ensures var r := d + [(k, v)];
      && (KeysDistinct(d) ==> KeysDistinct(r))
      && (forall e :: e in r ==> e == (k, v) || e in d)
      && (forall e :: e in d ==> e in r)
  {
  }

  /** Overwriting the key at position `i`: lookups, key order and entries. */
  lemma PutAtFacts<K(!new), V(!new)>(d: Dict<K, V>, i: nat, k: K, v: V)
    requires IndexOf(d, k) == Some(i)
    ensures var r := d[i := (k, v)];
      && Get(r, k) == Some(v)
      && (forall k' :: k' != k ==> Get(r, k') == Get(d, k'))
      && Keys(r) == Keys(d)
      && (KeysDistinct(d) ==> KeysDistinct(r))
      && (forall e :: e in r ==> e == (k, v) || e in d)
      && (forall e :: e in d && e.0 != k ==> e in r)
      && (forall e :: e in d && e !in r ==> e.0 == k && Get(d, k) == Some(e.1))
  {
    PutAtLookup(d, i, k, v);
    PutAtEntries(d, i, k, v);
    var r := d[i := (k, v)];
    forall e | e in d && e !in r ensures e.0 == k && Get(d, k) == Some(e.1) {
      var j :| 0 <= j < |d| && d[j] == e;
      assert j == i;
    }
  }

  /** Overwriting the key at position `i`: every lookup after the store. */
  lemma PutAtLookup<K(!new), V(!new)>(d: Dict<K, V>, i: nat, k: K, v: V)
    requires IndexOf(d, k) == Some(i)
    ensures var r := d[i := (k, v)];
      && Get(r, k) == Some(v)
      && (forall k' :: k' != k ==> Get(r, k') == Get(d, k'))
      && Keys(r) == Keys(d)
  {
    var r := d[i := (k, v)];
    IndexOfSame(d, r, k, i);
    forall k' | k' != k ensures IndexOf(r, k') == IndexOf(d, k') {
      IndexOfUpdate(d, i, (k, v), k');
    }
    assert Keys(r) == Keys(d);
  }

  /** Overwriting the key at position `i`: the entries after the store. */
  lemma PutAtEntries<K(!new), V(!new)>(d: Dict<K, V>, i: nat, k: K, v: V)
    requires i < |d| && d[i].0 == k
    ensures var r := d[i := (k, v)];
      && (KeysDistinct(d) ==> KeysDistinct(r))
      && (forall e :: e in r ==> e == (k, v) || e in d)
      && (forall e :: e in d && e.0 != k ==> e in r)
  {
    var r := d[i := (k, v)];
    forall e | e in r ensures e == (k, v) || e in d {
      var j :| 0 <= j < |r| && r[j] == e;
    }
    forall e | e in d && e.0 != k ensures e in r {
      var j :| 0 <= j < |d| && d[j] == e;
      assert r[j] == e;
    }
  }

  /** Appending an entry does not move a key already present. */
  lemma {:induction false} IndexOfAppend<K(!new), V(!new)>(d: Dict<K, V>, e: (K, V), k: K)
    requires e.0 != k
    ensures IndexOf(d + [e], k) == IndexOf(d, k)
  {
    if |d| == 0 {
    } else {
      assert (d + [e])[1..] == d[1..] + [e];
      IndexOfAppend(d[1..], e, k);
    }
  }

  /** A new key appended is found at the end. */
  lemma IndexOfAppendNew<K(!new), V(!new)>(d: Dict<K, V>, k: K, v: V)
    requires IndexOf(d, k).None?
    ensures IndexOf(d + [(k, v)], k) == Some(|d|)
  {
    var r := IndexOf(d + [(k, v)], k);
    assert (d + [(k, v)])[|d|].0 == k;
  }

  /** A key found at position `i` of `d` is still found there after that entry
      is replaced by another with the same key. */
  lemma IndexOfSame<K(!new), V(!new)>(d: Dict<K, V>, r: Dict<K, V>, k: K, i: nat)
    requires IndexOf(d, k) == Some(i)
    requires |r| == |d| && r[i].0 == k
    requires forall j :: 0 <= j < |d| && j != i ==> r[j] == d[j]
    ensures IndexOf(r, k) == Some(i)
  {
  }

  /** Replacing an entry by one with the same key moves no key. */
  lemma IndexOfUpdate<K(!new), V(!new)>(d: Dict<K, V>, i: nat, e: (K, V), k: K)
    requires i < |d| && d[i].0 == e.0 && e.0 != k
    ensures IndexOf(d[i := e], k) == IndexOf(d, k)
  {
    var r := d[i := e];
    assert forall j :: 0 <= j < |d| ==> (r[j].0 == k <==> d[j].0 == k);
  }

  /** `del d[k]`. */
  function Remove<K(==,!new), V(!new)>(d: Dict<K, V>, k: K): (r: Dict<K, V>)
    ensures Get(r, k).None?
    ensures forall e :: e in r <==> e in d && e.0 != k
    ensures |r| <= |d|
    ensures KeysDistinct(d) ==> KeysDistinct(r)
  {
    if |d| == 0 then []
    else if d[0].0 == k then Remove(d[1..], k)
    else
      var tl := Remove(d[1..], k);
      RemoveCons(d, k, tl);
      [d[0]] + tl
  }

  /** Keeping a head entry of another key in front of the tail's removal. */
  lemma RemoveCons<K(!new), V(!new)>(d: Dict<K, V>, k: K, tl: Dict<K, V>)
    requires |d| > 0 && d[0].0 != k
    requires forall e :: e in tl <==> e in d[1..] && e.0 != k
    requires KeysDistinct(d[1..]) ==> KeysDistinct(tl)
    ensures forall e :: e in [d[0]] + tl <==> e in d && e.0 != k
    ensures KeysDistinct(d) ==> KeysDistinct([d[0]] + tl)
  {
    assert d == [d[0]] + d[1..];
    if KeysDistinct(d) {
      assert KeysDistinct(d[1..]);
      var r := [d[0]] + tl;
      forall i, j | 0 <= i < j < |r| ensures r[i].0 != r[j].0 {
        assert r[j] in tl && r[j] in d[1..];
        if i == 0 {
          var m :| 0 <= m < |d[1..]| && d[1..][m] == r[j];
          assert d[m + 1] == r[j];
        }
      }
    }
  }

  /** Entry `i` has least weight `f`, and every earlier entry is strictly
      heavier: the entry Python's `min(d.values(), key=f)` returns. */
  predicate IsFirstMin<K(==,!new), V(!new)>(d: Dict<K, V>, f: V -> int, i: int) {
    && 0 <= i < |d|
    && (forall j :: 0 <= j < |d| ==> f(d[i].1) <= f(d[j].1))
    && (forall j :: 0 <= j < i ==> f(d[i].1) < f(d[j].1))
  }

  /** At most one entry is the first of least weight: no other index
      qualifies. */
  lemma FirstMinUnique<K(!new), V(!new)>(d: Dict<K, V>, f: V -> int, i: int, k: int)
    requires IsFirstMin(d, f, i) && 0 <= k < |d| && k != i
    ensures !IsFirstMin(d, f, k)
  {
    if k < i {
      assert f(d[i].1) < f(d[k].1);
    } else {
      assert f(d[i].1) <= f(d[k].1);
    }
  }

  /** Index of the first entry whose weight `f` is minimal: what Python's
      `min(d.values(), key=f)` returns. */
  function ArgMin<K(==,!new), V(!new)>(d: Dict<K, V>, f: V -> int): (i: nat)
    requires |d| > 0
    ensures i < |d|
    ensures forall j :: 0 <= j < |d| ==> f(d[i].1) <= f(d[j].1)
    ensures forall j :: 0 <= j < i ==> f(d[i].1) < f(d[j].1)
    ensures IsFirstMin(d, f, i)
  {
    if |d| == 1 then 0
    else
      var k := ArgMin(d[1..], f);
      if f(d[0].1) <= f(d[k + 1].1) then 0 else k + 1
  }
}

=== FILE: par_model.dfy ===
/** The execution model shared by the parallel partitioning engines: the
    inputs of one call, and the cost and latency terms of block calls whose
    callee instances are spread over `N` cores. */
module ParallelModel {
  import opened Base
  import opened CallTree

  /** Result of a partitioning call: INFEASIBLE, or the barrier nodes of the
      optimal partitioning with its sum cost and critical-path latency.  The
      library rebuilds the blocks from the barriers with
      `recreate_subtree_blocks`, which is not part of this model. */
  datatype Outcome = Infeasible | Solution(barr: set<Node>, cost: int, lat: int)

  /** The inputs fixed for one partitioning call.  `inst` is the library's
      `par_inst_count(parent_rate, child_rate, N)`, which is not part of
      this model and therefore a parameter. */
  datatype Env = Env(t: Tree, root: Node, cp: set<Node>, M: Ext, L: Ext, N: int, delay: int,
                     inst: (int, int, int) -> int)

  /** What the library assumes of its inputs: positive rates and core
      count, non-negative runtimes, data overheads and invocation delay. */
  ghost predicate ValidEnv(e: Env) {
    && e.N >= 1 && e.delay >= 0
    && (forall v :: Rate(e.t, v) > 0)
    && (forall v :: Runtime(e.t, v) >= 0 && Data(e.t, v) >= 0)
  }

  /** Data-transfer cost of the edges leaving `f` towards children outside
      `excl`, with instance counts relative to the rate `rv`. */
  function OutCost(e: Env, rv: int, f: Node, excl: set<Node>): int {
    SumOut(e, rv, Children(e.t, f), excl)
  }

  /** The data-transfer cost of the edges to the nodes `ss` outside `excl`. */
  function SumOut(e: Env, rv: int, ss: seq<Node>, excl: set<Node>): int {
    if |ss| == 0 then 0
    else
      (if ss[0] in excl then 0 else e.inst(rv, Rate(e.t, ss[0]), e.N) * Data(e.t, ss[0]))
      + SumOut(e, rv, ss[1..], excl)
  }

  /** Instance count of the callee `b` per invocation of its caller `v`
      spread over `N` cores, `ceil(r_b / (r_v * N))`. */
  function Fanout(e: Env, v: Node, b: Node): (k: int)
    requires ValidEnv(e)
    ensures k >= 1
  {
    assert Rate(e.t, v) * e.N >= 1;
    CeilDiv(Rate(e.t, b), Rate(e.t, v) * e.N)
  }
}

=== FILE: pseudo_btree.dfy ===
/** The bottom-up pseudo-polynomial tree partitioning engine
    (`pseudo_par_btree_partitioning`).

    Nodes are visited in post-order.  The table of a node `v` maps a latency
    pair (critical-path latency, latency of the still-open top block) and a
    memory pair (prefetch memory, operative memory) of the top block to the
    cheapest known subcase.  Every child `b` of `v` is absorbed by combining
    each entry of `v`'s working table with each entry of `b`'s finished
    table: entries of `b` stored under the memory key `(0, 0)` stand for
    "cut the edge v -> b", all others for "merge b's top block into v's". */
module PseudoBottomUp {
  import opened Base
  import opened CallTree
  import opened OrderedDict
  import opened CostTable
  import opened ParallelModel

  /** One subcase: sum cost, cost of the topmost block, nodes of the
      topmost block and the barrier (block-heading) nodes. */
  datatype SubParBTreePart = SubParBTreePart(cost: int, topCost: int, topBlk: set<Node>, barr: set<Node>)

  type Lats = (int, int)   // (latency on the critical path, latency of the top block)
  type Mem = (int, int)    // (prefetch memory, operative memory) of the top block

  /** Memory key of the per-latency optimum; a child entry under this key is a
      CUT. */
  const OPT_MEM: Mem := (0, 0)

  type MemTable = Dict<Mem, SubParBTreePart>
  type Table = LatMemTable<Lats, Mem, SubParBTreePart>

  /** A candidate entry produced by one CUT or MERGE transition. */
  type Cand = Entry<Lats, Mem, SubParBTreePart>

  /** The cost a table compares subcases by. */
  function CostOf(s: SubParBTreePart): int { s.cost }

  // ---------------------------------------------------------------- metrics

  /** Latency of the singleton block `{v}`: the root also pays its fetch
      overhead, other critical-path nodes their runtime, the rest nothing. */
  function SingletonLat(e: Env, v: Node): int {
    if v == e.root then Data(e.t, v) + Runtime(e.t, v)
    else if v in e.cp then Runtime(e.t, v)
    else 0
  }

  /** The SINGLETON subcase seeded for every node (lines 77-80). */
  function Singleton(e: Env, v: Node): (c: Cand)
    requires ValidEnv(e)
    ensures c.lat == (SingletonLat(e, v), SingletonLat(e, v))
    ensures c.mem == (Memory(e.t, v), Memory(e.t, v))
    ensures c.sub.topBlk == {v} && c.sub.barr == {v} && c.sub.cost == c.sub.topCost
  {
    var rv := Rate(e.t, v);
    var cost := rv * (Data(e.t, v) + Runtime(e.t, v)) + OutCost(e, rv, v, {});
    Entry((SingletonLat(e, v), SingletonLat(e, v)), (Memory(e.t, v), Memory(e.t, v)),
         SubParBTreePart(cost, cost, {v}, {v}))
  }

  /** The cost term a member `f` of the merged top block contributes. */
  function MemberCost(e: Env, rv: int, topB: set<Node>, f: Node): int {
    e.inst(rv, Rate(e.t, f), e.N) * Runtime(e.t, f) + OutCost(e, rv, f, topB)
  }

  /** Instance-scaled memory of a merged member, `min(ceil(r_f / r_v), N) * m_f`. */
  function MemberMem(e: Env, rv: int, f: Node): int
    requires rv > 0
  {
    Min(CeilDiv(Rate(e.t, f), rv), e.N) * Memory(e.t, f)
  }

  /** The loop over the merged child's top block (lines 125-133): the
      operative memory is the running maximum of the members' scaled
      memories; once it exceeds `M` the member's cost term is skipped (the
      loop's `continue`), but the subcase is NOT rejected. */
  function MergeTop(e: Env, rv: int, topB: set<Node>, fs: seq<Node>, memOp: int, cost: int): (r: (int, int))
    requires rv > 0
    ensures r.0 >= memOp
    ensures forall i :: 0 <= i < |fs| ==> r.0 >= MemberMem(e, rv, fs[i])
    ensures !Within(memOp, e.M) ==> r.1 == cost
  {
    if |fs| == 0 then (memOp, cost)
    else
      var op := Max(memOp, MemberMem(e, rv, fs[0]));
      if !Within(op, e.M) then MergeTop(e, rv, topB, fs[1..], op, cost)
      else MergeTop(e, rv, topB, fs[1..], op, cost + MemberCost(e, rv, topB, fs[0]))
  }

  /** Reference: the sum of every member's cost term, none skipped. */
  function AllMemberCosts(e: Env, rv: int, topB: set<Node>, fs: seq<Node>): int {
    if |fs| == 0 then 0 else MemberCost(e, rv, topB, fs[0]) + AllMemberCosts(e, rv, topB, fs[1..])
  }

  /** When the final operative memory respects `M`, no member was skipped:
      the merged top cost is the full recomputation. */
  lemma {:induction false} MergeTopWithinIsFull(e: Env, rv: int, topB: set<Node>, fs: seq<Node>, memOp: int, cost: int)
    requires rv > 0
    requires Within(MergeTop(e, rv, topB, fs, memOp, cost).0, e.M)
    ensures MergeTop(e, rv, topB, fs, memOp, cost).1 == cost + AllMemberCosts(e, rv, topB, fs)
  {
    if |fs| > 0 {
      var op := Max(memOp, MemberMem(e, rv, fs[0]));
      var r := MergeTop(e, rv, topB, fs, memOp, cost);
      assert Fin(op).Le(Fin(r.0));
      assert Within(op, e.M) by { LeIsTotalPreorder(Fin(op), Fin(r.0), e.M); }
      MergeTopWithinIsFull(e, rv, topB, fs[1..], op, cost + MemberCost(e, rv, topB, fs[0]));
    }
  }

  // ------------------------------------------------------------ transitions

  /** The CUT transition for the child edge `v -> b` (lines 94-102 and
      115-119): `b`'s optimal subcase is appended below a new block
      boundary; on the critical path the caching, invocation delay and
      fetch overhead of the inter-block call are paid. */
  function CutCand(e: Env, v: Node, b: Node, lv: Lats, mv: Mem, sv: SubParBTreePart,
                   lb: Lats, sb: SubParBTreePart): (r: Option<Cand>)
    requires ValidEnv(e)
    ensures b in e.cp ==>
      var top := lv.1 + Fanout(e, v, b) * Data(e.t, b);
      var lat := top + e.delay + Data(e.t, b) + lb.0;
      (r.Some? <==> Within(lat, e.L)) && (r.Some? ==> r.value.lat == (lat, top))
    ensures b !in e.cp ==> r.Some? && r.value.lat == lv
    ensures r.Some? ==> r.value.mem == mv
    ensures r.Some? ==> r.value.sub == SubParBTreePart(sv.cost + sb.cost, sv.topCost, sv.topBlk, sv.barr + sb.barr)
  {
    var sub := SubParBTreePart(sv.cost + sb.cost, sv.topCost, sv.topBlk, sv.barr + sb.barr);
    if b in e.cp then
      var top := lv.1 + Fanout(e, v, b) * Data(e.t, b);
      var lat := top + e.delay + Data(e.t, b) + lb.0;
      if Within(lat, e.L) then Some(Entry((lat, top), mv, sub)) else None
    else Some(Entry(lv, mv, sub))
  }

  /** The MERGE transition for the child edge `v -> b` (lines 103-110 and
      120-137): `b`'s top block joins `v`'s, the prefetch memories add up and
      must respect `M`, and on the critical path `b`'s top-block latency is
      rescaled by the fan-out. */
  function MergeCand(e: Env, v: Node, b: Node, lv: Lats, mv: Mem, sv: SubParBTreePart,
                     lb: Lats, mb: Mem, sb: SubParBTreePart): (r: Option<Cand>)
    requires ValidEnv(e)
    ensures r.Some? <==> MergeLats(e, v, b, lv, lb).Some? && Within(mv.0 + mb.0, e.M)
    ensures r.Some? ==> r.value.lat == MergeLats(e, v, b, lv, lb).value
    ensures r.Some? ==>
      && r.value.mem.0 == mv.0 + mb.0 && r.value.mem.1 >= mv.1
      && r.value.sub.topBlk == sv.topBlk + sb.topBlk
      && r.value.sub.barr == sv.barr + (sb.barr - {b})
      && r.value.sub.cost == sv.cost - sv.topCost + sb.cost - sb.topCost + r.value.sub.topCost
    ensures r.Some? ==> (r.value.mem.1, r.value.sub.topCost) == MergedTop(e, v, b, mv.1, sv, sb)
  {
    var lats := MergeLats(e, v, b, lv, lb);
    if lats.None? || !Within(mv.0 + mb.0, e.M) then None
    else
      var mt := MergedTop(e, v, b, mv.1, sv, sb);
      Some(Entry(lats.value, (mv.0 + mb.0, mt.0),
                SubParBTreePart(sv.cost - sv.topCost + sb.cost - sb.topCost + mt.1, mt.1,
                                sv.topBlk + sb.topBlk, sv.barr + (sb.barr - {b}))))
  }

  /** Latency pair of a MERGE: rescaled on the critical path, inherited off it. */
  function MergeLats(e: Env, v: Node, b: Node, lv: Lats, lb: Lats): (r: Option<Lats>)
    requires ValidEnv(e)
    ensures b in e.cp ==>
      var top := lv.1 + Fanout(e, v, b) * lb.1;
      var lat := lb.0 - lb.1 + top;
      (r.Some? <==> Within(lat, e.L)) && (r.Some? ==> r.value == (lat, top))
    ensures b !in e.cp ==> r == Some(lv)
  {
    if b in e.cp then
      var top := lv.1 + Fanout(e, v, b) * lb.1;
      var lat := lb.0 - lb.1 + top;
      if Within(lat, e.L) then Some((lat, top)) else None
    else Some(lv)
  }

  /** Operative memory and cost of the merged top block: `v`'s top cost
      without the call of `b`, plus the terms of `b`'s top-block members. */
  function MergedTop(e: Env, v: Node, b: Node, memOp: int, sv: SubParBTreePart, sb: SubParBTreePart): (r: (int, int))
    requires ValidEnv(e)
    ensures r.0 >= memOp
    ensures forall f :: f in sb.topBlk ==> r.0 >= MemberMem(e, Rate(e.t, v), f)
    ensures Within(r.0, e.M) ==>
      r.1 == sv.topCost - e.inst(Rate(e.t, v), Rate(e.t, b), e.N) * Data(e.t, b)
             + AllMemberCosts(e, Rate(e.t, v), sb.topBlk, Ascending(sb.topBlk))
    ensures !Within(memOp, e.M) ==> r.1 == sv.topCost - e.inst(Rate(e.t, v), Rate(e.t, b), e.N) * Data(e.t, b)
  {
    var rv := Rate(e.t, v);
    var fs := Ascending(sb.topBlk);
    var start := sv.topCost - e.inst(rv, Rate(e.t, b), e.N) * Data(e.t, b);
    var r := MergeTop(e, rv, sb.topBlk, fs, memOp, start);
    assert forall f :: f in sb.topBlk ==> r.0 >= MemberMem(e, rv, f) by {
      forall f | f in sb.topBlk ensures r.0 >= MemberMem(e, rv, f) {
        var i :| 0 <= i < |fs| && fs[i] == f;
      }
    }
    if Within(r.0, e.M) then MergeTopWithinIsFull(e, rv, sb.topBlk, fs, memOp, start); r
    else r
  }

  /** One transition for the child edge `v -> b` (lines 90-137), combining
      `v`'s entry `(lv, mv, sv)` with `b`'s entry `(lb, mb, sb)`: an entry of
      `b` under the memory key `(0, 0)` is a CUT, any other a MERGE; `None`
      when the candidate is discarded. */
  function Combine(e: Env, v: Node, b: Node, lv: Lats, mv: Mem, sv: SubParBTreePart,
                   lb: Lats, mb: Mem, sb: SubParBTreePart): Option<Cand>
    requires ValidEnv(e)
  {
    if mb == OPT_MEM then CutCand(e, v, b, lv, mv, sv, lb, sb)
    else MergeCand(e, v, b, lv, mv, sv, lb, mb, sb)
  }

  // ------------------------------------------------------------ entry shape

  /** What every entry of node `v`'s table satisfies: `v` heads the top block
      and is a barrier, the latency pair is ordered, the prefetch memory
      respects `M` unless it is still `v`'s own, and the latency respects
      `L` unless it is still the singleton's. */
  ghost predicate EntryShape(e: Env, v: Node, l: Lats, m: Mem, s: SubParBTreePart) {
    && v in s.topBlk && v in s.barr
    && 0 <= l.1 <= l.0
    && (m == OPT_MEM || Within(m.0, e.M) || m.0 == Memory(e.t, v))
    && (Within(l.0, e.L) || l == (SingletonLat(e, v), SingletonLat(e, v)))
  }

  /** Every entry of a bucket under latency key `l` has the entry shape of `v`. */
  ghost predicate BucketShape(e: Env, v: Node, l: Lats, bucket: MemTable) {
    forall ms :: ms in bucket ==> EntryShape(e, v, l, ms.0, ms.1)
  }

  /** Every bucket of a table has the entry shape of `v`. */
  ghost predicate TableShape(e: Env, v: Node, tbl: Table) {
    forall lb :: lb in tbl ==> BucketShape(e, v, lb.0, lb.1)
  }

  /** A candidate has the entry shape of `v`. */
  ghost predicate CandShape(e: Env, v: Node, c: Cand) {
    EntryShape(e, v, c.lat, c.mem, c.sub)
  }

  /** Both transitions keep the entry shape: latencies stay ordered and
      non-negative, limits hold once they are checked, `v` heads the block. */
  lemma CombineKeepsShape(e: Env, v: Node, b: Node, lv: Lats, mv: Mem, sv: SubParBTreePart,
                          lb: Lats, mb: Mem, sb: SubParBTreePart)
    requires ValidEnv(e)
    requires EntryShape(e, v, lv, mv, sv) && EntryShape(e, b, lb, mb, sb)
    ensures var r := Combine(e, v, b, lv, mv, sv, lb, mb, sb);
      r.Some? ==> CandShape(e, v, r.value)
  {
    if mb == OPT_MEM {
      CutKeepsShape(e, v, b, lv, mv, sv, lb, sb);
    } else {
      MergeKeepsShape(e, v, b, lv, mv, sv, lb, mb, sb);
    }
  }

  /** A CUT candidate built from a shaped entry of `v` is shaped. */
  lemma CutKeepsShape(e: Env, v: Node, b: Node, lv: Lats, mv: Mem, sv: SubParBTreePart, lb: Lats, sb: SubParBTreePart)
    requires ValidEnv(e)
    requires EntryShape(e, v, lv, mv, sv) && 0 <= lb.1 <= lb.0
    ensures var r := CutCand(e, v, b, lv, mv, sv, lb, sb);
      r.Some? ==> CandShape(e, v, r.value)
  {
    assert Fanout(e, v, b) * Data(e.t, b) >= 0;
  }

  /** A MERGE candidate built from a shaped entry of `v` is shaped. */
  lemma MergeKeepsShape(e: Env, v: Node, b: Node, lv: Lats, mv: Mem, sv: SubParBTreePart,
                        lb: Lats, mb: Mem, sb: SubParBTreePart)
    requires ValidEnv(e)
    requires EntryShape(e, v, lv, mv, sv) && 0 <= lb.1 <= lb.0
    ensures var r := MergeCand(e, v, b, lv, mv, sv, lb, mb, sb);
      r.Some? ==> CandShape(e, v, r.value)
  {
    assert Fanout(e, v, b) * lb.1 >= 0;
  }

  // --------------------------------------------------- candidate generation

  function OptSeq(o: Option<Cand>): seq<Cand> {
    if o.Some? then [o.value] else []
  }

  /** Innermost loop: `v`'s entry against every memory key of one latency
      bucket of `b`. */
  function CandsMB(e: Env, v: Node, b: Node, lv: Lats, mv: Mem, sv: SubParBTreePart,
                   lb: Lats, bucketB: MemTable): (r: seq<Cand>)
    requires ValidEnv(e)
    ensures EntryShape(e, v, lv, mv, sv) && BucketShape(e, b, lb, bucketB) ==>
      forall c :: c in r ==> CandShape(e, v, c)
  {
    if |bucketB| == 0 then []
    else
      var o := Combine(e, v, b, lv, mv, sv, lb, bucketB[0].0, bucketB[0].1);
      assert EntryShape(e, v, lv, mv, sv) && BucketShape(e, b, lb, bucketB) ==>
        BucketShape(e, b, lb, bucketB[1..]) && (o.Some? ==> CandShape(e, v, o.value)) by {
        if EntryShape(e, v, lv, mv, sv) && BucketShape(e, b, lb, bucketB) {
          assert bucketB[0] in bucketB;
          CombineKeepsShape(e, v, b, lv, mv, sv, lb, bucketB[0].0, bucketB[0].1);
          assert forall ms :: ms in bucketB[1..] ==> ms in bucketB;
        }
      }
      OptSeq(o) + CandsMB(e, v, b, lv, mv, sv, lb, bucketB[1..])
  }

  /** `for mem_v, mem_b in product(DP[v][lats_v], DP[b][lats_b])`. */
  function CandsMV(e: Env, v: Node, b: Node, lv: Lats, bucketV: MemTable, lb: Lats, bucketB: MemTable): (r: seq<Cand>)
    requires ValidEnv(e)
    ensures BucketShape(e, v, lv, bucketV) && BucketShape(e, b, lb, bucketB) ==>
      forall c :: c in r ==> CandShape(e, v, c)
  {
    if |bucketV| == 0 then []
    else
      assert BucketShape(e, v, lv, bucketV) ==>
        EntryShape(e, v, lv, bucketV[0].0, bucketV[0].1) && BucketShape(e, v, lv, bucketV[1..]) by {
        if BucketShape(e, v, lv, bucketV) {
          assert bucketV[0] in bucketV;
          assert forall ms :: ms in bucketV[1..] ==> ms in bucketV;
        }
      }
      CandsMB(e, v, b, lv, bucketV[0].0, bucketV[0].1, lb, bucketB) + CandsMV(e, v, b, lv, bucketV[1..], lb, bucketB)
  }

  /** Inner half of `for lats_v, lats_b in product(DP[v], DP[b])`. */
  function CandsLB(e: Env, v: Node, b: Node, lv: Lats, bucketV: MemTable, tb: Table): (r: seq<Cand>)
    requires ValidEnv(e)
    ensures BucketShape(e, v, lv, bucketV) && TableShape(e, b, tb) ==>
      forall c :: c in r ==> CandShape(e, v, c)
  {
    if |tb| == 0 then []
    else
      assert TableShape(e, b, tb) ==> BucketShape(e, b, tb[0].0, tb[0].1) && TableShape(e, b, tb[1..]) by {
        if TableShape(e, b, tb) {
          assert tb[0] in tb;
          assert forall x :: x in tb[1..] ==> x in tb;
        }
      }
      CandsMV(e, v, b, lv, bucketV, tb[0].0, tb[0].1) + CandsLB(e, v, b, lv, bucketV, tb[1..])
  }

  /** Every candidate of the child edge `v -> b`, in the library's order. */
  function Cands(e: Env, v: Node, b: Node, tv: Table, tb: Table): (r: seq<Cand>)
    requires ValidEnv(e)
    ensures TableShape(e, v, tv) && TableShape(e, b, tb) ==>
      forall c :: c in r ==> CandShape(e, v, c)
  {
    if |tv| == 0 then []
    else
      assert TableShape(e, v, tv) ==> BucketShape(e, v, tv[0].0, tv[0].1) && TableShape(e, v, tv[1..]) by {
        if TableShape(e, v, tv) {
          assert tv[0] in tv;
          assert forall x :: x in tv[1..] ==> x in tv;
        }
      }
      CandsLB(e, v, b, tv[0].0, tv[0].1, tb) + Cands(e, v, b, tv[1..], tb)
  }

  // ------------------------------------------------------- min-cost storing

  /** The re-test that guards the dominance elimination (line 143) repeats
      the test of line 140 after the candidate has been stored, so it never
      holds: the elimination block of this engine is unreachable. */
  lemma DominanceGuardNeverHolds(tbl: Table, c: Cand)
    ensures var r := Store(tbl, c, CostOf);
      Stored(r, c.lat, c.mem).Some? && !(c.sub.cost < Stored(r, c.lat, c.mem).value.cost)
  {
  }

  /** Storing shaped candidates keeps a table shaped. */
  lemma StoreAllKeepsShape(e: Env, v: Node, tbl: Table, cs: seq<Cand>)
    requires TableShape(e, v, tbl)
    requires forall c :: c in cs ==> CandShape(e, v, c)
    ensures TableShape(e, v, StoreAll(tbl, cs, CostOf))
    decreases |cs|
  {
    if |cs| > 0 {
      StoreKeepsShape(e, v, tbl, cs[0]);
      assert forall c :: c in cs[1..] ==> c in cs;
      StoreAllKeepsShape(e, v, Store(tbl, cs[0], CostOf), cs[1..]);
    }
  }

  /** Storing one shaped candidate keeps a table shaped. */
  lemma StoreKeepsShape(e: Env, v: Node, tbl: Table, c: Cand)
    requires TableShape(e, v, tbl) && CandShape(e, v, c)
    ensures TableShape(e, v, Store(tbl, c, CostOf))
  {
    var inner := Bucket(tbl, c.lat);
    assert BucketShape(e, v, c.lat, inner) by {
      if Get(tbl, c.lat).Some? {
        assert (c.lat, inner) in tbl;
      }
    }
    var inner' := Put(inner, c.mem, c.sub);
    assert BucketShape(e, v, c.lat, inner');
  }

  // ------------------------------------------------------------ finalizing

  /** Lines 160-161: every latency bucket receives, under the memory key
      `(0, 0)`, its cheapest subcase (the first one of minimal cost). */
  function FinalBucket(bucket: MemTable): (r: MemTable)
    ensures |bucket| > 0 ==> (
      && Get(r, OPT_MEM).Some?
      && (exists ms :: ms in bucket && ms.1 == Get(r, OPT_MEM).value)
      && (forall ms :: ms in bucket ==> Get(r, OPT_MEM).value.cost <= ms.1.cost))
    ensures forall ms :: ms in r ==> ms in bucket || (ms.0 == OPT_MEM && exists x :: x in bucket && x.1 == ms.1)
    ensures |bucket| > 0 ==> exists i :: IsFirstMin(bucket, CostOf, i) && Get(r, OPT_MEM) == Some(bucket[i].1)
  {
    if |bucket| == 0 then bucket
    else
      var i := ArgMin(bucket, CostOf);
      assert bucket[i] in bucket;
      assert forall ms :: ms in bucket ==> CostOf(bucket[i].1) <= CostOf(ms.1);
      Put(bucket, OPT_MEM, bucket[i].1)
  }

  /** Lines 159-161: add the `(0, 0)` optimum to every bucket, keeping the
      latency keys in order. */
  function Finalize(tbl: Table): (r: Table)
    ensures |r| == |tbl|
    ensures forall i :: 0 <= i < |r| ==> r[i].0 == tbl[i].0 && r[i].1 == FinalBucket(tbl[i].1)
  {
    if |tbl| == 0 then [] else [(tbl[0].0, FinalBucket(tbl[0].1))] + Finalize(tbl[1..])
  }

  /** Adding the optimum entries keeps a table shaped. */
  lemma FinalizeKeepsShape(e: Env, v: Node, tbl: Table)
    requires TableShape(e, v, tbl)
    ensures TableShape(e, v, Finalize(tbl))
  {
    var r := Finalize(tbl);
    forall lb | lb in r ensures BucketShape(e, v, lb.0, lb.1) {
      var i :| 0 <= i < |r| && r[i] == lb;
      assert tbl[i] in tbl;
      forall ms | ms in lb.1 ensures EntryShape(e, v, lb.0, ms.0, ms.1) {
        if ms !in tbl[i].1 {
          var x :| x in tbl[i].1 && x.1 == ms.1;
          assert EntryShape(e, v, lb.0, x.0, x.1);
        }
      }
    }
  }

  // ----------------------------------------------------------- the engine

  function TableOf(dp: map<Node, Table>, n: Node): Table {
    if n in dp then dp[n] else []
  }

  /** Every table is shaped for its own node. */
  ghost predicate AllShaped(e: Env, dp: map<Node, Table>) {
    forall n :: n in dp ==> TableShape(e, n, dp[n])
  }

  /** `for b in tree.successors(v)`: absorb each child's table, then drop it. */
  function AbsorbChildren(e: Env, v: Node, bs: seq<Node>, dp: map<Node, Table>): (r: map<Node, Table>)
    requires ValidEnv(e)
    ensures AllShaped(e, dp) ==> AllShaped(e, r)
    ensures forall n :: n in r && n != v ==> n in dp && r[n] == dp[n]
    ensures NonEmptyBuckets(TableOf(dp, v)) ==> NonEmptyBuckets(TableOf(r, v))
  {
    if |bs| == 0 then dp
    else
      var b := bs[0];
      var cs := Cands(e, v, b, TableOf(dp, v), TableOf(dp, b));
      var tv := StoreAll([], cs, CostOf);
      assert AllShaped(e, dp) ==> TableShape(e, v, tv) by {
        if AllShaped(e, dp) {
          StoreAllKeepsShape(e, v, [], cs);
        }
      }
      AbsorbChildren(e, v, bs[1..], dp[v := tv] - {b})
  }

  /** The table of `v` after seeding its SINGLETON subcase (line 80). */
  function Seed(e: Env, dp: map<Node, Table>, v: Node): Table
    requires ValidEnv(e)
  {
    var c := Singleton(e, v);
    var tv0 := TableOf(dp, v);
    Put(tv0, c.lat, Put(Bucket(tv0, c.lat), c.mem, c.sub))
  }

  /** One iteration of the post-order loop (lines 75-161) for node `v`. */
  function ProcessNode(e: Env, dp: map<Node, Table>, v: Node): map<Node, Table>
    requires ValidEnv(e)
  {
    Finish(AbsorbChildren(e, v, Children(e.t, v), dp[v := Seed(e, dp, v)]), v)
  }

  /** Lines 151-161: replace `v`'s table by its finalized form. */
  function Finish(dp: map<Node, Table>, v: Node): map<Node, Table> {
    dp[v := Finalize(TableOf(dp, v))]
  }

  /** The post-order loop of lines 74-161 over `order`. */
  function RunOrder(e: Env, dp: map<Node, Table>, order: seq<Node>): map<Node, Table>
    requires ValidEnv(e)
    decreases |order|
  {
    if |order| == 0 then dp else RunOrder(e, ProcessNode(e, dp, order[0]), order[1..])
  }

  /** The invariant of the post-order loop: every table is shaped and
      finalized. */
  ghost predicate Inv(e: Env, dp: map<Node, Table>) {
    AllShaped(e, dp) && AllFinal(dp)
  }

  /** Seeding a node's table with its singleton subcase keeps every table shaped. */
  lemma SeedKeepsInv(e: Env, dp: map<Node, Table>, v: Node)
    requires ValidEnv(e) && Inv(e, dp)
    ensures AllShaped(e, dp[v := Seed(e, dp, v)])
    ensures NonEmptyBuckets(Seed(e, dp, v))
  {
    var c := Singleton(e, v);
    var tv0 := TableOf(dp, v);
    var inner := Bucket(tv0, c.lat);
    assert BucketShape(e, v, c.lat, inner) by {
      if Get(tv0, c.lat).Some? { assert (c.lat, inner) in tv0; }
    }
    assert TableShape(e, v, Seed(e, dp, v));
    forall lb | lb in tv0 ensures |lb.1| > 0 {
      assert Get(lb.1, OPT_MEM).Some?;
    }
  }

  /** Processing one node keeps the loop invariant. */
  lemma ProcessNodeKeepsInv(e: Env, dp: map<Node, Table>, v: Node)
    requires ValidEnv(e) && Inv(e, dp)
    ensures Inv(e, ProcessNode(e, dp, v))
  {
    var dp1 := AbsorbChildren(e, v, Children(e.t, v), dp[v := Seed(e, dp, v)]);
    AbsorbKeepsShape(e, dp, v, dp1);
    FinishKeepsInv(e, dp, dp1, v);
  }

  /** Finalizing the table of `v` after its children were absorbed restores the
      loop invariant. */
  lemma FinishKeepsInv(e: Env, dp: map<Node, Table>, dp1: map<Node, Table>, v: Node)
    requires Inv(e, dp) && AllShaped(e, dp1) && TableShape(e, v, TableOf(dp1, v))
    requires NonEmptyBuckets(TableOf(dp1, v))
    requires forall n :: n in dp1 && n != v ==> n in dp && dp1[n] == dp[n]
    ensures Inv(e, Finish(dp1, v))
  {
    FinalizeKeepsShape(e, v, TableOf(dp1, v));
    FinalizeIsFinalized(TableOf(dp1, v));
    UpdateKeepsInv(e, dp, dp1, v, Finalize(TableOf(dp1, v)));
  }

  /** Seeding and absorbing the children keeps every table shaped and
      touches no table but `v`'s. */
  lemma AbsorbKeepsShape(e: Env, dp: map<Node, Table>, v: Node, dp1: map<Node, Table>)
    requires ValidEnv(e) && Inv(e, dp)
    requires dp1 == AbsorbChildren(e, v, Children(e.t, v), dp[v := Seed(e, dp, v)])
    ensures AllShaped(e, dp1) && TableShape(e, v, TableOf(dp1, v)) && NonEmptyBuckets(TableOf(dp1, v))
    ensures forall n :: n in dp1 && n != v ==> n in dp && dp1[n] == dp[n]
  {
    SeedKeepsInv(e, dp, v);
    var dp0 := dp[v := Seed(e, dp, v)];
    forall n | n in dp1 && n != v ensures n in dp && dp1[n] == dp[n] {
      assert n in dp0 && dp1[n] == dp0[n];
    }
  }

  /** Writing a shaped, finalized table for `v` keeps the loop invariant. */
  lemma UpdateKeepsInv(e: Env, dp: map<Node, Table>, dp1: map<Node, Table>, v: Node, tv: Table)
    requires Inv(e, dp) && AllShaped(e, dp1)
    requires forall n :: n in dp1 && n != v ==> n in dp && dp1[n] == dp[n]
    requires TableShape(e, v, tv) && Finalized(tv)
    ensures Inv(e, dp1[v := tv])
  {
    var r := dp1[v := tv];
    forall n | n in r ensures Finalized(r[n]) && TableShape(e, n, r[n]) {
      if n != v { assert n in dp && r[n] == dp[n]; }
    }
  }

  /** The post-order loop keeps every table shaped and finalized. */
  lemma {:induction false} RunOrderKeepsInv(e: Env, dp: map<Node, Table>, order: seq<Node>)
    requires ValidEnv(e) && Inv(e, dp)
    ensures Inv(e, RunOrder(e, dp, order))
    decreases |order|
  {
    if |order| > 0 {
      ProcessNodeKeepsInv(e, dp, order[0]);
      RunOrderKeepsInv(e, ProcessNode(e, dp, order[0]), order[1..]);
    }
  }

  /** The cost of the `(0, 0)` optimum of a bucket. */
  function OptCost(bucket: MemTable): int {
    match Get(bucket, OPT_MEM)
    case Some(s) => s.cost
    case None => 0
  }

  /** Every bucket holds its `(0, 0)` optimum. */
  ghost predicate Finalized(tbl: Table) {
    forall lb :: lb in tbl ==> Get(lb.1, OPT_MEM).Some?
  }

  /** Every table is finalized. */
  ghost predicate AllFinal(dp: map<Node, Table>) {
    forall n :: n in dp ==> Finalized(dp[n])
  }

  /** Lines 163-168: the latency key whose `(0, 0)` entry is cheapest (the
      first such key), or INFEASIBLE for an empty root table.  The library
      rebuilds the blocks from the barrier set with `recreate_subtree_blocks`,
      which is not part of this model; the barrier set is returned instead. */
  function SelectResult(tbl: Table): (r: Outcome)
    requires Finalized(tbl)
    ensures r.Infeasible? <==> |tbl| == 0
    ensures r.Solution? ==> exists lb :: (
      && lb in tbl && lb.0.0 == r.lat
      && Get(lb.1, OPT_MEM).value.cost == r.cost && Get(lb.1, OPT_MEM).value.barr == r.barr)
    ensures r.Solution? ==> forall lb :: lb in tbl ==> r.cost <= Get(lb.1, OPT_MEM).value.cost
    ensures r.Solution? ==> exists i :: (
      && IsFirstMin(tbl, OptCost, i) && tbl[i].0.0 == r.lat
      && Get(tbl[i].1, OPT_MEM).value.cost == r.cost && Get(tbl[i].1, OPT_MEM).value.barr == r.barr)
  {
    if |tbl| == 0 then Infeasible
    else
      var i := ArgMin(tbl, OptCost);
      assert tbl[i] in tbl;
      var opt := Get(tbl[i].1, OPT_MEM).value;
      assert forall lb :: lb in tbl ==> OptCost(tbl[i].1) <= OptCost(lb.1);
      Solution(opt.barr, opt.cost, tbl[i].0.0)
  }

  /** Finalizing a table without empty buckets gives every bucket its optimum. */
  lemma FinalizeIsFinalized(tbl: Table)
    requires NonEmptyBuckets(tbl)
    ensures Finalized(Finalize(tbl))
  {
    var r := Finalize(tbl);
    forall lb | lb in r ensures Get(lb.1, OPT_MEM).Some? {
      var i :| 0 <= i < |r| && r[i] == lb;
      assert tbl[i] in tbl;
    }
  }

  /** A result read off a well-shaped root table keeps the root as a barrier
      and meets the latency limit, unless it is the root alone. */
  lemma RootResult(e: Env, root: Table)
    requires ValidEnv(e) && Finalized(root) && TableShape(e, e.root, root)
    ensures var r := SelectResult(root);
      r.Solution? ==> (
        && e.root in r.barr && r.lat >= 0
        && (Within(r.lat, e.L) || r.lat == SingletonLat(e, e.root)))
  {
    var r := SelectResult(root);
    if r.Solution? {
      ghost var lb :| (
        && lb in root && lb.0.0 == r.lat
        && Get(lb.1, OPT_MEM).value.cost == r.cost && Get(lb.1, OPT_MEM).value.barr == r.barr);
      var opt := Get(lb.1, OPT_MEM).value;
      assert (OPT_MEM, opt) in lb.1;
      EntryOf(e, e.root, lb.0, lb.1, OPT_MEM, opt);
    }
  }

  /** A member of a well-shaped bucket has the entry shape. */
  lemma EntryOf(e: Env, v: Node, l: Lats, bucket: MemTable, m: Mem, s: SubParBTreePart)
    requires BucketShape(e, v, l, bucket) && (m, s) in bucket
    ensures EntryShape(e, v, l, m, s)
  {
  }

  /** `pseudo_par_btree_partitioning`: `limitsOk` is the verdict of the
      library's `verify_limits` pre-check and `order` the node sequence of
      its `ipostorder_dfs`; neither helper is part of this model. */
  function BottomUp(e: Env, order: seq<Node>, limitsOk: bool): (r: Outcome)
    requires ValidEnv(e)
    ensures !limitsOk ==> r == Infeasible
    ensures r.Solution? ==> e.root in r.barr && r.lat >= 0
    ensures r.Solution? ==> Within(r.lat, e.L) || r.lat == SingletonLat(e, e.root)
  {
    if !limitsOk then Infeasible
    else
      var dp0: map<Node, Table> := map n | n in e.t.nodes :: [];
      var dp := RunOrder(e, dp0, order);
      var root := TableOf(dp, e.root);
      assert Inv(e, dp) by { RunOrderKeepsInv(e, dp0, order); }
      assert Finalized(root) && TableShape(e, e.root, root);
      RootResult(e, root);
      SelectResult(root)
  }
}

=== FILE: pseudo_ltree.dfy ===
/** The left-right pseudo-polynomial tree partitioning engine
    (`pseudo_par_ltree_partitioning`).

    Subtrees `T_n` are processed in post-order.  Inside one subtree the
    engine follows a left-right traversal: each step either MERGEs a node
    `v` into the block rooted at `n` (the step's edge is `(v, 0)`) or CUTs
    the edge `v -> b` (the step's edge is `(v, b)`), combining the state
    left of `b` with the best subcases `TDP[b]` of the already finished
    subtree `T_b`.  States map a critical-path latency and a memory pair
    (prefetch, operative) to the cheapest subcase. */
module PseudoLeftRight {
  import opened Base
  import opened CallTree
  import opened OrderedDict
  import opened CostTable
  import opened ParallelModel

  /** One subcase: sum cost, invocation multiplicity of the last merged
      critical-path node, and the barrier (block-heading) nodes. */
  datatype SubLTreePart = SubLTreePart(cost: int, mul: int, barr: set<Node>)

  type Mem = (int, int)   // (prefetch memory, operative memory) of the block of n
  type Table = LatMemTable<int, Mem, SubLTreePart>
  type Cand = Entry<int, Mem, SubLTreePart>

  /** The best subcase of a finished subtree per latency (`TDP[n]`). */
  type Best = Dict<int, SubLTreePart>

  /** An edge `(v, b)` of the traversal; `b == 0` stands for "v itself". */
  type Edge = (Node, Node)

  /** One step of the left-right traversal: the edge `(u, v_p)` whose state
      a MERGE of `v` extends (`v_p` is `v`'s previous sibling, or 0), the
      previous sibling `b_p` of `b`, and the step's own edge `(v, b)`. */
  datatype Step = Step(uvp: Edge, bp: Node, vb: Edge)

  type States = map<Edge, Table>

  /** The cost a table compares subcases by. */
  function CostOf(s: SubLTreePart): int { s.cost }

  /** The state stored for an edge; a missing state reads as empty. */
  function TableOf(dp: States, k: Edge): Table {
    if k in dp then dp[k] else []
  }

  /** The best subcases of a finished subtree; an unfinished one has none. */
  function BestOf(tdp: map<Node, Best>, n: Node): Best {
    if n in tdp then tdp[n] else []
  }

  /** `d[k][m] = s` on a two-level table whose missing buckets read as empty. */
  function PutEntry(tbl: Table, c: Cand): (r: Table)
    ensures Stored(r, c.lat, c.mem) == Some(c.sub)
    ensures forall l, m :: (l, m) != (c.lat, c.mem) ==> Stored(r, l, m) == Stored(tbl, l, m)
    ensures NonEmptyBuckets(tbl) ==> NonEmptyBuckets(r)
  {
    PutNested(tbl, c.lat, c.mem, c.sub);
    Put(tbl, c.lat, Put(Bucket(tbl, c.lat), c.mem, c.sub))
  }

  /** The last child of `v`, or 0 for a leaf (`deque(successors, 1).pop()`). */
  function LastChild(t: Tree, v: Node): Node {
    var cs := Children(t, v);
    if |cs| == 0 then 0 else cs[|cs| - 1]
  }

  // ---------------------------------------------------------- transitions

  /** Caching overhead written out by the critical-path node `v` towards
      its critical-path child, `ceil(r_c / (r_v * N)) * d_c`, or 0. */
  function WriteOut(e: Env, v: Node): (w: int)
    requires ValidEnv(e)
    ensures w >= 0
    ensures CpChild(e.t, e.cp, v).None? ==> w == 0
  {
    match CpChild(e.t, e.cp, v)
    case Some(c) => Fanout(e, v, c) * Data(e.t, c)
    case None => 0
  }

  /** Latency of the singleton block `{n}` (lines 217-222): fetch, runtime
      and write-out on the critical path, 0 off it. */
  function RootLat(e: Env, n: Node): (l: int)
    requires ValidEnv(e)
    ensures n !in e.cp ==> l == 0
    ensures n in e.cp ==> l >= Runtime(e.t, n)
  {
    if n in e.cp then Data(e.t, n) + Runtime(e.t, n) + WriteOut(e, n) else 0
  }

  /** The SINGLETON subcase `C[n, 0]` (lines 213-223). */
  function Singleton(e: Env, n: Node): (c: Cand)
    requires ValidEnv(e)
    ensures c.lat == RootLat(e, n) && c.mem == (Memory(e.t, n), Memory(e.t, n))
    ensures c.sub.mul == 1 && c.sub.barr == {n}
  {
    var rn := Rate(e.t, n);
    Entry(RootLat(e, n), (Memory(e.t, n), Memory(e.t, n)),
          SubLTreePart(rn * (Data(e.t, n) + Runtime(e.t, n)) + OutCost(e, rn, n, {}), 1, {n}))
  }

  /** Memory pair after merging `v` into the block of `n` (line 234): the
      prefetch memories add up, the operative memory is the maximum of the
      instance-scaled node memories. */
  function MergedMem(e: Env, n: Node, v: Node, mu: Mem): (m: Mem)
    requires ValidEnv(e)
    ensures m.0 == mu.0 + Memory(e.t, v)
    ensures m.1 >= mu.1
  {
    (mu.0 + Memory(e.t, v), Max(mu.1, Min(CeilDiv(Rate(e.t, v), Rate(e.t, n)), e.N) * Memory(e.t, v)))
  }

  /** Invocation multiplicity of a merged critical-path node `v` whose
      caller `u` has multiplicity `mul` (lines 240-241). */
  function MergedMul(e: Env, u: Node, v: Node, mul: int): (k: int)
    requires ValidEnv(e)
    ensures mul >= 1 ==> k >= mul
  {
    Fanout(e, u, v) * mul
  }

  /** Latency after merging `v`: on the critical path `v`'s runtime and
      write-out replace the caching of the call `u -> v`, once per
      invocation (lines 239-249). */
  function MergedLat(e: Env, u: Node, v: Node, latU: int, mul: int): int
    requires ValidEnv(e)
  {
    if v in e.cp then latU + MergedMul(e, u, v, mul) * (Runtime(e.t, v) - Data(e.t, v) + WriteOut(e, v))
    else latU
  }

  /** The MERGE transition `C[v, 0] = C[u, j-1] + delta(u, v)` for one
      entry of the state of `(u, v_p)` (lines 230-256); `None` when a
      limit rejects it. */
  function MergeCand(e: Env, n: Node, u: Node, v: Node, latU: int, memU: Mem, subU: SubLTreePart): (r: Option<Cand>)
    requires ValidEnv(e)
    ensures var m := MergedMem(e, n, v, memU);
      r.Some? <==> Within(Max(m.0, m.1), e.M) && (v in e.cp ==> Within(MergedLat(e, u, v, latU, subU.mul), e.L))
    ensures r.Some? ==> Within(r.value.mem.0, e.M) && Within(r.value.mem.1, e.M)
    ensures r.Some? ==> r.value.mem == MergedMem(e, n, v, memU) && r.value.lat == MergedLat(e, u, v, latU, subU.mul)
    ensures r.Some? ==> r.value.sub.barr == subU.barr
    ensures r.Some? && v !in e.cp ==> r.value.lat == latU && r.value.sub.mul == subU.mul
    ensures r.Some? && v in e.cp ==> r.value.sub.mul == MergedMul(e, u, v, subU.mul)
    ensures r.Some? ==> (r.value.sub.cost ==
      subU.cost + e.inst(Rate(e.t, n), Rate(e.t, v), e.N) * (Runtime(e.t, v) - Data(e.t, v)) + OutCost(e, Rate(e.t, n), v, {}))
  {
    var m := MergedMem(e, n, v, memU);
    if !Within(Max(m.0, m.1), e.M) then None
    else
      var lat := MergedLat(e, u, v, latU, subU.mul);
      if v in e.cp && !Within(lat, e.L) then None
      else
        var mul := if v in e.cp then MergedMul(e, u, v, subU.mul) else subU.mul;
        assert Fin(m.0).Le(Fin(Max(m.0, m.1))) && Fin(m.1).Le(Fin(Max(m.0, m.1)));
        LeIsTotalPreorder(Fin(m.0), Fin(Max(m.0, m.1)), e.M);
        LeIsTotalPreorder(Fin(m.1), Fin(Max(m.0, m.1)), e.M);
        var rn := Rate(e.t, n);
        var cost := subU.cost + e.inst(rn, Rate(e.t, v), e.N) * (Runtime(e.t, v) - Data(e.t, v)) + OutCost(e, rn, v, {});
        Some(Entry(lat, m, SubLTreePart(cost, mul, subU.barr)))
  }

  /** The CUT transition of the edge `v -> b` for one left entry and one
      best subcase of `T_b` (lines 264-273): latency grows by the
      invocation delay and `T_b`'s latency only when `b` is on the critical
      path, and is checked against `L` in every case. */
  function CutCand(e: Env, b: Node, latV: int, memV: Mem, subV: SubLTreePart, latB: int, optB: SubLTreePart): (r: Option<Cand>)
    requires ValidEnv(e)
    ensures var lat := if b in e.cp then latV + e.delay + latB else latV;
      && (r.Some? <==> Within(lat, e.L))
      && (r.Some? ==> r.value.lat == lat)
    ensures r.Some? ==> r.value.mem == memV && r.value.sub.mul == subV.mul
    ensures r.Some? ==> r.value.sub.cost == subV.cost + optB.cost && r.value.sub.barr == subV.barr + optB.barr
  {
    var lat := if b in e.cp then latV + e.delay + latB else latV;
    if Within(lat, e.L) then Some(Entry(lat, memV, SubLTreePart(subV.cost + optB.cost, subV.mul, subV.barr + optB.barr)))
    else None
  }

  // ----------------------------------------------------- candidate order

  function OptSeq(o: Option<Cand>): seq<Cand> {
    if o.Some? then [o.value] else []
  }

  /** MERGE candidates in the order of the loops at lines 230-231. */
  function MergeCandsB(e: Env, n: Node, u: Node, v: Node, lat: int, bucket: Dict<Mem, SubLTreePart>): seq<Cand>
    requires ValidEnv(e)
  {
    if |bucket| == 0 then []
    else OptSeq(MergeCand(e, n, u, v, lat, bucket[0].0, bucket[0].1)) + MergeCandsB(e, n, u, v, lat, bucket[1..])
  }

  /** MERGE candidates in the order of the loops at lines 230-231. */
  function MergeCands(e: Env, n: Node, u: Node, v: Node, tu: Table): seq<Cand>
    requires ValidEnv(e)
  {
    if |tu| == 0 then []
    else MergeCandsB(e, n, u, v, tu[0].0, tu[0].1) + MergeCands(e, n, u, v, tu[1..])
  }

  /** CUT candidates in the order of the loops at lines 264-266. */
  function CutCandsT(e: Env, b: Node, lat: int, mem: Mem, sub: SubLTreePart, best: Best): seq<Cand>
    requires ValidEnv(e)
  {
    if |best| == 0 then []
    else OptSeq(CutCand(e, b, lat, mem, sub, best[0].0, best[0].1)) + CutCandsT(e, b, lat, mem, sub, best[1..])
  }

  /** CUT candidates of one bucket of the left state. */
  function CutCandsB(e: Env, b: Node, lat: int, bucket: Dict<Mem, SubLTreePart>, best: Best): seq<Cand>
    requires ValidEnv(e)
  {
    if |bucket| == 0 then []
    else CutCandsT(e, b, lat, bucket[0].0, bucket[0].1, best) + CutCandsB(e, b, lat, bucket[1..], best)
  }

  /** CUT candidates in the order of the loops at lines 264-266. */
  function CutCands(e: Env, b: Node, tv: Table, best: Best): seq<Cand>
    requires ValidEnv(e)
  {
    if |tv| == 0 then []
    else CutCandsB(e, b, tv[0].0, tv[0].1, best) + CutCands(e, b, tv[1..], best)
  }

  // --------------------------------------------- dominance elimination

  /** A stored subcase `(l, m, s)` is dominated by a new candidate when it
      is no better in latency, prefetch memory and cost (lines 278-280; the
      operative memory is not compared: the second test of line 279
      repeats the first). */
  predicate Dominated(l: int, m: Mem, s: SubLTreePart, c: Cand) {
    l >= c.lat && m.0 >= c.mem.0 && s.cost >= c.sub.cost
  }

  /** Delete the subcases of one bucket that the candidate dominates. */
  function PruneBucket(l: int, bucket: Dict<Mem, SubLTreePart>, c: Cand): (r: Dict<Mem, SubLTreePart>)
    ensures forall ms :: ms in r <==> ms in bucket && !Dominated(l, ms.0, ms.1, c)
  {
    if |bucket| == 0 then []
    else
      var tl := PruneBucket(l, bucket[1..], c);
      assert forall ms :: ms in bucket <==> ms == bucket[0] || ms in bucket[1..];
      if Dominated(l, bucket[0].0, bucket[0].1, c) then tl else [bucket[0]] + tl
  }

  /** `(m, s)` is stored in some bucket of latency `l` of `tbl`. */
  ghost predicate InTable(tbl: Table, l: int, ms: (Mem, SubLTreePart)) {
    exists lb :: lb in tbl && lb.0 == l && ms in lb.1
  }

  /** A subcase is in a table exactly when it is in its first bucket or in the
      rest. */
  lemma InTableCons(x: (int, Dict<Mem, SubLTreePart>), tl: Table, l: int, ms: (Mem, SubLTreePart))
    ensures InTable([x] + tl, l, ms) <==> (x.0 == l && ms in x.1) || InTable(tl, l, ms)
  {
    if InTable(tl, l, ms) {
      var lb :| lb in tl && lb.0 == l && ms in lb.1;
      assert lb in [x] + tl;
    }
    if x.0 == l && ms in x.1 {
      assert x in [x] + tl;
    }
  }

  /** Lines 278-284: delete every dominated subcase; a bucket losing its
      last subcase is deleted with it.  Deleting one entry at a time and
      dropping a bucket of size one, as the library does, has this effect. */
  function Prune(tbl: Table, c: Cand): (r: Table)
    ensures NonEmptyBuckets(r)
  {
    if |tbl| == 0 then []
    else
      var tl := Prune(tbl[1..], c);
      var pb := PruneBucket(tbl[0].0, tbl[0].1, c);
      if |pb| == 0 then tl else [(tbl[0].0, pb)] + tl
  }

  /** Pruning keeps exactly the subcases the candidate does not dominate. */
  lemma {:induction false} PruneIsFilter(tbl: Table, c: Cand, l: int, ms: (Mem, SubLTreePart))
    ensures InTable(Prune(tbl, c), l, ms) <==> InTable(tbl, l, ms) && !Dominated(l, ms.0, ms.1, c)
    decreases |tbl|
  {
    if |tbl| > 0 {
      PruneIsFilter(tbl[1..], c, l, ms);
      var pb := PruneBucket(tbl[0].0, tbl[0].1, c);
      assert tbl == [tbl[0]] + tbl[1..];
      InTableCons(tbl[0], tbl[1..], l, ms);
      if |pb| > 0 {
        InTableCons((tbl[0].0, pb), Prune(tbl[1..], c), l, ms);
      }
    }
  }

  /** Storing one subcase adds exactly that subcase, and loses only the
      subcase it replaces. */
  lemma PutEntryInTable(p: Table, c: Cand, l: int, ms: (Mem, SubLTreePart))
    ensures InTable(PutEntry(p, c), l, ms) ==> (l == c.lat && ms == (c.mem, c.sub)) || InTable(p, l, ms)
    ensures InTable(p, l, ms) && (l, ms.0) != (c.lat, c.mem) ==> InTable(PutEntry(p, c), l, ms)
  {
    var inner := Bucket(p, c.lat);
    var inner' := Put(inner, c.mem, c.sub);
    var r := PutEntry(p, c);
    assert (c.lat, inner') in r;
    if InTable(r, l, ms) {
      var lb :| lb in r && lb.0 == l && ms in lb.1;
      if lb !in p {
        assert lb == (c.lat, inner');
        if ms != (c.mem, c.sub) {
          assert ms in inner;
          assert (c.lat, inner) in p;
        }
      }
    }
    if InTable(p, l, ms) && (l, ms.0) != (c.lat, c.mem) {
      var lb :| lb in p && lb.0 == l && ms in lb.1;
      if lb !in r {
        assert lb.0 == c.lat && inner == lb.1;
        assert ms in inner';
      }
    }
  }

  /** Lines 275-286: the candidate is kept when its key is new or it is
      strictly cheaper; with `bidirectional` every subcase it dominates is
      deleted first. */
  function CutStore(tbl: Table, c: Cand, bidirectional: bool): (r: Table)
    ensures !bidirectional ==> r == Store(tbl, c, CostOf)
    ensures NonEmptyBuckets(tbl) ==> NonEmptyBuckets(r)
  {
    var prev := Stored(tbl, c.lat, c.mem);
    if prev.None? || c.sub.cost < prev.value.cost then
      PutEntry(if bidirectional then Prune(tbl, c) else tbl, c)
    else tbl
  }

  /** After a bidirectional CUT store that keeps the candidate, the
      candidate is stored, no other subcase it dominates survives, and every
      subcase it does not dominate survives. */
  lemma CutStoreEliminates(tbl: Table, c: Cand, l: int, ms: (Mem, SubLTreePart))
    requires Stored(tbl, c.lat, c.mem).None? || c.sub.cost < Stored(tbl, c.lat, c.mem).value.cost
    ensures Stored(CutStore(tbl, c, true), c.lat, c.mem) == Some(c.sub)
    ensures InTable(CutStore(tbl, c, true), l, ms) && Dominated(l, ms.0, ms.1, c) ==> l == c.lat && ms == (c.mem, c.sub)
    ensures InTable(tbl, l, ms) && !Dominated(l, ms.0, ms.1, c) && (l, ms.0) != (c.lat, c.mem) ==>
      InTable(CutStore(tbl, c, true), l, ms)
  {
    var p := Prune(tbl, c);
    assert CutStore(tbl, c, true) == PutEntry(p, c);
    PruneIsFilter(tbl, c, l, ms);
    PutEntryInTable(p, c, l, ms);
  }

  /** Lines 275-286: store the CUT candidates one by one, eliminating dominated
      subcases first when `bidirectional` is set. */
  function CutStoreAll(tbl: Table, cs: seq<Cand>, bidirectional: bool): (r: Table)
    ensures NonEmptyBuckets(tbl) ==> NonEmptyBuckets(r)
    ensures !bidirectional ==> r == StoreAll(tbl, cs, CostOf)
    decreases |cs|
  {
    if |cs| == 0 then tbl else CutStoreAll(CutStore(tbl, cs[0], bidirectional), cs[1..], bidirectional)
  }

  // ---------------------------------------------------------- entry shape

  /** What every subcase of a state inside `T_n` satisfies: `n` is a
      barrier, the multiplicity is positive, the latency respects `L` unless
      it is still the singleton's, and both memories respect `M` unless they
      are still `n`'s own. */
  ghost predicate EntryOk(e: Env, n: Node, l: int, ms: (Mem, SubLTreePart))
    requires ValidEnv(e)
  {
    && n in ms.1.barr && ms.1.mul >= 1
    && (Within(l, e.L) || l == RootLat(e, n))
    && ((Within(ms.0.0, e.M) && Within(ms.0.1, e.M)) || ms.0 == (Memory(e.t, n), Memory(e.t, n)))
  }

  /** A candidate satisfies the entry shape of `T_n`. */
  ghost predicate CandOk(e: Env, n: Node, c: Cand)
    requires ValidEnv(e)
  {
    EntryOk(e, n, c.lat, (c.mem, c.sub))
  }

  /** Every subcase of a bucket satisfies the entry shape of `T_n`. */
  ghost predicate BucketOk(e: Env, n: Node, l: int, bucket: Dict<Mem, SubLTreePart>)
    requires ValidEnv(e)
  {
    forall ms :: ms in bucket ==> EntryOk(e, n, l, ms)
  }

  /** Every bucket of a state satisfies the entry shape of `T_n`. */
  ghost predicate TableOk(e: Env, n: Node, tbl: Table)
    requires ValidEnv(e)
  {
    forall lb :: lb in tbl ==> BucketOk(e, n, lb.0, lb.1)
  }

  /** A subcase of an ok state satisfies the entry shape. */
  lemma TableOkInTable(e: Env, n: Node, tbl: Table, l: int, ms: (Mem, SubLTreePart))
    requires ValidEnv(e) && TableOk(e, n, tbl) && InTable(tbl, l, ms)
    ensures EntryOk(e, n, l, ms)
  {
    var lb :| lb in tbl && lb.0 == l && ms in lb.1;
  }

  /** A table all of whose stored subcases are ok is ok. */
  lemma InTableOk(e: Env, n: Node, tbl: Table)
    requires ValidEnv(e)
    requires forall l, ms :: InTable(tbl, l, ms) ==> EntryOk(e, n, l, ms)
    ensures TableOk(e, n, tbl)
  {
    forall lb, ms | lb in tbl && ms in lb.1 ensures EntryOk(e, n, lb.0, ms) {
      assert InTable(tbl, lb.0, ms);
    }
  }

  /** Storing an ok candidate keeps a state ok. */
  lemma PutEntryOk(e: Env, n: Node, tbl: Table, c: Cand)
    requires ValidEnv(e) && TableOk(e, n, tbl) && CandOk(e, n, c)
    ensures TableOk(e, n, PutEntry(tbl, c))
  {
    forall l, ms | InTable(PutEntry(tbl, c), l, ms) ensures EntryOk(e, n, l, ms) {
      PutEntryInTable(tbl, c, l, ms);
      if InTable(tbl, l, ms) { TableOkInTable(e, n, tbl, l, ms); }
    }
    InTableOk(e, n, PutEntry(tbl, c));
  }

  /** Storing ok candidates keeps a state ok. */
  lemma {:induction false} StoreAllOk(e: Env, n: Node, tbl: Table, cs: seq<Cand>)
    requires ValidEnv(e) && TableOk(e, n, tbl) && forall c :: c in cs ==> CandOk(e, n, c)
    ensures TableOk(e, n, StoreAll(tbl, cs, CostOf))
    decreases |cs|
  {
    if |cs| > 0 {
      var t1 := Store(tbl, cs[0], CostOf);
      if t1 != tbl {
        assert t1 == PutEntry(tbl, cs[0]);
        PutEntryOk(e, n, tbl, cs[0]);
      }
      assert forall c :: c in cs[1..] ==> c in cs;
      StoreAllOk(e, n, t1, cs[1..]);
    }
  }

  /** Storing ok CUT candidates, with or without elimination, keeps a state ok. */
  lemma {:induction false} CutStoreAllOk(e: Env, n: Node, tbl: Table, cs: seq<Cand>, bidirectional: bool)
    requires ValidEnv(e) && TableOk(e, n, tbl) && forall c :: c in cs ==> CandOk(e, n, c)
    ensures TableOk(e, n, CutStoreAll(tbl, cs, bidirectional))
    decreases |cs|
  {
    if |cs| > 0 {
      var c := cs[0];
      var t1 := CutStore(tbl, c, bidirectional);
      if t1 != tbl {
        var p := if bidirectional then Prune(tbl, c) else tbl;
        assert t1 == PutEntry(p, c);
        if bidirectional {
          forall l, ms | InTable(p, l, ms) ensures EntryOk(e, n, l, ms) {
            PruneIsFilter(tbl, c, l, ms);
            TableOkInTable(e, n, tbl, l, ms);
          }
          InTableOk(e, n, p);
        }
        PutEntryOk(e, n, p, c);
      }
      assert forall c :: c in cs[1..] ==> c in cs;
      CutStoreAllOk(e, n, t1, cs[1..], bidirectional);
    }
  }

  /** A MERGE from an ok subcase yields an ok candidate. */
  lemma MergeCandOk(e: Env, n: Node, u: Node, v: Node, lat: int, ms: (Mem, SubLTreePart))
    requires ValidEnv(e) && EntryOk(e, n, lat, ms)
    ensures var o := MergeCand(e, n, u, v, lat, ms.0, ms.1);
      o.Some? ==> CandOk(e, n, o.value)
  {
    var o := MergeCand(e, n, u, v, lat, ms.0, ms.1);
    if o.Some? && v in e.cp {
      assert o.value.sub.mul == MergedMul(e, u, v, ms.1.mul) >= ms.1.mul;
    }
  }

  /** A CUT from an ok subcase yields an ok candidate. */
  lemma CutCandOk(e: Env, n: Node, b: Node, lat: int, ms: (Mem, SubLTreePart), latB: int, optB: SubLTreePart)
    requires ValidEnv(e) && EntryOk(e, n, lat, ms)
    ensures var o := CutCand(e, b, lat, ms.0, ms.1, latB, optB);
      o.Some? ==> CandOk(e, n, o.value)
  {
  }

  /** Every MERGE candidate of an ok bucket is ok. */
  lemma {:induction false} MergeCandsBOk(e: Env, n: Node, u: Node, v: Node, lat: int, bucket: Dict<Mem, SubLTreePart>)
    requires ValidEnv(e) && BucketOk(e, n, lat, bucket)
    ensures forall c :: c in MergeCandsB(e, n, u, v, lat, bucket) ==> CandOk(e, n, c)
    decreases |bucket|
  {
    if |bucket| > 0 {
      assert bucket[0] in bucket;
      MergeCandOk(e, n, u, v, lat, bucket[0]);
      assert forall ms :: ms in bucket[1..] ==> ms in bucket;
      MergeCandsBOk(e, n, u, v, lat, bucket[1..]);
    }
  }

  /** Every MERGE candidate of an ok state is ok. */
  lemma {:induction false} MergeCandsOk(e: Env, n: Node, u: Node, v: Node, tu: Table)
    requires ValidEnv(e) && TableOk(e, n, tu)
    ensures forall c :: c in MergeCands(e, n, u, v, tu) ==> CandOk(e, n, c)
    decreases |tu|
  {
    if |tu| > 0 {
      assert tu[0] in tu;
      MergeCandsBOk(e, n, u, v, tu[0].0, tu[0].1);
      assert forall lb :: lb in tu[1..] ==> lb in tu;
      MergeCandsOk(e, n, u, v, tu[1..]);
    }
  }

  /** Every CUT candidate of one ok subcase is ok. */
  lemma {:induction false} CutCandsTOk(e: Env, n: Node, b: Node, lat: int, ms: (Mem, SubLTreePart), best: Best)
    requires ValidEnv(e) && EntryOk(e, n, lat, ms)
    ensures forall c :: c in CutCandsT(e, b, lat, ms.0, ms.1, best) ==> CandOk(e, n, c)
    decreases |best|
  {
    if |best| > 0 {
      CutCandOk(e, n, b, lat, ms, best[0].0, best[0].1);
      CutCandsTOk(e, n, b, lat, ms, best[1..]);
    }
  }

  /** Every CUT candidate of an ok bucket is ok. */
  lemma {:induction false} CutCandsBOk(e: Env, n: Node, b: Node, lat: int, bucket: Dict<Mem, SubLTreePart>, best: Best)
    requires ValidEnv(e) && BucketOk(e, n, lat, bucket)
    ensures forall c :: c in CutCandsB(e, b, lat, bucket, best) ==> CandOk(e, n, c)
    decreases |bucket|
  {
    if |bucket| > 0 {
      assert bucket[0] in bucket;
      CutCandsTOk(e, n, b, lat, bucket[0], best);
      assert forall ms :: ms in bucket[1..] ==> ms in bucket;
      CutCandsBOk(e, n, b, lat, bucket[1..], best);
    }
  }

  /** Every CUT candidate of an ok state is ok. */
  lemma {:induction false} CutCandsOk(e: Env, n: Node, b: Node, tv: Table, best: Best)
    requires ValidEnv(e) && TableOk(e, n, tv)
    ensures forall c :: c in CutCands(e, b, tv, best) ==> CandOk(e, n, c)
    decreases |tv|
  {
    if |tv| > 0 {
      assert tv[0] in tv;
      CutCandsBOk(e, n, b, tv[0].0, tv[0].1, best);
      assert forall lb :: lb in tv[1..] ==> lb in tv;
      CutCandsOk(e, n, b, tv[1..], best);
    }
  }

  // -------------------------------------------------------- the traversal

  /** One step of the left-right traversal of `T_n` (lines 210-286).  A CUT
      starts from the state of the merged edge `(b, b_k)`, `b_k` being `b`'s
      last child (line 262); the library aliases the two states, which no
      later step of a left-right traversal reads again. */
  function StepStates(e: Env, n: Node, dp: States, tdp: map<Node, Best>, st: Step, bidirectional: bool): States
    requires ValidEnv(e)
  {
    var v := st.vb.0;
    var b := st.vb.1;
    if b == 0 then
      if v == n then dp[st.vb := PutEntry(TableOf(dp, st.vb), Singleton(e, n))]
      else dp[st.vb := StoreAll(TableOf(dp, st.vb), MergeCands(e, n, st.uvp.0, v, TableOf(dp, st.uvp)), CostOf)]
    else
      var init := TableOf(dp, (b, LastChild(e.t, b)));
      dp[st.vb := CutStoreAll(init, CutCands(e, b, TableOf(dp, (v, st.bp)), BestOf(tdp, b)), bidirectional)]
  }

  /** The left-right traversal of `T_n`, step by step. */
  function RunSteps(e: Env, n: Node, dp: States, tdp: map<Node, Best>, steps: seq<Step>, bidirectional: bool): States
    requires ValidEnv(e)
    decreases |steps|
  {
    if |steps| == 0 then dp
    else RunSteps(e, n, StepStates(e, n, dp, tdp, steps[0], bidirectional), tdp, steps[1..], bidirectional)
  }

  /** The invariant of the traversal of `T_n`: every state is ok and has no
      empty bucket. */
  ghost predicate StatesOk(e: Env, n: Node, dp: States)
    requires ValidEnv(e)
  {
    forall k :: k in dp ==> TableOk(e, n, dp[k]) && NonEmptyBuckets(dp[k])
  }

  /** Each state of an ok traversal is ok and has no empty bucket. */
  lemma StatesOkTableOf(e: Env, n: Node, dp: States, k: Edge)
    requires ValidEnv(e) && StatesOk(e, n, dp)
    ensures TableOk(e, n, TableOf(dp, k)) && NonEmptyBuckets(TableOf(dp, k))
  {
  }

  /** One step of the traversal keeps every state ok. */
  lemma StepKeepsOk(e: Env, n: Node, dp: States, tdp: map<Node, Best>, st: Step, bidirectional: bool)
    requires ValidEnv(e) && StatesOk(e, n, dp)
    ensures StatesOk(e, n, StepStates(e, n, dp, tdp, st, bidirectional))
  {
    var v := st.vb.0;
    var b := st.vb.1;
    StatesOkTableOf(e, n, dp, st.vb);
    if b == 0 {
      if v == n {
        PutEntryOk(e, n, TableOf(dp, st.vb), Singleton(e, n));
      } else {
        StatesOkTableOf(e, n, dp, st.uvp);
        MergeCandsOk(e, n, st.uvp.0, v, TableOf(dp, st.uvp));
        StoreAllOk(e, n, TableOf(dp, st.vb), MergeCands(e, n, st.uvp.0, v, TableOf(dp, st.uvp)));
      }
    } else {
      var init := TableOf(dp, (b, LastChild(e.t, b)));
      StatesOkTableOf(e, n, dp, (b, LastChild(e.t, b)));
      StatesOkTableOf(e, n, dp, (v, st.bp));
      CutCandsOk(e, n, b, TableOf(dp, (v, st.bp)), BestOf(tdp, b));
      CutStoreAllOk(e, n, init, CutCands(e, b, TableOf(dp, (v, st.bp)), BestOf(tdp, b)), bidirectional);
    }
  }

  /** The whole traversal keeps every state ok. */
  lemma {:induction false} RunStepsKeepsOk(e: Env, n: Node, dp: States, tdp: map<Node, Best>, steps: seq<Step>, bidirectional: bool)
    requires ValidEnv(e) && StatesOk(e, n, dp)
    ensures StatesOk(e, n, RunSteps(e, n, dp, tdp, steps, bidirectional))
    decreases |steps|
  {
    if |steps| > 0 {
      StepKeepsOk(e, n, dp, tdp, steps[0], bidirectional);
      RunStepsKeepsOk(e, n, StepStates(e, n, dp, tdp, steps[0], bidirectional), tdp, steps[1..], bidirectional);
    }
  }

  // ------------------------------------------------------ best subcases

  /** Lines 290-291: `TDP[n][lat] = min(bucket, key=cost)` for every bucket of
      the last state, in table order; `min` returns the first cheapest. */
  function Finish(best: Best, tbl: Table): (r: Best)
    requires NonEmptyBuckets(tbl)
    ensures forall x :: x in r ==> (x in best ||
      exists lb :: lb in tbl && x.0 == lb.0 && x.1 in Values(lb.1) && forall ms :: ms in lb.1 ==> x.1.cost <= ms.1.cost)
    ensures forall x :: x in r ==> x in best || FirstCheapestIn(tbl, x)
    decreases |tbl|
  {
    if |tbl| == 0 then best
    else
      var bucket := tbl[0].1;
      var best' := Put(best, tbl[0].0, bucket[ArgMin(bucket, CostOf)].1);
      var r := Finish(best', tbl[1..]);
      FirstCheapestStep(tbl, best, best', r);
      CheapestFromFirst(tbl, best, r);
      r
  }

  /** The first cheapest subcase of a bucket is one of its subcases and no
      costlier than any of them. */
  lemma CheapestFromFirst(tbl: Table, best: Best, r: Best)
    requires forall x :: x in r ==> x in best || FirstCheapestIn(tbl, x)
    ensures forall x :: x in r ==> (x in best ||
      exists lb :: lb in tbl && x.0 == lb.0 && x.1 in Values(lb.1) && forall ms :: ms in lb.1 ==> x.1.cost <= ms.1.cost)
  {
    forall x | x in r && x !in best
      ensures exists lb :: lb in tbl && x.0 == lb.0 && x.1 in Values(lb.1) && forall ms :: ms in lb.1 ==> x.1.cost <= ms.1.cost
    {
      var lb, i :| lb in tbl && x.0 == lb.0 && IsFirstMin(lb.1, CostOf, i) && x.1 == lb.1[i].1;
      assert lb.1[i] in lb.1;
      assert forall ms :: ms in lb.1 ==> CostOf(lb.1[i].1) <= CostOf(ms.1) by {
        forall ms | ms in lb.1 ensures CostOf(lb.1[i].1) <= CostOf(ms.1) {
          var j :| 0 <= j < |lb.1| && lb.1[j] == ms;
        }
      }
    }
  }

  /** `x` pairs a latency of `tbl` with the first cheapest subcase of its
      bucket, as `min(dp.values(), key=...)` picks it. */
  ghost predicate FirstCheapestIn(tbl: Table, x: (int, SubLTreePart)) {
    exists lb, i :: lb in tbl && x.0 == lb.0 && IsFirstMin(lb.1, CostOf, i) && x.1 == lb.1[i].1
  }

  /** One step of `Finish`: the entry it stores is the first cheapest of
      the head bucket, and entries vouched for by the rest of the table are
      vouched for by the whole. */
  lemma FirstCheapestStep(tbl: Table, best: Best, best': Best, r: Best)
    requires |tbl| > 0 && |tbl[0].1| > 0
    requires best' == Put(best, tbl[0].0, tbl[0].1[ArgMin(tbl[0].1, CostOf)].1)
    requires forall x :: x in r ==> x in best' || FirstCheapestIn(tbl[1..], x)
    ensures forall x :: x in r ==> x in best || FirstCheapestIn(tbl, x)
  {
    var i := ArgMin(tbl[0].1, CostOf);
    assert tbl[0] in tbl;
    forall x | x in r ensures x in best || FirstCheapestIn(tbl, x) {
      if x !in best' {
        var lb, j :| lb in tbl[1..] && x.0 == lb.0 && IsFirstMin(lb.1, CostOf, j) && x.1 == lb.1[j].1;
        assert lb in tbl;
      } else if x !in best {
        assert x == (tbl[0].0, tbl[0].1[i].1);
      }
    }
  }

  /** The subcases stored in a bucket. */
  function Values(bucket: Dict<Mem, SubLTreePart>): (r: set<SubLTreePart>)
    ensures forall s :: s in r <==> exists ms :: ms in bucket && ms.1 == s
  {
    set ms | ms in bucket :: ms.1
  }

  /** The best subcases of a finished `T_n` satisfy its entry shape. */
  ghost predicate BestOk(e: Env, n: Node, best: Best)
    requires ValidEnv(e)
  {
    forall x :: x in best ==> n in x.1.barr && (Within(x.0, e.L) || x.0 == RootLat(e, n))
  }

  /** The best subcases taken from an ok state are ok. */
  lemma {:induction false} FinishOk(e: Env, n: Node, best: Best, tbl: Table)
    requires ValidEnv(e) && BestOk(e, n, best) && TableOk(e, n, tbl) && NonEmptyBuckets(tbl)
    ensures BestOk(e, n, Finish(best, tbl))
    decreases |tbl|
  {
    if |tbl| > 0 {
      var bucket := tbl[0].1;
      var i := ArgMin(bucket, CostOf);
      assert tbl[0] in tbl && bucket[i] in bucket;
      assert EntryOk(e, n, tbl[0].0, bucket[i]);
      var best' := Put(best, tbl[0].0, bucket[i].1);
      assert BestOk(e, n, best');
      assert forall lb :: lb in tbl[1..] ==> lb in tbl;
      FinishOk(e, n, best', tbl[1..]);
    }
  }

  /** Processing the subtree `T_n` (lines 204-291) with the left-right
      traversal `steps`, the library's `ileft_right_dfs(tree, n)`. */
  function Subtree(e: Env, n: Node, tdp: map<Node, Best>, steps: seq<Step>, bidirectional: bool): map<Node, Best>
    requires ValidEnv(e)
  {
    var dp := RunSteps(e, n, map[], tdp, steps, bidirectional);
    RunStepsKeepsOk(e, n, map[], tdp, steps, bidirectional);
    var last := TableOf(dp, (n, LastChild(e.t, n)));
    StatesOkTableOf(e, n, dp, (n, LastChild(e.t, n)));
    tdp[n := Finish(BestOf(tdp, n), last)]
  }

  /** The post-order loop (line 202); `traversal(n)` stands for the
      left-right traversal of `T_n`. */
  function RunOrder(e: Env, tdp: map<Node, Best>, order: seq<Node>, traversal: Node -> seq<Step>, bidirectional: bool): map<Node, Best>
    requires ValidEnv(e)
    decreases |order|
  {
    if |order| == 0 then tdp
    else RunOrder(e, Subtree(e, order[0], tdp, traversal(order[0]), bidirectional), order[1..], traversal, bidirectional)
  }

  /** The best subcases of every finished subtree are ok. */
  ghost predicate AllBestOk(e: Env, tdp: map<Node, Best>)
    requires ValidEnv(e)
  {
    forall n :: n in tdp ==> BestOk(e, n, tdp[n])
  }

  /** The post-order loop keeps the best subcases of every finished subtree ok. */
  lemma {:induction false} RunOrderKeepsOk(e: Env, tdp: map<Node, Best>, order: seq<Node>, traversal: Node -> seq<Step>, bidirectional: bool)
    requires ValidEnv(e) && AllBestOk(e, tdp)
    ensures AllBestOk(e, RunOrder(e, tdp, order, traversal, bidirectional))
    decreases |order|
  {
    if |order| > 0 {
      var n := order[0];
      var steps := traversal(n);
      var dp := RunSteps(e, n, map[], tdp, steps, bidirectional);
      RunStepsKeepsOk(e, n, map[], tdp, steps, bidirectional);
      StatesOkTableOf(e, n, dp, (n, LastChild(e.t, n)));
      FinishOk(e, n, BestOf(tdp, n), TableOf(dp, (n, LastChild(e.t, n))));
      var tdp1 := Subtree(e, n, tdp, steps, bidirectional);
      assert AllBestOk(e, tdp1);
      RunOrderKeepsOk(e, tdp1, order[1..], traversal, bidirectional);
    }
  }

  // ------------------------------------------------------------- result

  /** Lines 293-298: the first cheapest latency of the root's best subcases.
      The test `if opt_lat := min(...)` is a truth test on the latency
      itself, so an optimum at latency 0 is reported as INFEASIBLE, exactly
      like an empty table. */
  function SelectResult(best: Best): (r: Outcome)
    ensures r.Infeasible? <==> |best| == 0 || best[ArgMin(best, CostOf)].0 == 0
    ensures r.Solution? ==> r.lat != 0 && exists x :: x in best && x == (r.lat, SubLTreePart(r.cost, x.1.mul, r.barr))
    ensures r.Solution? ==> forall x :: x in best ==> r.cost <= x.1.cost
    ensures r.Solution? ==> exists i :: IsFirstMin(best, CostOf, i) && best[i] == (r.lat, SubLTreePart(r.cost, best[i].1.mul, r.barr))
  {
    if |best| == 0 then Infeasible
    else
      var i := ArgMin(best, CostOf);
      assert best[i] in best;
      assert forall x :: x in best ==> CostOf(best[i].1) <= CostOf(x.1);
      if best[i].0 == 0 then Infeasible
      else Solution(best[i].1.barr, best[i].1.cost, best[i].0)
  }

  /** The truth test on the optimal latency: a root table whose only
      subcase has latency 0 yields INFEASIBLE. */
  lemma ZeroLatencyOptimumIsInfeasible(s: SubLTreePart)
    ensures SelectResult([(0, s)]) == Infeasible
  {
  }

  /** `pseudo_par_ltree_partitioning`: `limitsOk` is the verdict of the
      library's `verify_limits`, `order` its post-order and `traversal` its
      left-right traversal; none of them is part of this model. */
  function LeftRight(e: Env, order: seq<Node>, traversal: Node -> seq<Step>, limitsOk: bool, bidirectional: bool): (r: Outcome)
    requires ValidEnv(e)
    ensures !limitsOk ==> r == Infeasible
    ensures r.Solution? ==> e.root in r.barr && r.lat != 0
    ensures r.Solution? ==> Within(r.lat, e.L) || r.lat == RootLat(e, e.root)
  {
    if !limitsOk then Infeasible
    else
      var tdp0: map<Node, Best> := map n | n in e.t.nodes :: [];
      RunOrderKeepsOk(e, tdp0, order, traversal, bidirectional);
      var tdp := RunOrder(e, tdp0, order, traversal, bidirectional);
      var best := BestOf(tdp, e.root);
      assert BestOk(e, e.root, best);
      SelectResult(best)
  }
}

=== FILE: subtree_enum.dfy ===
/** The block enumerators that feed the configuration ILP
    (`ifeasible_par_greedy_subtrees` and `ifeasible_par_subtrees` of
    `slambuc/alg/tree/par/ilp.py`).

    Both list the connected, memory-feasible blocks of the tree, each with
    its root.  The first tries every non-empty node set once and keeps the
    ones in which every node but the smallest has its parent; the second
    builds the blocks of each node bottom-up from the blocks already built
    for a choice of its children.

    The block memory (`par_subtree_memory`) is a library helper outside this
    model and is the parameter `mem`; so is the post-order walk
    (`ipostorder_dfs`), given as the list `post`. */
module SubtreeEnum {
  import opened Base
  import opened CallTree
  import opened Lex
  import opened Blocks

  /** Every sub-list of `xs`, each in the order of `xs` (`ipowerset`).  The
      library helper is not part of this model, and neither is the order in
      which it produces the subsets. */
  function PowerList<T>(xs: seq<T>): seq<seq<T>>
    decreases |xs|
  {
    if |xs| == 0 then [[]]
    else
      var rest := PowerList(xs[1..]);
      rest + seq(|rest|, i requires 0 <= i < |rest| => [xs[0]] + rest[i])
  }

  /** The elements of a list with one more element in front. */
  lemma ElemsCons<T>(x: T, a: seq<T>)
    ensures Elems([x] + a) == {x} + Elems(a)
  {
    assert forall y :: y in [x] + a <==> y == x || y in a;
  }

  /** Every listed subset draws its elements from `xs`. */
  lemma {:induction false} PowerListSub<T>(xs: seq<T>)
    ensures forall k :: 0 <= k < |PowerList(xs)| ==> Elems(PowerList(xs)[k]) <= Elems(xs)
    decreases |xs|
  {
    if |xs| > 0 {
      PowerListSub(xs[1..]);
      var rest := PowerList(xs[1..]);
      assert Elems(xs[1..]) <= Elems(xs);
      forall k | 0 <= k < |PowerList(xs)| ensures Elems(PowerList(xs)[k]) <= Elems(xs) {
        if k >= |rest| {
          ElemsCons(xs[0], rest[k - |rest|]);
        }
      }
    }
  }

  /** Every subset of the elements of `xs` is listed. */
  lemma {:induction false} PowerListComplete<T>(xs: seq<T>, s: set<T>)
    requires s <= Elems(xs)
    ensures exists k :: 0 <= k < |PowerList(xs)| && Elems(PowerList(xs)[k]) == s
    decreases |xs|
  {
    if |xs| == 0 {
      assert Elems(PowerList(xs)[0]) == {};
    } else {
      var rest := PowerList(xs[1..]);
      assert Elems(xs) == {xs[0]} + Elems(xs[1..]) by {
        assert xs == [xs[0]] + xs[1..];
        ElemsCons(xs[0], xs[1..]);
      }
      if xs[0] in s {
        PowerListComplete(xs[1..], s - {xs[0]});
        var k :| 0 <= k < |rest| && Elems(rest[k]) == s - {xs[0]};
        ElemsCons(xs[0], rest[k]);
        assert PowerList(xs)[|rest| + k] == [xs[0]] + rest[k];
      } else {
        PowerListComplete(xs[1..], s);
        var k :| 0 <= k < |rest| && Elems(rest[k]) == s;
        assert PowerList(xs)[k] == rest[k];
      }
    }
  }

  /** The position at which a subset of the elements is listed. */
  lemma PowerListIndex<T>(xs: seq<T>, s: set<T>) returns (k: nat)
    requires s <= Elems(xs)
    ensures k < |PowerList(xs)| && Elems(PowerList(xs)[k]) == s
  {
    PowerListComplete(xs, s);
    k :| 0 <= k < |PowerList(xs)| && Elems(PowerList(xs)[k]) == s;
  }

  /** Over a duplicate-free list, no subset is listed twice. */
  lemma {:induction false} PowerListOnce<T>(xs: seq<T>)
    requires Distinct(xs)
    ensures forall i, j :: 0 <= i < j < |PowerList(xs)| ==> Elems(PowerList(xs)[i]) != Elems(PowerList(xs)[j])
    decreases |xs|
  {
    if |xs| > 0 {
      var x, rest := xs[0], PowerList(xs[1..]);
      var r := PowerList(xs);
      var m := |rest|;
      PowerListOnce(xs[1..]);
      PowerListSub(xs[1..]);
      assert x !in Elems(xs[1..]);
      forall i, j | 0 <= i < j < |r| ensures Elems(r[i]) != Elems(r[j]) {
        if j >= m {
          ElemsCons(x, rest[j - m]);
          if i >= m {
            ElemsCons(x, rest[i - m]);
            assert Elems(rest[i - m]) == Elems(r[i]) - {x};
            assert Elems(rest[j - m]) == Elems(r[j]) - {x};
          } else {
            assert x !in Elems(r[i]);
          }
        }
      }
    }
  }

  /** The `for ... else` test of `ifeasible_par_greedy_subtrees`: walk the
      listed nodes and stop at the first whose parent lies outside `st`. */
  function ParentsInside(t: Tree, st: set<Node>, vs: seq<Node>): (r: bool)
    ensures r <==> forall i :: 0 <= i < |vs| ==> Parent(t, vs[i]) in st
  {
    if |vs| == 0 then true
    else if Parent(t, vs[0]) !in st then false
    else ParentsInside(t, st, vs[1..])
  }

  /** Examine one candidate set: its nodes but the smallest, largest first,
      must have their parent inside, and the set must fit the memory limit;
      the block root is the smallest node.  The empty set is never examined
      (the subsets start at size one). */
  function Examine(t: Tree, mem: (Node, set<Node>) -> int, M: Ext, st: set<Node>): Option<(Node, set<Node>)> {
    if st == {} then None
    else
      var desc := Reverse(Ascending(st));
      if ParentsInside(t, st, desc[..|desc| - 1]) && Within(mem(SetMin(st), st), M) then Some((SetMin(st), st))
      else None
  }

  /** A list whose first element is its strict minimum, read backwards and
      without its last element, holds every element but the first. */
  lemma DescendingButLast(a: seq<Node>)
    requires |a| > 0 && forall i :: 0 < i < |a| ==> a[0] < a[i]
    ensures forall x :: x in Reverse(a)[..|a| - 1] <==> x in a && x != a[0]
  {
    var r := Reverse(a);
    assert r == Reverse(a[1..]) + [a[0]];
    assert r[..|a| - 1] == Reverse(a[1..]);
    ReverseKeeps(a[1..]);
    forall x ensures x in a[1..] <==> x in a && x != a[0] {
      if x in a && x != a[0] {
        var k :| 0 <= k < |a| && a[k] == x;
        assert a[1..][k - 1] == x;
      }
      if x in a[1..] {
        var k :| 0 <= k < |a| - 1 && a[1..][k] == x;
        assert a[0] < a[k + 1];
      }
    }
    forall x ensures x in r[..|a| - 1] <==> x in a[1..] {
      assert x in Reverse(a[1..]) <==> x in Elems(Reverse(a[1..]));
      assert x in a[1..] <==> x in Elems(a[1..]);
    }
  }

  /** The first element of `Ascending(st)` is the smallest of `st`. */
  lemma AscendingFirst(st: set<Node>)
    requires st != {}
    ensures |Ascending(st)| > 0 && Ascending(st)[0] == SetMin(st)
  {
    var a := Ascending(st);
    var m := SetMin(st);
    var k :| 0 <= k < |a| && a[k] == m;
    assert a[0] in st;
  }

  /** The walk over the nodes but the smallest succeeds exactly when every
      such node has its parent inside the set. */
  lemma TopParents(t: Tree, st: set<Node>)
    requires st != {}
    ensures var desc := Reverse(Ascending(st));
            |desc| > 0 &&
            (ParentsInside(t, st, desc[..|desc| - 1]) <==>
               forall v :: v in st && v != SetMin(st) ==> Parent(t, v) in st)
  {
    var a := Ascending(st);
    TopNodes(st, a);
    ParentsOf(t, st, SetMin(st), Reverse(a)[..|a| - 1]);
  }

  /** The nodes of the descending walk but its last are those of `st` but
      its smallest. */
  lemma TopNodes(st: set<Node>, a: seq<Node>)
    requires st != {} && a == Ascending(st)
    ensures |a| > 0 && forall x :: x in Reverse(a)[..|a| - 1] <==> x in st && x != SetMin(st)
  {
    AscendingFirst(st);
    DescendingButLast(a);
  }

  /** The walk over a list holding exactly the nodes of `st` but `m`. */
  lemma ParentsOf(t: Tree, st: set<Node>, m: Node, top: seq<Node>)
    requires forall x :: x in top <==> x in st && x != m
    ensures ParentsInside(t, st, top) <==> forall v :: v in st && v != m ==> Parent(t, v) in st
  {
    if forall v :: v in st && v != m ==> Parent(t, v) in st {
      forall i | 0 <= i < |top| ensures Parent(t, top[i]) in st {
        assert top[i] in top;
      }
    }
    if ParentsInside(t, st, top) {
      forall v | v in st && v != m ensures Parent(t, v) in st {
        var i :| 0 <= i < |top| && top[i] == v;
      }
    }
  }

  /** The test on a non-empty set in terms of the set alone. */
  lemma ExamineInside(t: Tree, mem: (Node, set<Node>) -> int, M: Ext, st: set<Node>)
    requires st != {}
    ensures var m := SetMin(st);
            Examine(t, mem, M, st) ==
              if (forall v :: v in st && v != m ==> Parent(t, v) in st) && Within(mem(m, st), M)
              then Some((m, st)) else None
  {
    TopParents(t, st);
  }

  /** A set of tree nodes is a block headed by its smallest node exactly
      when every other node has its parent inside. */
  lemma HeadedBySmallest(t: Tree, st: set<Node>)
    requires st != {} && st <= t.nodes
    ensures Headed(t, SetMin(st), st) <==> forall v :: v in st && v != SetMin(st) ==> Parent(t, v) in st
  {
  }

  /** A set passes exactly when it is a block headed by its smallest node
      that fits the memory limit. */
  lemma ExamineIff(t: Tree, mem: (Node, set<Node>) -> int, M: Ext, st: set<Node>)
    requires st <= t.nodes
    ensures Examine(t, mem, M, st).Some? <==>
              st != {} && Headed(t, SetMin(st), st) && Within(mem(SetMin(st), st), M)
    ensures Examine(t, mem, M, st).Some? ==> Examine(t, mem, M, st).value == (SetMin(st), st)
  {
    if st != {} {
      var m := SetMin(st);
      var inside := forall v :: v in st && v != m ==> Parent(t, v) in st;
      ExamineInside(t, mem, M, st);
      HeadedBySmallest(t, st);
    }
  }

  /** Apply `f` to every element and keep the results that are present. */
  function Keep<A, B>(f: A -> Option<B>, xs: seq<A>): seq<B>
  {
    if |xs| == 0 then []
    else (if f(xs[0]).Some? then [f(xs[0]).value] else []) + Keep(f, xs[1..])
  }

  /** A result is kept exactly when some element produces it. */
  lemma {:induction false} KeepMembers<A, B>(f: A -> Option<B>, xs: seq<A>)
    ensures forall y :: y in Keep(f, xs) <==> exists k :: 0 <= k < |xs| && f(xs[k]) == Some(y)
    decreases |xs|
  {
    if |xs| > 0 {
      KeepMembers(f, xs[1..]);
      forall y ensures y in Keep(f, xs) <==> exists k :: 0 <= k < |xs| && f(xs[k]) == Some(y) {
        if exists k :: 0 <= k < |xs| && f(xs[k]) == Some(y) {
          var k :| 0 <= k < |xs| && f(xs[k]) == Some(y);
          if k > 0 {
            assert xs[1..][k - 1] == xs[k];
          }
        }
        if y in Keep(f, xs[1..]) {
          var k :| 0 <= k < |xs[1..]| && f(xs[1..][k]) == Some(y);
          assert xs[k + 1] == xs[1..][k];
        }
      }
    }
  }

  /** A present result is kept. */
  lemma {:induction false} KeepHas<A, B>(f: A -> Option<B>, xs: seq<A>, k: nat)
    requires k < |xs| && f(xs[k]).Some?
    ensures f(xs[k]).value in Keep(f, xs)
    decreases k
  {
    if k > 0 {
      assert xs[1..][k - 1] == xs[k];
      KeepHas(f, xs[1..], k - 1);
    }
  }

  /** The position of an element producing a kept result. */
  lemma KeepSource<A, B>(f: A -> Option<B>, xs: seq<A>, y: B) returns (k: nat)
    requires y in Keep(f, xs)
    ensures k < |xs| && f(xs[k]) == Some(y)
  {
    KeepMembers(f, xs);
    k :| 0 <= k < |xs| && f(xs[k]) == Some(y);
  }

  /** Different elements never produce results with the same key. */
  ghost predicate ProducesApart<A, B, K>(f: A -> Option<B>, key: B -> K, xs: seq<A>) {
    forall i, j :: 0 <= i < j < |xs| && f(xs[i]).Some? && f(xs[j]).Some? ==>
      key(f(xs[i]).value) != key(f(xs[j]).value)
  }

  /** The listed values have pairwise different keys. */
  ghost predicate KeysUnique<B, K>(key: B -> K, ys: seq<B>) {
    forall i, j :: 0 <= i < j < |ys| ==> key(ys[i]) != key(ys[j])
  }

  /** When different elements never produce results with the same key,
      the kept results have pairwise different keys. */
  lemma {:induction false} KeepOnce<A, B, K>(f: A -> Option<B>, key: B -> K, xs: seq<A>)
    requires ProducesApart(f, key, xs)
    ensures KeysUnique(key, Keep(f, xs))
    decreases |xs|
  {
    if |xs| > 0 {
      var tl := xs[1..];
      ApartTail(f, key, xs);
      KeepOnce(f, key, tl);
      if f(xs[0]).Some? {
        KeepHeadUnique(f, key, xs, Keep(f, tl));
      }
    }
  }

  /** The tail of a list whose elements produce apart keys still does. */
  lemma ApartTail<A, B, K>(f: A -> Option<B>, key: B -> K, xs: seq<A>)
    requires |xs| > 0 && ProducesApart(f, key, xs)
    ensures ProducesApart(f, key, xs[1..])
  {
    var tl := xs[1..];
    forall i, j | 0 <= i < j < |tl| && f(tl[i]).Some? && f(tl[j]).Some?
      ensures key(f(tl[i]).value) != key(f(tl[j]).value) {
      assert tl[i] == xs[i + 1] && tl[j] == xs[j + 1];
    }
  }

  /** The head's result has a key none of the tail's kept results has. */
  lemma KeepHeadUnique<A, B, K>(f: A -> Option<B>, key: B -> K, xs: seq<A>, rest: seq<B>)
    requires |xs| > 0 && f(xs[0]).Some? && ProducesApart(f, key, xs)
    requires rest == Keep(f, xs[1..]) && KeysUnique(key, rest)
    ensures KeysUnique(key, [f(xs[0]).value] + rest)
  {
    var tl := xs[1..];
    var r := [f(xs[0]).value] + rest;
    forall i, j | 0 <= i < j < |r| ensures key(r[i]) != key(r[j]) {
      assert r[j] == rest[j - 1];
      if i == 0 {
        var k := KeepSource(f, tl, rest[j - 1]);
        assert tl[k] == xs[k + 1];
      } else {
        assert r[i] == rest[i - 1];
      }
    }
  }

  /** `ifeasible_par_greedy_subtrees`: every non-empty set of tree nodes is
      examined once, in the order of `PowerList` over the node ids. */
  function GreedySubtrees(t: Tree, mem: (Node, set<Node>) -> int, M: Ext): seq<(Node, set<Node>)> {
    Keep(Examiner(t, mem, M), PowerList(Ascending(t.nodes)))
  }

  /** The test applied to each listed tuple of nodes. */
  function Examiner(t: Tree, mem: (Node, set<Node>) -> int, M: Ext): seq<Node> -> Option<(Node, set<Node>)> {
    (c: seq<Node>) => Examine(t, mem, M, Elems(c))
  }

  /** The key of a listed pair: its node set. */
  function SetOf(p: (Node, set<Node>)): set<Node> {
    p.1
  }

  /** A pair `(r, st)` is listed exactly when `st` is a block of the tree
      headed by its smallest node `r` that fits the memory limit, and no
      block is listed twice. */
  lemma GreedySubtreesIff(t: Tree, mem: (Node, set<Node>) -> int, M: Ext)
    ensures forall r, st :: (r, st) in GreedySubtrees(t, mem, M) <==>
              && st != {} && st <= t.nodes && r == SetMin(st)
              && Headed(t, r, st) && Within(mem(r, st), M)
    ensures var out := GreedySubtrees(t, mem, M);
            forall i, j :: 0 <= i < j < |out| ==> out[i].1 != out[j].1
  {
    forall r, st ensures (r, st) in GreedySubtrees(t, mem, M) <==>
                          && st != {} && st <= t.nodes && r == SetMin(st)
                          && Headed(t, r, st) && Within(mem(r, st), M) {
      GreedyListed(t, mem, M, r, st);
    }
    GreedyOnce(t, mem, M);
  }

  /** One pair is listed exactly when it is a fitting block headed by its
      smallest node. */
  lemma GreedyListed(t: Tree, mem: (Node, set<Node>) -> int, M: Ext, r: Node, st: set<Node>)
    ensures (r, st) in GreedySubtrees(t, mem, M) <==>
              && st != {} && st <= t.nodes && r == SetMin(st)
              && Headed(t, r, st) && Within(mem(r, st), M)
  {
    if (r, st) in GreedySubtrees(t, mem, M) {
      GreedyListedSound(t, mem, M, r, st);
    }
    if && st != {} && st <= t.nodes && r == SetMin(st) && Headed(t, r, st) && Within(mem(r, st), M) {
      GreedyListedComplete(t, mem, M, st);
    }
  }

  /** Every listed pair is a fitting block headed by its smallest node. */
  lemma GreedyListedSound(t: Tree, mem: (Node, set<Node>) -> int, M: Ext, r: Node, st: set<Node>)
    requires (r, st) in GreedySubtrees(t, mem, M)
    ensures && st != {} && st <= t.nodes && r == SetMin(st)
            && Headed(t, r, st) && Within(mem(r, st), M)
  {
    var xs := Ascending(t.nodes);
    var cs := PowerList(xs);
    var f := Examiner(t, mem, M);
    var k := KeepSource(f, cs, (r, st));
    assert Elems(cs[k]) <= t.nodes by {
      assert Elems(xs) == t.nodes;
      PowerListSub(xs);
    }
    ExamineIff(t, mem, M, Elems(cs[k]));
  }

  /** Every fitting block is listed with its smallest node. */
  lemma GreedyListedComplete(t: Tree, mem: (Node, set<Node>) -> int, M: Ext, st: set<Node>)
    requires && st != {} && st <= t.nodes
             && Headed(t, SetMin(st), st) && Within(mem(SetMin(st), st), M)
    ensures (SetMin(st), st) in GreedySubtrees(t, mem, M)
  {
    var xs := Ascending(t.nodes);
    assert st <= Elems(xs);
    var k := PowerListIndex(xs, st);
    var f := Examiner(t, mem, M);
    assert f(PowerList(xs)[k]) == Examine(t, mem, M, st);
    ExamineIff(t, mem, M, st);
    KeepHas(f, PowerList(xs), k);
  }

  /** No node set is listed twice. */
  lemma GreedyOnce(t: Tree, mem: (Node, set<Node>) -> int, M: Ext)
    ensures var out := GreedySubtrees(t, mem, M);
            forall i, j :: 0 <= i < j < |out| ==> out[i].1 != out[j].1
  {
    var xs := Ascending(t.nodes);
    var cs := PowerList(xs);
    var f := Examiner(t, mem, M);
    assert Elems(xs) == t.nodes;
    assert Distinct(xs);
    PowerListOnce(xs);
    PowerListSub(xs);
    forall i, j | 0 <= i < j < |cs| && f(cs[i]).Some? && f(cs[j]).Some?
      ensures SetOf(f(cs[i]).value) != SetOf(f(cs[j]).value) {
      ExamineIff(t, mem, M, Elems(cs[i]));
      ExamineIff(t, mem, M, Elems(cs[j]));
    }
    KeepOnce(f, SetOf, cs);
    var out := Keep(f, cs);
    forall i, j | 0 <= i < j < |out| ensures out[i].1 != out[j].1 {
      assert SetOf(out[i]) != SetOf(out[j]);
    }
  }

  // ---------------------------------------------------------------------
  // `ifeasible_par_subtrees`: blocks built bottom-up.
  // ---------------------------------------------------------------------

  /** The library's `subtrees` dictionary: the blocks built so far, per
      block root.  It is a `defaultdict(list)`, so a missing key reads as
      the empty list. */
  type Lists = map<Node, seq<set<Node>>>

  /** `subtrees[c]` of the `defaultdict`: an absent node has no blocks. */
  function Lookup(lists: Lists, c: Node): seq<set<Node>> {
    if c in lists then lists[c] else []
  }

  /** The lists of the chosen children, in the order they are chosen. */
  function Lookups(lists: Lists, cs: seq<Node>): (r: seq<seq<set<Node>>>)
    ensures |r| == |cs|
  {
    seq(|cs|, i requires 0 <= i < |cs| => Lookup(lists, cs[i]))
  }

  /** Prefix every tuple of `ps` with `a`. */
  function ConsAll<T>(a: T, ps: seq<seq<T>>): seq<seq<T>> {
    seq(|ps|, i requires 0 <= i < |ps| => [a] + ps[i])
  }

  /** Every head of `heads` in front of every tuple of `ps`, the head
      varying slowest. */
  function ProductsWith<T>(heads: seq<T>, ps: seq<seq<T>>): seq<seq<T>>
    decreases |heads|
  {
    if |heads| == 0 then [] else ConsAll(heads[0], ps) + ProductsWith(heads[1..], ps)
  }

  /** `itertools.product` over a list of lists: every tuple taking its
      `i`-th element from the `i`-th list, the first position varying
      slowest.  The product of no lists is the one empty tuple. */
  function Products<T>(ls: seq<seq<T>>): seq<seq<T>>
    decreases |ls|
  {
    if |ls| == 0 then [[]] else ProductsWith(ls[0], Products(ls[1..]))
  }

  /** The union of a tuple of sets. */
  function UnionAll<T>(sts: seq<set<T>>): set<T>
    decreases |sts|
  {
    if |sts| == 0 then {} else sts[0] + UnionAll(sts[1..])
  }

  /** Node `n` joined with every tuple of child blocks of `ps`. */
  function Grown(n: Node, ps: seq<seq<set<Node>>>): seq<set<Node>> {
    seq(|ps|, i requires 0 <= i < |ps| => {n} + UnionAll(ps[i]))
  }

  /** The candidate blocks of `n`, over the given choices of its children
      in order, each with every combination of their listed blocks. */
  function Candidates(n: Node, lists: Lists, choices: seq<seq<Node>>): seq<set<Node>>
    decreases |choices|
  {
    if |choices| == 0 then []
    else Grown(n, Products(Lookups(lists, choices[0]))) + Candidates(n, lists, choices[1..])
  }

  /** The memory test of a candidate block of `n`. */
  function FitsAt(mem: (Node, set<Node>) -> int, M: Ext, n: Node): set<Node> -> Option<set<Node>> {
    st => if Within(mem(n, st), M) then Some(st) else None
  }

  /** The blocks found for `n`: the fitting candidates, over every subset of
      its children. */
  function NodeBlocks(t: Tree, mem: (Node, set<Node>) -> int, M: Ext, n: Node, lists: Lists): seq<set<Node>> {
    Keep(FitsAt(mem, M, n), Candidates(n, lists, PowerList(Children(t, n))))
  }

  /** Append the new blocks of `n` to its list and drop the lists of its
      children, which no later node reads. */
  function NextLists(t: Tree, n: Node, lists: Lists, found: seq<set<Node>>): Lists {
    lists[n := Lookup(lists, n) + found] - Elems(Children(t, n))
  }

  /** Each block of `n` paired with `n`, as the generator yields them. */
  function Pairs(n: Node, sts: seq<set<Node>>): seq<(Node, set<Node>)> {
    seq(|sts|, i requires 0 <= i < |sts| => (n, sts[i]))
  }

  /** The generator, run over the post-order walk `post` from the given
      dictionary state. */
  function Enumerate(t: Tree, mem: (Node, set<Node>) -> int, M: Ext, post: seq<Node>, lists: Lists): seq<(Node, set<Node>)>
    decreases |post|
  {
    if |post| == 0 then []
    else
      var n := post[0];
      var found := NodeBlocks(t, mem, M, n, lists);
      Pairs(n, found) + Enumerate(t, mem, M, post[1..], NextLists(t, n, lists, found))
  }

  /** `ifeasible_par_subtrees` over the post-order walk `post` of the tree
      from its root. */
  function ParSubtrees(t: Tree, mem: (Node, set<Node>) -> int, M: Ext, post: seq<Node>): seq<(Node, set<Node>)> {
    Enumerate(t, mem, M, post, map[])
  }

  // Properties.

  /** A tuple is produced exactly when it has one element from each list. */
  lemma {:induction false} ProductsIff<T>(ls: seq<seq<T>>)
    ensures forall p :: p in Products(ls) <==> |p| == |ls| && forall i :: 0 <= i < |p| ==> p[i] in ls[i]
    decreases |ls|
  {
    if |ls| > 0 {
      ProductsIff(ls[1..]);
      var ps := Products(ls[1..]);
      ProductsWithIff(ls[0], ps);
      forall p ensures p in Products(ls) <==> |p| == |ls| && forall i :: 0 <= i < |p| ==> p[i] in ls[i] {
        if |p| == |ls| && forall i :: 0 <= i < |p| ==> p[i] in ls[i] {
          assert p[0] in ls[0];
          forall i | 0 <= i < |p[1..]| ensures p[1..][i] in ls[1..][i] {
            assert p[i + 1] in ls[i + 1];
          }
          assert p[1..] in ps;
          assert p == [p[0]] + p[1..];
        }
        if p in Products(ls) {
          var h, q :| h in ls[0] && q in ps && p == [h] + q;
          forall i | 0 <= i < |p| ensures p[i] in ls[i] {
            if i > 0 {
              assert p[i] == q[i - 1];
              assert q[i - 1] in ls[1..][i - 1];
            }
          }
        }
      }
    }
  }

  /** The tuples of `ProductsWith` are a head followed by a listed tuple. */
  lemma {:induction false} ProductsWithIff<T>(heads: seq<T>, ps: seq<seq<T>>)
    ensures forall p :: p in ProductsWith(heads, ps) <==> exists h, q :: h in heads && q in ps && p == [h] + q
    decreases |heads|
  {
    if |heads| > 0 {
      ProductsWithIff(heads[1..], ps);
      forall p ensures p in ProductsWith(heads, ps) <==> exists h, q :: h in heads && q in ps && p == [h] + q {
        if p in ConsAll(heads[0], ps) {
          var i :| 0 <= i < |ps| && ConsAll(heads[0], ps)[i] == p;
          assert heads[0] in heads && ps[i] in ps && p == [heads[0]] + ps[i];
        }
        if p in ProductsWith(heads[1..], ps) {
          var h, q :| h in heads[1..] && q in ps && p == [h] + q;
          assert h in heads;
        }
        if exists h, q :: h in heads && q in ps && p == [h] + q {
          var h, q :| h in heads && q in ps && p == [h] + q;
          if h == heads[0] {
            var i :| 0 <= i < |ps| && ps[i] == q;
            assert ConsAll(heads[0], ps)[i] == p;
          } else {
            assert h in heads[1..];
          }
        }
      }
    }
  }

  /** A node lies in the union exactly when it lies in one of the sets. */
  lemma {:induction false} UnionAllIff<T>(sts: seq<set<T>>)
    ensures forall x :: x in UnionAll(sts) <==> exists i :: 0 <= i < |sts| && x in sts[i]
    decreases |sts|
  {
    if |sts| > 0 {
      UnionAllIff(sts[1..]);
      forall x ensures x in UnionAll(sts) <==> exists i :: 0 <= i < |sts| && x in sts[i] {
        if x in UnionAll(sts[1..]) {
          var i :| 0 <= i < |sts[1..]| && x in sts[1..][i];
          assert x in sts[i + 1];
        }
        if exists i :: 0 <= i < |sts| && x in sts[i] {
          var i :| 0 <= i < |sts| && x in sts[i];
          if i > 0 {
            assert sts[1..][i - 1] == sts[i];
          }
        }
      }
    }
  }

  /** `st` is `n` joined with one listed block of each child in `cs`. */
  ghost predicate GrownFrom(n: Node, lists: Lists, cs: seq<Node>, st: set<Node>) {
    exists p :: p in Products(Lookups(lists, cs)) && st == {n} + UnionAll(p)
  }

  /** A candidate of `n` is `n` joined with one listed block of each child
      of one of the choices, and every such union is a candidate. */
  lemma {:induction false} CandidatesIff(n: Node, lists: Lists, choices: seq<seq<Node>>)
    ensures forall st :: st in Candidates(n, lists, choices) <==>
              exists i :: 0 <= i < |choices| && GrownFrom(n, lists, choices[i], st)
    decreases |choices|
  {
    if |choices| > 0 {
      CandidatesIff(n, lists, choices[1..]);
      var ps := Products(Lookups(lists, choices[0]));
      assert Candidates(n, lists, choices) == Grown(n, ps) + Candidates(n, lists, choices[1..]);
      forall st ensures st in Candidates(n, lists, choices) <==>
                   exists i :: 0 <= i < |choices| && GrownFrom(n, lists, choices[i], st) {
        if st in Grown(n, ps) {
          var j :| 0 <= j < |ps| && Grown(n, ps)[j] == st;
          assert ps[j] in Products(Lookups(lists, choices[0])) && st == {n} + UnionAll(ps[j]);
          assert GrownFrom(n, lists, choices[0], st);
        }
        if st in Candidates(n, lists, choices[1..]) {
          var i :| 0 <= i < |choices[1..]| && GrownFrom(n, lists, choices[1..][i], st);
          assert choices[1..][i] == choices[i + 1];
        }
        if exists i :: 0 <= i < |choices| && GrownFrom(n, lists, choices[i], st) {
          var i :| 0 <= i < |choices| && GrownFrom(n, lists, choices[i], st);
          if i == 0 {
            var p :| p in ps && st == {n} + UnionAll(p);
            var j :| 0 <= j < |ps| && ps[j] == p;
            assert Grown(n, ps)[j] == st;
          } else {
            assert choices[1..][i - 1] == choices[i];
          }
        }
      }
    }
  }

  /** Every listed block is headed by the node it is listed under. */
  ghost predicate ListsHeaded(t: Tree, lists: Lists) {
    forall c, i :: c in lists && 0 <= i < |lists[c]| ==> Headed(t, c, lists[c][i])
  }

  /** `n` joined with blocks headed by some of its children is a block
      headed by `n`. */
  lemma JoinHeaded(t: Tree, n: Node, cs: seq<Node>, p: seq<set<Node>>)
    requires WellFormed(t) && n in t.nodes
    requires |p| == |cs|
    requires forall i :: 0 <= i < |cs| ==> cs[i] in Children(t, n) && Headed(t, cs[i], p[i])
    ensures Headed(t, n, {n} + UnionAll(p))
  {
    var u := UnionAll(p);
    forall v | v in u ensures v in t.nodes && n < v && (Parent(t, v) == n || Parent(t, v) in u) {
      JoinMember(t, n, cs, p, v);
    }
    HeadedAbove(t, n, u);
  }

  /** A head together with nodes below it whose parents are the head or
      again among them forms a block headed by it. */
  lemma HeadedAbove(t: Tree, n: Node, u: set<Node>)
    requires n in t.nodes
    requires forall v :: v in u ==> v in t.nodes && n < v && (Parent(t, v) == n || Parent(t, v) in u)
    ensures Headed(t, n, {n} + u)
  {
  }

  /** A node of one of the child blocks lies below `n`, and its parent is
      `n` or again in the union. */
  lemma JoinMember(t: Tree, n: Node, cs: seq<Node>, p: seq<set<Node>>, v: Node)
    requires WellFormed(t) && |p| == |cs| && v in UnionAll(p)
    requires forall i :: 0 <= i < |cs| ==> cs[i] in Children(t, n) && Headed(t, cs[i], p[i])
    ensures v in t.nodes && n < v && (Parent(t, v) == n || Parent(t, v) in UnionAll(p))
  {
    var i := UnionAllSource(p, v);
    ChildBlockMember(t, n, cs[i], p[i], v);
    if Parent(t, v) != n {
      UnionAllHas(p, i, Parent(t, v));
    }
  }

  /** An element of one of the sets is in their union. */
  lemma UnionAllHas<T>(sts: seq<set<T>>, i: nat, x: T)
    requires i < |sts| && x in sts[i]
    ensures x in UnionAll(sts)
  {
    UnionAllIff(sts);
  }

  /** An element of the union comes from one of the sets. */
  lemma UnionAllSource<T>(sts: seq<set<T>>, x: T) returns (i: nat)
    requires x in UnionAll(sts)
    ensures i < |sts| && x in sts[i]
  {
    UnionAllIff(sts);
    i :| 0 <= i < |sts| && x in sts[i];
  }

  /** A node of a block headed by a child `c` of `n` lies below `n`, and
      its parent is `n` or lies in the same block. */
  lemma ChildBlockMember(t: Tree, n: Node, c: Node, blk: set<Node>, v: Node)
    requires WellFormed(t) && c in Children(t, n) && Headed(t, c, blk) && v in blk
    ensures v in t.nodes && n < v
    ensures Parent(t, v) == n || Parent(t, v) in blk
  {
    var k :| 0 <= k < |Children(t, n)| && Children(t, n)[k] == c;
    assert c in t.nodes && Parent(t, c) == n;
  }

  /** Every candidate of `n` built from headed lists is a block headed by
      `n`. */
  lemma CandidatesHeaded(t: Tree, n: Node, lists: Lists, choices: seq<seq<Node>>)
    requires WellFormed(t) && n in t.nodes && ListsHeaded(t, lists)
    requires forall i :: 0 <= i < |choices| ==> Elems(choices[i]) <= Elems(Children(t, n))
    ensures forall st :: st in Candidates(n, lists, choices) ==> Headed(t, n, st)
  {
    CandidatesIff(n, lists, choices);
    forall st | st in Candidates(n, lists, choices) ensures Headed(t, n, st) {
      var i :| 0 <= i < |choices| && GrownFrom(n, lists, choices[i], st);
      GrownHeaded(t, n, lists, choices[i], st);
    }
  }

  /** `n` joined with one listed block of each of some of its children is a
      block headed by `n`. */
  lemma GrownHeaded(t: Tree, n: Node, lists: Lists, cs: seq<Node>, st: set<Node>)
    requires WellFormed(t) && n in t.nodes && ListsHeaded(t, lists)
    requires Elems(cs) <= Elems(Children(t, n)) && GrownFrom(n, lists, cs, st)
    ensures Headed(t, n, st)
  {
    var ls := Lookups(lists, cs);
    var p :| p in Products(ls) && st == {n} + UnionAll(p);
    ProductsIff(ls);
    forall k | 0 <= k < |cs| ensures cs[k] in Children(t, n) && Headed(t, cs[k], p[k]) {
      assert cs[k] in Elems(cs);
      assert p[k] in Lookup(lists, cs[k]);
      var j :| 0 <= j < |lists[cs[k]]| && lists[cs[k]][j] == p[k];
    }
    JoinHeaded(t, n, cs, p);
  }

  /** Every block found for `n` is headed by `n` and fits the memory
      limit. */
  lemma NodeBlocksSound(t: Tree, mem: (Node, set<Node>) -> int, M: Ext, n: Node, lists: Lists)
    requires WellFormed(t) && n in t.nodes && ListsHeaded(t, lists)
    ensures forall i :: 0 <= i < |NodeBlocks(t, mem, M, n, lists)| ==>
              Headed(t, n, NodeBlocks(t, mem, M, n, lists)[i]) && Within(mem(n, NodeBlocks(t, mem, M, n, lists)[i]), M)
  {
    var choices := PowerList(Children(t, n));
    var cands := Candidates(n, lists, choices);
    PowerListSub(Children(t, n));
    CandidatesHeaded(t, n, lists, choices);
    var found := NodeBlocks(t, mem, M, n, lists);
    forall i | 0 <= i < |found| ensures Headed(t, n, found[i]) && Within(mem(n, found[i]), M) {
      var k := KeepSource(FitsAt(mem, M, n), cands, found[i]);
    }
  }

  /** The dictionary update appends the new blocks of `n`, drops every
      child of `n` and leaves every other list alone. */
  lemma NextListsLookup(t: Tree, n: Node, lists: Lists, found: seq<set<Node>>)
    requires WellFormed(t) && n in t.nodes
    ensures var next := NextLists(t, n, lists, found);
            && n in next && Lookup(next, n) == Lookup(lists, n) + found
            && (forall c :: c in Children(t, n) ==> c !in next)
            && (forall c :: c != n && c !in Children(t, n) ==> Lookup(next, c) == Lookup(lists, c))
  {
  }

  /** The update keeps every list headed by its key. */
  lemma NextListsHeaded(t: Tree, n: Node, lists: Lists, found: seq<set<Node>>)
    requires WellFormed(t) && n in t.nodes && ListsHeaded(t, lists)
    requires forall i :: 0 <= i < |found| ==> Headed(t, n, found[i])
    ensures ListsHeaded(t, NextLists(t, n, lists, found))
  {
    var next := NextLists(t, n, lists, found);
    NextListsLookup(t, n, lists, found);
    forall c, i | c in next && 0 <= i < |next[c]| ensures Headed(t, c, next[c][i]) {
      ListedHeaded(t, n, lists, found, next, c, i);
    }
  }

  /** One entry of a dictionary that extends `n`'s list by `found` and
      otherwise only drops or keeps lists is headed by its key. */
  lemma ListedHeaded(t: Tree, n: Node, lists: Lists, found: seq<set<Node>>, next: Lists, c: Node, i: nat)
    requires ListsHeaded(t, lists)
    requires forall i :: 0 <= i < |found| ==> Headed(t, n, found[i])
    requires n in next && Lookup(next, n) == Lookup(lists, n) + found
    requires forall c :: c != n && c in next ==> Lookup(next, c) == Lookup(lists, c)
    requires c in next && i < |next[c]|
    ensures Headed(t, c, next[c][i])
  {
    assert next[c] == Lookup(next, c);
    if c == n {
      var old_ := Lookup(lists, n);
      if i >= |old_| {
        assert next[c][i] == found[i - |old_|];
      } else {
        assert n in lists && next[c][i] == lists[n][i];
      }
    } else {
      assert c in lists && next[c] == lists[c];
    }
  }

  /** Every pair of `out` is a block headed by its node, which is one of
      the walked nodes, and fits the memory limit. */
  ghost predicate YieldsBlocks(t: Tree, mem: (Node, set<Node>) -> int, M: Ext, post: seq<Node>, out: seq<(Node, set<Node>)>) {
    forall i :: 0 <= i < |out| ==>
      out[i].0 in post && Headed(t, out[i].0, out[i].1) && Within(mem(out[i].0, out[i].1), M)
  }

  /** Every pair the generator yields is a block headed by its node, which
      is one of the walked nodes, and fits the memory limit. */
  lemma {:induction false} EnumerateSound(t: Tree, mem: (Node, set<Node>) -> int, M: Ext, post: seq<Node>, lists: Lists)
    requires WellFormed(t) && ListsHeaded(t, lists)
    requires forall i :: 0 <= i < |post| ==> post[i] in t.nodes
    ensures YieldsBlocks(t, mem, M, post, Enumerate(t, mem, M, post, lists))
    decreases |post|
  {
    if |post| > 0 {
      var n := post[0];
      var found := NodeBlocks(t, mem, M, n, lists);
      var next := NextLists(t, n, lists, found);
      NodeBlocksSound(t, mem, M, n, lists);
      NextListsHeaded(t, n, lists, found);
      EnumerateSound(t, mem, M, post[1..], next);
      var rest := Enumerate(t, mem, M, post[1..], next);
      YieldsWider(t, mem, M, post[1..], post, rest);
      PairsYield(t, mem, M, post, n, found);
      YieldsConcat(t, mem, M, post, Pairs(n, found), rest);
    }
  }

  /** Pairs valid for a walk stay valid when one more node is walked in front. */
  lemma YieldsWider(t: Tree, mem: (Node, set<Node>) -> int, M: Ext, post: seq<Node>, wider: seq<Node>, out: seq<(Node, set<Node>)>)
    requires YieldsBlocks(t, mem, M, post, out)
    requires |wider| > 0 && post == wider[1..]
    ensures YieldsBlocks(t, mem, M, wider, out)
  {
    forall i | 0 <= i < |out| ensures out[i].0 in wider {
      assert out[i].0 in post;
      var k :| 0 <= k < |post| && post[k] == out[i].0;
      assert wider[k + 1] == post[k];
    }
  }

  /** The pairs of the walked node `n` with its fitting blocks are valid. */
  lemma PairsYield(t: Tree, mem: (Node, set<Node>) -> int, M: Ext, post: seq<Node>, n: Node, found: seq<set<Node>>)
    requires |post| > 0 && post[0] == n
    requires forall i :: 0 <= i < |found| ==> Headed(t, n, found[i]) && Within(mem(n, found[i]), M)
    ensures YieldsBlocks(t, mem, M, post, Pairs(n, found))
  {
    assert n in post;
  }

  /** Two valid runs of pairs concatenate to a valid run. */
  lemma YieldsConcat(t: Tree, mem: (Node, set<Node>) -> int, M: Ext, post: seq<Node>, a: seq<(Node, set<Node>)>, b: seq<(Node, set<Node>)>)
    requires YieldsBlocks(t, mem, M, post, a) && YieldsBlocks(t, mem, M, post, b)
    ensures YieldsBlocks(t, mem, M, post, a + b)
  {
    forall i | |a| <= i < |a + b| ensures (a + b)[i] == b[i - |a|] {
    }
  }

  /** `ifeasible_par_subtrees` yields only memory-feasible blocks headed by
      the node they are yielded with. */
  lemma ParSubtreesSound(t: Tree, mem: (Node, set<Node>) -> int, M: Ext, post: seq<Node>)
    requires WellFormed(t)
    requires forall i :: 0 <= i < |post| ==> post[i] in t.nodes
    ensures YieldsBlocks(t, mem, M, post, ParSubtrees(t, mem, M, post))
  {
    EnumerateSound(t, mem, M, post, map[]);
  }
}
